=== FILE: README.md ===
# server-api core, modelled in Dafny

This project models the core of a declarative CRUD engine for a service-management back end. A resource is a *definition*: a schema, hooks, security policies and an optional search-index configuration. The engine turns every definition into REST routes, authorises each request against the resource's policy, and runs the five standard operations (create, find, get, update, remove) through one pipeline. That pipeline validates the input, calls the hooks, and passes the data through the storage facade over Firebase and through the search-indexer facade over an in-memory index. Around the generic engine sit the resources with rules of their own: jobs, invoices, emails, password resets, configuration, the dashboard and the web-client configuration.

Each concern has its own module:

- `Values`, `Errors` and `Strings` hold the JavaScript values the engine passes around, the thrown-or-returned outcome of a call, and the string helpers.
- `Definitions`, `Registry`, `Transport`, `Security` and `ErrorHandler` cover route registration, the security map, the Express handlers, the authorisation middleware and the error middleware.
- `Pipeline` and `Operations` cover the generic service.
- `Storage`, `FirebaseUtil`, `IndexerFacade`, `MemoryIndex`, `NaturalSort`, `Sorting`, `ArrayUtil`, `RequestConfig` and `IndexBootstrap` cover the data layer and the search layer.
- `CommonHelpers`, `Flatten`, `Helpers` and `ServerConfig` cover the shared service helpers and the server-configuration cache.
- `Jobs`, `Invoices`, `Emails`, `PasswordReset`, `Configuration`, `Dashboard` and `WebClientConfig` cover the resources' own rules.

The model works on a few conventions:

- Numbers are unbounded integers.
- Wherever the engine depends on JavaScript's property enumeration order, that order is an explicit parameter.
- Anything the model cannot see becomes a function-typed parameter: hooks, Joi validation, the text matcher, the pager, the clock and fresh ids.
- Asynchronous calls are modelled as sequential.

## Model

| member | source | states |
|---|---|---|
| ErrorHandler.Stripped | src/middlewares/error-handler.js:19-20 | the error object after deleting `status` and `message`: neither key is left, every other field is kept with its value, and nothing is added |
| ErrorHandler.Handle | src/middlewares/error-handler.js:9-32 | a falsy error only calls `next()`; any other error gets a response whose HTTP status equals the payload's `status` and whose payload has exactly status, message and details; a string gives 500 with the string as message; an object gives `status` or 500, `message` or "Server Error", and `details` or the error without status and message; an array counts as an object with none of these fields; any other truthy value gives 500 "Unknown Server Error" |
| ErrorHandler.DetailsOmitStatusAndMessage | src/middlewares/error-handler.js:19-21 | when the error has no `details` of its own, the details sent are the error object minus its status and message |
| ErrorHandler.AuthErrorResponse | src/middlewares/error-handler.js:17-28 | an identity-provider error, after the pipeline's normalisation and then this middleware, answers with the status from the code table, the error's message, and the original error as details |
| FirebaseUtil.IsAuthError | src/utils/firebase-util.js:17-27 | falsy input is never an auth error; a truthy error with `codePrefix == "auth"` always is; otherwise a text code makes it one exactly when some slice of the code equals "auth/", an array code exactly when the array holds the element "auth/" (`indexOf` on an array), and any other code never does |
| Strings.ContainsSlice | src/utils/firebase-util.js:23 | the substring search `indexOf(p) != -1` finds p in s exactly when some slice of s equals p |
| FirebaseUtil.AuthStatus | src/utils/firebase-util.js:3-10 | a code found in the fixed table gets its status there (400, 401, 404 or 409); any other code gets 500 |
| FirebaseUtil.GetAuthErrorObject | src/utils/firebase-util.js:34-41 | a non-auth error passes through unchanged; an auth error becomes `{status, message, details}`, with the table status, the error's message, and the error itself as details |
| FirebaseUtil.ConvertResultToArray | src/utils/firebase-util.js:46-53 | one object per key, in key order; each holds every field of the stored value, plus `key`; `key` is the map key unless the value carries its own `key` |
| FirebaseUtil.AuthCodeExamples | src/utils/firebase-util.js:3-10 | "auth/user-not-found" maps to 404 and "auth/wrong-password" to 401; a code outside the table maps to 500 |
| FirebaseUtil.InvalidEmailMapsTo400 | src/utils/firebase-util.js:34-41 | an error carrying only the code "auth/invalid-email" is an auth error; it becomes status 400, with the original error as details |
| ArrayUtil.Accepted | src/utils/arrayutil.js:6-21 | the reference filter: never longer than the input, and holding exactly the input elements the check does not reject |
| ArrayUtil.GetArray | src/utils/arrayutil.js:6-21 | the reverse loop with `splice` leaves exactly the reference filter: rejected elements are removed and survivors keep their original order |
| RequestConfig.ParseText | src/config/default.js:136-137 | `parseInt` on text: a value read after a minus sign is never positive, and one read without it never negative |
| RequestConfig.ReadMagnitude | src/config/default.js:136-137 | `parseInt` reads only from a leading digit, and always reads something there unless the text starts with a "0x" prefix |
| RequestConfig.IntegerTextReadsBack | src/config/default.js:136-137 | for every integer n, its decimal text with any white space around it passes `isNaN` and `parseInt` reads it back as n |
| RequestConfig.FractionTruncates | src/config/default.js:136-137 | a decimal fraction passes `isNaN` and `parseInt` keeps its whole part: "2.5" reads as 2 |
| RequestConfig.ExponentIgnored | src/config/default.js:136-137 | an exponent form passes `isNaN`, and `parseInt` stops at the exponent mark: "1e3" reads as 1 |
| RequestConfig.PlusSignAccepted | src/config/default.js:136-137 | a leading "+" is accepted by both `isNaN` and `parseInt` |
| RequestConfig.LeadingPointIsNaN | src/config/default.js:136-137 | ".5" passes `isNaN`, but `parseInt` finds no digit before the point, so the value becomes NaN rather than the default |
| RequestConfig.ParseInt | src/config/default.js:136-137 | `parseInt`: a number parses to itself; a string or array parses its text; null, undefined, booleans and objects are NaN |
| RequestConfig.GetRequestConfig | src/config/default.js:134-151 | `from` defaults to 0 and `size` to 10 when the value is NaN-like; `sort` defaults to "createdAt" and `sortType` to "asc"; `all` is set exactly when `from` is -1; `operator` is copied as given; `preFilter` is kept only when it is a function |
| RequestConfig.EmptyRequestDefaults | src/config/default.js:136-139 | an empty request asks for the first ten records, sorted ascending by `createdAt` |
| RequestConfig.MinusOneMeansAll | src/config/default.js:141-143 | `from = "-1"` switches on `all` |
| RequestConfig.RequestNumbersReadBack | src/config/default.js:134-143 | for all integers n and m, `from` and `size` given as numbers, or as their decimal text with white space around it, come back as n and m, and `all` is set exactly when n is -1 |
| RequestConfig.NonNumericFallsBack | src/config/default.js:136-137 | non-numeric text for `from` falls back to 0; the empty string passes the `isNaN` test, so `size` becomes NaN rather than 10 |
| RequestConfig.ValidSortTypeLowercases | src/config/default.js:130 | a `sortType` the request schema accepts lowercases to "asc" or "desc" |
| Security.PlainPolicy | src/middlewares/admin-authorize.js:36-44 | a policy given as a plain value has no function-valued `isAllowed`, permissions, roles or extra check |
| Security.Normalize | src/middlewares/admin-authorize.js:13-18 | the middleware's normalisation: roles become `roles \|\| role \|\| []` and permissions `permissions \|\| []`; function-valued lists are computed from the user; `isAllowed` and the extra check are kept |
| Security.KeyGranted | src/middlewares/admin-authorize.js:71-73 | a required key is granted only by a held permission equal to it ignoring case; with only string permissions the search never throws |
| Security.AnyGranted | src/middlewares/admin-authorize.js:69-75 | access is granted only when some required key is granted, and the search does not throw when every key can be checked |
| Security.RoleStep | src/middlewares/admin-authorize.js:57-63 | a non-empty string role policy admits only that exact role; a role list admits its members, and an empty list admits everyone; an empty or missing policy admits everyone |
| Security.PermissionStep | src/middlewares/admin-authorize.js:64-76 | no required permissions keeps the role verdict; required permissions with a refused role, or with no held permissions, refuse; otherwise the verdict is whether some required permission is held |
| Security.IsUserAllowed | src/middlewares/admin-authorize.js:36-84 | a function `isAllowed` alone decides; the admin role passes unless an extra check exists; a non-admin with no role or permission requirement passes; any pass by a non-admin without an extra check means the role and permission steps both passed |
| Security.DeniedError | src/middlewares/admin-authorize.js:26 | the denial carries status "403" and the message "You do not have access to <apiKey> API" |
| Security.Authorize | src/middlewares/admin-authorize.js:8-34 | a plain `next()` is always the last call; a falsy policy or an allowed user gives only that call; a refusal or a throwing check first passes the error to `next` and then still calls `next()` |
| Security.AnyGrantedMatches | src/middlewares/admin-authorize.js:64-76 | with string lists, the search is exactly "some required permission equals some held permission ignoring case" |
| Security.PlainListsDecide | src/middlewares/admin-authorize.js:57-77 | with plain string lists and a non-admin, access is granted exactly when the role is listed (or no roles are required) and some required permission matches a held one ignoring case (or none are required) |
| Security.StringPolicyAdmitsEveryone | src/middlewares/admin-authorize.js:16 | as written, the bare string policy "admin" admits a user of any other role who holds no permissions |
| Security.NormalizeIntended | src/middlewares/admin-authorize.js:16 | the corrected normalisation: a bare string policy names the one allowed role and requires no permissions; every other policy is normalised as before |
| Security.AuthorizeIntended | src/middlewares/admin-authorize.js:8-34 | the middleware with the corrected normalisation; it still ends with `next()`, and a falsy policy gives only that call |
| Security.StringPolicyAdmitsItsRole | src/middlewares/admin-authorize.js:16-63 | under the corrected reading, a string policy admits exactly the named role and administrators |
| Registry.Handlers | src/api/index.js:72-91 | an operation gets a handler exactly when `def[op]` is truthy, or when it is undefined and `disableNotDefinedMethods` is not set |
| Registry.RegisteredPaths | src/api/index.js:96-104 | exactly the additional paths whose callback is a function are registered, each under its lowercased HTTP method, "get" by default |
| Registry.PathPolicy | src/api/index.js:105-108 | a path policy equal to the text "undefined" is recorded as null; any other policy is recorded unchanged |
| Registry.SecurityEntryOf | src/api/index.js:48-108 | policies are recorded only when defined: the resource policy, each bound operation's policy, then each path's policy; a later entry with the same name overwrites an earlier one |
| Registry.Register | src/api/index.js:36-110 | every definition gets its handler set, its registered paths and its security entry, and nothing else is registered |
| Registry.ExplicitOffSuppresses | src/api/index.js:76-80 | an explicit falsy entry suppresses the handler; a configured entry always has one; an omitted entry has one exactly when undefined methods are not disabled |
| Registry.Service | src/api/index.js:21-26 | a registered name gives its service; any other name throws "<name> service does not exist" |
| Registry.GetApiSecurity | src/api/index.js:139-145 | a truthy resource policy is returned as it is; anything else gives false |
| Registry.KeyAction | src/api/index.js:169-174 | the synthesized permission is the key uppercased, "_", then READ for get and find, or the operation uppercased otherwise |
| Registry.SpreadList | src/api/index.js:171-172 | spreading the permission list: an array gives its items, a string one entry per character, and anything else throws a TypeError |
| Registry.AppendPermission | src/api/index.js:168-174 | the synthesized name is appended after any explicit permissions, or forms the whole list when there are none; a function-valued list cannot be spread |
| Registry.GetMethodSecurity | src/api/index.js:152-177 | an unknown resource gives undefined; without `defaultPermissions` the recorded method policy is returned as it is; a boolean policy is never extended; a missing policy with `defaultPermissions` becomes `{permissions: [KEY_ACTION]}` |
| Registry.MethodPermissionAccumulates | src/api/index.js:157-175 | an existing method policy object is extended in place, so a second call appends the synthesized permission again |
| Registry.ParseRequestMethod | src/api/index.js:197-243 | segment 0 after "/<prefix>/" is the resource key; an unknown HTTP verb resolves no operation |
| Registry.ParseCollectionRoutes | src/api/index.js:205-237 | on a bare resource URL, GET means find and POST means create |
| Registry.ParseRecordRoutes | src/api/index.js:205-230 | on "<key>/<id>", GET means get, DELETE means remove and PATCH means update |
| Registry.ParseCustomPath | src/api/index.js:205-238 | a registered additional path wins over the standard operation for all four verbs |
| Registry.PopulateSecurity | src/middlewares/populate-security.js:10-25 | `apiKey` is always the parsed key; without a resolved operation the resource policy is used; with one, the method policy is used unless it is undefined |
| Registry.BooleanMethodPolicyOverrides | src/middlewares/populate-security.js:14-19 | an explicit boolean method policy is used instead of the resource policy |
| Registry.BootstrapIndex | src/api/index.js:54-70 | without an indexer or an indexing configuration nothing happens; a function configuration is replaced by its result; the index `indexPrefix + key` is created from the default configuration overlaid by the definition's |
| Transport.CreateInput | src/api/generic/index.js:10-15 | the create input is a shallow copy of the body; an object body gives an equal object, and a falsy body gives `{}` |
| Transport.FindInput | src/api/generic/index.js:23-29 | the find input holds the query's fields and the route parameters' fields; a parameter wins over a query field of the same name |
| Transport.IdInput | src/api/generic/index.js:38-71 | get and remove receive nothing but `{id}`, taken from the route parameter |
| Transport.UpdateInput | src/api/generic/index.js:51-57 | update receives exactly the route id and the whole body as `data` |
| Transport.AcceptedCreateIsUnvalidatedCreate | src/api/generic/service.js:782-786 | once validation accepts the body, the create with validation behaves exactly like the create without it |
| Transport.PostStoresBody | src/api/generic/index.js:10-15 | POST of an accepted object body to a plain resource stores the body's fields plus `createdAt` under the new id, and sends them back with that id as `key` |
| Transport.GetOfMissingIdForwards404 | src/api/generic/index.js:38-43 | GET of one id that is not stored hands the error middleware a 404 "Record does not exist", with details keyed by that id |
| Transport.DeleteOfStoredIdRemovesIt | src/api/generic/index.js:66-71 | DELETE of a stored id removes it and sends `{<id>: true}` |
| Transport.PatchOfUnknownIdFails | src/api/generic/index.js:51-57 | PATCH of an unknown id without `overrideIfNotExist` leaves the store unchanged and ends in the error middleware with the runtime's TypeError |
| Transport.UnknownIdUpdateForwards | src/api/generic/service.js:477-495 | an update of an unknown id without `overrideIfNotExist` cannot set `key` on the null answer; the TypeError goes to `next` and the world is unchanged |
| Storage.KeyFromPath | src/db/adapter/firebase.js:9 | the third `/`-separated segment of a path, or undefined when the path has fewer segments |
| Storage.KeyFromPathRoundTrip | src/db/adapter/firebase.js:8-9 | for a bucket and id without `/`, the id segment of the record path the store answers is exactly the id |
| Storage.Create | src/db/adapter/firebase.js:7-11 | a missing payload throws a TypeError; otherwise the data is stored under the fresh id, other buckets are untouched, and the answer carries the data, the new path and a `key` that is `data.key` when truthy and the stored id otherwise |
| Storage.CreateReportsStoredId | src/db/adapter/firebase.js:9 | a record created without a key of its own is answered under the id it was stored at |
| Storage.Update | src/db/adapter/firebase.js:13-19 | a missing payload throws; an existing id is merged with `data.data`; an unknown id without `overrideIfNotExist` writes nothing and answers null |
| Storage.Get | src/db/adapter/firebase.js:32-34 | the stored record for a known id and null for an unknown one |
| Storage.Remove | src/db/adapter/firebase.js:36-38 | an unknown id changes nothing and answers null; a known id is deleted and answers true; every other record of every bucket is kept |
| Storage.CreateThenRemove | src/db/adapter/firebase.js:7-38 | removing a record right after creating it leaves no record under its id |
| Storage.Find | src/db/adapter/firebase.js:21-30 | with `all`, one result per stored record; without it, never more results than the pager names |
| Storage.PageOrder | src/db/adapter/firebase.js:27-29 | the page's ids that are stored, each once, never more than the page holds |
| Storage.Call | src/db/adapter/index.js:19-31 | a facade function forwards exactly when the adapter has that function, and answers null exactly when it does not |
| Storage.FirebaseLacksModel | src/db/adapter/index.js:1-30 | against the Firebase adapter, `model` and `getDbInstance` answer null while `get` forwards |
| Storage.SetAdapter | src/db/adapter/index.js:43-53 | succeeds exactly when the configured adapter name exists; an unknown name throws the string "Storage adapter with the name … not found" |
| Storage.GetDefaultSchema | src/db/adapter/index.js:66-70 | the adapter's schemas when it has the function and answers something truthy, and `{}` otherwise |
| IndexerFacade.Guard | src/utils/search-indexer/index.js:79-138 | every operation is guarded by its own capability except `update`, which tests `put`, and `buildIndex`, which tests `remove` |
| IndexerFacade.Call | src/utils/search-indexer/index.js:26-148 | null exactly when the guard's capability is missing; a forward exactly when both the guard and the operation exist; a TypeError exactly when the guard passes but the operation is missing |
| IndexerFacade.MemoryForwardsEverything | src/utils/search-indexer/index.js:26-148 | the in-memory adapter has every capability, so every facade call forwards |
| IndexerFacade.GuardMismatch | src/utils/search-indexer/index.js:79-138 | an adapter with `update` but no `put` never updates, one with `put` but no `update` throws, and the same holds for `buildIndex` and `remove` |
| IndexerFacade.SetAdapter | src/utils/search-indexer/index.js:109-119 | succeeds exactly when the adapter name exists, and the adapter gets `config.config`; an unknown name throws "Search adapter with the name … not found" |
| IndexerFacade.GetAdapterAfterSet | src/utils/search-indexer/index.js:125-127 | after a successful setAdapter, getAdapter answers the configured name |
| MemoryIndex.NewIndex | src/utils/search-indexer/memory.js:28-37 | a new index holds no documents, saves documents exactly when `saveDocument` is truthy, and uses "id" as its ref unless a truthy `ref` is given |
| MemoryIndex.CreateIndex | src/utils/search-indexer/memory.js:26-46 | the named index is replaced by an empty one; every other index is kept as it was |
| MemoryIndex.RemoveIndex | src/utils/search-indexer/memory.js:54-57 | the named index is gone; every other index is kept |
| MemoryIndex.CheckIndex | src/utils/search-indexer/memory.js:75-80 | passes exactly when the index exists; otherwise it fails with "No index with name … exists" |
| MemoryIndex.AddDoc | src/utils/search-indexer/memory.js:92 | a falsy document leaves the index as it was; any other document is stored under its ref, replacing what was there |
| MemoryIndex.RemoveDoc | src/utils/search-indexer/memory.js:241 | a falsy document leaves the index as it was; any other document's ref is removed |
| MemoryIndex.Put | src/utils/search-indexer/memory.js:89-93 | an unknown index fails with the missing-index message; a known one gets the document added and nothing else changes |
| MemoryIndex.Update | src/utils/search-indexer/memory.js:102-112 | an unknown index or a missing value throws a TypeError, not the missing-index message |
| MemoryIndex.Get | src/utils/search-indexer/memory.js:120-128 | an unknown index throws a TypeError; an unknown key answers null; a stored document comes back with the same fields |
| MemoryIndex.Remove | src/utils/search-indexer/memory.js:239-242 | an unknown index fails with the missing-index message; otherwise only the document's ref is removed |
| MemoryIndex.PutAll | src/utils/search-indexer/memory.js:251-257 | an empty list changes nothing; a non-empty list on an unknown index fails; on success the same indexes exist and only the named one changes |
| MemoryIndex.BuildIndex | src/utils/search-indexer/memory.js:251-257 | a falsy `data` changes nothing; a truthy non-array throws a TypeError; an array puts every item in turn |
| MemoryIndex.GetTotalCount | src/utils/search-indexer/memory.js:270-273 | an unknown index fails with the missing-index message; otherwise the answer is the number of stored documents |
| MemoryIndex.Candidates | src/utils/search-indexer/memory.js:153-179 | with text, one entry per search hit, looked up in the document store; without text, every stored document in enumeration order |
| MemoryIndex.LowerOrEmpty | src/utils/search-indexer/memory.js:212 | a falsy value reads as the empty string and a string is lowercased; any other truthy value throws |
| MemoryIndex.EqualsFilter | src/utils/search-indexer/memory.js:209-215 | keeps exactly the documents whose field equals the text without regard to case, never more than the input; it succeeds whenever every test can be evaluated |
| MemoryIndex.SortComparatorIsPreorder | src/utils/search-indexer/memory.js:189-206 | the comparator on the sort field, ascending or descending, is antisymmetric and transitive |
| MemoryIndex.SortStage | src/utils/search-indexer/memory.js:186-207 | without `sort` the order is kept; a `sortType` that is not a string throws; a sorted result is a permutation of its input |
| MemoryIndex.Splice | src/utils/search-indexer/memory.js:220 | the removed window is never longer than the list; a non-positive count removes nothing; for non-negative arguments it is the clipped slice from `from` of `size` elements |
| MemoryIndex.Search | src/utils/search-indexer/memory.js:137-230 | an unknown index fails with the missing-index message; `total` is the number of matches; `data` is all of them with `all`, else the page at `from` of `size` (defaults 0 and 10) |
| MemoryIndex.PutThenGet | src/utils/search-indexer/memory.js:89-128 | a document put into a saving index is returned by get under its ref |
| MemoryIndex.UpdateKeepsOtherFields | src/utils/search-indexer/memory.js:102-112 | after update, get answers the stored document overlaid by the new fields, so fields the update does not mention survive |
| MemoryIndex.RemoveThenGet | src/utils/search-indexer/memory.js:239-242 | after remove, get finds nothing under the document's ref |
| MemoryIndex.CreateIndexDiscardsDocuments | src/utils/search-indexer/memory.js:44 | re-creating an index leaves it with zero documents |
| MemoryIndex.UnknownIndexErrors | src/utils/search-indexer/memory.js:75-128 | on an unknown index, put, remove, the count and search fail with the missing-index message, while get and update fail with a TypeError |
| MemoryIndex.BuildEmptyNeedsNoIndex | src/utils/search-indexer/memory.js:251-257 | building from an empty list or from null succeeds even when the index does not exist |
| MemoryIndex.SearchResultsPassFilters | src/utils/search-indexer/memory.js:180-215 | every returned document is not null, satisfies the preFilter, and under "equals" has a field that matches the text without regard to case |
| MemoryIndex.SearchResultsSorted | src/utils/search-indexer/memory.js:186-221 | with a sort field, the returned page is ordered by natural comparison of that field, ascending or descending as asked |
| MemoryIndex.SearchPageWithinTotal | src/utils/search-indexer/memory.js:217-229 | the page never holds more than `total`, and without `all` never more than `size` |
| MemoryIndex.SearchAllDocuments | src/utils/search-indexer/memory.js:172-229 | without text, filters or sorting, and with `all`, search lists every stored document in enumeration order |
| NaturalSort.Tokens | src/utils/arrayutil.js:30-31 | the scan yields valid runs that alternate between digits and non-digits, starting with the kind of the first character, and nothing only for the empty string |
| NaturalSort.ConcatTokens | src/utils/arrayutil.js:30-31 | joining the runs gives back the scanned string |
| NaturalSort.CompareToken | src/utils/arrayutil.js:36 | a digit run sorts before a non-digit run; two digit runs compare by exact numeric value; two non-digit runs compare by code unit, in place of `localeCompare` |
| NaturalSort.SortKey | src/utils/arrayutil.js:25-29 | null and undefined render as the empty string; a string renders as itself |
| NaturalSort.CompareAntisymmetric | src/utils/arrayutil.js:23-40 | swapping the operands flips the result |
| NaturalSort.CompareReflexive | src/utils/arrayutil.js:23-40 | every value compares equal to itself |
| NaturalSort.CompareTransitive | src/utils/arrayutil.js:23-40 | "not after" is transitive, and a strict step anywhere makes the conclusion strict |
| NaturalSort.PrefixSortsFirst | src/utils/arrayutil.js:33-39 | when one run list extends another, the shorter one sorts first |
| NaturalSort.NullishSortsFirst | src/utils/arrayutil.js:25-26 | null and undefined sort before every value with a non-empty rendering |
| NaturalSort.DigitsBeforeText | src/utils/arrayutil.js:30-36 | a rendering that starts with a digit sorts before one that starts with a non-digit |
| NaturalSort.NumbersCompareByValue | src/utils/arrayutil.js:23-40 | two natural numbers compare by value, not by their text |
| NaturalSort.ItemNineBeforeItemTen | src/utils/arrayutil.js:23-40 | "item9" sorts before "item10" |
| NaturalSort.LeadingZerosIgnored | src/utils/arrayutil.js:36 | "01x" and "1x" compare equal |
| NaturalSort.TextDecidesAfterEqualNumbers | src/utils/arrayutil.js:36 | after digit runs of equal value, the text runs decide: "01a" sorts before "1b" |
| Sorting.SortBy | src/utils/search-indexer/memory.js:189 | the result is a permutation of the input |
| Sorting.SortBySorted | src/utils/search-indexer/memory.js:189-206 | with an antisymmetric, transitive comparator, the result is ordered |
| Sorting.SortByStableOnTies | src/utils/search-indexer/memory.js:189-197 | when every pair compares equal, nothing moves |
| IndexBootstrap.Indexed | src/intitialize-indexes.js:2-4 | exactly the definitions with an indexing configuration are kept, never more than the input |
| IndexBootstrap.SortByOrder | src/intitialize-indexes.js:6-10 | the sorted list is a permutation of the input |
| IndexBootstrap.SortIsStable | src/intitialize-indexes.js:6-10 | the sort yields ascending `order` (1 by default) and keeps list order among definitions of equal order |
| IndexBootstrap.Plan | src/intitialize-indexes.js:2-10 | the definitions indexed are exactly those with an indexing configuration, in ascending order, ties in list order |
| IndexBootstrap.ConfigFor | src/intitialize-indexes.js:12-15 | a static indexing configuration is used as it is |
| IndexBootstrap.Content | src/intitialize-indexes.js:16-34 | the documents come from `populateIndex` when the configuration has one, else from the resource's full find; a `dataFormatter` then has the last word |
| IndexBootstrap.BuildOne | src/intitialize-indexes.js:11-41 | without a search indexer nothing changes; otherwise only the resource's own index, `indexPrefix + path`, may change |
| IndexBootstrap.BuildAll | src/intitialize-indexes.js:5-43 | without a search indexer nothing changes; an index that no planned resource names is left as it was |
| IndexBootstrap.InitializeIndexes | src/intitialize-indexes.js:1-44 | without a search indexer nothing changes; an index that no definition with an indexing configuration names is left as it was |
| IndexBootstrap.PopulateIndexBypassesFind | src/intitialize-indexes.js:17-28 | a resource with its own `populateIndex` never reads its store, so the outcome does not depend on the full find |
| IndexBootstrap.FindFeedsIndex | src/intitialize-indexes.js:24-39 | without `populateIndex` or `dataFormatter`, the found list is put into the prefixed index; a missing list fails with a TypeError; a failed find fails with its error |
| IndexBootstrap.Selected | src/index.js:134-140 | the definitions kept are among the given ones; a list selects paths it holds strictly, and a string selects paths it contains as text |
| IndexBootstrap.InitializeMultipleIndexes | src/index.js:134-146 | nothing happens (undefined) for an empty or non-searchable selector or an empty selection; otherwise the selected definitions are indexed |
| IndexBootstrap.RebuildTouchesOnlySelected | src/index.js:134-146 | a rebuild leaves every index that no selected resource names as it was |
| IndexBootstrap.CreateSearchIndexer | src/index.js:99-106 | no indexer without `searchIndexer`; otherwise it succeeds exactly when the named adapter exists, and the adapter gets `searchIndexer.config` |
| ServerConfig.GroupOne | src/index.js:76-81 | a missing record throws; a truthy package gets a group when it has none; the record is filed under its package and key; every other group is kept; a falsy package succeeds only when a group of that name exists |
| ServerConfig.LastRecordWins | src/index.js:76-81 | for each package and key, the grouping holds the last record with that package and key |
| ServerConfig.GroupedAreEntries | src/index.js:76-81 | every grouped record is one of the entries, filed under its own package and key |
| ServerConfig.TruthyPackagesGroup | src/index.js:76-81 | records that all have truthy packages always group |
| ServerConfig.FalsyPackageThrows | src/index.js:77-80 | a record with a falsy package makes the grouping throw when no earlier record created a group of that name |
| ServerConfig.GroupNames | src/index.js:76-81 | a group exists exactly for the packages of records whose package is truthy |
| ServerConfig.GetServerConfig | src/index.js:90-93 | null for an unknown package, undefined for an unknown key, and otherwise the stored record |
| ServerConfig.LookupFindsLastRecord | src/index.js:73-93 | after grouping, the lookup answers the last record with that package and key |
| CommonHelpers.Settled | src/api/helpers/common.js:20-22 | a returned call resolves with its value and a raised one rejects with its error |
| CommonHelpers.ServiceGet | src/api/helpers/common.js:20-22 | the in-process get resolves exactly with what the generic get returns, and rejects when it rejects |
| CommonHelpers.CheckServiceKeyDuplicacy | src/api/helpers/common.js:13-32 | passes for a missing input or a failed lookup; fails with a 409 exactly when the lookup answers something truthy, with the named message or the default one |
| CommonHelpers.CheckValidKeyInService | src/api/helpers/common.js:43-57 | succeeds exactly when the lookup does, with its record; otherwise a 400 naming the key and the service |
| CommonHelpers.LookupAll | src/api/helpers/common.js:63-78 | succeeds exactly when every id is found, giving one record per id in order; otherwise a 404 naming one missing id |
| CommonHelpers.CheckValidKeyInServiceForMany | src/api/helpers/common.js:63-78 | a non-list throws a TypeError; a list succeeds exactly when every id is found |
| CommonHelpers.GetEntityData | src/api/helpers/common.js:86-100 | succeeds exactly when the lookup does; otherwise a 400 that names the service but not the key |
| CommonHelpers.GetRecord | src/api/helpers/common.js:237-252 | a found record is returned; a failed lookup gives null, or the 400 naming the key when `throwError` is truthy |
| CommonHelpers.GetRecordVariants | src/api/helpers/common.js:237-252 | getRecord with `throwError` behaves as checkValidKeyInService, and without it never throws |
| CommonHelpers.ManyOfOne | src/api/helpers/common.js:43-78 | checking a one-id list succeeds exactly when checking that id does, with the record in a one-element list |
| CommonHelpers.DuplicateIffStored | src/api/helpers/common.js:13-32 | against the generic get, a key is a duplicate exactly when a record is stored under it |
| CommonHelpers.MissingKeyIs400 | src/api/helpers/common.js:43-57 | against the generic get, an id that is not stored gets the 400 naming it |
| CommonHelpers.DuplicateData | src/api/helpers/common.js:208-223 | the original's fields without createdAt, createdBy, updatedAt, updatedBy and key, overlaid by the body's fields except `id` |
| CommonHelpers.Duplicate | src/api/helpers/common.js:197-229 | a body that fails validation is rejected with the validation error and nothing changes; no path removes a stored record, and a create that fails after its write keeps what it wrote |
| CommonHelpers.DuplicateIndexFailureKeepsRecord | src/api/helpers/common.js:216-227 | when indexing the copy fails because the search index is missing, the duplicate rejects but the copy stays stored under the fresh id |
| CommonHelpers.DuplicateCopiesRecord | src/api/helpers/common.js:206-227 | duplicating a stored record stores a new record under the fresh id, holding the duplicate data and stamped with a fresh `createdAt` |
| CommonHelpers.DuplicateIsCreate | src/api/helpers/common.js:216-227 | once the original is read, the duplicate route is the in-process create of the duplicate data, without validation |
| Helpers.Helper | src/helpers/index.js:19-24 | the registered helper when it is truthy; otherwise the thrown message "No helper found with key - …" |
| Helpers.Link | src/helpers/index.js:209-226 | a missing `HOST` record throws; otherwise "host/path", followed by "?" and the query when the query is not empty |
| Helpers.GenerateWebClientLinkAsWritten | src/helpers/index.js:207-227 | as written, the query is the `key=value` pairs in key order, run together with no separator |
| Helpers.RunTogetherPairsHaveNoSeparator | src/helpers/index.js:219-221 | when no key or value holds "&", the written query holds none either |
| Helpers.TwoParamsReadAsOne | src/helpers/index.js:219-221 | for {a: "1", b: "2"}, splitting the written query on "&" gives one piece, not the two pairs |
| Helpers.GenerateWebClientLink | src/helpers/index.js:207-227 | as intended, the query is the pairs joined with "&" |
| Helpers.QueryRecoversPairs | src/helpers/index.js:219-221 | when no key or value holds "&", the corrected query splits back into exactly the pairs, one per parameter |
| Helpers.GetResourceUrl | src/helpers/index.js:248-255 | a missing `API_HOST` record throws; otherwise "host/apiPrefix/storage/download/id" |
| Helpers.GetEmailConfigAsWritten | src/helpers/index.js:233-241 | as written, the email types are overlaid by the server-config record itself, not by its `value` |
| Helpers.ServerEmailTypesIgnored | src/helpers/index.js:235-240 | a type defined only in the server entry's `value` is not found: the lookup answers null |
| Helpers.GetEmailConfig | src/helpers/index.js:233-241 | as intended, a type the server entry's `value` defines wins over the code's; otherwise the code's type; a falsy answer is null |
| Helpers.ServerEmailTypesFound | src/helpers/index.js:235-240 | the corrected lookup answers the type the server defines |
| Helpers.AddInCache | src/helpers/index.js:275-279 | nothing cached gives `[obj]`; a cached list gets obj appended with every earlier item kept; a cached non-list throws |
| Helpers.ReplaceByKey | src/helpers/index.js:287-291 | same length; each item whose key is strictly equal to obj's becomes obj and every other item is kept; a missing item, or a missing obj in a non-empty list, throws |
| Helpers.UpdateInCache | src/helpers/index.js:285-293 | nothing cached gives `[]`; a cached non-list throws; a cached list keeps its length |
| Helpers.AddThenUpdate | src/helpers/index.js:275-293 | adding then updating with the same record keeps it last, and keeps every record whose key differs |
| Helpers.GetIndexName | src/helpers/index.js:300-303 | the key alone without a search indexer or with an empty prefix; otherwise the prefix followed by the key |
| Flatten.Joined | src/api/helpers/common.js:111 | a joined list is the list's text, comma-separated |
| Flatten.ConvertDataForOnBefore | src/api/helpers/common.js:107-124 | throws exactly for a missing value; an object stays an object and a list keeps its length; other primitives come back unchanged |
| Flatten.CommaSplit | src/api/helpers/common.js:170-179 | a string splits into the list of its comma-separated parts; anything else throws |
| Flatten.UnflattenStep | src/api/helpers/common.js:156-189 | a null column is deleted; a name with other than two or three parts stays; any name of two or three parts is removed after being read |
| Flatten.ConvertDataForOnAfter | src/api/helpers/common.js:154-191 | a missing value throws; a list keeps its length; other primitives come back unchanged; an object stays an object |
| Flatten.FlattenLaysOutColumns | src/api/helpers/common.js:107-146 | for names without "_", every entry of the result is one of the record's columns, holding that column's value, and every column is there |
| Flatten.CommaRoundTrip | src/api/helpers/common.js:111-170 | splitting a joined non-empty list of comma-free strings gives the list back |
| Flatten.RoundTrip | src/api/helpers/common.js:107-191 | convertDataForOnAfter undoes convertDataForOnBefore on records with plain names, no nulls, non-empty nested objects and non-empty comma-free string lists |
| Flatten.EmptyListStoredBlank | src/api/helpers/common.js:110-112 | an empty list is stored as the empty string |
| Flatten.BlankReadsBackAsBlankList | src/api/helpers/common.js:168-171 | the empty string reads back as `[""]`, so an empty list does not survive the round trip |
| Flatten.NullFieldDropped | src/api/helpers/common.js:157-188 | a null field is kept by the flattening and deleted by the reading |
| Flatten.ObjectNamedArrayStored | src/api/helpers/common.js:114-141 | an object under the name "array" is stored as `array_<field>` columns |
| Flatten.ArrayColumnReadsAsList | src/api/helpers/common.js:168-171 | an `array_<field>` column reads back as a list under that field |
| Pipeline.CreateSchema | src/api/generic/service.js:27-35 | one rule per property of the adapter's type-name schema, each the Joi rule that type name names |
| Pipeline.OpSchema | src/api/generic/service.js:74-80 | the operation's rules are its defaults, the adapter's rules and the definition's own, the definition's winning on a shared key |
| Pipeline.ValidateData | src/api/generic/service.js:782-786 | a schema without keys accepts everything; any other schema is up to the validator |
| Pipeline.CallInPlace | src/api/generic/service.js:92-93 | no hook leaves the argument as it was; with a hook the call fails exactly when the hook throws; a primitive argument cannot be edited |
| Pipeline.CallForEffect | src/api/generic/service.js:351-352 | no hook passes; with a hook the call fails exactly when the hook throws |
| Pipeline.ResolveIndexing | src/api/generic/service.js:108-115 | no indexing without both an indexing configuration and a search indexer; a static configuration is used as it is |
| Pipeline.Populated | src/api/generic/service.js:117-124 | the index gets `populate(output, op)` when the configuration has one, else the output itself |
| Pipeline.ParseSingleError | src/api/generic/service.js:689-711 | the entry is an object with `error: true`, copies `status`, `message` and `details` only when truthy, has `stack` exactly when the error's is truthy, and nothing else |
| Pipeline.FailedKeys | src/api/generic/service.js:721-724 | the keys kept are exactly the answer map's keys whose entries have a truthy `error`; a nullish entry makes the filter throw |
| Pipeline.CombineMultipleErrors | src/api/generic/service.js:717-739 | the combined error has exactly `details`, `status`, `message`, `api` and `method`; `details` holds exactly the failed entries, unchanged |
| Pipeline.BatchError | src/api/generic/service.js:396-404 | every property of the combined error survives; the status is 404 only when the combined error has none |
| Pipeline.OneFailedRecord | src/api/generic/service.js:717-739 | a one-record batch reports its record's own status and message, with the entry under its id in `details` |
| Pipeline.JoiToBadRequest | src/api/generic/service.js:754-758 | a Joi error loses `isJoi` and `_object`, gets status 400 and keeps every other property; any other error is unchanged |
| Pipeline.HandleError | src/api/generic/service.js:751-777 | the error is forwarded or raised, never answered; an onError hook that throws replaces it; otherwise it is forwarded exactly when there is an unsent response and a `next` |
| Pipeline.Respond | src/api/generic/service.js:43-59 | the result is sent exactly when there is a response object, and returned otherwise, unchanged either way |
| Pipeline.Finish | src/api/generic/service.js:142-155 | the world is unchanged; a success is answered and a failure goes to the error handler |
| Pipeline.ValidationFailureIs400 | src/api/generic/service.js:754-775 | a failed validation reaches `next` as a 400 without `isJoi` when there is no onError hook |
| Pipeline.PlainErrorForwarded | src/api/generic/service.js:751-777 | an error that is neither a Joi nor an identity error reaches `next` unchanged |
| Pipeline.InProcessErrorsRethrow | src/api/generic/service.js:772-776 | without a response object the error is always rethrown, even when a `next` was passed |
| Operations.StampCreated | src/api/generic/service.js:82-86 | the record gets `createdAt`; `createdBy` is the user's id only when logged in and not supplied; every other field is kept; a falsy input starts empty and a non-object throws |
| Operations.IndexPut | src/api/generic/service.js:108-125 | indexing never touches the store, and does nothing without indexing |
| Operations.Create | src/api/generic/service.js:67-156 | a create never loses a stored record, whether it answers or fails |
| Operations.CreateFrom | src/api/generic/service.js:99-145 | after its preparation, a create that answers never loses a stored record |
| Operations.CreateStoresStampedRecord | src/api/generic/service.js:73-145 | a plain create stores the stamped input under the fresh id and answers it with its `path` and the id as `key` |
| Operations.CreateWithoutValidationIgnoresRules | src/api/generic/service.js:74-80 | with `validate: false` the outcome does not depend on the validator |
| Operations.FindSchema | src/api/generic/service.js:171-200 | `all` is always allowed; with an index the rules are the indexer's request rules and the definition's, otherwise the adapter's find rules |
| Operations.SearchQuery | src/api/generic/service.js:231-251 | the query searches the requested field, keeps the configuration's pre-filter, and asks for all records when the request or the configuration does |
| Operations.SearchBranch | src/api/generic/service.js:243-257 | a missing request throws a TypeError; a missing index throws the indexer's error |
| Operations.FindAll | src/api/generic/service.js:217-229 | the `all` branch gives one item per stored record |
| Operations.FindOutput | src/api/generic/service.js:211-267 | `all` lists the whole bucket, the paged read gives a list, and with an indexer the search branch answers |
| Operations.ShapeEach | src/api/generic/service.js:279-287 | only a list can be shaped, and shaping keeps its length |
| Operations.ShapeAll | src/api/generic/service.js:280-286 | every item is the response rule's shape of the matching input item; a failure comes from some item's shaping |
| Operations.Find | src/api/generic/service.js:164-302 | find never changes the store or the index |
| Operations.FindAllListsBucket | src/api/generic/service.js:217-229 | `all` without hooks lists every stored record, indexed or not |
| Operations.FindWithoutIndexPages | src/api/generic/service.js:258-266 | without hooks, `all` or an indexer, find answers the store's paged read |
| Operations.GetOne | src/api/generic/service.js:350-385 | a lookup never answers null unless a hook or response rule replaced it: null becomes the 404 |
| Operations.Outcomes | src/api/generic/service.js:348-392 | the answer map gains one key per id asked for, and the batch has failed exactly when some lookup threw |
| Operations.Collect | src/api/generic/service.js:406-417 | the list holds only truthy, error-free entries of the answer map, and every such entry |
| Operations.IdList | src/api/generic/service.js:348-349 | the batch goes on exactly when `obj.id` is still a list after onBefore |
| Operations.PrepareIds | src/api/generic/service.js:323-346 | a failed validation stops the request with its error; a request that goes on had an object and a readable id |
| Operations.Get | src/api/generic/service.js:310-444 | get never changes the store or the index |
| Operations.StampUpdated | src/api/generic/service.js:477-480 | the update gets `updatedAt`, and `updatedBy` is the user's id when logged in; every other field is kept; a non-object throws |
| Operations.UpdateWrite | src/api/generic/service.js:490-495 | the answer carries the id as `key`; a missing record without `overrideIfNotExist` makes the write throw |
| Operations.Update | src/api/generic/service.js:452-544 | a missing `obj` rejects with a TypeError before the error handler is in place, changing nothing |
| Operations.RemoveOne | src/api/generic/service.js:590-626 | without a `method` hook, removing an id that is not stored changes nothing and throws the 404 |
| Operations.RemoveAll | src/api/generic/service.js:589-627 | the answer map gains one key per id asked for |
| OperationProperties.PrepareSplits | src/api/generic/service.js:334 | preparing `{id}` stores the comma split of the id back in `id` |
| OperationProperties.StringIdText | src/api/generic/service.js:578 | get and remove both read a string id as itself |
| OperationProperties.SingleIdList | src/api/generic/service.js:334 | an id without a comma is a one-element list |
| OperationProperties.OneOutcome | src/api/generic/service.js:348-392 | a one-id batch leaves exactly that id's outcome in the answer map |
| OperationProperties.GetAnswerStored | src/api/generic/service.js:406-420 | one stored id: the answer is its record |
| OperationProperties.GetFindsStoredRecord | src/api/generic/service.js:310-433 | get of a stored id answers the record as stored |
| OperationProperties.CreateThenGet | src/api/generic/service.js:67-433 | a get of the id a create made answers the caller's fields with `createdAt` |
| OperationProperties.GetStampedRecord | src/api/generic/service.js:310-433 | a get of an id holding a stamped record answers the caller's fields with `createdAt` |
| OperationProperties.StampKeepsOtherFields | src/api/generic/service.js:82-86 | stamping changes only `createdAt` and `createdBy` |
| OperationProperties.OutcomeValues | src/api/generic/service.js:348-392 | every entry of the answer map is the one it started with or the outcome of some id asked for under that key |
| OperationProperties.PlainGetOne | src/api/generic/service.js:350-371 | a plain lookup answers the stored record, or the 404 when there is none |
| OperationProperties.GetManyCollects | src/api/generic/service.js:396-417 | for several ids the answer is the collected list, whatever failed |
| OperationProperties.GetManySkipsMissing | src/api/generic/service.js:348-417 | for several ids get never fails on a missing one: every answered item is the stored record of some id asked for, and every stored, error-free record asked for is answered |
| OperationProperties.GetAnswerMissing | src/api/generic/service.js:396-404 | one missing id: the 404 with the record's own message, its entry under the id in `details`, for "get" |
| OperationProperties.GetMissingRecord | src/api/generic/service.js:310-404 | get of one id that is not stored fails with a 404 naming it in `details`, for "get" |
| OperationProperties.RemoveAnswerMissing | src/api/generic/service.js:603-637 | one missing id: nothing changes and the 404 is for "delete" |
| OperationProperties.RemoveMissingRecord | src/api/generic/service.js:553-637 | removing one id that is not stored fails with a 404 for "delete" and changes neither store nor index |
| OperationProperties.RemoveAnswerStored | src/api/generic/service.js:589-649 | one stored id: it is gone and the answer is `{id: true}` |
| OperationProperties.RemoveStoredRecord | src/api/generic/service.js:553-649 | removing a stored id deletes it and answers `{id: true}` |
| OperationProperties.UpdateMissingRecordFails | src/api/generic/service.js:490-495 | updating an id that is not stored, without `overrideIfNotExist`, leaves the world as it was and fails |
| OperationProperties.UpdateMergesStoredRecord | src/api/generic/service.js:477-495 | updating a stored record writes the stored fields overlaid by the stamped update, changes no other record, and answers the merged record with the id as `key` |
| OperationProperties.CreateIndexFailureKeepsRecord | src/api/generic/service.js:102-125 | a missing index fails the create, but the record stays written |
| Jobs.IndexOfFound | src/api/definitions/service.js:215 | an array finds exactly the strictly equal elements, a string finds the value's text as a substring, and anything else throws |
| Jobs.Includes | src/api/definitions/service.js:220 | a falsy list holds nothing; an array holds exactly its strictly equal elements; a truthy list that is neither array nor string throws |
| Jobs.CustomerFilter | src/api/definitions/service.js:431-434 | a job matches exactly when its `customerKey` is strictly the customer's key; a missing job throws |
| Jobs.EngineerFilter | src/api/definitions/service.js:436-439 | a job matches exactly when the user is among its assignees; a job without assignees matches nobody; a missing job throws |
| Jobs.PreFilter | src/api/definitions/service.js:598-604 | a job passes exactly when every pushed filter accepts it |
| Jobs.EmptyPreFilterAcceptsAll | src/api/definitions/service.js:598-604 | with no pushed filter every job passes |
| Jobs.AccessRule | src/api/definitions/service.js:561-597 | no request and admins get no filter; current records get the customer filter for role "CUSTOMER" and the engineer filter otherwise; a request for all records without the permission gets the 403; no filter otherwise only for holders of the permission |
| Jobs.JobFilters | src/api/definitions/service.js:560-597 | at most one filter is pushed, and the rule succeeds exactly when the access rule does |
| Jobs.EngineerSeesAssignedJobs | src/api/definitions/service.js:580-604 | an engineer asking for current jobs sees exactly the jobs whose assignees include their uid |
| Jobs.CustomerSeesOwnJobs | src/api/definitions/service.js:569-604 | a customer asking for current jobs sees exactly the jobs of the customer record found for their uid |
| Jobs.CheckJobAccess | src/api/definitions/service.js:212-227 | admins and holders of the permission pass; anyone else passes only when assigned to the job; a user without a permission list throws |
| Jobs.EditNeedsAssignment | src/api/definitions/service.js:212-227 | a user without the permission passes exactly when the job lists them, and gets the 403 otherwise |
| Jobs.NotYetAssigned | src/api/definitions/service.js:246-248 | the users kept are exactly those the job does not already list, all among the given ones |
| Jobs.NewlyAssigned | src/api/definitions/service.js:235-249 | a missing job throws; a job without a list counts as an empty list |
| Jobs.NotifiedIffNew | src/api/definitions/service.js:245-248 | a user is notified exactly when the stored job did not list them |
| Jobs.Prefix | src/api/definitions/service.js:423-425 | the prefix is the text before the first "X", and empty when there is none |
| Jobs.JobNumber | src/api/definitions/service.js:415-429 | a missing format throws; a format that is not "text" gives no number; a number starts with the prefix |
| Jobs.PaddedCounter | src/api/definitions/service.js:426 | the padded counter is all digits, reads back as the counter and is never shorter than the width or the counter itself |
| Jobs.JobNumberReadsBack | src/api/definitions/service.js:419-428 | after the prefix the number spells the next counter value, padded to the rest of the format and never truncated |
| Invoices.Pad | src/api/definitions/invoice.js:13-16 | the result is the text with zeros in front, as long as `max` or the text, whichever is longer |
| Invoices.PadIsPadStart | src/api/definitions/invoice.js:13-16 | the recursive pad agrees with padding to the start with "0" |
| Invoices.InvoiceId | src/api/definitions/invoice.js:26-28 | the id starts with "INV" and holds the year and at least four counter digits |
| Invoices.DigitCount | src/api/definitions/invoice.js:28 | a number with k digits renders as k characters |
| Invoices.InvoiceIdReadsBack | src/api/definitions/invoice.js:26-28 | for a four-digit year the id splits back into "INV", the year and the next counter value |
| Invoices.InvoiceInput | src/api/definitions/invoice.js:19-33 | a job that cannot be read gives the 400 naming it; otherwise the new invoice is built |
| Invoices.InvoiceFieldPriority | src/api/definitions/invoice.js:23-33 | each field takes the generation date, then the cost summary, then the id, then the job, then the body, and no other field appears |
| Invoices.InvoiceFilter | src/api/definitions/invoice.js:376-414 | a refused request gets the 403 for invoices; no request means no filter |
| Invoices.InvoiceRuleMirrorsJobs | src/api/definitions/invoice.js:376-414 | a user holding both reading permissions or neither gets the same filtering from the invoice search as from the job search |
| Invoices.WithPaid | src/api/definitions/invoice.js:451 | the indexed invoice gains `paid`, true exactly when a payment is recorded, and keeps every other field |
| Invoices.MarkAsPaid | src/api/definitions/invoice.js:228-239 | an update is sent exactly when the invoice is not paid, and it holds only a truthy `payment`; a missing invoice throws |
| Invoices.MarkedInvoiceIndexesAsPaid | src/api/definitions/invoice.js:228-239 | once the manual payment is merged in, the indexed copy reads as paid, so a second mark, which reads the indexed copy, sends nothing; only a read of the bare stored record would still see it unpaid |
| Invoices.PaymentInfo | src/api/definitions/invoice.js:322-347 | the answer has exactly the eight public fields, shows the customer key as `phoneNumber`, and shows of the payment only its method |
| Invoices.PaymentInfoCopies | src/api/definitions/invoice.js:334-346 | the other six fields are copied as they are |
| Invoices.PaymentInfoHidesTheRest | src/api/definitions/invoice.js:334-346 | no part of the payment but its method, and no field outside the eight, leaves through the projection |
| Emails.PrepareEmail | src/api/definitions/emails.js:56-76 | `generateOtp` becomes a boolean; an expiry becomes `expiryAt` minutes after creation and is removed; an attachment moves off the record; a code in [100000, 999999] is set exactly when asked for; `createdBy` defaults to "system"; no other field changes |
| Emails.PrepareSettles | src/api/definitions/emails.js:56-76 | without a one-time code, running the hook on its own output changes nothing further |
| PasswordReset.CheckToken | src/api/definitions/password-reset.js:61-73 | a used token is refused with 409 before expiry is looked at; an expired one with 403; a token passes exactly when it is unused and not expired |
| PasswordReset.NoExpiryNeverExpires | src/api/definitions/password-reset.js:68-73 | an unused token without `expiryAt` passes at any time |
| PasswordReset.Read | src/api/definitions/password-reset.js:58-60 | the read succeeds exactly when the token is stored, and answers its email |
| PasswordReset.Get | src/api/definitions/password-reset.js:56-75 | get succeeds exactly when the token is stored and passes the checks, and answers undefined |
| PasswordReset.CheckCode | src/api/definitions/password-reset.js:106-119 | a record without a code demands none; otherwise the update passes only with a code strictly equal to the stored one |
| PasswordReset.TextCodeNeverMatches | src/api/definitions/password-reset.js:113-118 | a code sent as text never matches the stored number |
| PasswordReset.MarkUsed | src/api/definitions/password-reset.js:122-127 | the spent token reads as used and keeps every other field |
| PasswordReset.Update | src/api/definitions/password-reset.js:79-153 | the update answers true exactly when it changes a password; it either writes nothing or marks only that token used; a change needs a token and code that pass, a truthy uid, and a users update that succeeds |
| PasswordReset.RejectedPasswordSpendsToken | src/api/definitions/password-reset.js:121-140 | when the users update rejects, the reset rejects with that same error and changes no password, and the token stays spent |
| PasswordReset.GetAgreesWithUpdate | src/api/definitions/password-reset.js:56-102 | whatever get refuses, update refuses with the same error and writes nothing |
| PasswordReset.ReplayRefused | src/api/definitions/password-reset.js:89-94 | once an update got past the checks, a second update or get of the token gets the 409, and nothing changes |
| PasswordReset.SuccessSpendsToken | src/api/definitions/password-reset.js:121-133 | a successful update spends the token, and so does one that fails for want of a uid |
| PasswordReset.UsedBeforeExpired | src/api/definitions/password-reset.js:61-73 | a used token gets the 409 from both operations, even when it has also expired |
| PasswordReset.GetKeepsTokenUsable | src/api/definitions/password-reset.js:56-127 | after a successful get, the update's token checks pass again: a refusal that leaves the token unspent can only be the code check's |
| PasswordReset.ResetEmailAsWritten | src/api/definitions/password-reset.js:30-46 | the reset email goes to the address with the code or link template; its data carry the name (default "User"), address, uid and expiry, and the link only without a code |
| PasswordReset.ResetTokenNeverExpires | src/api/definitions/password-reset.js:31-46 | as written, the stored reset email has no `expiryAt`, so the token passes at any later time whatever the configured expiry |
| PasswordReset.ResetEmail | src/api/definitions/password-reset.js:30-46 | the corrected email carries the expiry at the top level and every field of the email as written |
| PasswordReset.ResetTokenExpires | src/api/definitions/password-reset.js:97-102 | with the corrected email, the token is refused with 403 exactly once the clock passes the configured minutes after creation |
| PasswordReset.ResetEmailMeetsSchema | src/api/definitions/emails.js:16-49 | the reset email, as sent and as corrected, meets the email schema's requirements for a templated email |
| PasswordReset.Create | src/api/definitions/password-reset.js:18-54 | sends the reset email as written; an unknown address gets the 400 "No Such Email exists"; a success answers true or an object holding only `key` |
| PasswordReset.CreateAnswers | src/api/definitions/password-reset.js:47-53 | once the email as written is stored, the reset answers `{key}` with the stored key when the stored record has a code, and true otherwise |
| PasswordReset.StoredCodeIffOtp | src/api/definitions/password-reset.js:38-46 | the stored email as written, with its key, has a code exactly when the email type asks for one |
| PasswordReset.ResetCodeIffOtp | src/api/definitions/password-reset.js:38-46 | the reset email as written, once stored, carries a code exactly when the email type asks for one |
| PasswordReset.KeyOnlyWithOtp | src/api/definitions/password-reset.js:47-53 | with the email as written stored by the emails service, the reset answers `{key}` exactly when the email type generates a code, and true otherwise |
| Configuration.CreatedFormatNumbersJobs | src/api/definitions/configuration.js:4-14 | a configuration the create schema accepts gives a job number exactly when its type is "text" |
| Configuration.CreateGuard | src/api/definitions/configuration.js:21-36 | the create is refused with 404 exactly when the lookup of its key answers, whatever it answers; a missing input throws |
| Configuration.GuardStricterThanDuplicateCheck | src/api/definitions/configuration.js:21-36 | whatever the shared duplicate check refuses the guard refuses too, and the guard also refuses a key stored with a falsy value |
| Configuration.DemoGuard | src/api/definitions/configuration.js:47-54 | in demo mode every call throws the 409; otherwise the input is handed on |
| Configuration.DemoModeBlocksUpdate | src/api/definitions/configuration.js:47-54 | in demo mode an update leaves the world as it was and ends in the error handler with the 409 |
| Configuration.DemoOffPassesUpdate | src/api/definitions/configuration.js:47-54 | outside demo mode the update data pass unchanged |
| Configuration.MaskValue | src/api/definitions/configuration.js:72-77 | a boolean-typed value becomes false; any other becomes as many stars as the value's length; a missing value throws |
| Configuration.MaskItem | src/api/definitions/configuration.js:71-82 | the masked item keeps every field and replaces only `value`; it succeeds exactly when the value can be masked; a missing item throws |
| Configuration.MaskAll | src/api/definitions/configuration.js:71-82 | every item is masked in its place, and the map fails exactly when some item cannot be masked |
| Configuration.MaskFind | src/api/definitions/configuration.js:68-84 | without demo mode, without a request or with a list output, the output is unchanged; a non-list `data` throws |
| Configuration.MaskedFindHidesValues | src/api/definitions/configuration.js:69-83 | in demo mode each found item shows false or only stars, and keeps every other field |
| Configuration.MaskItemIdempotent | src/api/definitions/configuration.js:71-82 | masking a masked item changes nothing |
| Configuration.MaskAllIdempotent | src/api/definitions/configuration.js:71-82 | masking a masked list changes nothing |
| Dashboard.Role | src/api/definitions/dashboard.js:7 | the role is the lowercased role text; a missing user or a role that is not text throws |
| Dashboard.Visible | src/api/definitions/dashboard.js:17-23 | an admin sees every job; anyone else sees exactly the jobs they created or are assigned to |
| Dashboard.Step | src/api/definitions/dashboard.js:16-29 | a counted job adds one to its status counter and, unless cancelled, to `total`; every other counter is unchanged; a missing job throws |
| Dashboard.Tally | src/api/definitions/dashboard.js:16-29 | the count succeeds exactly when every job can be counted |
| Dashboard.TallyCounts | src/api/definitions/dashboard.js:16-29 | each counter is the number of counted jobs with that status, and `total` adds the counted jobs that are not cancelled |
| Dashboard.TallyKeys | src/api/definitions/dashboard.js:11-29 | the counters are the three initial ones and one per status some counted job has |
| Dashboard.OthersJobsIgnored | src/api/definitions/dashboard.js:17-23 | a job a non-admin neither created nor is assigned to changes no counter |
| Dashboard.CountsObject | src/api/definitions/dashboard.js:40 | the response object holds exactly the counters, as numbers |
| Dashboard.Stats | src/api/definitions/dashboard.js:6-42 | the stats succeed exactly when the role is readable, the jobs are a list and every job can be counted; only admins also get the user and customer totals |
| Dashboard.RoleCaseIgnored | src/api/definitions/dashboard.js:7 | "Admin" and "ADMIN" see the totals and every job, as "admin" does |
| WebClientConfig.ConfigList | src/api/definitions/web-client-config.js:28-30 | a list is used as it is and a single record is wrapped |
| WebClientConfig.Entry | src/api/definitions/web-client-config.js:32-37 | each entry is exactly `{package: "configuration", key, value}` from its record |
| WebClientConfig.Entries | src/api/definitions/web-client-config.js:31-38 | one entry per record in order; a missing record throws |
| WebClientConfig.Public | src/api/definitions/web-client-config.js:44 | the gateway keeps every field except `apiSecret` |
| WebClientConfig.EnabledGateways | src/api/definitions/web-client-config.js:42-44 | never more gateways than given; a missing gateway throws |
| WebClientConfig.GatewayList | src/api/definitions/web-client-config.js:42 | a falsy `data` gives no gateways; a truthy non-list throws |
| WebClientConfig.All | src/api/definitions/web-client-config.js:15-48 | the answer holds only `config`, and succeeds exactly when every record is present and the gateways can be listed |
| WebClientConfig.AllLayout | src/api/definitions/web-client-config.js:20-46 | the list is the sample, then one entry per record in place, then the payment entry with the enabled gateways |
| WebClientConfig.GatewaysShownIffEnabled | src/api/definitions/web-client-config.js:42-44 | a gateway is shown exactly when it is enabled, and never with its secret |
| WebClientConfig.KeyMap | src/api/definitions/web-client-config.js:72-74 | the object's keys are exactly the records' keys |
| WebClientConfig.ConvertConfigToObject | src/api/definitions/web-client-config.js:69-80 | a list of present records gives the key to value object; anything that makes the loop throw gives an empty array |
| WebClientConfig.LastWins | src/api/definitions/web-client-config.js:72-74 | for a duplicated key the last record gives the value |
| WebClientConfig.FoundConfigsConvert | src/api/definitions/web-client-config.js:94-98 | the found records of a batch get always convert to the key to value object |

## Left out

- The helper factories `getSMSHelper`, `getEmailHelper`, `getStorageHelper`, `pingServer` and `configureHelpers` (src/helpers/index.js:31-201, 259-270) are left out. They construct third-party clients and start timers.
- The Express application bootstrap in src/index.js, and the cache I/O inside `setServerConfig`, are left out. Only the cache's grouping and lookup are modelled.
- `Promise.all` batches (get-many, remove-many, duplicate checks over lists) are modelled as sequential folds. Interleaving and partial completion under concurrency are left out.
- Aliasing is left out. Where the source edits shared objects in place, the model returns the new value. Named properties stored on arrays are left out as well.
- Joi validation internals, elasticlunr tokenising and scoring, and the pager's page arithmetic are left out. Each is an opaque parameter.
- Sending and rendering email and SMS (handlebars templates, SMTP, SMS gateways) is left out. So are PDF generation, the payment gateways and backup scheduling (`BACKUP_CRON_SCHEDULE`).
- Floating point and calendar dates are left out. This covers the invoice and job cost summaries (`getServiceCostSummary`, the invoice `stats` path) and the `populate*` date helpers. Times are integer milliseconds supplied by a clock parameter.
- The invoice paths `sendInvoice`, `billTo` and `process` are left out: they only send messages or call payment gateways. So are the job paths `send` and `guestJob`, the effects of `onAfter` notifications, and the job `find.onAfter` population of `assignedUsers`.
- Encryption of configuration values and JSON (de)serialisation on the web path are left out.
- The 32-bit limit on array length is not modelled. Lists are unbounded.
- `Pipeline.Respond`: `checkIfResponseAlreadySent` is always called with no argument in src/api/generic/service.js, so it never short-circuits. The model omits that check.
- `Pipeline.HandleError`: the `arguments` object passed on to `onError` is modelled as the pair `[error, input]`.
- `Strings.Lower`, `Strings.Upper`: case mapping covers ASCII letters only, where `toLowerCase`/`toUpperCase` also map letters such as "É". Their users inherit this: `MemoryIndex.EqualsFilter`, `MemoryIndex.LowerOrEmpty`, `Security.KeyGranted`, `Registry.KeyAction`, `Registry.ParseRequestMethod` and `Dashboard.Role`.
- `LowerOrEmpty`: lowercases ASCII letters only (see `Strings.Lower`), so text with non-ASCII capitals reads differently from `toLowerCase`.
- `EqualsFilter`: compares case-insensitively over ASCII letters only (see `Strings.Lower`); two texts that differ only in non-ASCII case do not match in the model.
- `NaturalSort.CompareToken`, `NaturalSort.LexCompare`: non-digit runs compare by UTF-16 code unit in place of `localeCompare`, whose order depends on the host locale. Digit runs compare as exact integers, where the source subtracts their double values: runs that differ only beyond 2^53 (such as "9007199254740993" and "9007199254740992"), or that both exceed the double range and become Infinity, compare equal there and in order here.
- `IndexBootstrap.OrderOf`: an `order` given as text is read as 1. The source keeps a truthy string and its comparator coerces it with subtraction, so "2" sorts as 2 there, and non-numeric text makes the comparison NaN.
- `Flatten.Order`: key enumeration is one order per key set, where JavaScript lists each object's keys in insertion order. The flatten facts are proved for any enumeration.
- `PasswordReset.Update`: the emails update that marks the token used is taken to succeed. A rejection of that write, which would reject the reset before the uid is read, is left out; the users update that sets the password is a parameter and may reject.
- `RequestConfig.ParseInt`: numbers are integers, so `parseInt` of a number is the number itself. Numbers of 1e21 and above, which `parseInt` reads from their exponent form, and the value -0 are left out.
- `Emails.CreateRequirements` is a predicate describing what the create schema demands. It is stated as a definition, not as an operation with a contract.

## Findings

| source | as written | input that shows it | evidently intended | confidence | as-written member | corrected member |
|---|---|---|---|---|---|---|
| src/middlewares/admin-authorize.js:16 | a bare string policy becomes `{roles: s.roles \|\| s.role \|\| [], …}`; a string has neither field, so the policy requires no role and no permission | policy "admin" on a resource; user of role "customer" with no permissions | a string policy names the one role allowed | not executed | Security.StringPolicyAdmitsEveryone | Security.StringPolicyAdmitsItsRole |
| src/helpers/index.js:233-241 | the server's email types are read from the whole configuration record, so the types stored under its `value` are never seen | server entry `{value: {welcome: t}}`, code types without `welcome`, type "welcome" | the types the server stores under `value` override the code's | not executed | Helpers.ServerEmailTypesIgnored | Helpers.ServerEmailTypesFound |
| src/helpers/index.js:207-227 | query parameters are concatenated as `key=value` with no separator between pairs | params {a: "1", b: "2"} give "a=1b=2" | pairs joined with "&" | not executed | Helpers.TwoParamsReadAsOne | Helpers.QueryRecoversPairs |
| src/api/definitions/password-reset.js:31-46 | the reset type's `expiry` is put inside the email's `data`; the email resource only reads a top-level `expiry` to set `expiryAt`, so the token never expires | a reset email read back at any time later than its creation | the token expires after the configured reset window | not executed | PasswordReset.ResetTokenNeverExpires | PasswordReset.ResetTokenExpires |

=== FILE: array_util.dfy ===
/** `getArray` (src/utils/arrayutil.js): drop, in place, every element whose
    asynchronous check rejects. The check is a parameter saying which
    elements it rejects. */
module ArrayUtil {
  import opened Values

  /** The elements the check accepts, in their original order. */
  function Accepted(s: seq<Value>, rejects: Value -> bool): (r: seq<Value>)
    ensures |r| <= |s|
    ensures forall x :: x in r <==> x in s && !rejects(x)
  {
    if |s| == 0 then []
    else if rejects(s[0]) then Accepted(s[1..], rejects)
    else [s[0]] + Accepted(s[1..], rejects)
  }

  /** The reverse loop with `splice(i, 1)`: visiting from the back keeps the
      indices of the not-yet-visited elements stable. */
  method GetArray(items: seq<Value>, rejects: Value -> bool) returns (r: seq<Value>)
    ensures r == Accepted(items, rejects)
    ensures forall x :: x in r <==> x in items && !rejects(x)
  {
    r := items;
    var i := |items| - 1;
    while i >= 0
      invariant -1 <= i < |items|
      invariant r == items[..i + 1] + Accepted(items[i + 1..], rejects)
      decreases i
    {
      var tail := Accepted(items[i + 1..], rejects);
      assert items[i..] == [items[i]] + items[i + 1..];
      assert r[..i] == items[..i];
      assert r[i] == items[i];
      if rejects(r[i]) {
        r := r[..i] + r[i + 1..];
        assert r == items[..i] + tail;
      } else {
        assert r == items[..i] + ([items[i]] + tail);
      }
      i := i - 1;
    }
    assert items[..0] == [] && items[0..] == items;
  }
}

=== FILE: common_helpers.dfy ===
/** The lookup helpers of src/api/helpers/common.js that definitions call
    from their hooks, and the "duplicate" route getDuplicateApi builds.
    Each lookup is the named service's in-process `get({id})`, given as a
    function of the id. */
module CommonHelpers {
  import opened Values
  import opened Errors
  import opened Definitions
  import opened Pipeline
  import Operations
  import OperationProperties
  import Storage

  /** A service's `get({id: x})` as a function of x. */
  type Lookup = Value -> Result<Value>

  /** A call made from code rather than from Express: no request, no
      response object, no `next`. */
  const InProcess: Context := Context(None, false, false, false)

  /** What an in-process call of an operation resolves or rejects with. */
  function Settled(c: Completion): (r: Result<Value>)
    ensures c.Returned? ==> r == Ok(c.value)
    ensures c.Raised? ==> r == Throw(c.error)
  {
    match c
    case Returned(v) => Ok(v)
    case Sent(v) => Ok(v)
    case Raised(e) => Throw(e)
    case Forwarded(e) => Throw(e)
  }

  /** The generic service's get, called in-process with `{id: x}`. */
  function ServiceGet(w: World, env: Env, x: Value): (r: Result<Value>)
    requires Enumerates(env)
    ensures Operations.GetResult(w, env, Obj(map["id" := x]), InProcess).Ok? ==>
      r == Operations.GetResult(w, env, Obj(map["id" := x]), InProcess)
    ensures Operations.GetResult(w, env, Obj(map["id" := x]), InProcess).Throw? ==> r.Throw?
  {
    Settled(Operations.Get(w, env, Obj(map["id" := x]), InProcess).done)
  }

  // ----- lookups -----

  /** The message of the 409: with the entity's name when one is given. */
  function DuplicateMessage(name: Value): string {
    if Truthy(name) then "The " + ToStr(name) + " already exists "
    else "This key already exists please try changing the key"
  }

  /** checkServiceKeyDuplicacy(service, input, name): a 409 when `input.key`
      names a record the service returns; a failed lookup (including the
      TypeError of reading `key` from a nullish input) counts as absent. */
  function CheckServiceKeyDuplicacy(get: Lookup, input: Value, name: Value): (o: Outcome)
    ensures IsNullish(input) ==> o == Pass
    ensures !IsNullish(input) && get(Prop(input, "key")).Throw? ==> o == Pass
    ensures !IsNullish(input) && get(Prop(input, "key")).Ok? ==>
      (o.Fail? <==> Truthy(get(Prop(input, "key")).value))
    ensures o.Fail? ==> o.error == StatusError(409, DuplicateMessage(name))
  {
    var found := if IsNullish(input) then Throw(TypeErrorValue) else get(Prop(input, "key"));
    if found.Ok? && Truthy(found.value) then Fail(StatusError(409, DuplicateMessage(name))) else Pass
  }

  /** The 400 of checkValidKeyInService and of getRecord with `throwError`. */
  function MissingKeyError(key: Value, service: string): (e: Value)
    ensures e.Obj? && Prop(e, "status") == Num(400)
  {
    StatusError(400, "the " + ToStr(key) + " does not exist in the service-> " + service)
  }

  /** checkValidKeyInService(service, key): the record, or a 400 naming the
      key whatever the lookup failed with. */
  function CheckValidKeyInService(get: Lookup, service: string, key: Value): (r: Result<Value>)
    ensures get(key).Ok? <==> r.Ok?
    ensures r.Ok? ==> r.value == get(key).value
    ensures r.Throw? ==> r.error == MissingKeyError(key, service)
  {
    match get(key)
    case Ok(v) => Ok(v)
    case Throw(_) => Throw(MissingKeyError(key, service))
  }

  /** The 404 of checkValidKeyInServiceForMany for one id. */
  function MissingOneError(service: string, element: Value): (e: Value)
    ensures e.Obj? && Prop(e, "status") == Num(404)
  {
    StatusError(404, "the " + service + " with this id ->" + ToStr(element) + " does not exist ")
  }

  /** The lookups of a list of ids, failing at the first missing one (the
      source's `Promise.all` rejects with whichever failure settles first;
      here that is the first in list order). */
  function LookupAll(get: Lookup, service: string, ids: seq<Value>): (r: Result<seq<Value>>)
    ensures r.Ok? <==> forall i :: 0 <= i < |ids| ==> get(ids[i]).Ok?
    ensures r.Ok? ==> |r.value| == |ids| && forall i :: 0 <= i < |ids| ==> r.value[i] == get(ids[i]).value
    ensures r.Throw? ==> exists i :: 0 <= i < |ids| && get(ids[i]).Throw? && r.error == MissingOneError(service, ids[i])
    decreases |ids|
  {
    if |ids| == 0 then Ok([])
    else
      match get(ids[0])
      case Throw(_) => Throw(MissingOneError(service, ids[0]))
      case Ok(v) =>
        var rest := LookupAll(get, service, ids[1..]);
        assert forall i :: 1 <= i < |ids| ==> ids[i] == ids[1..][i - 1];
        if rest.Throw? then Throw(rest.error) else Ok([v] + rest.value)
  }

  /** checkValidKeyInServiceForMany(service, key): `key.map` needs a list. */
  function CheckValidKeyInServiceForMany(get: Lookup, service: string, key: Value): (r: Result<Value>)
    ensures !key.Arr? ==> r == Throw(TypeErrorValue)
    ensures key.Arr? ==> (r.Ok? <==> forall i :: 0 <= i < |key.items| ==> get(key.items[i]).Ok?)
    ensures key.Arr? && r.Ok? ==>
      && r.value.Arr? && |r.value.items| == |key.items|
      && forall i :: 0 <= i < |key.items| ==> r.value.items[i] == get(key.items[i]).value
  {
    if !key.Arr? then Throw(TypeErrorValue)
    else
      var found :- LookupAll(get, service, key.items);
      Ok(Arr(found))
  }

  /** getEntityData(service, key): the record, or a 400 that does not name
      the key. */
  function GetEntityData(get: Lookup, service: string, key: Value): (r: Result<Value>)
    ensures get(key).Ok? <==> r.Ok?
    ensures r.Ok? ==> r.value == get(key).value
    ensures r.Throw? ==> r.error == StatusError(400, "Check if all the key are valid in the service-> " + service)
  {
    match get(key)
    case Ok(v) => Ok(v)
    case Throw(_) => Throw(StatusError(400, "Check if all the key are valid in the service-> " + service))
  }

  /** getRecord(service, key, throwError): a failed lookup is null unless
      `throwError` is truthy. */
  function GetRecord(get: Lookup, service: string, key: Value, throwError: Value): (r: Result<Value>)
    ensures get(key).Ok? ==> r == get(key)
    ensures get(key).Throw? && !Truthy(throwError) ==> r == Ok(Null)
    ensures get(key).Throw? && Truthy(throwError) ==> r == Throw(MissingKeyError(key, service))
  {
    match get(key)
    case Ok(v) => Ok(v)
    case Throw(_) => if Truthy(throwError) then Throw(MissingKeyError(key, service)) else Ok(Null)
  }

  /** getRecord with `throwError` is checkValidKeyInService; without it, it
      never throws. */
  lemma GetRecordVariants(get: Lookup, service: string, key: Value)
    ensures GetRecord(get, service, key, Bool(true)) == CheckValidKeyInService(get, service, key)
    ensures GetRecord(get, service, key, Bool(false)).Ok?
    ensures GetRecord(get, service, key, Bool(false)).Ok? && CheckValidKeyInService(get, service, key).Ok? ==>
      GetRecord(get, service, key, Bool(false)) == CheckValidKeyInService(get, service, key)
  {
  }

  /** Checking a one-id list is checking that id. */
  lemma ManyOfOne(get: Lookup, service: string, key: Value)
    ensures CheckValidKeyInServiceForMany(get, service, Arr([key])).Ok? <==> CheckValidKeyInService(get, service, key).Ok?
    ensures CheckValidKeyInServiceForMany(get, service, Arr([key])).Ok? ==>
      CheckValidKeyInServiceForMany(get, service, Arr([key])).value == Arr([CheckValidKeyInService(get, service, key).value])
  {
    var r := CheckValidKeyInServiceForMany(get, service, Arr([key]));
    if r.Ok? {
      assert r.value.items == [get(key).value];
    }
  }

  // ----- against the generic service -----

  /** The generic get of a stored id answers its record. */
  lemma ServiceGetStored(w: World, env: Env, id: string)
    requires Enumerates(env) && OperationProperties.Plain(env, "get")
    requires ',' !in id && id in Storage.Records(w.store, env.key)
    requires var rec := Storage.Records(w.store, env.key)[id]; Truthy(rec) && !Truthy(Prop(rec, "error"))
    requires ValidateData(env, Obj(map["id" := Str(id)]), OpSchema(map["id" := RequiredString], env, "get"), false).Pass?
    ensures ServiceGet(w, env, Str(id)) == Ok(Storage.Records(w.store, env.key)[id])
  {
    OperationProperties.GetFindsStoredRecord(w, env, id, InProcess);
  }

  /** The generic get of an id that is not stored rejects. */
  lemma ServiceGetMissing(w: World, env: Env, id: string)
    requires Enumerates(env) && OperationProperties.Plain(env, "get")
    requires ',' !in id && id !in Storage.Records(w.store, env.key)
    requires ValidateData(env, Obj(map["id" := Str(id)]), OpSchema(map["id" := RequiredString], env, "get"), false).Pass?
    ensures ServiceGet(w, env, Str(id)).Throw?
  {
    OperationProperties.GetMissingRecord(w, env, id, InProcess);
  }

  /** Against the generic get, a key whose stored record is truthy is a
      duplicate and a key that is not stored is not. */
  lemma DuplicateIffStored(w: World, env: Env, id: string, name: Value)
    requires Enumerates(env) && OperationProperties.Plain(env, "get")
    requires ',' !in id
    requires ValidateData(env, Obj(map["id" := Str(id)]), OpSchema(map["id" := RequiredString], env, "get"), false).Pass?
    requires id in Storage.Records(w.store, env.key) ==>
      var rec := Storage.Records(w.store, env.key)[id]; Truthy(rec) && !Truthy(Prop(rec, "error"))
    ensures var get := (x: Value) => ServiceGet(w, env, x);
      CheckServiceKeyDuplicacy(get, Obj(map["key" := Str(id)]), name).Fail? <==> id in Storage.Records(w.store, env.key)
  {
    var get := (x: Value) => ServiceGet(w, env, x);
    KeyLookup(get, id, name);
    if id in Storage.Records(w.store, env.key) {
      ServiceGetStored(w, env, id);
    } else {
      ServiceGetMissing(w, env, id);
    }
  }

  /** checkServiceKeyDuplicacy of `{key: id}` asks the lookup about `id`. */
  lemma KeyLookup(get: Lookup, id: string, name: Value)
    ensures get(Str(id)).Throw? ==> CheckServiceKeyDuplicacy(get, Obj(map["key" := Str(id)]), name) == Pass
    ensures get(Str(id)).Ok? ==>
      (CheckServiceKeyDuplicacy(get, Obj(map["key" := Str(id)]), name).Fail? <==> Truthy(get(Str(id)).value))
  {
    assert Prop(Obj(map["key" := Str(id)]), "key") == Str(id);
  }

  /** Against the generic get, checkValidKeyInService of an id that is not
      stored answers the 400 naming it. */
  lemma MissingKeyIs400(w: World, env: Env, id: string, service: string)
    requires Enumerates(env) && OperationProperties.Plain(env, "get")
    requires ',' !in id && id !in Storage.Records(w.store, env.key)
    requires ValidateData(env, Obj(map["id" := Str(id)]), OpSchema(map["id" := RequiredString], env, "get"), false).Pass?
    ensures var get := (x: Value) => ServiceGet(w, env, x);
      CheckValidKeyInService(get, service, Str(id)) == Throw(MissingKeyError(Str(id), service))
  {
    var get := (x: Value) => ServiceGet(w, env, x);
    assert get(Str(id)).Throw? by {
      ServiceGetMissing(w, env, id);
    }
  }

  // ----- getDuplicateApi -----

  /** The bookkeeping fields a duplicate does not copy. */
  const Bookkeeping: set<string> := {"createdAt", "createdBy", "updatedAt", "updatedBy", "key"}

  /** The record a duplicate is created from: the original without its
      bookkeeping fields, overlaid by the request body without its `id`. */
  function DuplicateData(original: Value, body: Value): (r: Record)
    ensures forall k :: k in r <==> (k in Spread(original) && k !in Bookkeeping) || (k in Spread(body) && k != "id")
    ensures forall k :: k in Spread(body) && k != "id" ==> r[k] == Spread(body)[k]
    ensures forall k :: k in Spread(original) && k !in Bookkeeping && k !in Spread(body) ==> r[k] == Spread(original)[k]
  {
    (Spread(original) - Bookkeeping) + (Spread(body) - {"id"})
  }

  /** The duplicate route's callback: validate the body against
      `{id: required string, ...schema}`, read the record `id`, and create a
      copy of it overlaid by the rest of the body, without validation. */
  function Duplicate(w: World, env: Env, schema: Schema, body: Value): (r: (World, Result<Value>))
    requires Enumerates(env)
    ensures env.validate(body, map["id" := RequiredString] + schema, false).Fail? ==>
      r == (w, Throw(env.validate(body, map["id" := RequiredString] + schema, false).error))
    ensures r.0.store.Keys >= w.store.Keys
  {
    match env.validate(body, map["id" := RequiredString] + schema, false)
    case Fail(e) => (w, Throw(e))
    case Pass =>
      if IsNullish(body) then (w, Throw(TypeErrorValue))
      else
        match ServiceGet(w, env, Prop(body, "id"))
        case Throw(e) => (w, Throw(e))
        case Ok(original) =>
          if IsNullish(original) then (w, Throw(TypeErrorValue))
          else
            var run := Operations.Create(w, env, Obj(DuplicateData(original, body)), InProcess.(hasNext := true), false);
            if run.done.Raised? || run.done.Forwarded? then (run.world, Throw(run.done.error))
            else (run.world, Settled(run.done))
  }

  /** Duplicating a stored record of a plain resource stores under the new
      id the duplicate data (the original without its bookkeeping, overlaid
      by the body without its `id`), stamped with a fresh `createdAt`. */
  lemma DuplicateCopiesRecord(w: World, env: Env, schema: Schema, id: string, body: Record)
    requires Enumerates(env) && OperationProperties.Plain(env, "get") && OperationProperties.Plain(env, "create")
    requires ',' !in id && '/' !in env.key && '/' !in env.freshId
    requires id in Storage.Records(w.store, env.key)
    requires var rec := Storage.Records(w.store, env.key)[id]; rec.Obj? && !Truthy(Prop(rec, "error"))
    requires ValidateData(env, Obj(map["id" := Str(id)]), OpSchema(map["id" := RequiredString], env, "get"), false).Pass?
    requires Field(body, "id") == Str(id) && "key" !in body
    requires env.validate(Obj(body), map["id" := RequiredString] + schema, false).Pass?
    ensures var d := Duplicate(w, env, schema, Obj(body));
      && d.1.Ok?
      && env.freshId in Storage.Records(d.0.store, env.key)
      && var data := DuplicateData(Storage.Records(w.store, env.key)[id], Obj(body));
      var stored := Storage.Records(d.0.store, env.key)[env.freshId];
      && Prop(stored, "createdAt") == env.now
      && forall k :: k in data && k !in {"createdAt", "createdBy"} ==> Prop(stored, k) == data[k]
  {
    var rec := Storage.Records(w.store, env.key)[id];
    var data := DuplicateData(rec, Obj(body));
    assert "key" !in data by {
      DuplicateDropsKey(rec, body);
    }
    var ctx := InProcess.(hasNext := true);
    DuplicateStoresData(w, env, data, ctx);
    assert Duplicate(w, env, schema, Obj(body)) == (Operations.Create(w, env, Obj(data), ctx, false).world,
                                                   Ok(Operations.Create(w, env, Obj(data), ctx, false).done.value)) by {
      assert ServiceGet(w, env, Prop(Obj(body), "id")) == Ok(rec) by {
        ServiceGetStored(w, env, id);
      }
      DuplicateIsCreate(w, env, schema, Obj(body), rec);
    }
  }

  /** A duplicate into a resource whose search index is missing writes the
      copy and then rejects when indexing it: the copy stays stored. */
  lemma DuplicateIndexFailureKeepsRecord(w: World, env: Env, schema: Schema, body: Value, original: Value)
    requires Enumerates(env)
    requires ConfigOf(env.def, "create").onBefore.None? && ConfigOf(env.def, "create").methodHook.None?
    requires env.def.indexing.Static? && w.index.Some? && IndexName(env) !in w.index.value
    requires env.validate(body, map["id" := RequiredString] + schema, false).Pass?
    requires !IsNullish(body) && !IsNullish(original) && "key" !in Spread(body)
    requires ServiceGet(w, env, Prop(body, "id")) == Ok(original)
    ensures var d := Duplicate(w, env, schema, body);
      d.1.Throw? && env.freshId in Storage.Records(d.0.store, env.key)
  {
    assert "key" in Bookkeeping;
    OperationProperties.CreateIndexFailureKeepsRecord(w, env, DuplicateData(original, body), InProcess.(hasNext := true));
  }

  /** A body without `key` gives duplicate data without `key`. */
  lemma DuplicateDropsKey(original: Value, body: Record)
    requires "key" !in body
    ensures "key" !in DuplicateData(original, Obj(body))
  {
    assert "key" in Bookkeeping;
  }

  /** A plain in-process create of `data` returns, and stores `data` with
      `createdAt` under the new id. */
  lemma DuplicateStoresData(w: World, env: Env, data: Record, ctx: Context)
    requires OperationProperties.Plain(env, "create") && !ctx.hasRes
    requires "key" !in data && '/' !in env.key && '/' !in env.freshId
    ensures var run := Operations.Create(w, env, Obj(data), ctx, false);
      && run.done.Returned?
      && env.freshId in Storage.Records(run.world.store, env.key)
      && var stored := Storage.Records(run.world.store, env.key)[env.freshId];
      && Prop(stored, "createdAt") == env.now
      && forall k :: k in data && k !in {"createdAt", "createdBy"} ==> Prop(stored, k) == data[k]
  {
    Operations.CreateStoresStampedRecord(w, env, data, ctx);
  }

  /** Once the original is read, the duplicate is the in-process create. */
  lemma DuplicateIsCreate(w: World, env: Env, schema: Schema, body: Value, original: Value)
    requires Enumerates(env)
    requires env.validate(body, map["id" := RequiredString] + schema, false).Pass?
    requires !IsNullish(body) && !IsNullish(original)
    requires ServiceGet(w, env, Prop(body, "id")) == Ok(original)
    requires Operations.Create(w, env, Obj(DuplicateData(original, body)), InProcess.(hasNext := true), false).done.Returned?
    ensures var run := Operations.Create(w, env, Obj(DuplicateData(original, body)), InProcess.(hasNext := true), false);
      Duplicate(w, env, schema, body) == (run.world, Ok(run.done.value))
  {
  }
}

=== FILE: configuration.dfy ===
/** The configuration resource's own rules in
    src/api/definitions/configuration.js: the create schema, the
    duplicate-key guard, the demo-mode update block and the demo-mode
    masking of found values. */
module Configuration {
  import opened Values
  import opened Errors
  import opened Definitions
  import opened Pipeline
  import Operations
  import CommonHelpers
  import Jobs

  // ----- schemas -----

  /** The four configuration types. */
  const Types: set<string> := {"file", "text", "html", "boolean"}

  /** The create schema: a string key, one of the four types, a boolean
      value for the "boolean" type and a string value for the others, and
      a string description. */
  predicate CreateAccepts(input: Value) {
    && input.Obj?
    && Prop(input, "key").Str?
    && Prop(input, "type").Str? && Prop(input, "type").s in Types
    && (if Prop(input, "type").s == "boolean" then Prop(input, "value").Bool? else Prop(input, "value").Str?)
    && Prop(input, "description").Str?
  }

  /** The update schema: every field optional; a value is a string or a
      boolean whatever the type. */
  predicate UpdateAccepts(data: Value) {
    && data.Obj?
    && (Prop(data, "value").Undefined? || Prop(data, "value").Str? || Prop(data, "value").Bool?)
    && (Prop(data, "type").Undefined? || (Prop(data, "type").Str? && Prop(data, "type").s in Types))
    && (Prop(data, "description").Undefined? || Prop(data, "description").Str?)
  }

  /** A configuration the create schema accepts is a usable job-number
      format exactly when its type is "text": the job rules read its value
      as a string then, and ignore it otherwise. */
  lemma CreatedFormatNumbersJobs(config: Value, stored: Option<nat>)
    requires CreateAccepts(config)
    ensures Jobs.JobNumber(config, stored).Ok?
    ensures Jobs.JobNumber(config, stored).value.Some? <==> Prop(config, "type") == Str("text")
  {
  }

  // ----- create -----

  const KeyExistsMessage := "Key Already Exists"

  /** create.onBefore: reading `key` off a missing input throws; otherwise
      the create is refused with 404 whenever the configuration service
      answers for that key, whatever it answers. */
  function CreateGuard(input: Value, get: CommonHelpers.Lookup): (o: Outcome)
    ensures IsNullish(input) ==> o == Fail(TypeErrorValue)
    ensures !IsNullish(input) ==> (o.Fail? <==> get(Prop(input, "key")).Ok?)
    ensures !IsNullish(input) && o.Fail? ==> o.error == StatusError(404, KeyExistsMessage)
  {
    if IsNullish(input) then Fail(TypeErrorValue)
    else if get(Prop(input, "key")).Ok? then Fail(StatusError(404, KeyExistsMessage))
    else Pass
  }

  /** The guard is stricter than the shared duplicate check: whatever that
      check refuses, the guard refuses too (with 404 instead of 409), and
      the guard also refuses a key whose lookup answers a falsy value. */
  lemma GuardStricterThanDuplicateCheck(input: Value, get: CommonHelpers.Lookup, name: Value)
    requires !IsNullish(input)
    ensures CommonHelpers.CheckServiceKeyDuplicacy(get, input, name).Fail? ==> CreateGuard(input, get).Fail?
    ensures get(Prop(input, "key")).Ok? && !Truthy(get(Prop(input, "key")).value) ==>
      CommonHelpers.CheckServiceKeyDuplicacy(get, input, name).Pass? && CreateGuard(input, get).Fail?
  {
  }

  // ----- update -----

  const DemoMessage := "Demo Mode Enabled"

  /** update.onBefore as a hook over the server's `isDemoEnabled`: a 409
      when it is truthy, the input untouched otherwise. */
  function DemoGuard(demo: Value): (h: Hook)
    ensures forall args: seq<Value>, req: Option<Request> ::
      h(args, req) == if Truthy(demo) then Throw(StatusError(409, DemoMessage))
                      else Ok(if |args| > 0 then args[0] else Undefined)
  {
    (args: seq<Value>, req: Option<Request>) =>
      if Truthy(demo) then Throw(StatusError(409, DemoMessage))
      else Ok(if |args| > 0 then args[0] else Undefined)
  }

  /** In demo mode an update that passes validation never reaches the
      database or the index: the world is left as it was and the operation
      ends in the error handler with the 409. */
  lemma DemoModeBlocksUpdate(w: World, env: Env, obj: Value, ctx: Context, demo: Value)
    requires obj.Obj? && Prop(obj, "data").Obj? && Truthy(demo)
    requires ConfigOf(env.def, "update").onBefore == Some(DemoGuard(demo))
    requires ValidateData(env, Prop(obj, "data"), OpSchema(map[], env, "update"), false).Pass?
    ensures Operations.Update(w, env, obj, ctx).world == w
    ensures Operations.Update(w, env, obj, ctx).done ==
      HandleError(StatusError(409, DemoMessage), ConfigOf(env.def, "update").onError, obj, ctx)
  {
    var stamped := Operations.StampUpdated(Prop(obj, "data"), env.now, ctx.req).value;
    assert CallInPlace(Some(DemoGuard(demo)), [Obj(obj.fields["data" := stamped])], ctx.req)
      == Throw(StatusError(409, DemoMessage));
    Operations.UpdateStoppedBeforeWrite(w, env, obj, ctx);
  }

  /** Outside demo mode the guard hands the update data on unchanged. */
  lemma DemoOffPassesUpdate(arg: Value, req: Option<Request>, demo: Value)
    requires !Truthy(demo)
    ensures CallInPlace(Some(DemoGuard(demo)), [arg], req) == Ok(arg)
  {
  }

  // ----- masking found values in demo mode -----

  /** The error `Array(n)` throws for a length that is not a valid array
      length. */
  const RangeErrorValue: Value := Obj(map["name" := Str("RangeError")])

  /** The largest array length plus one. */
  const ArrayLengthBound := 0x1_0000_0000

  /** n asterisks. */
  function Stars(n: nat): (r: string)
    ensures |r| == n
    ensures forall i :: 0 <= i < n ==> r[i] == '*'
  {
    if n == 0 then "" else Stars(n - 1) + "*"
  }

  predicate AllStars(s: string) {
    forall i :: 0 <= i < |s| ==> s[i] == '*'
  }

  /** The masked form of one value: false for the "boolean" type, otherwise
      `Array(value.length).fill("*").join("")`. A string or array gives one
      star per element; an object whose `length` is a valid array length
      gives that many; any other `length` (missing, not a number) builds a
      one-element array and so one star; a negative or too large numeric
      length is a RangeError; a missing value has no `length` to read. */
  function MaskValue(kind: Value, value: Value): (r: Result<Value>)
    ensures StrictEq(kind, Str("boolean")) ==> r == Ok(Bool(false))
    ensures !StrictEq(kind, Str("boolean")) ==>
      (r.Ok? ==> r.value.Str? && AllStars(r.value.s))
    ensures !StrictEq(kind, Str("boolean")) && value.Str? ==> r.Ok? && |r.value.s| == |value.s|
    ensures !StrictEq(kind, Str("boolean")) && value.Arr? ==> r.Ok? && |r.value.s| == |value.items|
    ensures !StrictEq(kind, Str("boolean")) && IsNullish(value) ==> r == Throw(TypeErrorValue)
    ensures r.Throw? ==> r == Throw(TypeErrorValue) || r == Throw(RangeErrorValue)
  {
    if StrictEq(kind, Str("boolean")) then Ok(Bool(false))
    else
      match value
      case Undefined => Throw(TypeErrorValue)
      case Null => Throw(TypeErrorValue)
      case Str(s) => Ok(Str(Stars(|s|)))
      case Arr(items) => Ok(Str(Stars(|items|)))
      case Obj(fields) =>
        (match Field(fields, "length")
         case Num(n) => if 0 <= n < ArrayLengthBound then Ok(Str(Stars(n))) else Throw(RangeErrorValue)
         case _ => Ok(Str("*")))
      case _ => Ok(Str("*"))
  }

  /** One found item: its fields, with `value` replaced by the masked form. */
  function MaskItem(item: Value): (r: Result<Value>)
    ensures IsNullish(item) ==> r == Throw(TypeErrorValue)
    ensures r.Ok? ==> r.value.Obj? && r.value.fields.Keys == Spread(item).Keys + {"value"}
    ensures r.Ok? ==> forall k :: k in Spread(item) && k != "value" ==> r.value.fields[k] == Spread(item)[k]
    ensures !IsNullish(item) ==> (r.Ok? <==> MaskValue(Prop(item, "type"), Prop(item, "value")).Ok?)
  {
    if IsNullish(item) then Throw(TypeErrorValue)
    else
      var masked :- MaskValue(Prop(item, "type"), Prop(item, "value"));
      Ok(Obj(Spread(item)["value" := masked]))
  }

  /** A value that shows nothing of what it hid: false, or only stars. */
  predicate Hidden(v: Value) {
    v == Bool(false) || (v.Str? && AllStars(v.s))
  }

  /** `data.map(...)`: the first item that cannot be masked rejects the
      whole list. */
  function MaskAll(items: seq<Value>): (r: Result<seq<Value>>)
    ensures r.Ok? <==> forall i :: 0 <= i < |items| ==> MaskItem(items[i]).Ok?
    ensures r.Ok? ==> |r.value| == |items|
    ensures r.Ok? ==> forall i :: 0 <= i < |items| ==> r.value[i] == MaskItem(items[i]).value
  {
    if |items| == 0 then Ok([])
    else
      var head :- MaskItem(items[0]);
      var tail :- MaskAll(items[1..]);
      assert forall i :: 1 <= i < |items| ==> items[i] == items[1..][i - 1];
      Ok([head] + tail)
  }

  /** find.onAfter: with demo mode on, a request present and a non-array
      output, every item of `output.data` has its value masked; otherwise
      the output is left as it is. */
  function MaskFind(demo: Value, output: Value, hasReq: bool): (r: Result<Value>)
    ensures !(Truthy(demo) && !output.Arr? && hasReq) ==> r == Ok(output)
    ensures Truthy(demo) && hasReq && !output.Arr? && !Prop(output, "data").Arr? ==> r == Throw(TypeErrorValue)
  {
    if !(Truthy(demo) && !output.Arr? && hasReq) then Ok(output)
    else
      match Prop(output, "data")
      case Arr(items) =>
        var masked :- MaskAll(items);
        Ok(Obj(output.fields["data" := Arr(masked)]))
      case _ => Throw(TypeErrorValue)
  }

  /** What demo mode shows of each found item: every value is hidden, every
      other field is kept, the list keeps its length and order, and strings
      keep their length. */
  lemma MaskedFindHidesValues(demo: Value, output: Value, i: int)
    requires Truthy(demo) && !output.Arr? && MaskFind(demo, output, true).Ok?
    requires 0 <= i < |Prop(output, "data").items|
    ensures var data := Prop(MaskFind(demo, output, true).value, "data");
      var before := Prop(output, "data").items[i];
      && data.Arr? && |data.items| == |Prop(output, "data").items|
      && Hidden(Prop(data.items[i], "value"))
      && (forall k :: k in Spread(before) && k != "value" ==> Prop(data.items[i], k) == Spread(before)[k])
      && (Prop(before, "value").Str? && !StrictEq(Prop(before, "type"), Str("boolean")) ==>
            |Prop(data.items[i], "value").s| == |Prop(before, "value").s|)
  {
    var items := Prop(output, "data").items;
    assert MaskItem(items[i]).Ok?;
  }

  /** Masking an already masked value changes nothing. */
  lemma MaskItemIdempotent(item: Value)
    requires MaskItem(item).Ok?
    ensures MaskItem(MaskItem(item).value) == MaskItem(item)
  {
    var once := MaskItem(item).value;
    assert Prop(once, "type") == Prop(item, "type");
    var v := Prop(once, "value");
    if !StrictEq(Prop(item, "type"), Str("boolean")) {
      assert v == Str(Stars(|v.s|));
    }
    assert Spread(once)["value" := v] == Spread(once);
  }

  /** A masked find output masks to itself: demo mode can be applied twice
      without showing more or less. */
  lemma MaskAllIdempotent(items: seq<Value>)
    requires MaskAll(items).Ok?
    ensures MaskAll(MaskAll(items).value) == MaskAll(items)
  {
    var once := MaskAll(items).value;
    forall i | 0 <= i < |items| ensures MaskItem(once[i]) == Ok(once[i]) {
      MaskItemIdempotent(items[i]);
    }
    assert MaskAll(once).Ok?;
    assert |MaskAll(once).value| == |once|;
    assert forall i :: 0 <= i < |once| ==> MaskAll(once).value[i] == once[i];
    assert MaskAll(once).value == once;
  }
}

=== FILE: dashboard.dfy ===
/** The dashboard's `stats` path in src/api/definitions/dashboard.js: job
    counts per status over the jobs the caller may see, and, for admins,
    the user and customer totals. */
module Dashboard {
  import opened Strings
  import opened Values
  import opened Errors
  import opened Definitions
  import Jobs

  /** `req.user.role.toLowerCase()`: a missing user, or a role that is not
      a string, throws. */
  function Role(user: Value): (r: Result<string>)
    ensures r.Ok? <==> !IsNullish(user) && Prop(user, "role").Str?
    ensures r.Ok? ==> r.value == Lower(Prop(user, "role").s)
    ensures r.Throw? ==> r.error == TypeErrorValue
  {
    if IsNullish(user) then Throw(TypeErrorValue)
    else match Prop(user, "role")
      case Str(s) => Ok(Lower(s))
      case _ => Throw(TypeErrorValue)
  }

  /** Whether a job is counted for the caller: every job for an admin,
      otherwise the jobs the caller created or is assigned to. The
      assignment list is read only when the creator does not match, and a
      list that is neither an array nor a string throws. */
  function Visible(role: string, uid: Value, job: Value): (r: Result<bool>)
    ensures role == "admin" ==> r == Ok(true)
    ensures r == Ok(true) <==>
      role == "admin" || StrictEq(Prop(job, "createdBy"), uid) || Jobs.Includes(Prop(job, "assignedTo"), uid) == Ok(true)
    ensures r.Throw? <==>
      role != "admin" && !StrictEq(Prop(job, "createdBy"), uid) && Jobs.Includes(Prop(job, "assignedTo"), uid).Throw?
  {
    if role == "admin" then Ok(true)
    else if StrictEq(Prop(job, "createdBy"), uid) then Ok(true)
    else Jobs.Includes(Prop(job, "assignedTo"), uid)
  }

  /** A job the count can get past: it is present and its visibility can
      be decided. */
  predicate Countable(role: string, uid: Value, job: Value) {
    !IsNullish(job) && Visible(role, uid, job).Ok?
  }

  /** A job that contributes to the counts. */
  predicate Counted(role: string, uid: Value, job: Value) {
    !IsNullish(job) && Visible(role, uid, job) == Ok(true)
  }

  /** The property a job's status is counted under. */
  function StatusKey(job: Value): string {
    ToStr(Prop(job, "jobStatus"))
  }

  predicate Cancelled(job: Value) {
    StrictEq(Prop(job, "jobStatus"), Str("Cancelled"))
  }

  /** `counts[k] || 0`. */
  function Get(counts: map<string, int>, k: string): int {
    if k in counts then counts[k] else 0
  }

  /** The counts before any job. */
  const Initial: map<string, int> := map["today" := 0, "outstanding" := 0, "total" := 0]

  /** One job of the `forEach`: a missing job cannot be destructured; a
      counted job adds one to `total` unless it is cancelled, and one to
      the counter named by its status. */
  function Step(role: string, uid: Value, counts: map<string, int>, job: Value): (r: Result<map<string, int>>)
    ensures r.Ok? <==> Countable(role, uid, job)
    ensures r.Ok? ==>
      r.value.Keys == counts.Keys
        + (if Counted(role, uid, job) then {StatusKey(job)} else {})
        + (if Counted(role, uid, job) && !Cancelled(job) then {"total"} else {})
    ensures r.Ok? ==>
      forall k :: Get(r.value, k) ==
        Get(counts, k)
        + (if Counted(role, uid, job) && k == StatusKey(job) then 1 else 0)
        + (if Counted(role, uid, job) && !Cancelled(job) && k == "total" then 1 else 0)
  {
    if IsNullish(job) then Throw(TypeErrorValue)
    else
      var seen :- Visible(role, uid, job);
      if !seen then Ok(counts)
      else
        var c1 := if Cancelled(job) then counts else counts["total" := Get(counts, "total") + 1];
        var k := StatusKey(job);
        Ok(c1[k := Get(c1, k) + 1])
  }

  /** The whole `forEach`, over the jobs in order: the first job that cannot
      be counted rejects the request. */
  function Tally(role: string, uid: Value, jobs: seq<Value>): (r: Result<map<string, int>>)
    ensures r.Ok? <==> forall i :: 0 <= i < |jobs| ==> Countable(role, uid, jobs[i])
    decreases |jobs|
  {
    if |jobs| == 0 then Ok(Initial)
    else
      var prev :- Tally(role, uid, jobs[..|jobs| - 1]);
      Step(role, uid, prev, jobs[|jobs| - 1])
  }

  // ----- reference counts -----

  /** How many counted jobs have the given status. */
  function StatusCount(role: string, uid: Value, jobs: seq<Value>, s: string): (n: nat)
    ensures n <= |jobs|
    decreases |jobs|
  {
    if |jobs| == 0 then 0
    else
      var last := jobs[|jobs| - 1];
      StatusCount(role, uid, jobs[..|jobs| - 1], s) + (if Counted(role, uid, last) && StatusKey(last) == s then 1 else 0)
  }

  /** How many counted jobs are not cancelled. */
  function LiveCount(role: string, uid: Value, jobs: seq<Value>): (n: nat)
    ensures n <= |jobs|
    decreases |jobs|
  {
    if |jobs| == 0 then 0
    else
      var last := jobs[|jobs| - 1];
      LiveCount(role, uid, jobs[..|jobs| - 1]) + (if Counted(role, uid, last) && !Cancelled(last) then 1 else 0)
  }

  /** Every counter the tally reports: the number of counted jobs with that
      status, and for `total` also the number of counted jobs that are not
      cancelled (a status literally named "total" adds to the same
      counter). Cancelled jobs still count under their own status. */
  lemma {:induction false} TallyCounts(role: string, uid: Value, jobs: seq<Value>, k: string)
    requires Tally(role, uid, jobs).Ok?
    ensures Get(Tally(role, uid, jobs).value, k) ==
      StatusCount(role, uid, jobs, k) + (if k == "total" then LiveCount(role, uid, jobs) else 0)
    decreases |jobs|
  {
    if |jobs| > 0 {
      TallyCounts(role, uid, jobs[..|jobs| - 1], k);
    }
  }

  /** The counters present: the three initial ones and one per status
      some counted job has. */
  lemma {:induction false} TallyKeys(role: string, uid: Value, jobs: seq<Value>, k: string)
    requires Tally(role, uid, jobs).Ok?
    ensures k in Tally(role, uid, jobs).value <==> k in Initial || StatusCount(role, uid, jobs, k) > 0
    decreases |jobs|
  {
    if |jobs| > 0 {
      TallyKeys(role, uid, jobs[..|jobs| - 1], k);
    }
  }

  /** A job the caller neither created nor is assigned to changes no
      counter for a non-admin. */
  lemma OthersJobsIgnored(role: string, uid: Value, jobs: seq<Value>, job: Value)
    requires role != "admin" && !IsNullish(job)
    requires !StrictEq(Prop(job, "createdBy"), uid) && Jobs.Includes(Prop(job, "assignedTo"), uid) == Ok(false)
    requires Tally(role, uid, jobs).Ok?
    ensures Tally(role, uid, jobs + [job]) == Tally(role, uid, jobs)
  {
    assert (jobs + [job])[..|jobs|] == jobs;
  }

  // ----- the response -----

  /** The counters as the `service` object. */
  function CountsObject(counts: map<string, int>): (v: Value)
    ensures v.Obj? && v.fields.Keys == counts.Keys
    ensures forall k :: k in counts ==> v.fields[k] == Num(counts[k])
  {
    Obj(map k | k in counts :: Num(counts[k]))
  }

  /** The `stats` callback. `services` is the job search's `data`, and
      `users`, `customers` the two searches' totals, all asked for by the
      callback itself; `forEach` on anything but an array throws. */
  function Stats(req: Request, services: Value, users: Value, customers: Value): (r: Result<Value>)
    ensures Role(req.user).Throw? ==> r == Throw(TypeErrorValue)
    ensures Role(req.user).Ok? && !services.Arr? ==> r == Throw(TypeErrorValue)
    ensures r.Ok? <==> (Role(req.user).Ok? && services.Arr? &&
      forall i :: 0 <= i < |services.items| ==> Countable(Role(req.user).value, Prop(req.user, "uid"), services.items[i]))
    ensures r.Ok? ==> (r.value.Obj? &&
      r.value.fields.Keys == (if Role(req.user).value == "admin" then {"users", "customers", "service"} else {"service"}))
    ensures r.Ok? && Role(req.user).value == "admin" ==>
      Prop(r.value, "users") == users && Prop(r.value, "customers") == customers
    ensures r.Ok? ==>
      Prop(r.value, "service") == CountsObject(Tally(Role(req.user).value, Prop(req.user, "uid"), services.items).value)
  {
    var role :- Role(req.user);
    if !services.Arr? then Throw(TypeErrorValue)
    else
      var counts :- Tally(role, Prop(req.user, "uid"), services.items);
      var service := CountsObject(counts);
      if role == "admin" then Ok(Obj(map["users" := users, "customers" := customers, "service" := service]))
      else Ok(Obj(map["service" := service]))
  }

  /** The role is compared without regard to case: "Admin" and "ADMIN" see
      the totals and every job, just as "admin" does. */
  lemma RoleCaseIgnored(req: Request, services: Value, users: Value, customers: Value, role: string)
    requires !IsNullish(req.user) && Prop(req.user, "role") == Str(role) && Lower(role) == "admin"
    requires services.Arr? && Stats(req, services, users, customers).Ok?
    ensures Prop(Stats(req, services, users, customers).value, "users") == users
    ensures forall i :: 0 <= i < |services.items| ==>
      (Counted("admin", Prop(req.user, "uid"), services.items[i]) <==> !IsNullish(services.items[i]))
  {
  }
}

=== FILE: definitions.dfy ===
/** The shape of a resource definition (the files under src/api/definitions) as the
    registry and the operation pipeline read it. Every hook is a pure function
    here: it sees the values it is passed and the request, and answers the
    value the pipeline continues with, or throws. */
module Definitions {
  import opened Values
  import opened Errors
  import Security

  /** The parts of an Express request the pipeline and the hooks read. */
  datatype Request = Request(user: Value, body: Value, query: Value, params: Value)

  /** A hook: receives the leading arguments the pipeline passes (in the
      source's order) and the request; answers the first argument's contents
      after the call (or, for `method`, the output), or throws. */
  type Hook = (seq<Value>, Option<Request>) -> Result<Value>

  /** A Joi schema: property name to an opaque rule. */
  type Schema = map<string, Value>

  /** A definition's indexing configuration: its plain properties (`ref`,
      `fields`, `saveDocument`, `order`, ...) and its function-valued ones. */
  datatype IndexConfig = IndexConfig(
    plain: Value,
    populate: Option<(Value, string) -> Value>,
    preFilter: Option<Value -> bool>,
    populateIndex: Option<Value -> Value>,
    dataFormatter: Option<Value -> Value>)

  /** `indexingConfig`: absent, an object, or a function of (input, request)
      computing one. */
  datatype Indexing =
    | NoIndexing
    | Static(config: IndexConfig)
    | Dynamic(compute: (Value, Option<Request>) -> Result<IndexConfig>)

  /** One operation's configuration object. */
  datatype OpConfig = OpConfig(
    onBefore: Option<Hook>,
    onAfter: Option<Hook>,
    onBeforeEach: Option<Hook>,
    onAfterEach: Option<Hook>,
    onError: Option<Hook>,
    methodHook: Option<Hook>,
    validateSchema: Schema,
    responseSchema: Option<Schema>,
    overrideIfNotExist: bool,
    security: Option<Security.Policy>)

  /** `def[op]`: left out (undefined), set to a falsy value, or configured. */
  datatype OpEntry = Omitted | Off | On(config: OpConfig)

  /** An entry of `additionalPaths`. `verb` is the HTTP method as written,
      "" when absent. */
  datatype PathDef = PathDef(hasCallback: bool, verb: string, security: Option<Security.Policy>)

  datatype Definition = Definition(
    security: Option<Security.Policy>,
    disableNotDefinedMethods: bool,
    ops: map<string, OpEntry>,
    additionalPaths: map<string, PathDef>,
    indexing: Indexing)

  /** The standard operations, in registration order. */
  const Operations: seq<string> := ["get", "find", "create", "update", "remove"]

  function Entry(d: Definition, op: string): OpEntry {
    if op in d.ops then d.ops[op] else Omitted
  }

  /** `def[op] || {}` as the pipeline destructures it. */
  function ConfigOf(d: Definition, op: string): OpConfig {
    match Entry(d, op)
    case On(c) => c
    case _ => OpConfig(None, None, None, None, None, None, map[], None, false, None)
  }
}

=== FILE: emails.dfy ===
/** The email resource's own rules in src/api/definitions/emails.js: the
    record a create stores (expiry, one-time code, attachment, author) and
    which fields the create schema requires with and without a template. */
module Emails {
  import opened Values

  /** Milliseconds in a minute: `expiry` is given in minutes. */
  const MinuteMs := 60 * 1000

  /** The smallest and largest one-time codes. */
  const OtpLow := 100000
  const OtpHigh := 999999

  /** What create.onBefore leaves: the record to store and the attachment
      it moved off the record, if any. */
  datatype Prepared = Prepared(record: Record, attachment: Option<Value>)

  /** A record the hook can compute an expiry for: when `expiry` is set, it
      and the stamped `createdAt` are numbers (the schema demands a number
      and the server clock gives one). */
  predicate NumericExpiry(obj: Record) {
    Truthy(Field(obj, "expiry")) ==> Field(obj, "expiry").Num? && Field(obj, "createdAt").Num?
  }

  /** create.onBefore. `random` is `Math.floor(Math.random() * 900000)`. */
  function PrepareEmail(obj: Record, random: nat): (p: Prepared)
    requires NumericExpiry(obj) && random < 900000
    ensures Field(p.record, "generateOtp") == Bool(Truthy(Field(obj, "generateOtp")))
    ensures Truthy(Field(obj, "expiry")) ==>
      "expiry" !in p.record &&
      Field(p.record, "expiryAt") == Num(Field(obj, "createdAt").n + Field(obj, "expiry").n * MinuteMs)
    ensures !Truthy(Field(obj, "expiry")) ==>
      Field(p.record, "expiryAt") == Field(obj, "expiryAt") && Field(p.record, "expiry") == Field(obj, "expiry")
    ensures Truthy(Field(obj, "attachment")) ==>
      "attachment" !in p.record && p.attachment == Some(Field(obj, "attachment"))
    ensures !Truthy(Field(obj, "attachment")) ==>
      p.attachment.None? && Field(p.record, "attachment") == Field(obj, "attachment")
    ensures Truthy(Field(obj, "generateOtp")) ==>
      Field(p.record, "verificationCode").Num? && OtpLow <= Field(p.record, "verificationCode").n <= OtpHigh
    ensures !Truthy(Field(obj, "generateOtp")) ==>
      Field(p.record, "verificationCode") == Field(obj, "verificationCode")
    ensures Field(p.record, "createdBy") == Or(Field(obj, "createdBy"), Str("system"))
    ensures forall k :: k in obj && k !in Touched ==> k in p.record && p.record[k] == obj[k]
  {
    var otp := Truthy(Field(obj, "generateOtp"));
    var r0 := obj["generateOtp" := Bool(otp)];
    var r1 :=
      if Truthy(Field(r0, "expiry")) then
        (r0["expiryAt" := Num(Field(r0, "createdAt").n + Field(r0, "expiry").n * MinuteMs)]) - {"expiry"}
      else r0;
    var moved := if Truthy(Field(r1, "attachment")) then Some(Field(r1, "attachment")) else None;
    var r2 := if moved.Some? then r1 - {"attachment"} else r1;
    var r3 := if otp then r2["verificationCode" := Num(OtpLow + random)] else r2;
    Prepared(r3["createdBy" := Or(Field(r3, "createdBy"), Str("system"))], moved)
  }

  /** The fields the hook may set or remove. */
  const Touched: set<string> := {"generateOtp", "expiry", "expiryAt", "attachment", "verificationCode", "createdBy"}

  /** Every field outside the touched ones reads the same after the hook,
      present or not. */
  lemma PrepareKeepsOthers(obj: Record, random: nat, k: string)
    requires NumericExpiry(obj) && random < 900000 && k !in Touched
    ensures Field(PrepareEmail(obj, random).record, k) == Field(obj, k)
  {
  }

  /** Running the hook on its own output changes nothing further when no
      one-time code is asked for: the expiry and attachment are gone and
      the author is set. */
  lemma PrepareSettles(obj: Record, random: nat)
    requires NumericExpiry(obj) && random < 900000
    requires !Truthy(Field(obj, "generateOtp"))
    ensures var once := PrepareEmail(obj, random).record;
      NumericExpiry(once) && PrepareEmail(once, random) == Prepared(once, None)
  {
    var once := PrepareEmail(obj, random).record;
    assert !Truthy(Field(once, "expiry"));
    assert !Truthy(Field(once, "attachment"));
    assert Truthy(Field(once, "createdBy"));
    assert once["generateOtp" := Bool(false)] == once;
    assert once["createdBy" := Field(once, "createdBy")] == once;
  }

  /** The create schema's conditional requirements: `template` defaults to
      null; without a template `subject`, `from` and `html` are required,
      with one `data` is. Types and address formats are Joi's. */
  predicate CreateRequirements(obj: Record) {
    var template := Field(obj, "template");
    && !Field(obj, "to").Undefined?
    && (IsNullish(template) ==>
          !Field(obj, "subject").Undefined? && !Field(obj, "from").Undefined? && !Field(obj, "html").Undefined?)
    && (!IsNullish(template) ==> !Field(obj, "data").Undefined?)
  }
}

=== FILE: error_handler.dfy ===
/** src/middlewares/error-handler.js: the Express error middleware that turns
    whatever was thrown into a `{status, message, details}` response. */
module ErrorHandler {
  import opened Values
  import opened Errors
  import opened FirebaseUtil

  /** What the middleware does: send a response, or pass to the next handler. */
  datatype Action = Respond(status: Value, body: Value) | PassOn

  /** The error object after `delete e.status; delete e.message`. */
  function Stripped(fields: Record): (r: Record)
    ensures "status" !in r && "message" !in r
    ensures forall k :: k in fields && k != "status" && k != "message" ==> k in r && r[k] == fields[k]
    ensures forall k :: k in r ==> k in fields
  {
    fields - {"status", "message"}
  }

  /** The error middleware. Arrays are objects too; they carry no `status`,
      `message` or `details` here, so their details are the array itself. */
  function Handle(e: Value): (r: Action)
    ensures r.PassOn? <==> !Truthy(e)
    ensures r.Respond? ==> r.status == Prop(r.body, "status")
    ensures r.Respond? ==> r.body.Obj? && r.body.fields.Keys == {"status", "message", "details"}
    ensures Truthy(e) && e.Str? ==> r.status == Num(500) && Prop(r.body, "message") == e
    ensures Truthy(e) && (e.Bool? || e.Num?) ==>
      r.status == Num(500) && Prop(r.body, "message") == Str("Unknown Server Error")
    ensures e.Obj? ==>
      && r.status == Or(Prop(e, "status"), Num(500))
      && Prop(r.body, "message") == Or(Prop(e, "message"), Str("Server Error"))
      && Prop(r.body, "details") == Or(Prop(e, "details"), Obj(Stripped(e.fields)))
    ensures e.Arr? ==>
      r.status == Num(500) && Prop(r.body, "message") == Str("Server Error") && Prop(r.body, "details") == e
  {
    if !Truthy(e) then PassOn
    else
      var payload :=
        match e
        case Str(_) => CreateError(Num(500), e, Undefined)
        case Obj(fields) =>
          CreateError(Or(Prop(e, "status"), Num(500)), Or(Prop(e, "message"), Str("Server Error")),
                      Or(Prop(e, "details"), Obj(Stripped(fields))))
        case Arr(_) => CreateError(Num(500), Str("Server Error"), e)
        case _ => CreateError(Num(500), Str("Unknown Server Error"), Undefined);
      Respond(Prop(payload, "status"), payload)
  }

  /** The response never repeats the error's own status or message inside the
      details when the error had no `details` of its own. */
  lemma DetailsOmitStatusAndMessage(e: Value)
    requires e.Obj? && !Truthy(Prop(e, "details"))
    ensures var d := Prop(Handle(e).body, "details");
      d.Obj? && "status" !in d.fields && "message" !in d.fields
  {
  }

  /** End to end: an identity-provider error normalised by the pipeline and
      then by this middleware answers with the table's status and the original
      error as details. */
  lemma AuthErrorResponse(e: Value)
    requires IsAuthError(e)
    ensures var r := Handle(GetAuthErrorObject(e));
      && r.Respond?
      && r.status == Num(AuthStatus(Prop(e, "code")))
      && Prop(r.body, "message") == Or(Prop(e, "message"), Str("Server Error"))
      && Prop(r.body, "details") == e
  {
    var g := GetAuthErrorObject(e);
    assert Truthy(Num(AuthStatus(Prop(e, "code"))));
    assert Truthy(e);
  }
}

=== FILE: errors.dfy ===
/** Outcomes of operations that may throw, and the `createError` helper
    (src/utils/error.js) every component uses to build error objects. */
module Errors {
  import opened Values

  /** A computation that returns a value or throws one: JavaScript can throw
      any value, so the thrown thing is a `Value`. */
  datatype Result<+T> = Ok(value: T) | Throw(error: Value) {
    predicate IsFailure() {
      Throw?
    }

    function PropagateFailure<U>(): Result<U>
      requires Throw?
    {
      Throw(error)
    }

    function Extract(): T
      requires Ok?
    {
      value
    }
  }

  /** A step that either passes or throws. */
  datatype Outcome = Pass | Fail(error: Value) {
    predicate IsFailure() {
      Fail?
    }

    function PropagateFailure<U>(): Result<U>
      requires Fail?
    {
      Throw(error)
    }
  }

  /** `createError(status, message, details)`: all three properties are present,
      even when undefined. */
  function CreateError(status: Value, message: Value, details: Value): (e: Value)
    ensures e.Obj? && e.fields.Keys == {"status", "message", "details"}
    ensures Prop(e, "status") == status && Prop(e, "message") == message
    ensures Prop(e, "details") == details
  {
    Obj(map["status" := status, "message" := message, "details" := details])
  }

  /** The `{status, message}` literal the pipeline and hooks throw. */
  function StatusError(status: int, message: string): (e: Value)
    ensures e.Obj? && e.fields.Keys == {"status", "message"}
    ensures Prop(e, "status") == Num(status) && Prop(e, "message") == Str(message)
  {
    Obj(map["status" := Num(status), "message" := Str(message)])
  }

  /** What the runtime throws when code reads a property of undefined or null,
      or calls a method the value does not have. */
  const TypeErrorValue: Value := Obj(map["name" := Str("TypeError")])
}

=== FILE: firebase_util.dfy ===
/** src/utils/firebase-util.js: recognising identity-provider errors, mapping
    them through a fixed code-to-status table, and turning a keyed object into
    a list of records. */
module FirebaseUtil {
  import opened Strings
  import opened Values
  import opened Errors

  /** errorCodeMap. */
  const AuthCodeStatus: map<string, int> := map[
    "auth/invalid-email" := 400,
    "auth/wrong-password" := 401,
    "auth/id-token-expired" := 401,
    "auth/email-already-exists" := 409,
    "auth/phone-number-already-exists" := 409,
    "auth/user-not-found" := 404
  ]

  /** `codePrefix == "auth"` with loose equality: a string compares by value, an
      array by its joined text; numbers, booleans and nullish values never
      loosely equal "auth". */
  predicate CodePrefixIsAuth(v: Value) {
    match v
    case Str(s) => s == "auth"
    case Arr(_) => ToStr(v) == "auth"
    case _ => false
  }

  /** `code && code.indexOf && code.indexOf("auth/") != "-1"`: strings search for
      the substring, arrays for an element equal to "auth/"; other values have no
      `indexOf`. */
  predicate CodeMentionsAuth(code: Value) {
    match code
    case Str(s) => s != "" && Contains(s, "auth/")
    case Arr(items) => Str("auth/") in items
    case _ => false
  }

  /** isAuthError: a truthy error whose prefix is "auth" is one; otherwise
      a text code is one exactly when "auth/" occurs somewhere in it, a list
      code exactly when it holds the element "auth/", and no other code is. */
  function IsAuthError(e: Value): (r: bool)
    ensures !Truthy(e) ==> !r
    ensures Truthy(e) && CodePrefixIsAuth(Prop(e, "codePrefix")) ==> r
    ensures Truthy(e) && !CodePrefixIsAuth(Prop(e, "codePrefix")) ==>
      match Prop(e, "code")
      case Str(s) => r <==> exists i :: OccursAt(s, "auth/", i)
      case Arr(items) => r <==> Str("auth/") in items
      case _ => !r
  {
    var code := Prop(e, "code");
    var found := Truthy(e) && (CodePrefixIsAuth(Prop(e, "codePrefix")) || CodeMentionsAuth(code));
    if code.Str? then ContainsSlice(code.s, "auth/"); found else found
  }

  /** The status for an identity error code: the table entry, else 500. */
  function AuthStatus(code: Value): (s: int)
    ensures ToStr(code) in AuthCodeStatus ==> s == AuthCodeStatus[ToStr(code)]
    ensures ToStr(code) !in AuthCodeStatus ==> s == 500
    ensures s in {400, 401, 404, 409, 500}
  {
    var k := ToStr(code);
    if k in AuthCodeStatus then AuthCodeStatus[k] else 500
  }

  /** getAuthErrorObject: non-identity errors pass through unchanged; identity
      errors become `{status, message, details: e}`. */
  function GetAuthErrorObject(e: Value): (r: Value)
    ensures !IsAuthError(e) ==> r == e
    ensures IsAuthError(e) ==>
      && r.Obj?
      && Prop(r, "status") == Num(AuthStatus(Prop(e, "code")))
      && Prop(r, "message") == Prop(e, "message")
      && Prop(r, "details") == e
  {
    if !Truthy(e) || !IsAuthError(e) then e
    else CreateError(Num(AuthStatus(Prop(e, "code"))), Prop(e, "message"), e)
  }

  /** The keys `Object.keys(obj || {})` lists: falsy values spread to nothing. */
  function KeysOf(obj: Value): (ks: set<string>)
    ensures !Truthy(obj) ==> ks == {}
  {
    Spread(obj).Keys
  }

  /** convertResultToArray: one `{key, ...obj[key]}` per key, in enumeration
      order; the value's own `key` property wins over the injected one. */
  function ConvertResultToArray(obj: Value, order: seq<string>): (r: seq<Value>)
    requires IsEnumeration(order, KeysOf(obj))
    ensures |r| == |order|
    ensures forall i :: 0 <= i < |r| ==>
      && r[i].Obj?
      && order[i] in Spread(obj)
      && r[i].fields.Keys == Spread(Spread(obj)[order[i]]).Keys + {"key"}
      && (forall f :: f in Spread(Spread(obj)[order[i]]) ==> r[i].fields[f] == Spread(Spread(obj)[order[i]])[f])
      && ("key" !in Spread(Spread(obj)[order[i]]) ==> r[i].fields["key"] == Str(order[i]))
  {
    var m := Spread(obj);
    seq(|order|, i requires 0 <= i < |order| => Obj(map["key" := Str(order[i])] + Spread(m[order[i]])))
  }

  /** Three codes of the table and one outside it. */
  lemma AuthCodeExamples()
    ensures AuthStatus(Str("auth/user-not-found")) == 404
    ensures AuthStatus(Str("auth/wrong-password")) == 401
    ensures AuthStatus(Str("auth/internal-error")) == 500
  {
  }

  /** An error carrying only `code: "auth/invalid-email"` is an identity error
      and maps to status 400 with itself as details. */
  lemma InvalidEmailMapsTo400(msg: Value)
    ensures var e := Obj(map["code" := Str("auth/invalid-email"), "message" := msg]);
      && IsAuthError(e)
      && Prop(GetAuthErrorObject(e), "status") == Num(400)
      && Prop(GetAuthErrorObject(e), "details") == e
  {
    var e := Obj(map["code" := Str("auth/invalid-email"), "message" := msg]);
    assert StartsWith("auth/invalid-email", "auth/");
    assert Contains("auth/invalid-email", "auth/");
  }
}

=== FILE: flatten.dfy ===
/** The converters of src/api/helpers/common.js between a record with
    nested objects and lists and the flat "rdbms" form whose column names
    carry the nesting: `array_<k>` for a list joined with commas, `<k>_<f>`
    for a nested field and `array_<k>_<f>` for a nested list. Both work in
    place over a snapshot of the record's keys; here each is a fold over
    that snapshot. */
module Flatten {
  import opened Strings
  import opened Values
  import opened Errors
  import Operations

  /** The order `Object.keys` lists a key set in. JavaScript lists keys in
      insertion order, so two objects with the same keys may list them
      differently; one order per key set is a deliberate simplification,
      enough for the layout and round-trip facts, which hold for any
      enumeration. */
  type Order = set<string> -> seq<string>

  ghost predicate Enumerates(order: Order) {
    forall ks: set<string> :: IsEnumeration(order(ks), ks)
  }

  /** `list.join(",")`, as a value. */
  function Joined(v: Value): (r: Value)
    ensures r.Str? && r.s == ToStr(v)
  {
    Str(ToStr(v))
  }

  // ----- convertDataForOnBefore -----

  /** One key of convertObjectForOnBefore: the field moves to
      `<name>_<key>`, or, joined, to `array_<name>_<key>` when it is a list. */
  function FlattenFieldStep(state: Record, name: string, key: string): Record {
    var v := Field(state, key);
    if v.Arr? then state["array_" + name + "_" + key := Joined(v)] - {key}
    else state[name + "_" + key := v] - {key}
  }

  function FlattenFields(state: Record, name: string, keys: seq<string>): Record
    decreases |keys|
  {
    if |keys| == 0 then state
    else FlattenFields(FlattenFieldStep(state, name, keys[0]), name, keys[1..])
  }

  /** convertObjectForOnBefore(obj, name). */
  function ConvertObjectForOnBefore(fields: Record, name: string, order: Order): Record {
    FlattenFields(fields, name, order(fields.Keys))
  }

  /** One key of convertDataForOnBefore: a list moves, joined, to
      `array_<key>`; then a (still present) object is replaced by its
      flattened fields. */
  function FlattenStep(state: Record, key: string, order: Order): Record {
    var v := Field(state, key);
    var s1 := if v.Arr? then state["array_" + key := Joined(v)] - {key} else state;
    var v1 := Field(s1, key);
    if Truthy(v1) && (v1.Obj? || v1.Arr?) then (s1 + ConvertObjectForOnBefore(Spread(v1), key, order)) - {key}
    else s1
  }

  function FlattenAll(state: Record, keys: seq<string>, order: Order): Record
    decreases |keys|
  {
    if |keys| == 0 then state
    else FlattenAll(FlattenStep(state, keys[0], order), keys[1..], order)
  }

  /** convertDataForOnBefore(obj): `Object.keys` of a nullish value
      throws; a list loses its list and object items (the named properties
      the source then attaches to the list are not modelled); other
      primitives have nothing to convert. */
  function ConvertDataForOnBefore(obj: Value, order: Order): (r: Result<Value>)
    ensures IsNullish(obj) <==> r.Throw?
    ensures obj.Obj? ==> r.Ok? && r.value.Obj?
    ensures obj.Arr? ==> r.Ok? && r.value.Arr? && |r.value.items| == |obj.items|
    ensures !obj.Obj? && !obj.Arr? && r.Ok? ==> r.value == obj
  {
    match obj
    case Undefined => Throw(TypeErrorValue)
    case Null => Throw(TypeErrorValue)
    case Obj(m) => Ok(Obj(FlattenAll(m, order(m.Keys), order)))
    case Arr(items) =>
      Ok(Arr(seq(|items|, i requires 0 <= i < |items| => if items[i].Arr? || items[i].Obj? then Undefined else items[i])))
    case _ => Ok(obj)
  }

  // ----- convertDataForOnAfter -----

  /** `text.split(",")`; anything but a string has no `split`. */
  function CommaSplit(v: Value): (r: Result<Value>)
    ensures v.Str? <==> r.Ok?
    ensures r.Ok? ==> r.value == Arr(Operations.Strs(Split(v.s, ',')))
  {
    if v.Str? then Ok(Arr(Operations.Strs(Split(v.s, ',')))) else Throw(TypeErrorValue)
  }

  /** One key of convertDataForOnAfter. */
  function UnflattenStep(state: Record, key: string): (r: Result<Record>)
    ensures Field(state, key).Null? ==> r == Ok(state - {key})
    ensures !Field(state, key).Null? && |Split(key, '_')| != 2 && |Split(key, '_')| != 3 ==> r == Ok(state)
    ensures r.Ok? && !Field(state, key).Null? && (|Split(key, '_')| == 2 || |Split(key, '_')| == 3) ==> key !in r.value
  {
    var v := Field(state, key);
    if v.Null? then Ok(state - {key})
    else
      var parts := Split(key, '_');
      if |parts| == 2 && parts[0] != "array" then
        Ok(state[parts[0] := Obj(Spread(Field(state, parts[0]))[parts[1] := v])] - {key})
      else if |parts| == 2 then
        var list :- CommaSplit(v);
        Ok(state[parts[1] := list] - {key})
      else if |parts| == 3 then
        var list :- CommaSplit(v);
        Ok(state[parts[1] := Obj(Spread(Field(state, parts[1]))[parts[2] := list])] - {key})
      else Ok(state)
  }

  function UnflattenAll(state: Record, keys: seq<string>): Result<Record>
    decreases |keys|
  {
    if |keys| == 0 then Ok(state)
    else
      var next :- UnflattenStep(state, keys[0]);
      UnflattenAll(next, keys[1..])
  }

  /** convertDataForOnAfter(obj): a list's null items are deleted (they
      read back as undefined); other primitives have nothing to convert. */
  function ConvertDataForOnAfter(obj: Value, order: Order): (r: Result<Value>)
    ensures IsNullish(obj) ==> r.Throw?
    ensures obj.Arr? ==> r.Ok? && r.value.Arr? && |r.value.items| == |obj.items|
    ensures !obj.Obj? && !obj.Arr? && !IsNullish(obj) ==> r == Ok(obj)
    ensures obj.Obj? && r.Ok? ==> r.value.Obj?
  {
    match obj
    case Undefined => Throw(TypeErrorValue)
    case Null => Throw(TypeErrorValue)
    case Obj(m) =>
      var r :- UnflattenAll(m, order(m.Keys));
      Ok(Obj(r))
    case Arr(items) => Ok(Arr(seq(|items|, i requires 0 <= i < |items| => if items[i].Null? then Undefined else items[i])))
    case _ => Ok(obj)
  }

  // ----- the flat form -----

  /** A column of the flat form, by what it stands for. */
  datatype Column = Kept(k: string) | JoinedList(k: string) | NestedField(k: string, j: string) | NestedList(k: string, j: string)

  function Name(c: Column): string {
    match c
    case Kept(k) => k
    case JoinedList(k) => "array_" + k
    case NestedField(k, j) => k + "_" + j
    case NestedList(k, j) => "array_" + k + "_" + j
  }

  /** How convertDataForOnAfter reads a column name: by the parts of its
      split on "_" (the first of three parts is ignored). */
  function Parse(name: string): Column {
    var parts := Split(name, '_');
    if |parts| == 2 && parts[0] != "array" then NestedField(parts[0], parts[1])
    else if |parts| == 2 then JoinedList(parts[1])
    else if |parts| == 3 then NestedList(parts[1], parts[2])
    else Kept(name)
  }

  /** The names involved carry no "_", and a nested field is not under a
      key named "array". */
  predicate PlainColumn(c: Column) {
    && '_' !in c.k
    && ((c.NestedField? || c.NestedList?) ==> '_' !in c.j)
    && (c.NestedField? ==> c.k != "array")
  }

  lemma JoinTwo(a: string, b: string)
    ensures Join([a, b], '_') == a + "_" + b
  {
    assert [a, b][1..] == [b];
  }

  lemma JoinThree(a: string, b: string, c: string)
    ensures Join([a, b, c], '_') == a + "_" + b + "_" + c
  {
    assert [a, b, c][1..] == [b, c];
    JoinTwo(b, c);
  }

  /** The parts convertDataForOnAfter splits a column's name into. */
  function Parts(c: Column): seq<string> {
    match c
    case Kept(k) => [k]
    case JoinedList(k) => ["array", k]
    case NestedField(k, j) => [k, j]
    case NestedList(k, j) => ["array", k, j]
  }

  lemma SplitName(c: Column)
    requires PlainColumn(c)
    ensures Split(Name(c), '_') == Parts(c)
  {
    assert '_' !in "array";
    assert "array_" == "array" + "_";
    match c
    case Kept(k) =>
      SplitJoin([k], '_');
    case JoinedList(k) =>
      JoinTwo("array", k);
      SplitJoin(["array", k], '_');
    case NestedField(k, j) =>
      JoinTwo(k, j);
      SplitJoin([k, j], '_');
    case NestedList(k, j) =>
      JoinThree("array", k, j);
      SplitJoin(["array", k, j], '_');
  }

  /** Reading a plain column's name gives the column back. */
  lemma ParseName(c: Column)
    requires PlainColumn(c)
    ensures Parse(Name(c)) == c
  {
    SplitName(c);
  }

  /** Only a kept column's name lacks "_". */
  lemma UnderscoreInName(c: Column)
    requires !c.Kept?
    ensures '_' in Name(c)
  {
    match c
    case JoinedList(k) => assert Name(c)[5] == '_';
    case NestedField(k, j) => assert Name(c)[|k|] == '_';
    case NestedList(k, j) => assert Name(c)[5] == '_';
  }

  /** A name without "_" reads as a kept column. */
  lemma ParsePlainName(s: string)
    requires '_' !in s
    ensures Parse(s) == Kept(s)
  {
    ParseName(Kept(s));
  }

  /** `c` is a column `m` flattens to, from one of the top-level keys P. */
  predicate ColumnOf(m: Record, P: set<string>, c: Column) {
    && c.k in P && c.k in m
    && match c
       case Kept(k) => !m[k].Arr? && !m[k].Obj?
       case JoinedList(k) => m[k].Arr?
       case NestedField(k, j) => m[k].Obj? && j in m[k].fields && !m[k].fields[j].Arr?
       case NestedList(k, j) => m[k].Obj? && j in m[k].fields && m[k].fields[j].Arr?
  }

  /** What the column holds. */
  function ColumnValue(m: Record, c: Column): Value {
    match c
    case Kept(k) => Field(m, k)
    case JoinedList(k) => Joined(Field(m, k))
    case NestedField(k, j) => Prop(Field(m, k), j)
    case NestedList(k, j) => Joined(Prop(Field(m, k), j))
  }

  /** Field names without "_", and no obj field named "array" (its
      columns would read as lists). */
  predicate FlatNames(m: Record) {
    forall k :: k in m ==>
      && '_' !in k
      && (m[k].Obj? ==> k != "array" && forall j :: j in m[k].fields ==> '_' !in j)
  }

  lemma ColumnsArePlain(m: Record, P: set<string>, c: Column)
    requires FlatNames(m) && ColumnOf(m, P, c)
    ensures PlainColumn(c)
  {
  }

  /** Part way through convertDataForOnBefore, with the top-level keys P
      done: every entry is an untouched field or a column of P, and every
      untouched field and every column of P is there. */
  ghost predicate FlatInv(m: Record, P: set<string>, s: Record) {
    && (forall n :: n in s ==>
          (n in m && n !in P && s[n] == m[n])
          || (ColumnOf(m, P, Parse(n)) && Name(Parse(n)) == n && s[n] == ColumnValue(m, Parse(n))))
    && (forall k :: k in m && k !in P ==> k in s)
    && (forall c :: ColumnOf(m, P, c) ==> Name(c) in s)
  }

  /** Part way through convertObjectForOnBefore of the field `key`, with the
      nested keys Q done. */
  ghost predicate NestedInv(m: Record, key: string, Q: set<string>, s: Record)
    requires key in m && m[key].Obj?
  {
    var fields := m[key].fields;
    && (forall x :: x in s ==>
          (x in fields && x !in Q && s[x] == fields[x])
          || (ColumnOf(m, {key}, Parse(x)) && Parse(x).j in Q && Name(Parse(x)) == x && s[x] == ColumnValue(m, Parse(x))))
    && (forall j :: j in fields && j !in Q ==> j in s)
    && (forall c :: ColumnOf(m, {key}, c) && c.j in Q ==> Name(c) in s)
  }

  /** The nested column a field of an object under `k` becomes. */
  function NestedColumn(k: string, j: string, v: Value): (c: Column)
    ensures (c.NestedList? <==> v.Arr?) && (c.NestedField? <==> !v.Arr?) && c.k == k && c.j == j
  {
    if v.Arr? then NestedList(k, j) else NestedField(k, j)
  }

  /** Dropping the first key of an enumeration enumerates the rest. */
  lemma EnumerationRest(keys: seq<string>, ks: set<string>)
    requires |keys| > 0 && IsEnumeration(keys, ks)
    ensures IsEnumeration(keys[1..], ks - {keys[0]})
  {
    forall k | k in ks - {keys[0]} ensures k in keys[1..] {
      var i :| 0 <= i < |keys| && keys[i] == k;
      assert keys[1..][i - 1] == k;
    }
  }

  // ----- convertDataForOnBefore lays out the columns -----

  lemma NestedStart(m: Record, key: string)
    requires key in m && m[key].Obj?
    ensures NestedInv(m, key, {}, m[key].fields)
  {
  }

  /** One nested field moves to its column. */
  lemma NestedStep(m: Record, key: string, Q: set<string>, s: Record, j: string)
    requires FlatNames(m) && key in m && m[key].Obj?
    requires j in m[key].fields && j !in Q
    requires NestedInv(m, key, Q, s)
    ensures NestedInv(m, key, Q + {j}, FlattenFieldStep(s, key, j))
  {
    var fields := m[key].fields;
    var c := NestedColumn(key, j, fields[j]);
    assert ColumnOf(m, {key}, c);
    ColumnsArePlain(m, {key}, c);
    ParseName(c);
    var s' := FlattenFieldStep(s, key, j);
    assert s' == s[Name(c) := ColumnValue(m, c)] - {j};
    forall x | x in s'
      ensures || (x in fields && x !in Q + {j} && s'[x] == fields[x])
              || (ColumnOf(m, {key}, Parse(x)) && Parse(x).j in Q + {j} && Name(Parse(x)) == x && s'[x] == ColumnValue(m, Parse(x)))
    {
      if x != Name(c) {
        assert x in s && s'[x] == s[x];
      }
    }
    forall c' | ColumnOf(m, {key}, c') && c'.j in Q + {j}
      ensures Name(c') in s'
    {
      if c'.j == j {
        assert c' == c;
      } else {
        assert Name(c') in s;
        UnderscoreInName(c');
      }
    }
  }

  lemma {:induction false} NestedFold(m: Record, key: string, Q: set<string>, s: Record, keys: seq<string>)
    requires FlatNames(m) && key in m && m[key].Obj?
    requires Q <= m[key].fields.Keys
    requires NestedInv(m, key, Q, s)
    requires IsEnumeration(keys, m[key].fields.Keys - Q)
    ensures NestedInv(m, key, m[key].fields.Keys, FlattenFields(s, key, keys))
    decreases |keys|
  {
    var fields := m[key].fields;
    if |keys| == 0 {
      EnumerationSize(keys, fields.Keys - Q);
    } else {
      NestedStep(m, key, Q, s, keys[0]);
      EnumerationRest(keys, fields.Keys - Q);
      assert fields.Keys - Q - {keys[0]} == fields.Keys - (Q + {keys[0]});
      NestedFold(m, key, Q + {keys[0]}, FlattenFieldStep(s, key, keys[0]), keys[1..]);
    }
  }

  /** convertObjectForOnBefore(m[key], key) holds exactly the columns of key. */
  lemma NestedColumns(m: Record, key: string, order: Order)
    requires FlatNames(m) && Enumerates(order) && key in m && m[key].Obj?
    ensures var N := ConvertObjectForOnBefore(m[key].fields, key, order);
      && (forall x :: x in N ==> ColumnOf(m, {key}, Parse(x)) && Name(Parse(x)) == x && N[x] == ColumnValue(m, Parse(x)))
      && (forall c :: ColumnOf(m, {key}, c) ==> Name(c) in N)
  {
    var fields := m[key].fields;
    NestedStart(m, key);
    assert fields.Keys - {} == fields.Keys;
    NestedFold(m, key, {}, fields, order(fields.Keys));
  }

  lemma FlatStart(m: Record)
    ensures FlatInv(m, {}, m)
  {
  }

  /** A key that is not done yet still holds its own field. */
  lemma Untouched(m: Record, P: set<string>, s: Record, key: string)
    requires FlatNames(m) && key in m && key !in P && FlatInv(m, P, s)
    ensures key in s && s[key] == m[key]
  {
    ParsePlainName(key);
  }

  lemma FlatStepList(m: Record, P: set<string>, s: Record, key: string, order: Order)
    requires FlatNames(m) && key in m && key !in P && m[key].Arr? && FlatInv(m, P, s)
    ensures FlatInv(m, P + {key}, FlattenStep(s, key, order))
  {
    Untouched(m, P, s, key);
    var c := JoinedList(key);
    ParseName(c);
    var s' := FlattenStep(s, key, order);
    assert s' == s[Name(c) := ColumnValue(m, c)] - {key};
    forall n | n in s'
      ensures || (n in m && n !in P + {key} && s'[n] == m[n])
              || (ColumnOf(m, P + {key}, Parse(n)) && Name(Parse(n)) == n && s'[n] == ColumnValue(m, Parse(n)))
    {
      if n != Name(c) {
        assert n in s && s'[n] == s[n];
      }
    }
    forall c' | ColumnOf(m, P + {key}, c') ensures Name(c') in s' {
      if c'.k == key {
        assert c' == c;
      } else {
        assert Name(c') in s;
        if !c'.Kept? {
          UnderscoreInName(c');
        }
      }
    }
  }

  lemma FlatStepObject(m: Record, P: set<string>, s: Record, key: string, order: Order)
    requires FlatNames(m) && Enumerates(order) && key in m && key !in P && m[key].Obj? && FlatInv(m, P, s)
    ensures FlatInv(m, P + {key}, FlattenStep(s, key, order))
  {
    Untouched(m, P, s, key);
    var N := ConvertObjectForOnBefore(m[key].fields, key, order);
    NestedColumns(m, key, order);
    var s' := FlattenStep(s, key, order);
    assert s' == (s + N) - {key};
    forall n | n in s'
      ensures || (n in m && n !in P + {key} && s'[n] == m[n])
              || (ColumnOf(m, P + {key}, Parse(n)) && Name(Parse(n)) == n && s'[n] == ColumnValue(m, Parse(n)))
    {
      if n in N {
        assert ColumnOf(m, {key}, Parse(n));
      } else {
        assert n in s && s'[n] == s[n];
      }
    }
    forall c | ColumnOf(m, P + {key}, c) ensures Name(c) in s' {
      if c.k == key {
        assert ColumnOf(m, {key}, c);
        assert Name(c) in N;
      } else {
        assert Name(c) in s;
        if !c.Kept? {
          UnderscoreInName(c);
        }
      }
    }
  }

  lemma FlatStepKept(m: Record, P: set<string>, s: Record, key: string, order: Order)
    requires FlatNames(m) && key in m && key !in P && !m[key].Arr? && !m[key].Obj? && FlatInv(m, P, s)
    ensures FlatInv(m, P + {key}, FlattenStep(s, key, order))
  {
    Untouched(m, P, s, key);
    ParsePlainName(key);
    assert FlattenStep(s, key, order) == s;
    assert ColumnOf(m, P + {key}, Kept(key));
  }

  lemma {:induction false} FlatFold(m: Record, P: set<string>, s: Record, keys: seq<string>, order: Order)
    requires FlatNames(m) && Enumerates(order) && P <= m.Keys && FlatInv(m, P, s)
    requires IsEnumeration(keys, m.Keys - P)
    ensures FlatInv(m, m.Keys, FlattenAll(s, keys, order))
    decreases |keys|
  {
    if |keys| == 0 {
      EnumerationSize(keys, m.Keys - P);
    } else {
      var key := keys[0];
      if m[key].Arr? {
        FlatStepList(m, P, s, key, order);
      } else if m[key].Obj? {
        FlatStepObject(m, P, s, key, order);
      } else {
        FlatStepKept(m, P, s, key, order);
      }
      EnumerationRest(keys, m.Keys - P);
      assert m.Keys - P - {key} == m.Keys - (P + {key});
      FlatFold(m, P + {key}, FlattenStep(s, key, order), keys[1..], order);
    }
  }

  /** convertDataForOnBefore of a record with plain names: every entry of
      the result is one of the record's columns holding that column's value,
      and every column is there. */
  lemma FlattenLaysOutColumns(m: Record, order: Order)
    requires FlatNames(m) && Enumerates(order)
    ensures ConvertDataForOnBefore(Obj(m), order).Ok?
    ensures FlatInv(m, m.Keys, ConvertDataForOnBefore(Obj(m), order).value.fields)
  {
    FlatStart(m);
    assert m.Keys - {} == m.Keys;
    FlatFold(m, {}, m, order(m.Keys), order);
  }

  // ----- convertDataForOnAfter reads the columns back -----

  /** A list that survives `join(",")` then `split(",")`: non-empty, of
      strings without commas. */
  predicate CommaList(v: Value) {
    && v.Arr? && |v.items| > 0
    && forall i :: 0 <= i < |v.items| ==> v.items[i].Str? && ',' !in v.items[i].s
  }

  /** Splitting a joined comma list gives the list back. */
  lemma CommaRoundTrip(v: Value)
    requires CommaList(v)
    ensures CommaSplit(Joined(v)) == Ok(v)
  {
    var items := v.items;
    var texts := seq(|items|, i requires 0 <= i < |items| => items[i].s);
    assert ToStr(v) == Join(texts, ',') by {
      assert seq(|items|, i requires 0 <= i < |items| => if IsNullish(items[i]) then "" else ToStr(items[i])) == texts;
    }
    SplitJoin(texts, ',');
    assert Operations.Strs(texts) == items;
  }

  /** A value the converters carry across: not null, and a list only if it
      is a comma list. */
  predicate Restorable(v: Value) {
    !v.Null? && (v.Arr? ==> CommaList(v))
  }

  /** The records the two converters take to each other and back: plain
      names, no null values, non-empty comma lists of strings, and non-empty
      objects whose fields are restorable. */
  predicate RoundTrips(m: Record) {
    && FlatNames(m)
    && forall k :: k in m ==>
         && Restorable(m[k])
         && (m[k].Obj? ==> m[k].fields != map[] && forall j :: j in m[k].fields ==> Restorable(m[k].fields[j]))
  }

  /** The fields of the object under `k` whose columns were read back. */
  ghost function Done(m: Record, k: string, D: set<string>): map<string, Value>
    requires k in m && m[k].Obj?
  {
    map j | j in m[k].fields && Name(NestedColumn(k, j, m[k].fields[j])) in D :: m[k].fields[j]
  }

  /** Part way through convertDataForOnAfter of the columns F of m, with the
      names D done: unread columns are untouched, kept fields are in place,
      a list is back once its column is read, and an object holds the fields
      read so far. */
  ghost predicate UInv(m: Record, F: Record, D: set<string>, S: Record) {
    && (forall n :: n in F && n !in D ==> n in S && S[n] == F[n])
    && (forall x :: x in S ==> (x in F && x !in D) || x in m)
    && (forall k :: k in m && !m[k].Arr? && !m[k].Obj? ==> k in S && S[k] == m[k])
    && ListsBack(m, D, S)
    && ObjectsBack(m, D, S)
  }

  ghost predicate ListsBack(m: Record, D: set<string>, S: Record) {
    forall k :: k in m && m[k].Arr? ==> (k in S <==> Name(JoinedList(k)) in D) && (k in S ==> S[k] == m[k])
  }

  ghost predicate ObjectsBack(m: Record, D: set<string>, S: Record) {
    forall k :: k in m && m[k].Obj? ==> (k in S <==> Done(m, k, D) != map[]) && (k in S ==> S[k] == Obj(Done(m, k, D)))
  }

  /** Storing w under the list or object field k and dropping the column n
      keeps the lists read back, given what n and w are. */
  lemma ListsAfter(m: Record, D: set<string>, S: Record, n: string, k: string, w: Value)
    requires FlatNames(m) && ListsBack(m, D, S) && '_' in n && k in m && (m[k].Arr? || m[k].Obj?)
    requires forall k' :: k' in m && m[k'].Arr? && k' != k ==> Name(JoinedList(k')) != n
    requires m[k].Arr? ==> w == m[k] && n == Name(JoinedList(k))
    ensures ListsBack(m, D + {n}, S[k := w] - {n})
  {
    var S' := S[k := w] - {n};
    forall k' | k' in m && m[k'].Arr?
      ensures (k' in S' <==> Name(JoinedList(k')) in D + {n}) && (k' in S' ==> S'[k'] == m[k'])
    {
      assert k' != n;
    }
  }

  lemma ObjectsAfter(m: Record, D: set<string>, S: Record, n: string, k: string, w: Value)
    requires FlatNames(m) && ObjectsBack(m, D, S) && '_' in n && k in m && (m[k].Arr? || m[k].Obj?)
    requires forall k' :: k' in m && m[k'].Obj? && k' != k ==> Done(m, k', D + {n}) == Done(m, k', D)
    requires m[k].Obj? ==> w == Obj(Done(m, k, D + {n})) && Done(m, k, D + {n}) != map[]
    ensures ObjectsBack(m, D + {n}, S[k := w] - {n})
  {
    var S' := S[k := w] - {n};
    forall k' | k' in m && m[k'].Obj?
      ensures (k' in S' <==> Done(m, k', D + {n}) != map[]) && (k' in S' ==> S'[k'] == Obj(Done(m, k', D + {n})))
    {
      assert k' != n;
    }
  }

  /** The same for the unread columns, the names present and the kept
      fields. */
  lemma NamesAfter(m: Record, F: Record, D: set<string>, S: Record, n: string, k: string, w: Value)
    requires FlatNames(m) && '_' in n && k in m && (m[k].Arr? || m[k].Obj?) && k !in F
    requires forall n :: n in F && n !in D ==> n in S && S[n] == F[n]
    requires forall x :: x in S ==> (x in F && x !in D) || x in m
    requires forall k :: k in m && !m[k].Arr? && !m[k].Obj? ==> k in S && S[k] == m[k]
    ensures var S' := S[k := w] - {n};
      && (forall n' :: n' in F && n' !in D + {n} ==> n' in S' && S'[n'] == F[n'])
      && (forall x :: x in S' ==> (x in F && x !in D + {n}) || x in m)
      && (forall k' :: k' in m && !m[k'].Arr? && !m[k'].Obj? ==> k' in S' && S'[k'] == m[k'])
  {
    var S' := S[k := w] - {n};
    forall k' | k' in m && !m[k'].Arr? && !m[k'].Obj? ensures k' in S' && S'[k'] == m[k'] {
      assert k' != n;
    }
  }

  /** A list or object field is no column name. */
  lemma NotAName(m: Record, F: Record, k: string)
    requires FlatNames(m) && FlatInv(m, m.Keys, F)
    requires k in m && (m[k].Arr? || m[k].Obj?)
    ensures k !in F
  {
    ParsePlainName(k);
  }

  /** What a name of F stands for. */
  lemma NameFacts(m: Record, F: Record, n: string)
    requires FlatNames(m) && FlatInv(m, m.Keys, F) && n in F
    ensures ColumnOf(m, m.Keys, Parse(n)) && Name(Parse(n)) == n && F[n] == ColumnValue(m, Parse(n))
    ensures PlainColumn(Parse(n))
  {
    ColumnsArePlain(m, m.Keys, Parse(n));
  }

  /** Distinct plain columns have distinct names. */
  lemma NamesDiffer(c: Column, c': Column)
    requires PlainColumn(c) && PlainColumn(c') && c != c'
    ensures Name(c) != Name(c')
  {
    ParseName(c);
    ParseName(c');
  }

  /** Reading a name that is no column of the object under k leaves its
      read fields as they were. */
  lemma DoneUnchanged(m: Record, k: string, D: set<string>, n: string)
    requires FlatNames(m) && k in m && m[k].Obj?
    requires PlainColumn(Parse(n)) && Name(Parse(n)) == n
    requires !(Parse(n).NestedField? || Parse(n).NestedList?) || Parse(n).k != k
    ensures Done(m, k, D + {n}) == Done(m, k, D)
  {
    forall j | j in m[k].fields ensures Name(NestedColumn(k, j, m[k].fields[j])) != n {
      NamesDiffer(NestedColumn(k, j, m[k].fields[j]), Parse(n));
    }
  }

  /** Reading the column of field j adds j. */
  lemma DoneAdd(m: Record, k: string, D: set<string>, j: string)
    requires FlatNames(m) && k in m && m[k].Obj? && j in m[k].fields
    ensures Done(m, k, D + {Name(NestedColumn(k, j, m[k].fields[j]))}) == Done(m, k, D)[j := m[k].fields[j]]
  {
    var fields := m[k].fields;
    var n := Name(NestedColumn(k, j, fields[j]));
    forall j' | j' in fields && j' != j ensures Name(NestedColumn(k, j', fields[j'])) != n {
      NamesDiffer(NestedColumn(k, j', fields[j']), NestedColumn(k, j, fields[j]));
    }
  }

  lemma UnflattenStart(m: Record, F: Record)
    requires FlatNames(m) && FlatInv(m, m.Keys, F)
    ensures UInv(m, F, {}, F)
  {
    forall k | k in m && !m[k].Arr? && !m[k].Obj? ensures k in F && F[k] == m[k] {
      assert ColumnOf(m, m.Keys, Kept(k));
      ParsePlainName(k);
    }
    forall k | k in m && (m[k].Arr? || m[k].Obj?) ensures k !in F {
      NotAName(m, F, k);
    }
  }

  /** Reading a kept column changes nothing. */
  lemma UnflattenKept(m: Record, F: Record, D: set<string>, S: Record, n: string)
    requires RoundTrips(m) && FlatInv(m, m.Keys, F) && UInv(m, F, D, S)
    requires n in F && n !in D && Parse(n).Kept?
    ensures UnflattenStep(S, n) == Ok(S) && UInv(m, F, D + {n}, S)
  {
    NameFacts(m, F, n);
    SplitName(Parse(n));
    forall k | k in m && m[k].Arr? ensures Name(JoinedList(k)) != n {
      NamesDiffer(JoinedList(k), Parse(n));
    }
    forall k | k in m && m[k].Obj? ensures Done(m, k, D + {n}) == Done(m, k, D) {
      DoneUnchanged(m, k, D, n);
    }
  }

  /** The step on an `array_<k>` column holding a joined comma list. */
  lemma ReadList(S: Record, n: string, k: string, v: Value)
    requires Split(n, '_') == ["array", k] && n in S && S[n] == Joined(v) && CommaList(v)
    ensures UnflattenStep(S, n) == Ok(S[k := v] - {n})
  {
    CommaRoundTrip(v);
  }

  /** The step on an `array_<k>` column holding any text. */
  lemma ReadColumnText(S: Record, n: string, k: string, text: string)
    requires Split(n, '_') == ["array", k] && n in S && S[n] == Str(text)
    ensures UnflattenStep(S, n) == Ok(S[k := Arr(Operations.Strs(Split(text, ',')))] - {n})
  {
  }

  /** The step on a nested column holding field value v (joined, for a
      nested list). */
  lemma ReadNested(S: Record, n: string, c: Column, v: Value)
    requires c.NestedField? || c.NestedList?
    requires Split(n, '_') == Parts(c) && (c.NestedField? ==> c.k != "array")
    requires n in S && S[n] == (if c.NestedList? then Joined(v) else v)
    requires !v.Null? && (c.NestedList? ==> CommaList(v))
    ensures UnflattenStep(S, n) == Ok(S[c.k := Obj(Spread(Field(S, c.k))[c.j := v])] - {n})
  {
    if c.NestedList? {
      CommaRoundTrip(v);
    }
  }

  /** Reading `array_<k>` puts the list back under k. */
  lemma UnflattenList(m: Record, F: Record, D: set<string>, S: Record, n: string)
    requires RoundTrips(m) && FlatInv(m, m.Keys, F) && UInv(m, F, D, S)
    requires n in F && n !in D && Parse(n).JoinedList?
    ensures UnflattenStep(S, n).Ok? && UInv(m, F, D + {n}, UnflattenStep(S, n).value)
  {
    NameFacts(m, F, n);
    var c := Parse(n);
    var k := c.k;
    SplitName(c);
    UnderscoreInName(c);
    NotAName(m, F, k);
    ReadList(S, n, k, m[k]);
    forall k' | k' in m && m[k'].Arr? && k' != k ensures Name(JoinedList(k')) != n {
      NamesDiffer(JoinedList(k'), c);
    }
    forall k' | k' in m && m[k'].Obj? && k' != k ensures Done(m, k', D + {n}) == Done(m, k', D) {
      DoneUnchanged(m, k', D, n);
    }
    NamesAfter(m, F, D, S, n, k, m[k]);
    ListsAfter(m, D, S, n, k, m[k]);
    ObjectsAfter(m, D, S, n, k, m[k]);
  }

  /** Reading `<k>_<j>` or `array_<k>_<j>` puts field j back into the
      object under k. */
  lemma UnflattenNested(m: Record, F: Record, D: set<string>, S: Record, n: string)
    requires RoundTrips(m) && FlatInv(m, m.Keys, F) && UInv(m, F, D, S)
    requires n in F && n !in D && (Parse(n).NestedField? || Parse(n).NestedList?)
    ensures UnflattenStep(S, n).Ok? && UInv(m, F, D + {n}, UnflattenStep(S, n).value)
  {
    NameFacts(m, F, n);
    var c := Parse(n);
    var k := c.k;
    assert n in S && S[n] == F[n];
    NestedStepResult(m, F, D, S, n);
    var w := Obj(Done(m, k, D + {n}));
    NestedLeavesOthers(m, F, D, n);
    NamesAfter(m, F, D, S, n, k, w);
    ListsAfter(m, D, S, n, k, w);
    ObjectsAfter(m, D, S, n, k, w);
  }

  /** A nested column of k names no list column and no field of another
      object. */
  lemma NestedLeavesOthers(m: Record, F: Record, D: set<string>, n: string)
    requires FlatNames(m) && FlatInv(m, m.Keys, F)
    requires n in F && (Parse(n).NestedField? || Parse(n).NestedList?)
    ensures forall k' :: k' in m && m[k'].Arr? && k' != Parse(n).k ==> Name(JoinedList(k')) != n
    ensures forall k' :: k' in m && m[k'].Obj? && k' != Parse(n).k ==> Done(m, k', D + {n}) == Done(m, k', D)
  {
    NameFacts(m, F, n);
    var c := Parse(n);
    forall k' | k' in m && m[k'].Arr? && k' != c.k ensures Name(JoinedList(k')) != n {
      NamesDiffer(JoinedList(k'), c);
    }
    forall k' | k' in m && m[k'].Obj? && k' != c.k ensures Done(m, k', D + {n}) == Done(m, k', D) {
      DoneUnchanged(m, k', D, n);
    }
  }

  /** What reading a nested column leaves: the object under k gains the
      field, and the column is gone. */
  lemma NestedStepResult(m: Record, F: Record, D: set<string>, S: Record, n: string)
    requires RoundTrips(m) && FlatInv(m, m.Keys, F) && ObjectsBack(m, D, S)
    requires n in F && n !in D && n in S && S[n] == F[n] && (Parse(n).NestedField? || Parse(n).NestedList?)
    ensures Parse(n).k in m && m[Parse(n).k].Obj? && Parse(n).j in Done(m, Parse(n).k, D + {n})
    ensures '_' in n && Parse(n).k !in F
    ensures UnflattenStep(S, n) == Ok(S[Parse(n).k := Obj(Done(m, Parse(n).k, D + {n}))] - {n})
  {
    NameFacts(m, F, n);
    var c := Parse(n);
    var k, j := c.k, c.j;
    var fields := m[k].fields;
    assert c == NestedColumn(k, j, fields[j]);
    SplitName(c);
    UnderscoreInName(c);
    NotAName(m, F, k);
    ReadNested(S, n, c, fields[j]);
    assert Spread(Field(S, k)) == Done(m, k, D);
    DoneAdd(m, k, D, j);
  }

  /** One column read keeps the invariant. */
  lemma UnflattenOne(m: Record, F: Record, D: set<string>, S: Record, n: string)
    requires RoundTrips(m) && FlatInv(m, m.Keys, F) && UInv(m, F, D, S)
    requires n in F && n !in D
    ensures UnflattenStep(S, n).Ok? && UInv(m, F, D + {n}, UnflattenStep(S, n).value)
  {
    NameFacts(m, F, n);
    if Parse(n).Kept? {
      UnflattenKept(m, F, D, S, n);
    } else if Parse(n).JoinedList? {
      UnflattenList(m, F, D, S, n);
    } else {
      UnflattenNested(m, F, D, S, n);
    }
  }

  lemma {:induction false} UnflattenFold(m: Record, F: Record, D: set<string>, S: Record, keys: seq<string>)
    requires RoundTrips(m) && FlatInv(m, m.Keys, F) && D <= F.Keys && UInv(m, F, D, S)
    requires IsEnumeration(keys, F.Keys - D)
    ensures UnflattenAll(S, keys).Ok? && UInv(m, F, F.Keys, UnflattenAll(S, keys).value)
    decreases |keys|
  {
    if |keys| == 0 {
      EnumerationSize(keys, F.Keys - D);
      assert D == F.Keys;
    } else {
      var n := keys[0];
      UnflattenOne(m, F, D, S, n);
      EnumerationRest(keys, F.Keys - D);
      assert F.Keys - D - {n} == F.Keys - (D + {n});
      UnflattenFold(m, F, D + {n}, UnflattenStep(S, n).value, keys[1..]);
    }
  }

  /** Every nested column is among F, so all of an object's fields are read. */
  lemma AllFieldsRead(m: Record, F: Record, k: string)
    requires FlatInv(m, m.Keys, F) && k in m && m[k].Obj?
    ensures Done(m, k, F.Keys) == m[k].fields
  {
    var fields := m[k].fields;
    forall j | j in fields ensures Name(NestedColumn(k, j, fields[j])) in F {
      assert ColumnOf(m, m.Keys, NestedColumn(k, j, fields[j]));
    }
  }

  /** Once every column is read, the record is whole again. */
  lemma UnflattenEnd(m: Record, F: Record, S: Record)
    requires RoundTrips(m) && FlatInv(m, m.Keys, F) && UInv(m, F, F.Keys, S)
    ensures S == m
  {
    forall k | k in m && m[k].Arr? ensures k in S && S[k] == m[k] {
      assert ColumnOf(m, m.Keys, JoinedList(k));
    }
    forall k | k in m && m[k].Obj? ensures k in S && S[k] == m[k] {
      AllFieldsRead(m, F, k);
    }
    assert S.Keys == m.Keys;
  }

  /** The two converters are inverse on records with plain names, no
      nulls, non-empty objects and non-empty comma lists of strings. */
  lemma RoundTrip(m: Record, order: Order)
    requires RoundTrips(m) && Enumerates(order)
    ensures ConvertDataForOnBefore(Obj(m), order).Ok?
    ensures ConvertDataForOnAfter(ConvertDataForOnBefore(Obj(m), order).value, order) == Ok(Obj(m))
  {
    FlattenLaysOutColumns(m, order);
    var F := ConvertDataForOnBefore(Obj(m), order).value.fields;
    UnflattenStart(m, F);
    assert F.Keys - {} == F.Keys;
    UnflattenFold(m, F, {}, F, order(F.Keys));
    UnflattenEnd(m, F, UnflattenAll(F, order(F.Keys)).value);
  }

  /** A single key is listed alone. */
  lemma SingleKeyOrder(order: Order, x: string)
    requires Enumerates(order)
    ensures order({x}) == [x]
  {
    EnumerationSize(order({x}), {x});
  }

  /** convertDataForOnBefore of a one-field record is that field's step. */
  lemma FlattenOneField(m: Record, k: string, order: Order)
    requires Enumerates(order) && m.Keys == {k}
    ensures ConvertDataForOnBefore(Obj(m), order) == Ok(Obj(FlattenStep(m, k, order)))
  {
    SingleKeyOrder(order, k);
    assert FlattenAll(m, [k], order) == FlattenAll(FlattenStep(m, k, order), [], order);
  }

  /** convertDataForOnAfter of a one-column record is that column's step. */
  lemma UnflattenOneField(f: Record, n: string, order: Order)
    requires Enumerates(order) && f.Keys == {n} && UnflattenStep(f, n).Ok?
    ensures ConvertDataForOnAfter(Obj(f), order) == Ok(Obj(UnflattenStep(f, n).value))
  {
    SingleKeyOrder(order, n);
    assert UnflattenAll(f, [n]) == UnflattenAll(UnflattenStep(f, n).value, []);
  }

  /** An empty list does not survive: it is stored as "" ... */
  lemma EmptyListStoredBlank(order: Order)
    requires Enumerates(order)
    ensures ConvertDataForOnBefore(Obj(map["t" := Arr([])]), order) == Ok(Obj(map["array_t" := Str("")]))
  {
    var m := map["t" := Arr([])];
    assert m.Keys == {"t"};
    FlattenOneField(m, "t", order);
    assert "array_t"[0] != "t"[0];
    assert ToStr(Arr([])) == "";
    assert "array_" + "t" == "array_t";
    assert m["array_t" := Str("")] - {"t"} == map["array_t" := Str("")];
  }

  /** ... and comes back as [""]. */
  lemma BlankReadsBackAsBlankList(order: Order)
    requires Enumerates(order)
    ensures ConvertDataForOnAfter(Obj(map["array_t" := Str("")]), order) == Ok(Obj(map["t" := Arr([Str("")])]))
  {
    var f := map["array_t" := Str("")];
    assert f.Keys == {"array_t"};
    BlankColumnStep("t");
    assert "array_" + "t" == "array_t";
    UnflattenOneField(f, "array_t", order);
  }

  lemma BlankColumnStep(k: string)
    requires '_' !in k
    ensures UnflattenStep(map["array_" + k := Str("")], "array_" + k) == Ok(map[k := Arr([Str("")])])
  {
    var n := "array_" + k;
    var f := map[n := Str("")];
    SplitName(JoinedList(k));
    ReadColumnText(f, n, k, "");
    assert Operations.Strs(Split("", ',')) == [Str("")];
    UnderscoreInName(JoinedList(k));
    assert f[k := Arr([Str("")])] - {n} == map[k := Arr([Str("")])];
  }

  /** A null field is kept on the way out and dropped on the way back. */
  lemma NullFieldDropped(order: Order)
    requires Enumerates(order)
    ensures ConvertDataForOnBefore(Obj(map["note" := Null]), order) == Ok(Obj(map["note" := Null]))
    ensures ConvertDataForOnAfter(Obj(map["note" := Null]), order) == Ok(Obj(map[]))
  {
    var m := map["note" := Null];
    assert m.Keys == {"note"};
    FlattenOneField(m, "note", order);
    assert m - {"note"} == map[];
    UnflattenOneField(m, "note", order);
  }

  /** An object under the name "array" is stored as `array_<j>` columns ... */
  lemma ObjectNamedArrayStored(order: Order)
    requires Enumerates(order)
    ensures ConvertDataForOnBefore(Obj(map["array" := Obj(map["y" := Str("v")])]), order) == Ok(Obj(map["array_y" := Str("v")]))
  {
    var m := map["array" := Obj(map["y" := Str("v")])];
    assert m.Keys == {"array"};
    FlattenOneField(m, "array", order);
    var inner := map["y" := Str("v")];
    assert inner.Keys == {"y"};
    SingleKeyOrder(order, "y");
    assert "array" + "_" + "y" == "array_y";
    assert inner["array_y" := Str("v")] - {"y"} == map["array_y" := Str("v")];
    assert FlattenFields(inner, "array", ["y"]) == FlattenFields(map["array_y" := Str("v")], "array", []);
    assert ConvertObjectForOnBefore(inner, "array", order) == map["array_y" := Str("v")];
    assert (m + map["array_y" := Str("v")]) - {"array"} == map["array_y" := Str("v")];
  }

  /** ... which read back as the list j. */
  /** An `array_<k>` column holding one comma-free item reads back as a
      one-item list under k. */
  lemma ReadArrayColumn(k: string, item: string)
    requires '_' !in k && ',' !in item
    ensures UnflattenStep(map["array_" + k := Str(item)], "array_" + k) == Ok(map[k := Arr([Str(item)])])
  {
    var n := "array_" + k;
    var f := map[n := Str(item)];
    SplitName(JoinedList(k));
    assert Split(item, ',') == [item] by {
      SplitPrefix(item, "", ',');
      assert item + "" == item;
      assert Split("", ',') == [""];
      var parts := Split(item, ',');
      assert parts[0] == item && parts[1..] == [];
      assert parts == [parts[0]] + parts[1..];
    }
    assert Operations.Strs([item]) == [Str(item)];
    ReadColumnText(f, n, k, item);
    assert f[k := Arr([Str(item)])] - {n} == map[k := Arr([Str(item)])] by {
      assert k != n;
    }
  }

  lemma ArrayColumnReadsAsList(order: Order)
    requires Enumerates(order)
    ensures ConvertDataForOnAfter(Obj(map["array_y" := Str("v")]), order) == Ok(Obj(map["y" := Arr([Str("v")])]))
  {
    var f := map["array_y" := Str("v")];
    assert f.Keys == {"array_y"};
    ReadArrayColumn("y", "v");
    assert "array_" + "y" == "array_y";
    UnflattenOneField(f, "array_y", order);
  }
}

=== FILE: helpers.dfy ===
/** The service helpers of src/helpers/index.js that hold logic of their own:
    the helper registry lookup, link and URL builders, the email-type lookup,
    the cached-list updates and the index name. Values read from the
    "configuration" resource (`HOST`, `API_HOST`) are parameters. */
module Helpers {
  import opened Strings
  import opened Values
  import opened Errors

  /** helper(key): the registered helper, or a thrown message when it is
      missing or falsy. */
  function Helper(helpers: map<string, Value>, key: string): (r: Result<Value>)
    ensures Truthy(Field(helpers, key)) <==> r.Ok?
    ensures r.Ok? ==> r.value == helpers[key]
    ensures r.Throw? ==> r.error == Str("No helper found with key - " + key)
  {
    if !Truthy(Field(helpers, key)) then Throw(Str("No helper found with key - " + key))
    else Ok(helpers[key])
  }

  // ----- links -----

  /** One query pair "key=value", the value as a template literal shows it. */
  function PairText(params: Record, key: string): (t: string)
    ensures |t| > |key| && t[..|key|] == key && t[|key|] == '='
  {
    key + "=" + ToStr(Field(params, key))
  }

  /** The pairs of the listed keys, in order. */
  function PairList(params: Record, order: seq<string>): (ps: seq<string>)
    ensures |ps| == |order|
    ensures forall i :: 0 <= i < |order| ==> ps[i] == PairText(params, order[i])
  {
    seq(|order|, i requires 0 <= i < |order| => PairText(params, order[i]))
  }

  /** The pairs as generateWebClientLink writes them: appended to one
      another with no separator. */
  function Pairs(params: Record, order: seq<string>): (q: string)
    ensures |order| > 0 <==> |q| > 0
    ensures |order| > 0 ==> StartsWith(q, PairText(params, order[0]))
  {
    if |order| == 0 then ""
    else PairText(params, order[0]) + Pairs(params, order[1..])
  }

  /** No key or shown value contains `c`. */
  predicate PairsFree(params: Record, order: seq<string>, c: char) {
    forall i :: 0 <= i < |order| ==> c !in order[i] && c !in ToStr(Field(params, order[i]))
  }

  /** "<host>/<path>", then "?" and the query when it is not empty. */
  function Link(hostRecord: Value, path: Value, query: string): (r: Result<string>)
    ensures IsNullish(hostRecord) <==> r.Throw?
    ensures r.Ok? ==> |r.value| >= |ToStr(Prop(hostRecord, "value"))| + 1
    ensures r.Ok? && query == "" ==> r.value == ToStr(Prop(hostRecord, "value")) + "/" + ToStr(path)
    ensures r.Ok? && query != "" ==> r.value == ToStr(Prop(hostRecord, "value")) + "/" + ToStr(path) + "?" + query
  {
    if IsNullish(hostRecord) then Throw(TypeErrorValue)
    else Ok(ToStr(Prop(hostRecord, "value")) + "/" + ToStr(path) + (if query != "" then "?" + query else ""))
  }

  /** generateWebClientLink(path, params) as written, given the `HOST`
      configuration record (destructured, so a nullish one throws): the
      pairs are run together. */
  function GenerateWebClientLinkAsWritten(hostRecord: Value, path: Value, params: Value, order: seq<string>): (r: Result<string>)
    requires IsEnumeration(order, Spread(params).Keys)
    ensures IsNullish(hostRecord) <==> r.Throw?
    ensures r.Ok? && |order| == 0 ==> r.value == ToStr(Prop(hostRecord, "value")) + "/" + ToStr(path)
    ensures r.Ok? && |order| > 0 ==>
      r.value == ToStr(Prop(hostRecord, "value")) + "/" + ToStr(path) + "?" + Pairs(Spread(params), order)
  {
    Link(hostRecord, path, Pairs(Spread(params), order))
  }

  /** Without a separator character in them the pairs form one piece: the
      run-together query holds no "&". */
  lemma {:induction false} RunTogetherPairsHaveNoSeparator(params: Record, order: seq<string>)
    requires PairsFree(params, order, '&')
    ensures '&' !in Pairs(params, order)
    decreases |order|
  {
    if |order| > 0 {
      assert PairsFree(params, order[1..], '&') by {
        forall i | 0 <= i < |order| - 1
          ensures '&' !in order[1..][i] && '&' !in ToStr(Field(params, order[1..][i]))
        {
          assert order[1..][i] == order[i + 1];
        }
      }
      RunTogetherPairsHaveNoSeparator(params, order[1..]);
    }
  }

  /** Two parameters {a: "1", b: "2"}: splitting the written query on "&"
      yields one piece, not the two pairs. */
  lemma TwoParamsReadAsOne()
    ensures var params := map["a" := Str("1"), "b" := Str("2")];
      var q := Pairs(params, ["a", "b"]);
      Split(q, '&') == [q] && PairList(params, ["a", "b"]) != [q]
  {
    var params := map["a" := Str("1"), "b" := Str("2")];
    var order := ["a", "b"];
    var q := Pairs(params, order);
    assert PairsFree(params, order, '&') by {
      assert ToStr(Field(params, "a")) == "1" && ToStr(Field(params, "b")) == "2";
    }
    RunTogetherPairsHaveNoSeparator(params, order);
    SplitPrefix(q, "", '&');
    assert q + "" == q;
    assert |PairList(params, order)| == 2;
  }

  /** generateWebClientLink(path, params) as evidently intended: the pairs
      joined with "&". */
  function GenerateWebClientLink(hostRecord: Value, path: Value, params: Value, order: seq<string>): (r: Result<string>)
    requires IsEnumeration(order, Spread(params).Keys)
    ensures IsNullish(hostRecord) <==> r.Throw?
    ensures r.Ok? && |order| == 0 ==> r.value == ToStr(Prop(hostRecord, "value")) + "/" + ToStr(path)
    ensures r.Ok? && |order| > 0 ==>
      r.value == ToStr(Prop(hostRecord, "value")) + "/" + ToStr(path) + "?" + Join(PairList(Spread(params), order), '&')
  {
    var pairs := PairList(Spread(params), order);
    assert |order| > 0 ==> |pairs[0]| > 0;
    assert |order| > 0 ==> Join(pairs, '&') != "" by {
      if |order| > 1 {
        assert Join(pairs, '&') == pairs[0] + ['&'] + Join(pairs[1..], '&');
      }
    }
    Link(hostRecord, path, Join(pairs, '&'))
  }

  /** The corrected query splits on "&" back into exactly the pairs, one per
      parameter, when no key or value holds an "&". */
  lemma QueryRecoversPairs(params: Record, order: seq<string>)
    requires |order| > 0 && PairsFree(params, order, '&')
    ensures Split(Join(PairList(params, order), '&'), '&') == PairList(params, order)
  {
    var pairs := PairList(params, order);
    forall i | 0 <= i < |pairs| ensures '&' !in pairs[i] {
      assert pairs[i] == order[i] + "=" + ToStr(Field(params, order[i]));
    }
    SplitJoin(pairs, '&');
  }

  /** getResourceUrl(resourceId), given the `API_HOST` configuration record. */
  function GetResourceUrl(hostRecord: Value, apiPrefix: Value, resourceId: Value): (r: Result<string>)
    ensures IsNullish(hostRecord) <==> r.Throw?
    ensures r.Ok? ==> r.value == ToStr(Prop(hostRecord, "value")) + "/" + ToStr(apiPrefix) + "/storage/download/" + ToStr(resourceId)
  {
    if IsNullish(hostRecord) then Throw(TypeErrorValue)
    else Ok(ToStr(Prop(hostRecord, "value")) + "/" + ToStr(apiPrefix) + "/storage/download/" + ToStr(resourceId))
  }

  // ----- email types -----

  /** getEmailConfig(type) as written: the code's email types overlaid by
      the server-config entry for ("email", "types") itself, not by its
      `value`, so server-defined types are never found. */
  function GetEmailConfigAsWritten(codeTypes: Value, serverEntry: Value, emailType: string): (r: Value)
    ensures Truthy(Field(Spread(serverEntry), emailType)) ==> r == Spread(serverEntry)[emailType]
    ensures !Truthy(Field(Spread(serverEntry), emailType)) && emailType !in Spread(serverEntry) ==> r == Or(Field(Spread(codeTypes), emailType), Null)
  {
    Or(Field(Spread(codeTypes) + Spread(serverEntry), emailType), Null)
  }

  /** A server-config entry defining a "welcome" type beside code types that
      do not: the as-written lookup answers null. */
  lemma ServerEmailTypesIgnored()
    ensures var entry := Obj(map["package" := Str("email"), "key" := Str("types"),
                                 "value" := Obj(map["welcome" := Str("server template")])]);
      GetEmailConfigAsWritten(Obj(map[]), entry, "welcome") == Null
  {
  }

  /** getEmailConfig(type) as evidently intended: the server entry's `value`
      overlays the code's email types, and the named type or null comes back. */
  function GetEmailConfig(codeTypes: Value, serverEntry: Value, emailType: string): (r: Value)
    ensures var server := Spread(Prop(serverEntry, "value"));
      && (emailType in server ==> r == Or(server[emailType], Null))
      && (emailType !in server ==> r == Or(Field(Spread(codeTypes), emailType), Null))
      && (!Truthy(r) ==> r == Null)
  {
    Or(Field(Spread(codeTypes) + Spread(Prop(serverEntry, "value")), emailType), Null)
  }

  /** The corrected lookup finds a type the server defines. */
  lemma ServerEmailTypesFound(codeTypes: Value, types: Record, emailType: string)
    requires emailType in types && Truthy(types[emailType])
    ensures GetEmailConfig(codeTypes, Obj(map["package" := Str("email"), "key" := Str("types"), "value" := Obj(types)]), emailType)
      == types[emailType]
  {
  }

  // ----- cached lists -----

  /** addInCache(obj): the cached list with obj appended, starting from []
      when nothing is cached; a cached non-list has no `push`. */
  function AddInCache(cached: Value, obj: Value): (r: Result<Value>)
    ensures !Truthy(cached) ==> r == Ok(Arr([obj]))
    ensures cached.Arr? ==>
      && r.Ok? && r.value.Arr? && |r.value.items| == |cached.items| + 1
      && r.value.items[..|cached.items|] == cached.items && r.value.items[|cached.items|] == obj
    ensures Truthy(cached) && !cached.Arr? ==> r == Throw(TypeErrorValue)
  {
    var data := Or(cached, Arr([]));
    assert !Truthy(cached) ==> data.items + [obj] == [obj];
    if !data.Arr? then Throw(TypeErrorValue) else Ok(Arr(data.items + [obj]))
  }

  /** The list with every item whose `key` is strictly equal to obj's
      replaced by obj. */
  function ReplaceByKey(items: seq<Value>, obj: Value): (r: Result<seq<Value>>)
    ensures r.Ok? ==> |r.value| == |items|
    ensures r.Ok? ==> forall i :: 0 <= i < |items| ==>
      r.value[i] == (if StrictEq(Prop(items[i], "key"), Prop(obj, "key")) then obj else items[i])
    ensures r.Throw? <==> (exists i :: 0 <= i < |items| && IsNullish(items[i])) || (|items| > 0 && IsNullish(obj))
    decreases |items|
  {
    if |items| == 0 then Ok([])
    else if IsNullish(items[0]) || IsNullish(obj) then Throw(TypeErrorValue)
    else
      var rest :- ReplaceByKey(items[1..], obj);
      assert forall i :: 1 <= i < |items| ==> items[i] == items[1..][i - 1];
      Ok([if StrictEq(Prop(items[0], "key"), Prop(obj, "key")) then obj else items[0]] + rest)
  }

  /** updateInCache(obj): the cached list, or [], with matching items
      replaced; a cached non-list has no `find`. */
  function UpdateInCache(cached: Value, obj: Value): (r: Result<Value>)
    ensures !Truthy(cached) ==> r == Ok(Arr([]))
    ensures Truthy(cached) && !cached.Arr? ==> r == Throw(TypeErrorValue)
    ensures cached.Arr? && r.Ok? ==> r.value.Arr? && |r.value.items| == |cached.items|
  {
    var data := Or(cached, Arr([]));
    if !data.Arr? then Throw(TypeErrorValue)
    else
      var items :- ReplaceByKey(data.items, obj);
      Ok(Arr(items))
  }

  /** Adding then updating with the same record leaves one copy of it at the
      end and every other record as it was, unless its key matches. */
  lemma AddThenUpdate(items: seq<Value>, obj: Value)
    requires !IsNullish(obj) && forall i :: 0 <= i < |items| ==> !IsNullish(items[i])
    ensures var added := AddInCache(Arr(items), obj).value;
      var updated := UpdateInCache(added, obj);
      && updated.Ok? && updated.value.Arr?
      && |updated.value.items| == |items| + 1
      && updated.value.items[|items|] == obj
      && forall i :: 0 <= i < |items| && !StrictEq(Prop(items[i], "key"), Prop(obj, "key")) ==> updated.value.items[i] == items[i]
  {
    var added := items + [obj];
    assert forall i :: 0 <= i < |added| ==> !IsNullish(added[i]);
    assert !(exists i :: 0 <= i < |added| && IsNullish(added[i]));
    var r := ReplaceByKey(added, obj);
    assert r.Ok?;
    assert r.value[|items|] == obj;
  }

  /** getIndexName(key): the configured prefix, "" by default, before the key. */
  function GetIndexName(config: Value, key: string): (r: string)
    ensures !Truthy(Prop(config, "searchIndexer")) ==> r == key
    ensures Prop(Prop(config, "searchIndexer"), "indexPrefix") == Str("") ==> r == key
    ensures Prop(Prop(config, "searchIndexer"), "indexPrefix").Str? ==> r == Prop(Prop(config, "searchIndexer"), "indexPrefix").s + key
  {
    var searchIndexer := Or(Prop(config, "searchIndexer"), Obj(map[]));
    var prefix := Or(Prop(searchIndexer, "indexPrefix"), Str(""));
    ToStr(prefix) + key
  }
}

=== FILE: index_bootstrap.dfy ===
/** src/intitialize-indexes.js and the index helpers of src/index.js: at
    start-up every definition with an `indexingConfig` has its search index
    filled, from its own `populateIndex` or from a full read of the resource,
    in ascending `indexingConfig.order`. */
module IndexBootstrap {
  import opened Strings
  import opened Values
  import opened Errors
  import opened Definitions
  import MemoryIndex
  import IndexerFacade

  /** An entry of the definition list src/index.js builds: the resource key
      as `path`, and the definition's indexing configuration. */
  datatype Api = Api(path: string, indexing: Indexing)

  /** What the bootstrap reads from the server: whether a search indexer is
      configured, its index prefix, and `this.service(path).find({all: true})`
      for each resource. */
  datatype Setup = Setup(hasIndexer: bool, indexPrefix: string, findAll: string -> Result<Value>)

  // ----- planning -----

  /** The definitions with a truthy `indexingConfig`, in list order. */
  function Indexed(apis: seq<Api>): (r: seq<Api>)
    ensures forall a :: a in r <==> a in apis && !a.indexing.NoIndexing?
    ensures |r| <= |apis|
  {
    if |apis| == 0 then []
    else if apis[0].indexing.NoIndexing? then Indexed(apis[1..])
    else [apis[0]] + Indexed(apis[1..])
  }

  /** `indexingConfig.order || 1`. A function has no `order` property.
      Only a numeric `order` is kept: a truthy string such as "2", which the
      comparator's subtraction would coerce to a number, is read as 1. */
  function OrderOf(a: Api): int {
    match a.indexing
    case Static(c) => if Prop(c.plain, "order").Num? && Prop(c.plain, "order").n != 0 then Prop(c.plain, "order").n else 1
    case _ => 1
  }

  /** No element orders before its predecessor. */
  predicate Ascending(s: seq<Api>) {
    forall i, j :: 0 <= i < j < |s| ==> OrderOf(s[i]) <= OrderOf(s[j])
  }

  /** The elements of s with order k, in order. */
  function WithOrder(s: seq<Api>, k: int): (r: seq<Api>)
    ensures forall a :: a in r <==> a in s && OrderOf(a) == k
  {
    if |s| == 0 then []
    else if OrderOf(s[0]) == k then [s[0]] + WithOrder(s[1..], k)
    else WithOrder(s[1..], k)
  }

  /** Place a after every element that does not order after it. */
  function Insert(a: Api, s: seq<Api>): (r: seq<Api>)
    ensures multiset(r) == multiset(s) + multiset{a}
  {
    if |s| == 0 then [a]
    else if OrderOf(s[0]) > OrderOf(a) then [a] + s
    else
      assert s == [s[0]] + s[1..];
      [s[0]] + Insert(a, s[1..])
  }

  /** `Array.prototype.sort` with `(a, b) => order(a) - order(b)`, which is
      stable: insertion of each element in turn. */
  function SortByOrder(s: seq<Api>): (r: seq<Api>)
    ensures multiset(r) == multiset(s)
  {
    if |s| == 0 then []
    else
      assert s == s[..|s| - 1] + [s[|s| - 1]];
      Insert(s[|s| - 1], SortByOrder(s[..|s| - 1]))
  }

  lemma {:induction false} InsertAscending(a: Api, s: seq<Api>)
    requires Ascending(s)
    ensures Ascending(Insert(a, s))
    decreases |s|
  {
    if |s| == 0 {
    } else if OrderOf(s[0]) > OrderOf(a) {
      forall x | x in s
        ensures OrderOf(a) <= OrderOf(x)
      {
        var k :| 0 <= k < |s| && s[k] == x;
        assert k == 0 || OrderOf(s[0]) <= OrderOf(s[k]);
      }
      ConsAscending(a, s);
    } else {
      AscendingTail(s);
      InsertAscending(a, s[1..]);
      var rest := Insert(a, s[1..]);
      InsertMembers(a, s[1..]);
      forall x | x in rest
        ensures OrderOf(s[0]) <= OrderOf(x)
      {
        if x != a {
          var k :| 0 <= k < |s[1..]| && s[1..][k] == x;
          assert s[k + 1] == x;
        }
      }
      ConsAscending(s[0], rest);
    }
  }

  /** An element no later than any of an ascending list may go in front. */
  lemma ConsAscending(a: Api, s: seq<Api>)
    requires Ascending(s) && forall x :: x in s ==> OrderOf(a) <= OrderOf(x)
    ensures Ascending([a] + s)
  {
    var r := [a] + s;
    forall i, j | 0 <= i < j < |r|
      ensures OrderOf(r[i]) <= OrderOf(r[j])
    {
      assert r[j] == s[j - 1];
      if i > 0 {
        assert r[i] == s[i - 1];
      }
    }
  }

  lemma AscendingTail(s: seq<Api>)
    requires Ascending(s) && |s| > 0
    ensures Ascending(s[1..])
  {
    forall i, j | 0 <= i < j < |s| - 1
      ensures OrderOf(s[1..][i]) <= OrderOf(s[1..][j])
    {
      assert s[1..][i] == s[i + 1] && s[1..][j] == s[j + 1];
    }
  }

  /** Insertion adds a and nothing else. */
  lemma {:induction false} InsertMembers(a: Api, s: seq<Api>)
    ensures forall x :: x in Insert(a, s) ==> x == a || x in s
    decreases |s|
  {
    if |s| > 0 && OrderOf(s[0]) <= OrderOf(a) {
      InsertMembers(a, s[1..]);
      assert forall x :: x in s[1..] ==> x in s;
    }
  }

  /** In an ascending list, a lands after every element of its own order. */
  lemma {:induction false} InsertKeepsTies(a: Api, s: seq<Api>, k: int)
    requires Ascending(s)
    ensures WithOrder(Insert(a, s), k) == WithOrder(s, k) + (if OrderOf(a) == k then [a] else [])
    decreases |s|
  {
    if |s| == 0 {
      assert WithOrder([a], k) == (if OrderOf(a) == k then [a] else []) by {
        assert [a][1..] == [];
      }
    } else if OrderOf(s[0]) > OrderOf(a) {
      var r := [a] + s;
      assert r[1..] == s;
      if OrderOf(a) == k {
        // every element of s orders after a, so none has order k
        assert WithOrder(s, k) == [] by {
          NoneWithOrder(s, k);
        }
      }
    } else {
      InsertKeepsTies(a, s[1..], k);
      var r := [s[0]] + Insert(a, s[1..]);
      assert r[1..] == Insert(a, s[1..]);
    }
  }

  /** In an ascending list starting above k, nothing has order k. */
  lemma {:induction false} NoneWithOrder(s: seq<Api>, k: int)
    requires Ascending(s) && |s| > 0 && OrderOf(s[0]) > k
    ensures WithOrder(s, k) == []
    decreases |s|
  {
    if |s| > 1 {
      assert OrderOf(s[0]) <= OrderOf(s[1]);
      assert Ascending(s[1..]) by {
        forall i, j | 0 <= i < j < |s[1..]|
          ensures OrderOf(s[1..][i]) <= OrderOf(s[1..][j])
        {
          assert s[1..][i] == s[i + 1] && s[1..][j] == s[j + 1];
        }
      }
      NoneWithOrder(s[1..], k);
    }
  }

  lemma {:induction false} WithOrderAppend(s: seq<Api>, a: Api, k: int)
    ensures WithOrder(s + [a], k) == WithOrder(s, k) + (if OrderOf(a) == k then [a] else [])
    decreases |s|
  {
    if |s| == 0 {
      assert s + [a] == [a];
      assert [a][1..] == [];
    } else {
      assert (s + [a])[1..] == s[1..] + [a];
      WithOrderAppend(s[1..], a, k);
    }
  }

  /** The sort orders ascending and keeps list order among equal orders. */
  lemma {:induction false} SortIsStable(s: seq<Api>)
    ensures Ascending(SortByOrder(s))
    ensures forall k :: WithOrder(SortByOrder(s), k) == WithOrder(s, k)
    decreases |s|
  {
    if |s| > 0 {
      var init := s[..|s| - 1];
      var last := s[|s| - 1];
      SortIsStable(init);
      InsertAscending(last, SortByOrder(init));
      assert s == init + [last];
      forall k
        ensures WithOrder(SortByOrder(s), k) == WithOrder(s, k)
      {
        StableStep(init, last, k);
      }
    }
  }

  /** One insertion keeps the ties of order k in list order. */
  lemma StableStep(init: seq<Api>, last: Api, k: int)
    requires Ascending(SortByOrder(init))
    requires WithOrder(SortByOrder(init), k) == WithOrder(init, k)
    ensures WithOrder(SortByOrder(init + [last]), k) == WithOrder(init + [last], k)
  {
    var s := init + [last];
    assert s[..|s| - 1] == init && s[|s| - 1] == last;
    assert SortByOrder(s) == Insert(last, SortByOrder(init));
    InsertKeepsTies(last, SortByOrder(init), k);
    WithOrderAppend(init, last, k);
  }

  /** The definitions the bootstrap indexes, in the order it takes them. */
  function Plan(apis: seq<Api>): (r: seq<Api>)
    ensures multiset(r) == multiset(Indexed(apis))
    ensures Ascending(r)
    ensures forall k :: WithOrder(r, k) == WithOrder(Indexed(apis), k)
  {
    SortIsStable(Indexed(apis));
    SortByOrder(Indexed(apis))
  }

  // ----- building -----

  /** The index a resource is built into. */
  function IndexNameOf(s: Setup, a: Api): string {
    s.indexPrefix + a.path
  }

  /** The configuration the bootstrap uses: a function is called with no
      arguments. */
  function ConfigFor(a: Api): (r: Result<IndexConfig>)
    requires !a.indexing.NoIndexing?
    ensures a.indexing.Static? ==> r == Ok(a.indexing.config)
  {
    match a.indexing
    case Static(c) => Ok(c)
    case Dynamic(f) => f(Undefined, None)
  }

  /** The documents for a resource: `populateIndex(config)` when the config
      has one, else the resource's full find; then `dataFormatter`. */
  function Content(s: Setup, a: Api, c: IndexConfig): (r: Result<Value>)
    ensures c.populateIndex.Some? && c.dataFormatter.None? ==> r == Ok(c.populateIndex.value(c.plain))
    ensures c.populateIndex.None? && c.dataFormatter.None? ==> r == s.findAll(a.path)
    ensures c.dataFormatter.Some? && r.Ok? ==> exists raw :: r.value == c.dataFormatter.value(raw)
  {
    var raw :- if c.populateIndex.Some? then Ok(c.populateIndex.value(c.plain)) else s.findAll(a.path);
    Ok(if c.dataFormatter.Some? then c.dataFormatter.value(raw) else raw)
  }

  /** One resource: nothing without a search indexer; otherwise its content,
      whose `length` is read (so it must not be nullish), put into its index. */
  function BuildOne(e: MemoryIndex.Engine, s: Setup, a: Api): (r: Result<MemoryIndex.Engine>)
    requires !a.indexing.NoIndexing?
    ensures !s.hasIndexer ==> r == Ok(e)
    ensures r.Ok? ==> r.value.Keys == e.Keys
    ensures r.Ok? ==> forall n :: n in e && n != IndexNameOf(s, a) ==> r.value[n] == e[n]
  {
    if !s.hasIndexer then Ok(e)
    else
      var c :- ConfigFor(a);
      var content :- Content(s, a, c);
      if IsNullish(content) then Throw(TypeErrorValue)
      else MemoryIndex.BuildIndex(e, IndexNameOf(s, a), content)
  }

  /** Every planned resource in turn; the first failure rejects the whole. */
  function BuildAll(e: MemoryIndex.Engine, s: Setup, plan: seq<Api>): (r: Result<MemoryIndex.Engine>)
    requires forall a :: a in plan ==> !a.indexing.NoIndexing?
    ensures !s.hasIndexer ==> r == Ok(e)
    ensures r.Ok? ==> r.value.Keys == e.Keys
    ensures r.Ok? ==> forall n :: n in e && (forall a :: a in plan ==> n != IndexNameOf(s, a)) ==> r.value[n] == e[n]
    decreases |plan|
  {
    if |plan| == 0 then Ok(e)
    else
      var e1 :- BuildOne(e, s, plan[0]);
      assert forall a :: a in plan[1..] ==> a in plan;
      BuildAll(e1, s, plan[1..])
  }

  /** initializeIndexes(apiDefinitions). */
  function InitializeIndexes(e: MemoryIndex.Engine, s: Setup, apis: seq<Api>): (r: Result<MemoryIndex.Engine>)
    ensures !s.hasIndexer ==> r == Ok(e)
    ensures r.Ok? ==> r.value.Keys == e.Keys
    ensures r.Ok? ==> forall n :: n in e && (forall a :: a in apis && !a.indexing.NoIndexing? ==> n != IndexNameOf(s, a)) ==> r.value[n] == e[n]
  {
    var plan := Plan(apis);
    assert forall a :: a in plan ==> a in Indexed(apis) by {
      forall a | a in plan ensures a in Indexed(apis) {
        assert a in multiset(plan);
      }
    }
    BuildAll(e, s, plan)
  }

  /** A resource that brings its own `populateIndex` never reads its store:
      the outcome does not depend on the full-find oracle. */
  lemma PopulateIndexBypassesFind(e: MemoryIndex.Engine, s: Setup, a: Api, other: string -> Result<Value>)
    requires a.indexing.Static? && a.indexing.config.populateIndex.Some?
    ensures BuildOne(e, s, a) == BuildOne(e, s.(findAll := other), a)
  {
    var c := a.indexing.config;
    assert Content(s, a, c) == Content(s.(findAll := other), a, c);
  }

  /** Without `populateIndex` or `dataFormatter`, the resource's records are
      put into `indexPrefix + path`; a missing list fails with a TypeError. */
  lemma FindFeedsIndex(e: MemoryIndex.Engine, s: Setup, a: Api)
    requires s.hasIndexer && a.indexing.Static?
    requires a.indexing.config.populateIndex.None? && a.indexing.config.dataFormatter.None?
    ensures s.findAll(a.path).Ok? && s.findAll(a.path).value.Arr? ==>
      BuildOne(e, s, a) == MemoryIndex.PutAll(e, s.indexPrefix + a.path, s.findAll(a.path).value.items)
    ensures s.findAll(a.path).Ok? && IsNullish(s.findAll(a.path).value) ==> BuildOne(e, s, a) == Throw(TypeErrorValue)
    ensures s.findAll(a.path).Throw? ==> BuildOne(e, s, a) == Throw(s.findAll(a.path).error)
  {
  }

  // ----- src/index.js -----

  /** initializeMultipleIndexes(apis): rebuild the definitions whose path
      `apis.indexOf` finds. A list compares elements strictly; a string
      searches for the path as a substring. Answers None (undefined) when
      `apis` is empty, has no `indexOf`, or selects nothing. */
  function Selected(defs: seq<Api>, apis: Value): (r: seq<Api>)
    ensures forall a :: a in r ==> a in defs
    ensures apis.Arr? ==> forall a :: a in r <==> a in defs && Str(a.path) in apis.items
    ensures apis.Str? ==> forall a :: a in r <==> a in defs && Contains(apis.s, a.path)
  {
    if |defs| == 0 then []
    else
      var hit := match apis
        case Arr(items) => Str(defs[0].path) in items
        case Str(t) => Contains(t, defs[0].path)
        case _ => false;
      (if hit then [defs[0]] else []) + Selected(defs[1..], apis)
  }

  function InitializeMultipleIndexes(e: MemoryIndex.Engine, s: Setup, defs: seq<Api>, apis: Value): (r: Option<Result<MemoryIndex.Engine>>)
    ensures !(apis.Arr? || apis.Str?) ==> r.None?
    ensures apis == Arr([]) || apis == Str("") ==> r.None?
    ensures r.Some? ==> r.value == InitializeIndexes(e, s, Selected(defs, apis)) && |Selected(defs, apis)| > 0
    ensures ((apis.Arr? && |apis.items| > 0) || (apis.Str? && |apis.s| > 0)) && |Selected(defs, apis)| > 0 ==> r.Some?
  {
    var hasIndexOf := apis.Arr? || apis.Str?;
    var length := match apis case Arr(items) => |items| case Str(t) => |t| case _ => 0;
    if hasIndexOf && length > 0 then
      var chosen := Selected(defs, apis);
      if |chosen| == 0 then None else Some(InitializeIndexes(e, s, chosen))
    else None
  }

  /** A rebuild touches only the indexes of the selected resources. */
  lemma RebuildTouchesOnlySelected(e: MemoryIndex.Engine, s: Setup, defs: seq<Api>, names: seq<Value>, n: string)
    requires InitializeMultipleIndexes(e, s, defs, Arr(names)).Some?
    requires InitializeMultipleIndexes(e, s, defs, Arr(names)).value.Ok?
    requires n in e && forall a :: a in defs && Str(a.path) in names ==> n != IndexNameOf(s, a)
    ensures InitializeMultipleIndexes(e, s, defs, Arr(names)).value.value[n] == e[n]
  {
  }

  /** createSearchIndexer(config): no indexer without `searchIndexer`;
      otherwise the facade over its adapter, which may not exist. */
  function CreateSearchIndexer(config: Value, available: set<string>): (r: Result<Option<IndexerFacade.Facade>>)
    ensures !Truthy(Prop(config, "searchIndexer")) ==> r == Ok(None)
    ensures Truthy(Prop(config, "searchIndexer")) ==> (r.Ok? <==> IndexerFacade.SetAdapter(Prop(config, "searchIndexer"), available).Ok?)
    ensures r.Ok? && r.value.Some? ==> r.value.value.adapterConfig == Prop(Prop(config, "searchIndexer"), "config")
  {
    var searchIndexer := Prop(config, "searchIndexer");
    if !Truthy(searchIndexer) then Ok(None)
    else
      var f :- IndexerFacade.SetAdapter(searchIndexer, available);
      Ok(Some(f))
  }
}

=== FILE: indexer_facade.dfy ===
/** The search-indexer facade (src/utils/search-indexer/index.js): every
    operation forwards to the configured adapter when the adapter has the
    capability the facade tests, and yields null otherwise. */
module IndexerFacade {
  import opened Values
  import opened Errors

  datatype Capability =
    | CreateIndex | RemoveIndex | GetIndex | Put | Get | Update | Search | Remove | BuildIndex | GetTotalCount

  /** What a facade call does. */
  datatype Dispatch = Forward(to: Capability) | NullResult | TypeErrorResult

  /** The capability the facade tests before calling `c`: `update` tests `put`
      and `buildIndex` tests `remove`; every other operation tests itself. */
  function Guard(c: Capability): (g: Capability)
    ensures c != Update && c != BuildIndex ==> g == c
  {
    match c
    case Update => Put
    case BuildIndex => Remove
    case _ => c
  }

  /** Forward when the guard holds; calling a capability the adapter lacks
      after a passing guard throws a TypeError. */
  function Call(adapter: set<Capability>, c: Capability): (d: Dispatch)
    ensures d == NullResult <==> Guard(c) !in adapter
    ensures d == Forward(c) <==> Guard(c) in adapter && c in adapter
    ensures d == TypeErrorResult <==> Guard(c) in adapter && c !in adapter
  {
    if Guard(c) !in adapter then NullResult
    else if c in adapter then Forward(c)
    else TypeErrorResult
  }

  /** The in-memory adapter has every capability, so nothing is ever dropped. */
  const MemoryCapabilities: set<Capability> :=
    {CreateIndex, RemoveIndex, GetIndex, Put, Get, Update, Search, Remove, BuildIndex, GetTotalCount}

  lemma MemoryForwardsEverything(c: Capability)
    ensures Call(MemoryCapabilities, c) == Forward(c)
  {
  }

  /** The guards are not the operations: an adapter with `update` but no `put`
      never updates, and one with `put` but no `update` throws. */
  lemma GuardMismatch()
    ensures Call({Update}, Update) == NullResult
    ensures Call({Put}, Update) == TypeErrorResult
    ensures Call({BuildIndex}, BuildIndex) == NullResult
    ensures Call({Remove}, BuildIndex) == TypeErrorResult
  {
  }

  /** The facade's configuration: the adapter name and the adapter's own
      settings, which it is constructed from. */
  datatype Facade = Facade(adapterName: Value, adapterConfig: Value)

  /** setAdapter: the adapter module is looked up by `config.adapter`; an
      unknown name is a thrown string. */
  function SetAdapter(config: Value, available: set<string>): (r: Result<Facade>)
    ensures r.Ok? <==> ToStr(Prop(config, "adapter")) in available
    ensures r.Ok? ==> r.value.adapterConfig == Prop(config, "config")
    ensures r.Throw? ==> r.error == Str("Search adapter with the name " + ToStr(Prop(config, "adapter")) + " not found")
  {
    var name := ToStr(Prop(config, "adapter"));
    if name in available then Ok(Facade(Prop(config, "adapter"), Prop(config, "config")))
    else Throw(Str("Search adapter with the name " + name + " not found"))
  }

  /** getAdapter: the configured name. */
  function GetAdapter(f: Facade): (r: Value)
  {
    f.adapterName
  }

  lemma GetAdapterAfterSet(config: Value, available: set<string>)
    requires SetAdapter(config, available).Ok?
    ensures GetAdapter(SetAdapter(config, available).value) == Prop(config, "adapter")
  {
  }
}

=== FILE: invoices.dfy ===
/** The invoice resource's own rules in src/api/definitions/invoice.js: the
    invoice number, the record a new invoice starts from, who may search
    invoices, manual payment marking and the public payment summary. */
module Invoices {
  import opened Strings
  import opened Values
  import opened Errors
  import opened Definitions
  import Jobs
  import CommonHelpers

  // ----- invoice number -----

  /** pad: prepend "0" until the text is at least `max` long. */
  function Pad(s: string, max: int): (r: string)
    ensures |r| == if |s| >= max then |s| else max
    ensures r[|r| - |s|..] == s
    ensures forall i :: 0 <= i < |r| - |s| ==> r[i] == '0'
    decreases max - |s|
  {
    if |s| < max then
      var t := "0" + s;
      var r := Pad(t, max);
      assert r[|r| - |s|..] == s by {
        assert r[|r| - |t|..] == t;
        assert t[1..] == s;
      }
      assert forall i :: 0 <= i < |r| - |s| ==> r[i] == '0' by {
        forall i | 0 <= i < |r| - |s|
          ensures r[i] == '0'
        {
          if i == |r| - |t| {
            assert r[i] == r[|r| - |t|..][0] == t[0];
          }
        }
      }
      r
    else s
  }

  /** The recursive pad and `padStart(max, "0")` agree. */
  lemma {:induction false} PadIsPadStart(s: string, max: int)
    ensures Pad(s, max) == PadStart(s, max)
    decreases max - |s|
  {
    if |s| < max {
      PadIsPadStart("0" + s, max);
      if |s| + 1 < max {
        assert Zeros(max - |s|) == "0" + Zeros(max - |s| - 1);
      }
    }
  }

  /** "INV" + the year + the next invoice counter padded to four digits;
      the counter reads as 0 when none is stored. The year comes from the
      clock, so it is a parameter. */
  function InvoiceId(year: nat, stored: Option<nat>): (r: string)
    ensures StartsWith(r, "INV")
    ensures |r| >= 3 + |NatToString(year)| + 4
  {
    var id := "INV" + NatToString(year) + Pad(NatToString(Jobs.NextNumber(stored)), 4);
    assert id[..3] == "INV";
    id
  }

  function Pow10(k: nat): (p: nat)
    ensures p >= 1
  {
    if k == 0 then 1 else 10 * Pow10(k - 1)
  }

  /** A number with k digits renders as exactly k characters. */
  lemma {:induction false} DigitCount(n: nat, k: nat)
    requires k >= 1 && (k == 1 || Pow10(k - 1) <= n) && n < Pow10(k)
    ensures |NatToString(n)| == k
    decreases k
  {
    if k > 1 {
      DigitCount(n / 10, k - 1);
    }
  }

  /** For a four-digit year, the id splits back into the year and the
      counter: "INV", four year digits, then at least four counter digits. */
  lemma InvoiceIdReadsBack(year: nat, stored: Option<nat>)
    requires 1000 <= year <= 9999
    ensures var id := InvoiceId(year, stored);
      && |id| >= 11
      && id[..3] == "INV"
      && (forall i :: 3 <= i < |id| ==> IsDigit(id[i]))
      && DecimalValue(id[3..7]) == year
      && DecimalValue(id[7..]) == Jobs.NextNumber(stored)
  {
    var y := NatToString(year);
    assert Pow10(3) == 1000 && Pow10(4) == 10000 by {
      assert Pow10(1) == 10 && Pow10(2) == 100;
    }
    DigitCount(year, 4);
    var n := Jobs.NextNumber(stored);
    var d := Pad(NatToString(n), 4);
    PadIsPadStart(NatToString(n), 4);
    Jobs.PaddedCounter(n, 4);
    DecimalOfNatToString(year);
    var id := InvoiceId(year, stored);
    assert id == "INV" + y + d;
    assert id[3..7] == y;
    assert id[7..] == d;
    forall i | 3 <= i < |id| ensures IsDigit(id[i]) {
      if i < 7 {
        assert id[i] == y[i - 3];
      } else {
        assert id[i] == d[i - 7];
      }
    }
  }

  // ----- the record a new invoice starts from -----

  /** create.onBefore: the body gets every field of the job named by its
      `key` (400 when that job cannot be read), then the invoice id, then
      the cost-summary fields, then the generation date. The cost summary
      is floating-point arithmetic over the job, so it is a parameter. */
  function InvoiceInput(input: Record, get: CommonHelpers.Lookup, year: nat, stored: Option<nat>,
                        costOf: Value -> Record, generatedDate: Value): (r: Result<Record>)
    ensures get(Field(input, "key")).Throw? ==> r == Throw(CommonHelpers.MissingKeyError(Field(input, "key"), "service"))
    ensures get(Field(input, "key")).Ok? ==> r.Ok?
  {
    var job :- CommonHelpers.CheckValidKeyInService(get, "service", Field(input, "key"));
    var withJob := input + Spread(Or(job, Obj(map[])));
    Ok((withJob["id" := Str(InvoiceId(year, stored))] + costOf(job))["generatedDate" := generatedDate])
  }

  /** Which value each field of the new invoice takes: the generation date,
      then the cost summary, then the id, then the job, then the body. */
  lemma InvoiceFieldPriority(input: Record, get: CommonHelpers.Lookup, year: nat, stored: Option<nat>,
                             costOf: Value -> Record, generatedDate: Value, k: string)
    requires get(Field(input, "key")).Ok? && get(Field(input, "key")).value.Obj?
    ensures var job := get(Field(input, "key")).value;
      var cost := costOf(job);
      var r := InvoiceInput(input, get, year, stored, costOf, generatedDate).value;
      && (k == "generatedDate" ==> r[k] == generatedDate)
      && (k != "generatedDate" && k in cost ==> r[k] == cost[k])
      && (k != "generatedDate" && k !in cost && k == "id" ==> r[k] == Str(InvoiceId(year, stored)))
      && (k != "generatedDate" && k !in cost && k != "id" && k in job.fields ==> r[k] == job.fields[k])
      && (k != "generatedDate" && k !in cost && k != "id" && k !in job.fields && k in input ==> r[k] == input[k])
      && (k in r <==> k in input || k in job.fields || k in cost || k == "id" || k == "generatedDate")
  {
  }

  // ----- who may search invoices -----

  const InvoicesMessage := "You only have access to your own invoices"

  /** The invoice search's preFilter: the job rule with INVOICE_READ and its
      own message, as a single optional filter. */
  function InvoiceFilter(req: Option<Request>, firstCustomer: Value -> Result<Value>): (r: Result<Option<Jobs.Filter>>)
    ensures Jobs.Refused(req, "INVOICE_READ") ==> r == Throw(StatusError(403, InvoicesMessage))
    ensures req.None? ==> r == Ok(None)
  {
    Jobs.AccessRule(req, firstCustomer, "INVOICE_READ", InvoicesMessage)
  }

  /** A user who holds both reading permissions or neither gets the same
      filtering from the invoice search as from the job search; only the
      refusal message differs. */
  lemma InvoiceRuleMirrorsJobs(req: Option<Request>, firstCustomer: Value -> Result<Value>)
    requires req.Some? ==> (!IsNullish(req.value.user) &&
      Jobs.Includes(Prop(req.value.user, "permissions"), Str("INVOICE_READ")) ==
      Jobs.Includes(Prop(req.value.user, "permissions"), Str("SERVICE_READ")))
    ensures Jobs.JobFilters(req, firstCustomer).Ok? <==> InvoiceFilter(req, firstCustomer).Ok?
    ensures InvoiceFilter(req, firstCustomer).Ok? ==>
      var f := InvoiceFilter(req, firstCustomer).value;
      Jobs.JobFilters(req, firstCustomer).value == if f.Some? then [f.value] else []
    ensures Jobs.Refused(req, "INVOICE_READ") <==> Jobs.Refused(req, "SERVICE_READ")
  {
  }

  // ----- payment -----

  /** The index's populate step: `paid` is whether a payment is recorded. */
  function WithPaid(invoice: Record): (r: Record)
    ensures r.Keys == invoice.Keys + {"paid"}
    ensures r["paid"] == Bool(Truthy(Field(invoice, "payment")))
    ensures forall k :: k in invoice && k != "paid" ==> r[k] == invoice[k]
  {
    invoice["paid" := Bool(Truthy(Field(invoice, "payment")))]
  }

  const ManualPayment: Value := Obj(map["status" := Str("Marked Manually by user")])

  /** markAsPaid: the update data sent for the stored invoice, if any; an
      invoice whose `paid` is truthy is left alone. Reading `paid` off a
      missing invoice throws. */
  function MarkAsPaid(invoice: Value): (r: Result<Option<Record>>)
    ensures IsNullish(invoice) ==> r == Throw(TypeErrorValue)
    ensures !IsNullish(invoice) ==> r.Ok? && (r.value.Some? <==> !Truthy(Prop(invoice, "paid")))
    ensures r.Ok? && r.value.Some? ==> r.value.value.Keys == {"payment"} && Truthy(r.value.value["payment"])
  {
    if IsNullish(invoice) then Throw(TypeErrorValue)
    else if Truthy(Prop(invoice, "paid")) then Ok(None)
    else Ok(Some(map["payment" := ManualPayment]))
  }

  /** Once the manual payment is merged into an unpaid invoice, the indexed
      copy reads as paid, so a second mark, which reads that copy through
      the invoice service's get, sends nothing. The stored record itself
      carries no `paid` flag: read straight from the store it would still
      look unpaid. */
  lemma MarkedInvoiceIndexesAsPaid(invoice: Record)
    requires !Truthy(Field(invoice, "paid"))
    ensures MarkAsPaid(Obj(invoice)).Ok? && MarkAsPaid(Obj(invoice)).value.Some?
    ensures var stored := invoice + MarkAsPaid(Obj(invoice)).value.value;
      && WithPaid(stored)["paid"] == Bool(true)
      && MarkAsPaid(Obj(WithPaid(stored))) == Ok(None)
      && MarkAsPaid(Obj(stored)) == MarkAsPaid(Obj(invoice))
  {
    var stored := invoice + map["payment" := ManualPayment];
    assert Field(stored, "payment") == ManualPayment;
    assert Field(stored, "paid") == Field(invoice, "paid");
  }

  /** The eight fields of paymentInfo. */
  const PaymentInfoKeys: set<string> :=
    {"id", "payment", "jobNumber", "key", "totalPayable", "customerName", "phoneNumber", "email"}

  /** paymentInfo: a fixed projection of the invoice; of the payment only
      its method is shown, and the customer key is shown as `phoneNumber`. */
  function PaymentInfo(invoice: Value): (r: Result<Value>)
    ensures IsNullish(invoice) ==> r == Throw(TypeErrorValue)
    ensures !IsNullish(invoice) ==> r.Ok? && r.value.Obj? && r.value.fields.Keys == PaymentInfoKeys
    ensures r.Ok? ==> Prop(r.value, "phoneNumber") == Prop(invoice, "customerKey")
    ensures r.Ok? && !Truthy(Prop(invoice, "payment")) ==> Prop(r.value, "payment") == Undefined
    ensures r.Ok? && Truthy(Prop(invoice, "payment")) ==>
      Prop(r.value, "payment") == Obj(map["method" := Prop(Prop(invoice, "payment"), "method")])
  {
    if IsNullish(invoice) then Throw(TypeErrorValue)
    else
      var payment := Prop(invoice, "payment");
      var copied := map[
        "id" := Prop(invoice, "id"),
        "jobNumber" := Prop(invoice, "jobNumber"),
        "key" := Prop(invoice, "key"),
        "totalPayable" := Prop(invoice, "totalPayable"),
        "customerName" := Prop(invoice, "customerName"),
        "email" := Prop(invoice, "email")];
      var shown := if Truthy(payment) then Obj(map["method" := Prop(payment, "method")]) else Undefined;
      var fields := copied["payment" := shown]["phoneNumber" := Prop(invoice, "customerKey")];
      assert fields["payment"] == shown;
      assert fields.Keys == PaymentInfoKeys;
      Ok(Obj(fields))
  }

  /** The other six fields are copied from the invoice as they are. */
  lemma PaymentInfoCopies(invoice: Value, k: string)
    requires !IsNullish(invoice) && k in PaymentInfoKeys - {"payment", "phoneNumber"}
    ensures Prop(PaymentInfo(invoice).value, k) == Prop(invoice, k)
  {
  }

  /** No part of the payment other than its method leaves through
      paymentInfo, and no invoice field outside the eight does either. */
  lemma PaymentInfoHidesTheRest(invoice: Value, k: string)
    requires !IsNullish(invoice) && k != "method"
    ensures Prop(Prop(PaymentInfo(invoice).value, "payment"), k) == Undefined
    ensures k !in PaymentInfoKeys ==> Prop(PaymentInfo(invoice).value, k) == Undefined
  {
  }
}

=== FILE: jobs.dfy ===
/** The job ("service") resource's own rules in src/api/definitions/service.js:
    who may see which jobs, who may edit one, which assignees are new, and
    the job-number format. */
module Jobs {
  import opened Strings
  import opened Values
  import opened Errors
  import opened Definitions

  // ----- list membership -----

  /** `list.indexOf(x) !== -1` on a value that must have an `indexOf`
      method: an array compares its elements with `===`, a string searches
      for `String(x)`, and anything else throws a TypeError. */
  function IndexOfFound(list: Value, x: Value): (r: Result<bool>)
    ensures list.Arr? ==> r == Ok(exists i :: 0 <= i < |list.items| && StrictEq(list.items[i], x))
    ensures list.Str? ==> r == Ok(Contains(list.s, ToStr(x)))
    ensures r.Ok? <==> list.Arr? || list.Str?
  {
    match list
    case Arr(items) => Ok(exists i :: 0 <= i < |items| && StrictEq(items[i], x))
    case Str(s) => Ok(Contains(s, ToStr(x)))
    case _ => Throw(TypeErrorValue)
  }

  /** `(list || []).indexOf(x) !== -1`: a falsy list has no members. */
  function Includes(list: Value, x: Value): (r: Result<bool>)
    ensures !Truthy(list) ==> r == Ok(false)
    ensures list.Arr? ==> (r == Ok(true) <==> exists i :: 0 <= i < |list.items| && StrictEq(list.items[i], x))
    ensures r.Throw? <==> Truthy(list) && !list.Arr? && !list.Str?
  {
    IndexOfFound(Or(list, Arr([])), x)
  }

  // ----- the two row filters -----

  /** customerFilter: the job belongs to the customer with that key. */
  function CustomerFilter(item: Value, key: Value): (r: Result<bool>)
    ensures IsNullish(item) ==> r == Throw(TypeErrorValue)
    ensures !IsNullish(item) ==> (r == Ok(true) <==> StrictEq(Prop(item, "customerKey"), key))
    ensures !IsNullish(item) ==> r.Ok?
  {
    if IsNullish(item) then Throw(TypeErrorValue)
    else Ok(StrictEq(Prop(item, "customerKey"), key))
  }

  /** engineerFilter: the user is one of the job's assignees; a job with no
      assignee list matches nobody. */
  function EngineerFilter(item: Value, uid: Value): (r: Result<bool>)
    ensures IsNullish(item) ==> r == Throw(TypeErrorValue)
    ensures !IsNullish(item) && !Truthy(Prop(item, "assignedTo")) ==> r == Ok(false)
    ensures !IsNullish(item) && Prop(item, "assignedTo").Arr? ==>
      (r == Ok(true) <==> exists i :: 0 <= i < |Prop(item, "assignedTo").items| && StrictEq(Prop(item, "assignedTo").items[i], uid))
  {
    if IsNullish(item) then Throw(TypeErrorValue)
    else Includes(Prop(item, "assignedTo"), uid)
  }

  /** One pushed filter, by the key or uid it closes over. */
  datatype Filter = Customer(key: Value) | Engineer(uid: Value)

  function Matches(f: Filter, item: Value): Result<bool> {
    match f
    case Customer(key) => CustomerFilter(item, key)
    case Engineer(uid) => EngineerFilter(item, uid)
  }

  /** The combined preFilter: `result = result && fn(item)` over the pushed
      filters, so a filter after the first rejection is never called. */
  function PreFilter(fs: seq<Filter>, item: Value): (r: Result<bool>)
    ensures r == Ok(true) <==> forall i :: 0 <= i < |fs| ==> Matches(fs[i], item) == Ok(true)
    ensures r == Ok(false) ==> exists i :: 0 <= i < |fs| && Matches(fs[i], item) == Ok(false)
    decreases |fs|
  {
    if |fs| == 0 then Ok(true)
    else
      var b :- Matches(fs[0], item);
      if !b then Ok(false)
      else
        var rest := PreFilter(fs[1..], item);
        assert forall i :: 1 <= i < |fs| ==> fs[i] == fs[1..][i - 1];
        rest
  }

  /** With nothing pushed, every job passes. */
  lemma EmptyPreFilterAcceptsAll(item: Value)
    ensures PreFilter([], item) == Ok(true)
  {
  }

  // ----- the access rule of the index search -----

  function Role(req: Request): Value {
    Prop(req.user, "role")
  }

  function Uid(req: Request): Value {
    Prop(req.user, "uid")
  }

  /** `const { key } = customer || {}`: the key of the first customer found. */
  function CustomerKey(customer: Value): Value {
    Prop(Or(customer, Obj(map[])), "key")
  }

  /** A request the rule refuses: a non-admin asking for every record
      without holding the reading permission. */
  predicate Refused(req: Option<Request>, permission: string) {
    && req.Some?
    && !IsNullish(req.value.user)
    && !StrictEq(Role(req.value), Str("admin"))
    && !IsNullish(req.value.query)
    && !Truthy(Prop(req.value.query, "current"))
    && Includes(Prop(req.value.user, "permissions"), Str(permission)) == Ok(false)
  }

  /** The access rule shared by the job and invoice searches. No request
      (an in-process call) and admins get no filter; a request for the
      caller's current records gets the customer filter (role "CUSTOMER",
      keyed by the first customer whose userUid is the caller's uid) or the
      engineer filter; a request for all records needs the permission.
      `firstCustomer` is the customer search, given the uid. */
  function AccessRule(req: Option<Request>, firstCustomer: Value -> Result<Value>,
                      permission: string, message: string): (r: Result<Option<Filter>>)
    ensures req.None? ==> r == Ok(None)
    ensures req.Some? && IsNullish(req.value.user) ==> r == Throw(TypeErrorValue)
    ensures req.Some? && !IsNullish(req.value.user) && StrictEq(Role(req.value), Str("admin")) ==> r == Ok(None)
    ensures Refused(req, permission) ==> r == Throw(StatusError(403, message))
    ensures r.Ok? && r.value.Some? ==>
      req.Some? && !StrictEq(Role(req.value), Str("admin")) && Truthy(Prop(req.value.query, "current"))
    ensures r.Ok? && r.value.Some? && r.value.value.Engineer? ==>
      r.value.value.uid == Uid(req.value) && !StrictEq(Role(req.value), Str("CUSTOMER"))
    ensures r.Ok? && r.value.Some? && r.value.value.Customer? ==>
      StrictEq(Role(req.value), Str("CUSTOMER")) && firstCustomer(Uid(req.value)).Ok? &&
      r.value.value.key == CustomerKey(firstCustomer(Uid(req.value)).value)
    ensures r == Ok(None) ==>
      req.None? || StrictEq(Role(req.value), Str("admin")) ||
      Includes(Prop(req.value.user, "permissions"), Str(permission)) == Ok(true)
  {
    if req.None? then Ok(None)
    else
      var q := req.value;
      if IsNullish(q.user) then Throw(TypeErrorValue)
      else if StrictEq(Role(q), Str("admin")) then Ok(None)
      else if IsNullish(q.query) then Throw(TypeErrorValue)
      else if Truthy(Prop(q.query, "current")) then
        if StrictEq(Role(q), Str("CUSTOMER")) then
          var customer :- firstCustomer(Uid(q));
          Ok(Some(Customer(CustomerKey(customer))))
        else Ok(Some(Engineer(Uid(q))))
      else
        var held :- Includes(Prop(q.user, "permissions"), Str(permission));
        if held then Ok(None) else Throw(StatusError(403, message))
  }

  const JobsMessage := "You only have access to your own jobs"

  /** The job search's list of pushed filters. */
  function JobFilters(req: Option<Request>, firstCustomer: Value -> Result<Value>): (r: Result<seq<Filter>>)
    ensures r.Ok? ==> |r.value| <= 1
    ensures r.Ok? <==> AccessRule(req, firstCustomer, "SERVICE_READ", JobsMessage).Ok?
  {
    var rule :- AccessRule(req, firstCustomer, "SERVICE_READ", JobsMessage);
    Ok(if rule.Some? then [rule.value] else [])
  }

  /** An engineer asking for current jobs sees exactly the jobs whose
      assignee list holds their uid. */
  lemma EngineerSeesAssignedJobs(req: Request, firstCustomer: Value -> Result<Value>, item: Value)
    requires !IsNullish(req.user) && !IsNullish(req.query) && Truthy(Prop(req.query, "current"))
    requires !StrictEq(Role(req), Str("admin")) && !StrictEq(Role(req), Str("CUSTOMER"))
    requires item.Obj? && Prop(item, "assignedTo").Arr?
    ensures JobFilters(Some(req), firstCustomer).Ok?
    ensures var fs := JobFilters(Some(req), firstCustomer).value;
      PreFilter(fs, item) == Ok(true) <==>
      exists i :: 0 <= i < |Prop(item, "assignedTo").items| && StrictEq(Prop(item, "assignedTo").items[i], Uid(req))
  {
    assert JobFilters(Some(req), firstCustomer).value == [Engineer(Uid(req))];
  }

  /** A customer asking for current jobs sees exactly the jobs of the
      customer record the search found for them. */
  lemma CustomerSeesOwnJobs(req: Request, firstCustomer: Value -> Result<Value>, item: Value)
    requires !IsNullish(req.user) && !IsNullish(req.query) && Truthy(Prop(req.query, "current"))
    requires StrictEq(Role(req), Str("CUSTOMER")) && firstCustomer(Uid(req)).Ok?
    requires item.Obj?
    ensures JobFilters(Some(req), firstCustomer).Ok?
    ensures var fs := JobFilters(Some(req), firstCustomer).value;
      PreFilter(fs, item) == Ok(true) <==>
      StrictEq(Prop(item, "customerKey"), CustomerKey(firstCustomer(Uid(req)).value))
  {
    assert Role(req) == Str("CUSTOMER");
    assert JobFilters(Some(req), firstCustomer).value == [Customer(CustomerKey(firstCustomer(Uid(req)).value))];
  }

  // ----- editing a job -----

  const EditMessage := "You don't have access to edit this job"

  /** checkJobAccess: admins and holders of the permission pass; anyone else
      must be among the assignees of the job `get` returns. The user's
      permission list is read without a fallback, so a user without one
      makes the check throw. */
  function CheckJobAccess(user: Value, id: Value, permission: string, get: Value -> Result<Value>): (r: Outcome)
    ensures IsNullish(user) ==> r == Fail(TypeErrorValue)
    ensures !IsNullish(user) && StrictEq(Prop(user, "role"), Str("admin")) ==> r == Pass
    ensures !IsNullish(user) && IndexOfFound(Prop(user, "permissions"), Str(permission)) == Ok(true) ==> r == Pass
    ensures !IsNullish(user) && !StrictEq(Prop(user, "role"), Str("admin")) && IsNullish(Prop(user, "permissions")) ==>
      r == Fail(TypeErrorValue)
    ensures r == Pass ==>
      !IsNullish(user) &&
      (StrictEq(Prop(user, "role"), Str("admin")) ||
       IndexOfFound(Prop(user, "permissions"), Str(permission)) == Ok(true) ||
       (get(id).Ok? && !IsNullish(get(id).value) && Includes(Prop(get(id).value, "assignedTo"), Prop(user, "uid")) == Ok(true)))
  {
    if IsNullish(user) then Fail(TypeErrorValue)
    else if StrictEq(Prop(user, "role"), Str("admin")) then Pass
    else
      match IndexOfFound(Prop(user, "permissions"), Str(permission))
      case Throw(e) => Fail(e)
      case Ok(true) => Pass
      case Ok(false) =>
        match get(id)
        case Throw(e) => Fail(e)
        case Ok(job) =>
          if IsNullish(job) then Fail(TypeErrorValue)
          else
            match Includes(Prop(job, "assignedTo"), Prop(user, "uid"))
            case Throw(e) => Fail(e)
            case Ok(listed) => if listed then Pass else Fail(StatusError(403, EditMessage))
  }

  /** A user without the permission and not assigned to an existing job is
      refused with 403; an assigned one passes. */
  lemma EditNeedsAssignment(user: Value, id: Value, permission: string, get: Value -> Result<Value>)
    requires user.Obj? && !StrictEq(Prop(user, "role"), Str("admin"))
    requires IndexOfFound(Prop(user, "permissions"), Str(permission)) == Ok(false)
    requires get(id).Ok? && get(id).value.Obj?
    requires !Truthy(Prop(get(id).value, "assignedTo")) || Prop(get(id).value, "assignedTo").Arr?
    ensures var list := Or(Prop(get(id).value, "assignedTo"), Arr([])).items;
      CheckJobAccess(user, id, permission, get) ==
      if exists i :: 0 <= i < |list| && StrictEq(list[i], Prop(user, "uid"))
      then Pass else Fail(StatusError(403, EditMessage))
  {
  }

  // ----- newly assigned users -----

  /** The users whose uid the job's list does not already hold, in order;
      destructuring a null user throws. */
  function NotYetAssigned(listed: Value, users: seq<Value>): (r: Result<seq<Value>>)
    ensures r.Ok? ==> |r.value| <= |users|
    ensures r.Ok? ==> forall x :: x in r.value ==> x in users && IndexOfFound(listed, Prop(x, "uid")) == Ok(false)
    ensures r.Ok? ==> forall i :: 0 <= i < |users| && IndexOfFound(listed, Prop(users[i], "uid")) == Ok(false) ==> users[i] in r.value
    ensures r.Ok? <==> forall i :: 0 <= i < |users| ==> !IsNullish(users[i]) && IndexOfFound(listed, Prop(users[i], "uid")).Ok?
    decreases |users|
  {
    if |users| == 0 then Ok([])
    else
      var u := users[0];
      if IsNullish(u) then Throw(TypeErrorValue)
      else
        var held :- IndexOfFound(listed, Prop(u, "uid"));
        var rest :- NotYetAssigned(listed, users[1..]);
        assert forall i :: 1 <= i < |users| ==> users[i] == users[1..][i - 1];
        Ok(if held then rest else [u] + rest)
  }

  /** The update hook's `req.assignedTo`: of the users just assigned, those
      the stored job did not list yet. */
  function NewlyAssigned(job: Value, users: seq<Value>): (r: Result<seq<Value>>)
    ensures IsNullish(job) ==> r == Throw(TypeErrorValue)
    ensures !IsNullish(job) ==> r == NotYetAssigned(Or(Prop(job, "assignedTo"), Arr([])), users)
  {
    if IsNullish(job) then Throw(TypeErrorValue)
    else NotYetAssigned(Or(Prop(job, "assignedTo"), Arr([])), users)
  }

  /** With a list of assignees, a user is notified exactly when their uid is
      not on the stored job's list; a job without a list notifies everyone. */
  lemma NotifiedIffNew(job: Value, users: seq<Value>, u: Value)
    requires job.Obj? && (Prop(job, "assignedTo").Arr? || !Truthy(Prop(job, "assignedTo")))
    requires forall i :: 0 <= i < |users| ==> users[i].Obj?
    requires u in users
    ensures NewlyAssigned(job, users).Ok?
    ensures var list := Or(Prop(job, "assignedTo"), Arr([])).items;
      u in NewlyAssigned(job, users).value <==> !exists i :: 0 <= i < |list| && StrictEq(list[i], Prop(u, "uid"))
  {
  }

  // ----- job number -----

  /** `(stored || 0) + 1`. */
  function NextNumber(stored: Option<nat>): (n: nat)
    ensures n >= 1
  {
    (if stored.Some? then stored.value else 0) + 1
  }

  /** `value.substring(0, index)`: a negative end reads as 0. */
  function Prefix(s: string): (p: string)
    ensures 'X' in s ==> p == s[..IndexOf(s, 'X')] && 'X' !in p
    ensures 'X' !in s ==> p == ""
  {
    var i := IndexOf(s, 'X');
    if i >= 0 then s[..i] else ""
  }

  /** getJobNumber: with a "text" format, the text before the first "X"
      followed by the next number left-padded with zeros to the length of
      the rest of the format (the whole format plus one when there is no
      "X"); any other format type gives undefined. `format` is the
      JOBNUMBERFORMAT configuration record, `stored` the saved counter. */
  function JobNumber(format: Value, stored: Option<nat>): (r: Result<Option<string>>)
    ensures IsNullish(format) ==> r == Throw(TypeErrorValue)
    ensures !IsNullish(format) && !StrictEq(Prop(format, "type"), Str("text")) ==> r == Ok(None)
    ensures !IsNullish(format) && StrictEq(Prop(format, "type"), Str("text")) ==>
      (r.Ok? <==> Prop(format, "value").Str?)
    ensures r.Ok? && r.value.Some? ==> StartsWith(r.value.value, Prefix(Prop(format, "value").s))
  {
    if IsNullish(format) then Throw(TypeErrorValue)
    else if !StrictEq(Prop(format, "type"), Str("text")) then Ok(None)
    else
      match Prop(format, "value")
      case Str(s) =>
        var digits := PadStart(NatToString(NextNumber(stored)), |s| - IndexOf(s, 'X'));
        assert (Prefix(s) + digits)[..|Prefix(s)|] == Prefix(s);
        Ok(Some(Prefix(s) + digits))
      case _ => Throw(TypeErrorValue)
  }

  lemma {:induction false} ZerosValue(n: nat)
    ensures DecimalValue(Zeros(n)) == 0
  {
    if n > 0 {
      assert Zeros(n)[..n - 1] == Zeros(n - 1);
      ZerosValue(n - 1);
    }
  }

  /** Leading zeros do not change a decimal value. */
  lemma {:induction false} LeadingZeros(n: nat, d: string)
    requires forall i :: 0 <= i < |d| ==> IsDigit(d[i])
    ensures DecimalValue(Zeros(n) + d) == DecimalValue(d)
    decreases |d|
  {
    if |d| == 0 {
      assert Zeros(n) + d == Zeros(n);
      ZerosValue(n);
    } else {
      var s := Zeros(n) + d;
      assert s[..|s| - 1] == Zeros(n) + d[..|d| - 1];
      LeadingZeros(n, d[..|d| - 1]);
    }
  }

  /** The zero-padded counter is all digits, reads back as the counter and
      is never shorter than the width or the counter's own digits. */
  lemma PaddedCounter(n: nat, width: int)
    ensures var d := PadStart(NatToString(n), width);
      && (forall i :: 0 <= i < |d| ==> IsDigit(d[i]))
      && DecimalValue(d) == n
      && |d| >= width && |d| >= |NatToString(n)|
  {
    var t := NatToString(n);
    DecimalOfNatToString(n);
    if |t| < width {
      LeadingZeros(width - |t|, t);
    }
  }

  /** The digits after the prefix spell the next counter value, are at least
      as long as the rest of the format and are never cut short. */
  lemma JobNumberReadsBack(format: Value, stored: Option<nat>)
    requires format.Obj? && Prop(format, "type") == Str("text") && Prop(format, "value").Str?
    ensures JobNumber(format, stored).Ok? && JobNumber(format, stored).value.Some?
    ensures var s := Prop(format, "value").s;
      var t := JobNumber(format, stored).value.value;
      var digits := t[|Prefix(s)|..];
      && (forall i :: 0 <= i < |digits| ==> IsDigit(digits[i]))
      && DecimalValue(digits) == NextNumber(stored)
      && |digits| >= |s| - IndexOf(s, 'X')
      && |digits| >= |NatToString(NextNumber(stored))|
  {
    var s := Prop(format, "value").s;
    var d := PadStart(NatToString(NextNumber(stored)), |s| - IndexOf(s, 'X'));
    var t := JobNumber(format, stored).value.value;
    assert t == Prefix(s) + d;
    assert t[|Prefix(s)|..] == d;
    PaddedCounter(NextNumber(stored), |s| - IndexOf(s, 'X'));
  }
}

=== FILE: memory_index.dfy ===
/** The in-memory search engine (src/utils/search-indexer/memory.js): named
    indexes, each a document store keyed by the index's `ref` field, and the
    search post-processing chain
      candidates -> drop null -> preFilter -> natural sort -> "equals" filter
      -> total -> offset/limit.
    Full-text matching is an oracle returning the refs that match, in rank
    order. */
module MemoryIndex {
  import opened Strings
  import opened Values
  import opened Errors
  import opened NaturalSort
  import opened Sorting
  import opened RequestConfig

  /** One index. `docs` maps a document's ref to what the store keeps: the
      document itself, or null when the index does not save documents. */
  datatype Index = Index(ref: string, fields: Value, saveDocument: bool, docs: map<string, Value>)

  /** The engine's indexes by name. */
  type Engine = map<string, Index>

  /** The text-search oracle: refs matching `text`, restricted to `searchField`
      when one is given. */
  type Matcher = (Index, Value, Value) -> seq<string>

  /** An empty index built from `{fields, ref, saveDocument} = config || {}`;
      the ref defaults to "id". */
  function NewIndex(config: Value): (ix: Index)
    ensures ix.docs == map[]
    ensures ix.saveDocument <==> Truthy(Prop(config, "saveDocument"))
    ensures !Truthy(Prop(config, "ref")) ==> ix.ref == "id"
  {
    var ref := Prop(config, "ref");
    Index(if Truthy(ref) then ToStr(ref) else "id", Prop(config, "fields"), Truthy(Prop(config, "saveDocument")), map[])
  }

  /** createIndex: a fresh index replaces any earlier one of that name. */
  function CreateIndex(e: Engine, name: string, config: Value): (r: Engine)
    ensures name in r && r[name] == NewIndex(config) && r[name].docs == map[]
    ensures forall n :: n != name ==> (n in r <==> n in e) && (n in e ==> r[n] == e[n])
  {
    e[name := NewIndex(config)]
  }

  /** removeIndex: always succeeds. */
  function RemoveIndex(e: Engine, name: string): (r: Engine)
    ensures name !in r
    ensures forall n :: n != name ==> (n in r <==> n in e) && (n in e ==> r[n] == e[n])
  {
    e - {name}
  }

  function MissingIndex(name: string): Value {
    Str("No index with name " + name + " exists")
  }

  /** checkIndex. */
  function CheckIndex(e: Engine, name: string): (r: Outcome)
    ensures r.Pass? <==> name in e
    ensures r.Fail? ==> r.error == MissingIndex(name)
  {
    if name in e then Pass else Fail(MissingIndex(name))
  }

  /** The store key of a document: its `ref` property as a property key. */
  function DocRef(ix: Index, doc: Value): string {
    ToStr(Prop(doc, ix.ref))
  }

  /** `documentStore.getDoc(ref)`: null when absent. */
  function GetDoc(ix: Index, key: string): (r: Value)
    ensures key !in ix.docs ==> r == Null
    ensures key in ix.docs ==> r == ix.docs[key]
  {
    if key in ix.docs then ix.docs[key] else Null
  }

  function Kept(ix: Index, doc: Value): Value {
    if ix.saveDocument then doc else Null
  }

  /** `index.addDoc(doc)`: falsy documents are ignored. */
  function AddDoc(ix: Index, doc: Value): (r: Index)
    ensures r.ref == ix.ref && r.saveDocument == ix.saveDocument
    ensures !Truthy(doc) ==> r == ix
    ensures Truthy(doc) ==> r.docs == ix.docs[DocRef(ix, doc) := Kept(ix, doc)]
  {
    if !Truthy(doc) then ix else ix.(docs := ix.docs[DocRef(ix, doc) := Kept(ix, doc)])
  }

  /** `index.removeDoc(doc)`: falsy documents and unknown refs are ignored. */
  function RemoveDoc(ix: Index, doc: Value): (r: Index)
    ensures r.ref == ix.ref && r.saveDocument == ix.saveDocument
    ensures !Truthy(doc) ==> r == ix
    ensures Truthy(doc) ==> r.docs == ix.docs - {DocRef(ix, doc)}
  {
    if !Truthy(doc) then ix
    else if DocRef(ix, doc) in ix.docs then ix.(docs := ix.docs - {DocRef(ix, doc)})
    else
      assert ix.docs - {DocRef(ix, doc)} == ix.docs;
      ix
  }

  /** put: checks the index, then adds the document. */
  function Put(e: Engine, name: string, value: Value): (r: Result<Engine>)
    ensures name !in e ==> r == Throw(MissingIndex(name))
    ensures name in e ==> r == Ok(e[name := AddDoc(e[name], value)])
  {
    if CheckIndex(e, name).Fail? then Throw(MissingIndex(name))
    else Ok(e[name := AddDoc(e[name], value)])
  }

  /** update: no index check, so an unknown index fails with a TypeError; the
      stored document becomes the existing one overlaid by `value`. */
  function Update(e: Engine, name: string, value: Value): (r: Result<Engine>)
    ensures name !in e || IsNullish(value) ==> r == Throw(TypeErrorValue)
  {
    if name !in e || IsNullish(value) then Throw(TypeErrorValue)
    else
      var ix := e[name];
      var existing := GetDoc(ix, DocRef(ix, value));
      var merged := Obj(Spread(existing) + Spread(value));
      Ok(e[name := AddDoc(RemoveDoc(ix, merged), merged)])
  }

  /** get: no index check; a found document comes back as a shallow copy,
      anything falsy comes back as it is. */
  function Get(e: Engine, name: string, key: string): (r: Result<Value>)
    ensures name !in e ==> r == Throw(TypeErrorValue)
    ensures name in e && key !in e[name].docs ==> r == Ok(Null)
    ensures name in e && key in e[name].docs ==> r.Ok? && Spread(r.value) == Spread(e[name].docs[key])
  {
    if name !in e then Throw(TypeErrorValue)
    else
      var existing := GetDoc(e[name], key);
      Ok(if Truthy(existing) then Obj(Spread(existing)) else existing)
  }

  /** remove: checks the index, then removes the document with `value`'s ref. */
  function Remove(e: Engine, name: string, value: Value): (r: Result<Engine>)
    ensures name !in e ==> r == Throw(MissingIndex(name))
    ensures name in e ==> r == Ok(e[name := RemoveDoc(e[name], value)])
  {
    if CheckIndex(e, name).Fail? then Throw(MissingIndex(name))
    else Ok(e[name := RemoveDoc(e[name], value)])
  }

  /** Put every item in turn; the first failure aborts. */
  function PutAll(e: Engine, name: string, items: seq<Value>): (r: Result<Engine>)
    ensures |items| == 0 ==> r == Ok(e)
    ensures |items| > 0 && name !in e ==> r == Throw(MissingIndex(name))
    ensures r.Ok? ==> r.value.Keys == e.Keys
    ensures r.Ok? ==> forall n :: n in e && n != name ==> r.value[n] == e[n]
    decreases |items|
  {
    if |items| == 0 then Ok(e)
    else
      var e1 :- Put(e, name, items[0]);
      PutAll(e1, name, items[1..])
  }

  /** buildIndex: `(data || []).map(put)`. A non-list has no `map`. */
  function BuildIndex(e: Engine, name: string, data: Value): (r: Result<Engine>)
    ensures !Truthy(data) ==> r == Ok(e)
    ensures Truthy(data) && !data.Arr? ==> r == Throw(TypeErrorValue)
    ensures data.Arr? ==> r == PutAll(e, name, data.items)
  {
    if !Truthy(data) then Ok(e)
    else if !data.Arr? then Throw(TypeErrorValue)
    else PutAll(e, name, data.items)
  }

  /** getTotalCount: the number of stored refs. */
  function GetTotalCount(e: Engine, name: string): (r: Result<nat>)
    ensures name !in e ==> r == Throw(MissingIndex(name))
    ensures name in e ==> r == Ok(|e[name].docs|)
  {
    if CheckIndex(e, name).Fail? then Throw(MissingIndex(name))
    else Ok(|e[name].docs|)
  }

  // ----- search -----

  /** The search options `search` destructures. */
  datatype Query = Query(
    sort: Value,
    sortType: Value,
    from: Number,
    size: Number,
    all: Value,
    preFilter: Option<Value -> bool>,
    searchField: Value,
    operator: Value)

  datatype SearchResult = SearchResult(total: nat, data: seq<Value>)

  /** The elements of s satisfying p, in order. */
  function Where(s: seq<Value>, p: Value -> bool): (r: seq<Value>)
    ensures |r| <= |s|
    ensures forall x :: x in r <==> x in s && p(x)
  {
    if |s| == 0 then []
    else if p(s[0]) then [s[0]] + Where(s[1..], p)
    else Where(s[1..], p)
  }

  /** Candidates: the oracle's hits looked up in the store when text is given,
      otherwise every stored entry in enumeration order. */
  function Candidates(ix: Index, text: Value, searchField: Value, order: seq<string>, matcher: Matcher): (r: seq<Value>)
    requires IsEnumeration(order, ix.docs.Keys)
    ensures !text.Undefined? ==>
      var hits := matcher(ix, text, searchField);
      |r| == |hits| && forall i :: 0 <= i < |r| ==> r[i] == GetDoc(ix, hits[i])
    ensures text.Undefined? ==>
      |r| == |order| && forall i :: 0 <= i < |r| ==> r[i] == ix.docs[order[i]]
  {
    if !text.Undefined? then
      var hits := matcher(ix, text, searchField);
      seq(|hits|, i requires 0 <= i < |hits| => GetDoc(ix, hits[i]))
    else
      seq(|order|, i requires 0 <= i < |order| => ix.docs[order[i]])
  }

  /** `(v || "").toLowerCase()`: a truthy non-string has no `toLowerCase`. */
  function LowerOrEmpty(v: Value): (r: Result<string>)
    ensures !Truthy(v) ==> r == Ok("")
    ensures v.Str? ==> r == Ok(Lower(v.s))
    ensures Truthy(v) && !v.Str? ==> r == Throw(TypeErrorValue)
  {
    if !Truthy(v) then Ok("")
    else if v.Str? then Ok(Lower(v.s))
    else Throw(TypeErrorValue)
  }

  /** The "equals" test for one document. */
  function EqualsMatch(item: Value, field: string, text: Value): Result<bool> {
    var a :- LowerOrEmpty(Prop(item, field));
    var b :- LowerOrEmpty(text);
    Ok(a == b)
  }

  /** The "equals" filter, stopping at the first document whose test throws. */
  function EqualsFilter(s: seq<Value>, field: string, text: Value): (r: Result<seq<Value>>)
    ensures r.Ok? ==> |r.value| <= |s|
    ensures r.Ok? ==> forall x :: x in r.value <==> x in s && EqualsMatch(x, field, text) == Ok(true)
    ensures (forall i :: 0 <= i < |s| ==> EqualsMatch(s[i], field, text).Ok?) ==> r.Ok?
  {
    if |s| == 0 then Ok([])
    else
      var keep :- EqualsMatch(s[0], field, text);
      var rest :- EqualsFilter(s[1..], field, text);
      assert forall x :: x in s <==> x == s[0] || x in s[1..];
      Ok(if keep then [s[0]] + rest else rest)
  }

  /** The comparator the sort stage passes to `Array.prototype.sort`. */
  function SortComparator(key: string, ascending: bool): (Value, Value) -> Ordering {
    if ascending then (x: Value, y: Value) => Compare(Prop(x, key), Prop(y, key))
    else (x: Value, y: Value) => Compare(Prop(y, key), Prop(x, key))
  }

  /** Both directions of the comparator are total preorders. */
  lemma SortComparatorIsPreorder(key: string, ascending: bool)
    ensures Antisymmetric(SortComparator(key, ascending))
    ensures Transitive(SortComparator(key, ascending))
  {
    var cmp := SortComparator(key, ascending);
    forall a, b
      ensures cmp(a, b) == Flip(cmp(b, a))
    {
      CompareAntisymmetric(Prop(a, key), Prop(b, key));
    }
    forall a, b, c | cmp(a, b) != More && cmp(b, c) != More
      ensures cmp(a, c) != More
    {
      if ascending {
        CompareTransitive(Prop(a, key), Prop(b, key), Prop(c, key));
      } else {
        CompareTransitive(Prop(c, key), Prop(b, key), Prop(a, key));
      }
    }
  }

  /** The sort stage: only when `sort` is set; the direction is "asc" unless the
      lowercased `sortType` (default "asc") says otherwise. */
  function SortStage(s: seq<Value>, sort: Value, sortType: Value): (r: Result<seq<Value>>)
    ensures !Truthy(sort) ==> r == Ok(s)
    ensures Truthy(sort) && !Or(sortType, Str("asc")).Str? ==> r == Throw(TypeErrorValue)
    ensures r.Ok? ==> multiset(r.value) == multiset(s)
  {
    if !Truthy(sort) then Ok(s)
    else
      var st := Or(sortType, Str("asc"));
      if !st.Str? then Throw(TypeErrorValue)
      else Ok(SortBy(s, SortComparator(ToStr(sort), Lower(st.s) == "asc")))
  }

  /** Everything before paging: the list `total` counts. */
  function Matches(ix: Index, text: Value, q: Query, order: seq<string>, matcher: Matcher): (r: Result<seq<Value>>)
    requires IsEnumeration(order, ix.docs.Keys)
  {
    var present := Where(Candidates(ix, text, q.searchField, order, matcher), (v: Value) => !IsNullish(v));
    var filtered := match q.preFilter
      case None => present
      case Some(f) => Where(present, f);
    var sorted :- SortStage(filtered, q.sort, q.sortType);
    if q.operator == Str("equals") then EqualsFilter(sorted, ToStr(q.searchField), text)
    else Ok(sorted)
  }

  /** `n || d` for a number. */
  function NumberOr(n: Number, d: int): int {
    if n.NaN? || n.i == 0 then d else n.i
  }

  /** `s.splice(start, count)`'s return value: the removed window, with a
      negative start counted from the end and a negative count as zero. */
  function Splice(s: seq<Value>, start: int, count: int): (r: seq<Value>)
    ensures |r| <= |s|
    ensures count <= 0 ==> r == []
    ensures 0 <= start && 0 <= count ==> r == s[Min(start, |s|)..Min(start + count, |s|)]
  {
    var lo := if start < 0 then Max(|s| + start, 0) else Min(start, |s|);
    var hi := if count <= 0 then lo else Min(lo + count, |s|);
    s[lo..hi]
  }

  function Min(a: int, b: int): int { if a <= b then a else b }
  function Max(a: int, b: int): int { if a >= b then a else b }

  /** search(index, text, query). */
  function Search(e: Engine, name: string, text: Value, q: Query, order: seq<string>, matcher: Matcher): (r: Result<SearchResult>)
    requires name in e ==> IsEnumeration(order, e[name].docs.Keys)
    ensures name !in e ==> r == Throw(MissingIndex(name))
    ensures name in e ==> r.Ok? == Matches(e[name], text, q, order, matcher).Ok?
    ensures r.Ok? ==> var m := Matches(e[name], text, q, order, matcher).value;
      && r.value.total == |m|
      && (Truthy(q.all) ==> r.value.data == m)
      && (!Truthy(q.all) ==> r.value.data == Splice(m, NumberOr(q.from, 0), NumberOr(q.size, 10)))
  {
    if CheckIndex(e, name).Fail? then Throw(MissingIndex(name))
    else
      var m :- Matches(e[name], text, q, order, matcher);
      Ok(SearchResult(|m|, if Truthy(q.all) then m else Splice(m, NumberOr(q.from, 0), NumberOr(q.size, 10))))
  }

  // ----- properties -----

  /** A document put into a saving index is returned by get under its ref. */
  lemma PutThenGet(e: Engine, name: string, doc: Record)
    requires name in e && e[name].saveDocument
    ensures var key := DocRef(e[name], Obj(doc));
      Put(e, name, Obj(doc)).Ok? && Get(Put(e, name, Obj(doc)).value, name, key) == Ok(Obj(doc))
  {
  }

  /** update overlays the new fields on the stored document: fields the update
      does not mention survive. */
  lemma UpdateKeepsOtherFields(e: Engine, name: string, value: Record)
    requires name in e && e[name].saveDocument
    requires e[name].ref in value && !IsNullish(value[e[name].ref])
    ensures var ix := e[name];
      var key := DocRef(ix, Obj(value));
      var prior := GetDoc(ix, key);
      && Update(e, name, Obj(value)).Ok?
      && Get(Update(e, name, Obj(value)).value, name, key) == Ok(Obj(Spread(prior) + value))
      && (forall f :: f in Spread(prior) && f !in value ==>
            Prop(Get(Update(e, name, Obj(value)).value, name, key).value, f) == Spread(prior)[f])
  {
    var ix := e[name];
    var key := DocRef(ix, Obj(value));
    var merged := Obj(Spread(GetDoc(ix, key)) + value);
    assert Prop(merged, ix.ref) == value[ix.ref];
    assert DocRef(ix, merged) == key;
  }

  /** After remove, get finds nothing under that ref. */
  lemma RemoveThenGet(e: Engine, name: string, doc: Value)
    requires name in e && Truthy(doc)
    ensures Remove(e, name, doc).Ok?
    ensures Get(Remove(e, name, doc).value, name, DocRef(e[name], doc)) == Ok(Null)
  {
  }

  /** Re-creating an index discards its documents. */
  lemma CreateIndexDiscardsDocuments(e: Engine, name: string, config: Value)
    ensures GetTotalCount(CreateIndex(e, name, config), name) == Ok(0)
  {
  }

  /** Only put, search, remove and the count check the index; get and update
      on an unknown index fail with a TypeError instead of the index message. */
  lemma UnknownIndexErrors(e: Engine, name: string, v: Value, q: Query, order: seq<string>, matcher: Matcher)
    requires name !in e
    ensures Put(e, name, v) == Throw(MissingIndex(name))
    ensures Remove(e, name, v) == Throw(MissingIndex(name))
    ensures GetTotalCount(e, name) == Throw(MissingIndex(name))
    ensures Search(e, name, v, q, order, matcher) == Throw(MissingIndex(name))
    ensures Get(e, name, "k") == Throw(TypeErrorValue)
    ensures Update(e, name, v) == Throw(TypeErrorValue)
  {
  }

  /** buildIndex over an empty list succeeds even without the index. */
  lemma BuildEmptyNeedsNoIndex(e: Engine, name: string)
    ensures BuildIndex(e, name, Arr([])) == Ok(e)
    ensures BuildIndex(e, name, Null) == Ok(e)
  {
  }

  lemma {:induction false} EqualsFilterSorted(s: seq<Value>, field: string, text: Value, cmp: (Value, Value) -> Ordering)
    requires Sorted(s, cmp)
    requires EqualsFilter(s, field, text).Ok?
    ensures Sorted(EqualsFilter(s, field, text).value, cmp)
    decreases |s|
  {
    if |s| > 0 {
      assert Sorted(s[1..], cmp);
      EqualsFilterSorted(s[1..], field, text, cmp);
      var rest := EqualsFilter(s[1..], field, text).value;
      if EqualsMatch(s[0], field, text) == Ok(true) {
        var r := [s[0]] + rest;
        forall i, j | 0 <= i < j < |r|
          ensures cmp(r[i], r[j]) != More
        {
          if i == 0 {
            assert r[j] in rest;
            var k :| 1 <= k < |s| && s[k] == r[j];
          } else {
            assert r[i] == rest[i - 1] && r[j] == rest[j - 1];
          }
        }
      }
    }
  }

  /** Every document a search returns passed each stage of the chain: it is not
      null, it satisfies the preFilter, and under "equals" its field matches
      the text case-insensitively. */
  lemma SearchResultsPassFilters(e: Engine, name: string, text: Value, q: Query, order: seq<string>, matcher: Matcher, x: Value)
    requires name in e ==> IsEnumeration(order, e[name].docs.Keys)
    requires Search(e, name, text, q, order, matcher).Ok?
    requires x in Search(e, name, text, q, order, matcher).value.data
    ensures !IsNullish(x)
    ensures q.preFilter.Some? ==> q.preFilter.value(x)
    ensures q.operator == Str("equals") ==> EqualsMatch(x, ToStr(q.searchField), text) == Ok(true)
  {
    var ix := e[name];
    var m := Matches(ix, text, q, order, matcher).value;
    assert x in m;
    var present := Where(Candidates(ix, text, q.searchField, order, matcher), (v: Value) => !IsNullish(v));
    var filtered := match q.preFilter
      case None => present
      case Some(f) => Where(present, f);
    var sorted := SortStage(filtered, q.sort, q.sortType).value;
    assert x in multiset(sorted);
    assert x in filtered;
  }

  /** The sorted stage survives the "equals" filter. */
  lemma MatchesSorted(ix: Index, text: Value, q: Query, order: seq<string>, matcher: Matcher)
    requires IsEnumeration(order, ix.docs.Keys)
    requires Matches(ix, text, q, order, matcher).Ok?
    requires Truthy(q.sort)
    ensures var st := Or(q.sortType, Str("asc"));
      st.Str? && Sorted(Matches(ix, text, q, order, matcher).value, SortComparator(ToStr(q.sort), Lower(st.s) == "asc"))
  {
    var present := Where(Candidates(ix, text, q.searchField, order, matcher), (v: Value) => !IsNullish(v));
    var filtered := match q.preFilter
      case None => present
      case Some(f) => Where(present, f);
    var st := Or(q.sortType, Str("asc"));
    var cmp := SortComparator(ToStr(q.sort), Lower(st.s) == "asc");
    var sorted := SortBy(filtered, cmp);
    assert SortStage(filtered, q.sort, q.sortType) == Ok(sorted);
    SortComparatorIsPreorder(ToStr(q.sort), Lower(st.s) == "asc");
    SortBySorted(filtered, cmp);
    if q.operator == Str("equals") {
      EqualsFilterSorted(sorted, ToStr(q.searchField), text, cmp);
    }
  }

  /** With a sort field, the returned page is in order: ascending by natural
      comparison of that field, or descending when asked. */
  lemma SearchResultsSorted(e: Engine, name: string, text: Value, q: Query, order: seq<string>, matcher: Matcher)
    requires name in e ==> IsEnumeration(order, e[name].docs.Keys)
    requires Search(e, name, text, q, order, matcher).Ok?
    requires Truthy(q.sort)
    ensures var st := Or(q.sortType, Str("asc"));
      st.Str? && Sorted(Search(e, name, text, q, order, matcher).value.data, SortComparator(ToStr(q.sort), Lower(st.s) == "asc"))
  {
    MatchesSorted(e[name], text, q, order, matcher);
    var m := Matches(e[name], text, q, order, matcher).value;
    var st := Or(q.sortType, Str("asc"));
    var cmp := SortComparator(ToStr(q.sort), Lower(st.s) == "asc");
    SpliceSorted(m, NumberOr(q.from, 0), NumberOr(q.size, 10), cmp);
  }

  lemma SpliceSorted(s: seq<Value>, start: int, count: int, cmp: (Value, Value) -> Ordering)
    requires Sorted(s, cmp)
    ensures Sorted(Splice(s, start, count), cmp)
  {
    var lo := if start < 0 then Max(|s| + start, 0) else Min(start, |s|);
    var hi := if count <= 0 then lo else Min(lo + count, |s|);
    var r := Splice(s, start, count);
    assert r == s[lo..hi];
    forall i, j | 0 <= i < j < |r|
      ensures cmp(r[i], r[j]) != More
    {
      assert r[i] == s[lo + i] && r[j] == s[lo + j];
    }
  }

  /** `total` counts every match, while the page holds at most `size` of them
      (10 by default) starting at `from`. */
  lemma SearchPageWithinTotal(e: Engine, name: string, text: Value, q: Query, order: seq<string>, matcher: Matcher)
    requires name in e ==> IsEnumeration(order, e[name].docs.Keys)
    requires Search(e, name, text, q, order, matcher).Ok?
    ensures var r := Search(e, name, text, q, order, matcher).value;
      && |r.data| <= r.total
      && (!Truthy(q.all) ==> |r.data| <= Max(NumberOr(q.size, 10), 0))
  {
  }

  /** Without text, filters or sorting, and asking for everything, search lists
      every saved document in enumeration order. */
  lemma SearchAllDocuments(e: Engine, name: string, q: Query, order: seq<string>, matcher: Matcher)
    requires name in e && IsEnumeration(order, e[name].docs.Keys)
    requires forall k :: k in e[name].docs ==> !IsNullish(e[name].docs[k])
    requires q.preFilter.None? && !Truthy(q.sort) && q.operator != Str("equals") && Truthy(q.all)
    ensures Search(e, name, Undefined, q, order, matcher).Ok?
    ensures Search(e, name, Undefined, q, order, matcher).value.total == |order|
    ensures forall i :: 0 <= i < |order| ==>
      Search(e, name, Undefined, q, order, matcher).value.data[i] == e[name].docs[order[i]]
  {
    var c := Candidates(e[name], Undefined, q.searchField, order, matcher);
    WhereAll(c, (v: Value) => !IsNullish(v));
  }

  lemma {:induction false} WhereAll(s: seq<Value>, p: Value -> bool)
    requires forall i :: 0 <= i < |s| ==> p(s[i])
    ensures Where(s, p) == s
    decreases |s|
  {
    if |s| > 0 {
      WhereAll(s[1..], p);
      assert s == [s[0]] + s[1..];
    }
  }
}

=== FILE: natural_sort.dfy ===
/** `naturalSort` (src/utils/arrayutil.js): the comparator the search engine
    sorts with. Both operands are rendered as strings, split into maximal runs
    of digits and of non-digits, and the run lists are compared pairwise: digit
    runs by numeric value, a digit run before a non-digit run, non-digit runs by
    string order; when one list runs out first, the shorter list sorts first.
    Only the sign of the comparator's result is modelled. */
module NaturalSort {
  import opened Strings
  import opened Values

  datatype Ordering = Less | Same | More

  function Flip(o: Ordering): (r: Ordering)
    ensures r.Less? <==> o.More?
    ensures r.Same? <==> o.Same?
    ensures r.More? <==> o.Less?
  {
    match o
    case Less => More
    case Same => Same
    case More => Less
  }

  /** The sign of a numeric comparator result. */
  function Sign(x: int): (r: Ordering)
    ensures r.Less? <==> x < 0
    ensures r.Same? <==> x == 0
    ensures r.More? <==> x > 0
  {
    if x < 0 then Less else if x == 0 then Same else More
  }

  /** The total order on non-digit runs: code-unit lexicographic order. */
  function LexCompare(a: string, b: string): (r: Ordering)
    ensures r.Same? <==> a == b
    decreases |a|
  {
    if |a| == 0 && |b| == 0 then Same
    else if |a| == 0 then Less
    else if |b| == 0 then More
    else if a[0] < b[0] then Less
    else if a[0] > b[0] then More
    else
      var r := LexCompare(a[1..], b[1..]);
      assert r.Same? ==> a == [a[0]] + a[1..] && b == [b[0]] + b[1..];
      r
  }

  lemma {:induction false} LexAntisymmetric(a: string, b: string)
    ensures LexCompare(a, b) == Flip(LexCompare(b, a))
    decreases |a|
  {
    if |a| > 0 && |b| > 0 && a[0] == b[0] {
      LexAntisymmetric(a[1..], b[1..]);
    }
  }

  lemma {:induction false} LexTransitive(a: string, b: string, c: string)
    requires LexCompare(a, b) == Less && LexCompare(b, c) == Less
    ensures LexCompare(a, c) == Less
    decreases |a|
  {
    if |a| > 0 && |b| > 0 && |c| > 0 && a[0] == b[0] && b[0] == c[0] {
      LexTransitive(a[1..], b[1..], c[1..]);
    }
  }

  /** One run of a rendered operand. */
  datatype Token = Digits(run: string) | Text(run: string)

  /** A run is non-empty and made only of characters of its own kind. */
  predicate ValidToken(t: Token) {
    && |t.run| > 0
    && (forall i :: 0 <= i < |t.run| ==> IsDigit(t.run[i]) == t.Digits?)
  }

  /** Length of the maximal prefix whose characters are digits iff `digits`. */
  function RunLength(s: string, digits: bool): (n: nat)
    ensures n <= |s|
    ensures forall i :: 0 <= i < n ==> IsDigit(s[i]) == digits
    ensures n < |s| ==> IsDigit(s[n]) != digits
  {
    if |s| == 0 || IsDigit(s[0]) != digits then 0 else 1 + RunLength(s[1..], digits)
  }

  /** The text of a run list, concatenated back. */
  function Concat(ts: seq<Token>): string {
    if |ts| == 0 then "" else ts[0].run + Concat(ts[1..])
  }

  /** The `/(\d+)|(\D+)/g` scan: maximal alternating runs of digits and non-digits. */
  function Tokens(s: string): (ts: seq<Token>)
    ensures forall i :: 0 <= i < |ts| ==> ValidToken(ts[i])
    ensures |s| > 0 <==> |ts| > 0
    ensures |s| > 0 ==> ts[0].Digits? == IsDigit(s[0])
    ensures forall i :: 0 <= i < |ts| - 1 ==> ts[i].Digits? != ts[i + 1].Digits?
    decreases |s|
  {
    if |s| == 0 then []
    else
      var d := IsDigit(s[0]);
      var n := RunLength(s, d);
      var t := if d then Digits(s[..n]) else Text(s[..n]);
      [t] + Tokens(s[n..])
  }

  /** Scanning loses nothing: the runs concatenate back to the string. */
  lemma {:induction false} ConcatTokens(s: string)
    ensures Concat(Tokens(s)) == s
    decreases |s|
  {
    if |s| > 0 {
      var n := RunLength(s, IsDigit(s[0]));
      ConcatTokens(s[n..]);
      assert Tokens(s)[1..] == Tokens(s[n..]);
      assert s == s[..n] + s[n..];
    }
  }

  /** The numeric value of a digit run. */
  function RunValue(t: Token): nat
    requires ValidToken(t) && t.Digits?
  {
    DecimalValue(t.run)
  }

  /** One step of the comparator: `(an[0] - bn[0]) || an[1].localeCompare(bn[1])`,
      where a non-digit run's number is Infinity. */
  function CompareToken(x: Token, y: Token): (r: Ordering)
    requires ValidToken(x) && ValidToken(y)
    ensures x.Digits? && y.Text? ==> r == Less
    ensures x.Text? && y.Digits? ==> r == More
    ensures x.Digits? && y.Digits? ==> r == Sign(RunValue(x) - RunValue(y))
    ensures x.Text? && y.Text? ==> r == LexCompare(x.run, y.run)
  {
    match (x, y)
    case (Digits(_), Digits(_)) => Sign(RunValue(x) - RunValue(y))
    case (Digits(_), Text(_)) => Less
    case (Text(_), Digits(_)) => More
    case (Text(p), Text(q)) => LexCompare(p, q)
  }

  predicate AllValid(ts: seq<Token>) {
    forall i :: 0 <= i < |ts| ==> ValidToken(ts[i])
  }

  /** The scan loop: the first pair of runs that differ decides; otherwise the
      shorter list sorts first. */
  function CompareTokens(a: seq<Token>, b: seq<Token>): Ordering
    requires AllValid(a) && AllValid(b)
  {
    if |a| == 0 || |b| == 0 then Sign(|a| - |b|)
    else
      var c := CompareToken(a[0], b[0]);
      if c != Same then c else CompareTokens(a[1..], b[1..])
  }

  /** `(v === undefined || v === null ? "" : v).toString()`. */
  function SortKey(v: Value): (s: string)
    ensures IsNullish(v) ==> s == ""
    ensures v.Str? ==> s == v.s
  {
    if IsNullish(v) then "" else ToStr(v)
  }

  /** naturalSort(a, b), as an ordering. */
  function Compare(a: Value, b: Value): Ordering {
    CompareTokens(Tokens(SortKey(a)), Tokens(SortKey(b)))
  }

  lemma TokenAntisymmetric(x: Token, y: Token)
    requires ValidToken(x) && ValidToken(y)
    ensures CompareToken(x, y) == Flip(CompareToken(y, x))
  {
    if x.Text? && y.Text? {
      LexAntisymmetric(x.run, y.run);
    }
  }

  lemma {:induction false} TokensAntisymmetric(a: seq<Token>, b: seq<Token>)
    requires AllValid(a) && AllValid(b)
    ensures CompareTokens(a, b) == Flip(CompareTokens(b, a))
    decreases |a|
  {
    if |a| > 0 && |b| > 0 {
      TokenAntisymmetric(a[0], b[0]);
      TokensAntisymmetric(a[1..], b[1..]);
    }
  }

  /** Swapping the operands flips the result: the comparator is antisymmetric. */
  lemma CompareAntisymmetric(a: Value, b: Value)
    ensures Compare(a, b) == Flip(Compare(b, a))
  {
    TokensAntisymmetric(Tokens(SortKey(a)), Tokens(SortKey(b)));
  }

  lemma {:induction false} TokensReflexive(a: seq<Token>)
    requires AllValid(a)
    ensures CompareTokens(a, a) == Same
    decreases |a|
  {
    if |a| > 0 {
      if a[0].Text? {
        assert LexCompare(a[0].run, a[0].run) == Same;
      }
      TokensReflexive(a[1..]);
    }
  }

  /** Every value compares equal to itself. */
  lemma CompareReflexive(a: Value)
    ensures Compare(a, a) == Same
  {
    TokensReflexive(Tokens(SortKey(a)));
  }

  /** Same-ness of runs is an equivalence: runs of equal value are interchangeable. */
  lemma TokenSameSubstitutes(x: Token, y: Token, z: Token)
    requires ValidToken(x) && ValidToken(y) && ValidToken(z)
    requires CompareToken(x, y) == Same
    ensures CompareToken(x, z) == CompareToken(y, z)
  {
  }

  lemma TokenTransitive(x: Token, y: Token, z: Token)
    requires ValidToken(x) && ValidToken(y) && ValidToken(z)
    requires CompareToken(x, y) == Less && CompareToken(y, z) == Less
    ensures CompareToken(x, z) == Less
  {
    if x.Text? && y.Text? && z.Text? {
      LexTransitive(x.run, y.run, z.run);
    }
  }

  lemma {:induction false} TokensTransitive(a: seq<Token>, b: seq<Token>, c: seq<Token>)
    requires AllValid(a) && AllValid(b) && AllValid(c)
    requires CompareTokens(a, b) != More && CompareTokens(b, c) != More
    ensures CompareTokens(a, c) != More
    ensures CompareTokens(a, b) == Less || CompareTokens(b, c) == Less ==> CompareTokens(a, c) == Less
    decreases |a|
  {
    if |a| > 0 && |b| > 0 && |c| > 0 {
      var ab := CompareToken(a[0], b[0]);
      var bc := CompareToken(b[0], c[0]);
      if ab == Same {
        TokenSameSubstitutes(a[0], b[0], c[0]);
        if bc == Same {
          TokensTransitive(a[1..], b[1..], c[1..]);
        }
      } else if bc == Same {
        TokenAntisymmetric(b[0], c[0]);
        TokenAntisymmetric(a[0], c[0]);
        TokenAntisymmetric(a[0], b[0]);
        TokenSameSubstitutes(c[0], b[0], a[0]);
      } else {
        TokenTransitive(a[0], b[0], c[0]);
      }
    }
  }

  /** "Not after" is transitive, and a strict step anywhere stays strict. */
  lemma CompareTransitive(a: Value, b: Value, c: Value)
    requires Compare(a, b) != More && Compare(b, c) != More
    ensures Compare(a, c) != More
    ensures Compare(a, b) == Less || Compare(b, c) == Less ==> Compare(a, c) == Less
  {
    TokensTransitive(Tokens(SortKey(a)), Tokens(SortKey(b)), Tokens(SortKey(c)));
  }

  /** When one run list extends the other, the shorter one sorts first. */
  lemma {:induction false} PrefixSortsFirst(a: seq<Token>, rest: seq<Token>)
    requires AllValid(a) && AllValid(rest) && |rest| > 0
    ensures AllValid(a + rest)
    ensures CompareTokens(a, a + rest) == Less
    decreases |a|
  {
    if |a| > 0 {
      if a[0].Text? {
        assert LexCompare(a[0].run, a[0].run) == Same;
      }
      assert (a + rest)[1..] == a[1..] + rest;
      PrefixSortsFirst(a[1..], rest);
    }
  }

  /** Null and undefined sort like the empty string, before every non-empty rendering. */
  lemma NullishSortsFirst(a: Value, b: Value)
    requires IsNullish(a) && SortKey(b) != ""
    ensures Compare(a, b) == Less
  {
  }

  /** At the first position, a digit run sorts before a non-digit run. */
  lemma DigitsBeforeText(a: Value, b: Value)
    requires SortKey(a) != "" && SortKey(b) != ""
    requires IsDigit(SortKey(a)[0]) && !IsDigit(SortKey(b)[0])
    ensures Compare(a, b) == Less
  {
  }

  /** A rendering made only of digits is a single digit run. */
  lemma {:induction false} AllDigitsSingleRun(s: string)
    requires |s| > 0 && forall i :: 0 <= i < |s| ==> IsDigit(s[i])
    ensures Tokens(s) == [Digits(s)]
  {
    var n := RunLength(s, true);
    assert n == |s|;
    assert s[..n] == s;
    assert s[n..] == "";
  }

  /** Natural numbers compare by value, not by their text: 9 sorts before 10. */
  lemma NumbersCompareByValue(n: nat, m: nat)
    ensures Compare(Num(n), Num(m)) == Sign(n - m)
  {
    var a, b := NatToString(n), NatToString(m);
    assert SortKey(Num(n)) == a && SortKey(Num(m)) == b;
    AllDigitsSingleRun(a);
    AllDigitsSingleRun(b);
    DecimalOfNatToString(n);
    DecimalOfNatToString(m);
    var c := CompareToken(Digits(a), Digits(b));
    assert c == Sign(n - m);
    assert CompareTokens([Digits(a)], [Digits(b)]) == c by {
      assert [Digits(a)][1..] == [];
      assert [Digits(b)][1..] == [];
    }
  }

  lemma ItemNineBeforeItemTen()
    ensures Compare(Str("item9"), Str("item10")) == Less
  {
    var a, b := "item" + "9", "item" + "10";
    TextThenDigits("item", "9");
    TextThenDigits("item", "10");
    SameTextThenNumbers("item", "9", "10");
    assert DecimalValue("9") == 9 && DecimalValue("10") == 10;
    assert CompareTokens(Tokens(a), Tokens(b)) == Less;
    assert a == "item9" && b == "item10";
  }

  /** A text run followed by a digit run scans as those two runs. */
  lemma TextThenDigits(p: string, q: string)
    requires |p| > 0 && forall i :: 0 <= i < |p| ==> !IsDigit(p[i])
    requires |q| > 0 && forall i :: 0 <= i < |q| ==> IsDigit(q[i])
    ensures Tokens(p + q) == [Text(p), Digits(q)]
  {
    var s := p + q;
    var n := RunLength(s, false);
    assert n == |p| by {
      assert forall i :: 0 <= i < |p| ==> !IsDigit(s[i]);
      assert IsDigit(s[|p|]);
      RunLengthExact(s, false, |p|);
    }
    assert s[..n] == p;
    assert s[n..] == q;
    AllDigitsSingleRun(q);
  }

  /** After equal text runs, the digit runs decide by value. */
  lemma SameTextThenNumbers(q: string, p1: string, p2: string)
    requires ValidToken(Text(q)) && ValidToken(Digits(p1)) && ValidToken(Digits(p2))
    ensures CompareTokens([Text(q), Digits(p1)], [Text(q), Digits(p2)]) == Sign(DecimalValue(p1) - DecimalValue(p2))
  {
    var a := [Text(q), Digits(p1)];
    var b := [Text(q), Digits(p2)];
    LexAntisymmetric(q, q);
    assert CompareToken(a[0], b[0]) == Same;
    assert a[1..] == [Digits(p1)] && b[1..] == [Digits(p2)];
    assert [Digits(p1)][1..] == [] && [Digits(p2)][1..] == [];
    var c := CompareToken(Digits(p1), Digits(p2));
    assert c == Sign(DecimalValue(p1) - DecimalValue(p2));
    assert CompareTokens([], []) == Same;
    assert CompareTokens(a[1..], b[1..]) == c;
  }

  /** A run of non-digits alone scans as one text run. */
  lemma {:induction false} AllTextSingleRun(s: string)
    requires |s| > 0 && forall i :: 0 <= i < |s| ==> !IsDigit(s[i])
    ensures Tokens(s) == [Text(s)]
  {
    var n := RunLength(s, false);
    assert n == |s|;
    assert s[..n] == s;
    assert s[n..] == "";
  }

  /** Digits followed by non-digits scan as exactly those two runs. */
  lemma DigitsThenText(p: string, q: string)
    requires |p| > 0 && forall i :: 0 <= i < |p| ==> IsDigit(p[i])
    requires |q| > 0 && forall i :: 0 <= i < |q| ==> !IsDigit(q[i])
    ensures Tokens(p + q) == [Digits(p), Text(q)]
  {
    var s := p + q;
    var n := RunLength(s, true);
    assert n == |p| by {
      assert forall i :: 0 <= i < |p| ==> IsDigit(s[i]);
      assert !IsDigit(s[|p|]);
      RunLengthExact(s, true, |p|);
    }
    assert s[..n] == p;
    assert s[n..] == q;
    AllTextSingleRun(q);
  }

  lemma {:induction false} RunLengthExact(s: string, digits: bool, k: nat)
    requires k <= |s|
    requires forall i :: 0 <= i < k ==> IsDigit(s[i]) == digits
    requires k < |s| ==> IsDigit(s[k]) != digits
    ensures RunLength(s, digits) == k
    decreases k
  {
    if k > 0 {
      RunLengthExact(s[1..], digits, k - 1);
    }
  }

  /** Two-run lists whose digit runs have equal value are ordered by their text runs. */
  lemma EqualNumbersThenText(p1: string, q1: string, p2: string, q2: string)
    requires ValidToken(Digits(p1)) && ValidToken(Text(q1))
    requires ValidToken(Digits(p2)) && ValidToken(Text(q2))
    requires DecimalValue(p1) == DecimalValue(p2)
    ensures CompareTokens([Digits(p1), Text(q1)], [Digits(p2), Text(q2)]) == LexCompare(q1, q2)
  {
    var a := [Digits(p1), Text(q1)];
    var b := [Digits(p2), Text(q2)];
    assert CompareToken(a[0], b[0]) == Same;
    assert a[1..] == [Text(q1)] && b[1..] == [Text(q2)];
    var c := CompareToken(Text(q1), Text(q2));
    assert [Text(q1)][1..] == [] && [Text(q2)][1..] == [];
    assert CompareTokens([], []) == Same;
  }

  lemma DecimalExamples()
    ensures DecimalValue("01") == 1 && DecimalValue("1") == 1
  {
    assert "01"[..1] == "0";
    assert "0"[..0] == "";
    assert "1"[..0] == "";
  }

  /** Digit runs of equal value ("01" and "1") compare equal and scanning goes on. */
  lemma LeadingZerosIgnored()
    ensures Compare(Str("01x"), Str("1x")) == Same
  {
    var a, b := "01" + "x", "1" + "x";
    DigitsThenText("01", "x");
    DigitsThenText("1", "x");
    DecimalExamples();
    EqualNumbersThenText("01", "x", "1", "x");
    assert Tokens(a) == [Digits("01"), Text("x")];
    assert Tokens(b) == [Digits("1"), Text("x")];
    assert CompareTokens(Tokens(a), Tokens(b)) == Same;
    assert a == "01x";
    assert b == "1x";
  }

  /** After equal digit runs, the text runs decide. */
  lemma TextDecidesAfterEqualNumbers()
    ensures Compare(Str("01a"), Str("1b")) == Less
  {
    var a, b := "01" + "a", "1" + "b";
    DigitsThenText("01", "a");
    DigitsThenText("1", "b");
    DecimalExamples();
    EqualNumbersThenText("01", "a", "1", "b");
    assert Tokens(a) == [Digits("01"), Text("a")];
    assert Tokens(b) == [Digits("1"), Text("b")];
    assert LexCompare("a", "b") == Less;
    assert CompareTokens(Tokens(a), Tokens(b)) == Less;
    assert a == "01a";
    assert b == "1b";
  }
}

=== FILE: operations.dfy ===
/** The five standard operations of the generic service
    (src/api/generic/service.js): create, find, get, update and remove, each
    from validation through the hooks, the database and the search index to
    the response. Hooks are pure; ids are processed one after another. */
module Operations {
  import opened Strings
  import opened Values
  import opened Errors
  import opened Definitions
  import opened Pipeline
  import MemoryIndex
  import Storage
  import RequestConfig

  // ----- create -----

  /** The input stamped with `createdAt`, and with `createdBy` when a user
      is logged in and the caller did not supply one. A falsy input starts
      from `{}`; another non-object cannot take properties. */
  function StampCreated(input: Value, now: Value, req: Option<Request>): (r: Result<Value>)
    ensures var base := if Truthy(input) then input else Obj(map[]);
      && (!base.Obj? ==> r == Throw(TypeErrorValue))
      && (base.Obj? ==> (
        && r.Ok? && r.value.Obj?
        && r.value.fields.Keys <= base.fields.Keys + {"createdAt", "createdBy"}
        && Prop(r.value, "createdAt") == now
        && (forall k :: k in base.fields && k !in {"createdAt", "createdBy"} ==> k in r.value.fields && r.value.fields[k] == base.fields[k])
        && (Truthy(Prop(base, "createdBy")) ==> Prop(r.value, "createdBy") == Prop(base, "createdBy"))
        && (!Truthy(Prop(base, "createdBy")) && req.Some? && Truthy(req.value.user) ==> Prop(r.value, "createdBy") == Prop(req.value.user, "uid"))))
  {
    var base := if Truthy(input) then input else Obj(map[]);
    if !base.Obj? then Throw(TypeErrorValue)
    else
      var stamped := base.fields["createdAt" := now];
      if req.Some? && Truthy(req.value.user) && !Truthy(Field(base.fields, "createdBy")) then
        Ok(Obj(stamped["createdBy" := Prop(req.value.user, "uid")]))
      else Ok(Obj(stamped))
  }

  /** After validation, stamping and onBefore: the first argument the hooks
      see (the caller's own object, or the falsy input) and the record. */
  function CreatePrepare(env: Env, input: Value, ctx: Context, validate: bool): (r: Result<(Value, Value)>)
  {
    var cfg := ConfigOf(env.def, "create");
    var checked := if validate then ValidateData(env, input, OpSchema(map[], env, "create"), false) else Pass;
    if checked.Fail? then Throw(checked.error)
    else
      var obj :- StampCreated(input, env.now, ctx.req);
      if Truthy(input) then
        var edited :- CallInPlace(cfg.onBefore, [obj], ctx.req);
        Ok((edited, edited))
      else
        var _ :- CallInPlace(cfg.onBefore, [input], ctx.req);
        Ok((input, obj))
  }

  /** Puts the stored output (or what `populate` makes of it) into the index. */
  function IndexPut(w: World, env: Env, obj: Value, output: Value): (r: Result<World>)
    ensures r.Ok? ==> r.value.store == w.store
    ensures env.def.indexing.NoIndexing? || w.index.None? ==> r == Ok(w)
  {
    var resolved :- ResolveIndexing(env, w, obj, None);
    match resolved
    case None => Ok(w)
    case Some((engine, c)) =>
      var e1 :- MemoryIndex.Put(engine, IndexName(env), Populated(c, output, "create"));
      Ok(World(w.store, Some(e1)))
  }

  /** create(obj, req, res, additionalConfig): validation unless
      `additionalConfig.validate === false`. */
  function Create(w: World, env: Env, input: Value, ctx: Context, validate: bool): (run: Run)
    ensures run.world.store.Keys >= w.store.Keys
  {
    CreateFrom(w, env, input, ctx, CreatePrepare(env, input, ctx, validate))
  }

  /** create after its preparation: the write, the index and onAfter. */
  function CreateFrom(w: World, env: Env, input: Value, ctx: Context, prepared: Result<(Value, Value)>): (run: Run)
    ensures run.world.store.Keys >= w.store.Keys
  {
    var cfg := ConfigOf(env.def, "create");
    match prepared
    case Throw(e) => Finish(w, Throw(e), cfg.onError, input, ctx)
    case Ok((arg0, obj)) =>
      var written: Result<(Storage.Store, Value)> :=
        match cfg.methodHook
        case Some(h) => (var out :- h([arg0], ctx.req); Ok((w.store, out)))
        case None => Storage.Create(w.store, env.key, obj, env.freshId);
      match written
      case Throw(e) => Finish(w, Throw(e), cfg.onError, input, ctx)
      case Ok((store, output)) =>
        var w1 := World(store, w.index);
        match IndexPut(w1, env, obj, output)
        case Throw(e) => Finish(w1, Throw(e), cfg.onError, input, ctx)
        case Ok(w2) =>
          var after := CallInPlace(cfg.onAfter, [output, arg0], ctx.req);
          var shaped := if after.Ok? && cfg.responseSchema.Some? then env.shape(after.value, cfg.responseSchema.value) else after;
          Finish(w2, shaped, cfg.onError, input, ctx)
  }

  /** A plain create with no hooks, no indexing and no rules stores the
      caller's fields with `createdAt`, and answers them with the new id as
      `key`. */
  lemma CreateStoresStampedRecord(w: World, env: Env, data: Record, ctx: Context)
    requires ConfigOf(env.def, "create").onBefore.None? && ConfigOf(env.def, "create").methodHook.None?
    requires ConfigOf(env.def, "create").onAfter.None? && ConfigOf(env.def, "create").responseSchema.None?
    requires env.def.indexing.NoIndexing?
    requires "key" !in data && '/' !in env.key && '/' !in env.freshId
    ensures var run := Create(w, env, Obj(data), ctx, false);
      var stored := Storage.Records(run.world.store, env.key)[env.freshId];
      && env.freshId in Storage.Records(run.world.store, env.key)
      && stored == StampCreated(Obj(data), env.now, ctx.req).value
      && Prop(stored, "createdAt") == env.now
      && (forall k :: k in data && k !in {"createdAt", "createdBy"} ==> Prop(stored, k) == data[k])
      && run.done == Respond(ctx, Obj(Spread(stored)["path" := Str(Storage.PathOf(env.key, env.freshId))]["key" := Str(env.freshId)]))
  {
    var obj := StampCreated(Obj(data), env.now, ctx.req).value;
    assert CreatePrepare(env, Obj(data), ctx, false) == Ok((obj, obj));
    Storage.KeyFromPathRoundTrip(env.key, env.freshId);
    assert !Truthy(Prop(obj, "key"));
  }

  /** Turning validation off makes the outcome independent of the validator. */
  lemma CreateWithoutValidationIgnoresRules(w: World, env: Env, input: Value, ctx: Context, other: Validator)
    ensures Create(w, env, input, ctx, false) == Create(w, env.(validate := other), input, ctx, false)
  {
    var env' := env.(validate := other);
    var p := CreatePrepare(env, input, ctx, false);
    assert p == CreatePrepare(env', input, ctx, false) by {
      assert env'.def == env.def && env'.now == env.now;
    }
    CreateFromIgnoresValidator(w, env, other, input, ctx, p);
  }

  /** The write, the index and onAfter never consult the validator. */
  lemma CreateFromIgnoresValidator(w: World, env: Env, other: Validator, input: Value, ctx: Context,
                                   p: Result<(Value, Value)>)
    ensures CreateFrom(w, env, input, ctx, p) == CreateFrom(w, env.(validate := other), input, ctx, p)
  {
    var env' := env.(validate := other);
    assert env'.def == env.def && env'.key == env.key && env'.freshId == env.freshId && env'.shape == env.shape;
    forall w1: World, obj: Value, output: Value
      ensures IndexPut(w1, env, obj, output) == IndexPut(w1, env', obj, output)
    {
      assert IndexName(env') == IndexName(env);
      assert ResolveIndexing(env, w1, obj, None) == ResolveIndexing(env', w1, obj, None);
    }
  }

  // ----- find -----

  /** find's validation: with an index, the indexer's request rules and
      unknown keys allowed; otherwise the adapter's find rules. */
  function FindSchema(env: Env, indexed: bool): (s: Schema)
    ensures "all" in s
    ensures indexed ==> s.Keys == {"all"} + env.searchSchema.Keys + ConfigOf(env.def, "find").validateSchema.Keys
    ensures !indexed ==> s == OpSchema(map["all" := BooleanRule], env, "find")
  {
    if indexed then map["all" := BooleanRule] + env.searchSchema + ConfigOf(env.def, "find").validateSchema
    else OpSchema(map["all" := BooleanRule], env, "find")
  }

  /** The indexing configuration `find` holds after its first check: the
      resolved one when there is an indexer, else the definition's object. */
  function LocalConfig(env: Env, resolved: Option<(MemoryIndex.Engine, IndexConfig)>): Option<IndexConfig> {
    match resolved
    case Some((_, c)) => Some(c)
    case None => if env.def.indexing.Static? then Some(env.def.indexing.config) else None
  }

  /** The search query: the index configuration overlaid by the request's
      paging options and the requested field. */
  function SearchQuery(c: IndexConfig, data: Value): (q: MemoryIndex.Query)
    ensures q.searchField == Prop(data, "searchField")
    ensures q.preFilter == c.preFilter
    ensures Truthy(q.all) <==> RequestConfig.GetRequestConfig(data, None).all || Truthy(Prop(c.plain, "all"))
  {
    var rc := RequestConfig.GetRequestConfig(data, None);
    MemoryIndex.Query(rc.sort, rc.sortType, rc.from, rc.size,
                      if rc.all then Bool(true) else Prop(c.plain, "all"),
                      c.preFilter, Prop(data, "searchField"), rc.operator)
  }

  /** The search branch: the index is queried and the configured response
      filter applied to `{total, data}`. */
  function SearchBranch(env: Env, engine: MemoryIndex.Engine, c: IndexConfig, data: Value): (r: Result<Value>)
    requires Enumerates(env)
    ensures IsNullish(data) ==> r == Throw(TypeErrorValue)
    ensures IndexName(env) !in engine && !IsNullish(data) ==> r == Throw(MemoryIndex.MissingIndex(IndexName(env)))
  {
    if IsNullish(data) then Throw(TypeErrorValue)
    else
      var name := IndexName(env);
      var order := if name in engine then env.enumerate(engine[name].docs.Keys) else [];
      var found :- MemoryIndex.Search(engine, name, Prop(data, "search"), SearchQuery(c, data), order, env.matcher);
      var out := Obj(map["total" := Num(found.total), "data" := Arr(found.data)]);
      Ok(match env.responseFilter case Some(f) => f(out) case None => out)
  }

  /** Where find reads from. */
  datatype FindSource = ByHook | WholeBucket | ByIndex | ByPage

  /** The branch find takes: a `method` hook wins, then `all`, then the
      index, then Firebase's own paging. */
  function FindRoute(env: Env, resolved: Option<(MemoryIndex.Engine, IndexConfig)>, data: Value): FindSource {
    if ConfigOf(env.def, "find").methodHook.Some? then ByHook
    else if Truthy(data) && Truthy(Prop(data, "all")) then WholeBucket
    else if resolved.Some? then ByIndex
    else ByPage
  }

  /** The `all` branch: the whole bucket, through `populate` when the
      configuration has one. */
  function FindAll(w: World, env: Env, c: Option<IndexConfig>, data: Value): (r: seq<Value>)
    requires Enumerates(env)
    requires Truthy(Prop(data, "all"))
    ensures |r| == |Storage.Records(w.store, env.key)|
  {
    var records := Storage.Records(w.store, env.key);
    var order := env.enumerate(records.Keys);
    var query := Obj(map["all" := Bool(true)] + Spread(data));
    assert Prop(query, "all") == Prop(data, "all");
    var items := Storage.Find(w.store, env.key, query, order, env.pager);
    assert |items| == |records| by {
      EnumerationSize(order, records.Keys);
    }
    match c
    case Some(c) => seq(|items|, i requires 0 <= i < |items| => Populated(c, items[i], "find"))
    case None => items
  }

  /** find's output before onAfter. */
  function FindOutput(w: World, env: Env, resolved: Option<(MemoryIndex.Engine, IndexConfig)>, data: Value, req: Option<Request>): (r: Result<Value>)
    requires Enumerates(env)
    ensures FindRoute(env, resolved, data) == WholeBucket ==>
      r == Ok(Arr(FindAll(w, env, LocalConfig(env, resolved), data)))
    ensures FindRoute(env, resolved, data) == ByPage ==> r.Ok? && r.value.Arr?
    ensures FindRoute(env, resolved, data) == ByIndex ==> r == SearchBranch(env, resolved.value.0, resolved.value.1, data)
  {
    var records := Storage.Records(w.store, env.key);
    var order := env.enumerate(records.Keys);
    match FindRoute(env, resolved, data)
    case ByHook => ConfigOf(env.def, "find").methodHook.value([data, data], req)
    case WholeBucket => Ok(Arr(FindAll(w, env, LocalConfig(env, resolved), data)))
    case ByIndex => SearchBranch(env, resolved.value.0, resolved.value.1, data)
    case ByPage => Ok(Arr(Storage.Find(w.store, env.key, data, order, env.pager)))
  }

  /** Every element shaped by the response schema; only a list has `map`. */
  function ShapeEach(env: Env, output: Value, schema: Schema): (r: Result<Value>)
    ensures !output.Arr? ==> r == Throw(TypeErrorValue)
    ensures r.Ok? ==> r.value.Arr? && |r.value.items| == |output.items|
  {
    if !output.Arr? then Throw(TypeErrorValue)
    else
      var shaped :- ShapeAll(env, output.items, schema);
      Ok(Arr(shaped))
  }

  function ShapeAll(env: Env, items: seq<Value>, schema: Schema): (r: Result<seq<Value>>)
    ensures r.Ok? ==> |r.value| == |items| && forall i :: 0 <= i < |items| ==> Ok(r.value[i]) == env.shape(items[i], schema)
    ensures r.Throw? ==> exists i :: 0 <= i < |items| && env.shape(items[i], schema).Throw?
    decreases |items|
  {
    if |items| == 0 then Ok([])
    else
      var first :- env.shape(items[0], schema);
      var rest :- ShapeAll(env, items[1..], schema);
      assert forall i :: 1 <= i < |items| ==> items[i] == items[1..][i - 1];
      Ok([first] + rest)
  }

  function FindResult(w: World, env: Env, data: Value, ctx: Context): (r: Result<Value>)
    requires Enumerates(env)
  {
    var cfg := ConfigOf(env.def, "find");
    var resolved :- ResolveIndexing(env, w, data, ctx.req);
    var checked := ValidateData(env, data, FindSchema(env, resolved.Some?), resolved.Some?);
    if checked.Fail? then Throw(checked.error)
    else
      var obj :- CallInPlace(cfg.onBefore, [data], ctx.req);
      FindAfter(env, FindOutput(w, env, resolved, obj, ctx.req), obj, ctx.req)
  }

  /** find after its read: onAfter, then the response schema. */
  function FindAfter(env: Env, output: Result<Value>, obj: Value, req: Option<Request>): (r: Result<Value>)
    ensures output.Throw? ==> r == output
    ensures ConfigOf(env.def, "find").onAfter.None? && ConfigOf(env.def, "find").responseSchema.None? ==> r == output
  {
    var cfg := ConfigOf(env.def, "find");
    var out :- output;
    var after :- CallInPlace(cfg.onAfter, [out, obj], req);
    if cfg.responseSchema.Some? then ShapeEach(env, after, cfg.responseSchema.value) else Ok(after)
  }

  /** find(obj, req, res): reads only. */
  function Find(w: World, env: Env, data: Value, ctx: Context): (run: Run)
    requires Enumerates(env)
    ensures run.world == w
  {
    Finish(w, FindResult(w, env, data, ctx), ConfigOf(env.def, "find").onError, data, ctx)
  }

  /** `all` lists every stored record of the resource, with or without an
      index, when no `method` hook takes over. */
  lemma FindAllListsBucket(w: World, env: Env, data: Record, ctx: Context)
    requires Enumerates(env)
    requires ConfigOf(env.def, "find").methodHook.None? && ConfigOf(env.def, "find").onBefore.None?
    requires ConfigOf(env.def, "find").onAfter.None? && ConfigOf(env.def, "find").responseSchema.None?
    requires Truthy(Field(data, "all"))
    requires ResolveIndexing(env, w, Obj(data), ctx.req).Ok?
    requires ValidateData(env, Obj(data), FindSchema(env, ResolveIndexing(env, w, Obj(data), ctx.req).value.Some?),
                          ResolveIndexing(env, w, Obj(data), ctx.req).value.Some?).Pass?
    ensures FindResult(w, env, Obj(data), ctx).Ok?
    ensures FindResult(w, env, Obj(data), ctx).value.Arr?
    ensures |FindResult(w, env, Obj(data), ctx).value.items| == |Storage.Records(w.store, env.key)|
  {
    var resolved := ResolveIndexing(env, w, Obj(data), ctx.req).value;
    FindWithoutHooks(w, env, Obj(data), ctx);
    assert Truthy(Obj(data)) && Prop(Obj(data), "all") == Field(data, "all");
    assert FindRoute(env, resolved, Obj(data)) == WholeBucket;
    var items := FindAll(w, env, LocalConfig(env, resolved), Obj(data));
    assert FindOutput(w, env, resolved, Obj(data), ctx.req) == Ok(Arr(items));
    assert |items| == |Storage.Records(w.store, env.key)|;
  }

  /** With no find hooks and a passing validation, find answers its
      branch's output. */
  lemma FindWithoutHooks(w: World, env: Env, data: Value, ctx: Context)
    requires Enumerates(env)
    requires ConfigOf(env.def, "find").onBefore.None?
    requires ConfigOf(env.def, "find").onAfter.None? && ConfigOf(env.def, "find").responseSchema.None?
    requires ResolveIndexing(env, w, data, ctx.req).Ok?
    requires ValidateData(env, data, FindSchema(env, ResolveIndexing(env, w, data, ctx.req).value.Some?),
                          ResolveIndexing(env, w, data, ctx.req).value.Some?).Pass?
    ensures FindResult(w, env, data, ctx) == FindOutput(w, env, ResolveIndexing(env, w, data, ctx.req).value, data, ctx.req)
  {
    assert CallInPlace(ConfigOf(env.def, "find").onBefore, [data], ctx.req) == Ok(data);
  }

  /** Without a hook, `all` or an indexer, find is Firebase's paged read. */
  lemma FindWithoutIndexPages(w: World, env: Env, data: Value, ctx: Context)
    requires Enumerates(env)
    requires ConfigOf(env.def, "find").methodHook.None? && ConfigOf(env.def, "find").onBefore.None?
    requires ConfigOf(env.def, "find").onAfter.None? && ConfigOf(env.def, "find").responseSchema.None?
    requires w.index.None? && !(Truthy(data) && Truthy(Prop(data, "all")))
    requires ValidateData(env, data, FindSchema(env, false), false).Pass?
    ensures FindResult(w, env, data, ctx)
      == Ok(Arr(Storage.Find(w.store, env.key, data, env.enumerate(Storage.Records(w.store, env.key).Keys), env.pager)))
  {
    var order := env.enumerate(Storage.Records(w.store, env.key).Keys);
    assert FindResult(w, env, data, ctx) == FindOutput(w, env, None, data, ctx.req) by {
      assert ResolveIndexing(env, w, data, ctx.req) == Ok(None);
      FindWithoutHooks(w, env, data, ctx);
    }
    assert FindOutput(w, env, None, data, ctx.req) == Ok(Arr(Storage.Find(w.store, env.key, data, order, env.pager))) by {
      assert FindRoute(env, None, data) == ByPage;
    }
  }

  // ----- get -----

  /** One record of a get: onBeforeEach, the lookup, the 404 for null,
      onAfterEach and the response schema. */
  function GetOne(w: World, env: Env, obj: Value, id: Value, req: Option<Request>): (r: Result<Value>)
    ensures r.Ok? ==> r.value != Null || ConfigOf(env.def, "get").onAfterEach.Some? || ConfigOf(env.def, "get").responseSchema.Some?
  {
    var cfg := ConfigOf(env.def, "get");
    var before := CallForEffect(cfg.onBeforeEach, [id, obj], req);
    if before.Fail? then Throw(before.error)
    else
      var found :- match cfg.methodHook
        case Some(h) => h([id, obj], req)
        case None =>
          if !env.def.indexing.NoIndexing? && w.index.Some? then MemoryIndex.Get(w.index.value, IndexName(env), ToStr(id))
          else Ok(Storage.Get(w.store, env.key, ToStr(id)));
      if found == Null then Throw(NotFound)
      else
        var after :- CallInPlace(cfg.onAfterEach, [found, id, obj], req);
        if cfg.responseSchema.Some? then env.shape(after, cfg.responseSchema.value) else Ok(after)
  }

  /** The entry one lookup leaves: the record, or the parsed error. */
  function OutcomeEntry(r: Result<Value>): Value {
    if r.Ok? then r.value else ParseSingleError(r.error)
  }

  /** The keys of a list of ids are its first id's key and the rest's. */
  lemma IdKeysCons(ids: seq<Value>)
    requires |ids| > 0
    ensures (set i | 0 <= i < |ids| :: ToStr(ids[i])) == {ToStr(ids[0])} + set i | 0 <= i < |ids[1..]| :: ToStr(ids[1..][i])
  {
    var all := set i | 0 <= i < |ids| :: ToStr(ids[i]);
    var tail := set i | 0 <= i < |ids[1..]| :: ToStr(ids[1..][i]);
    forall k | k in all
      ensures k in {ToStr(ids[0])} + tail
    {
      var i :| 0 <= i < |ids| && ToStr(ids[i]) == k;
      if i > 0 {
        assert ids[1..][i - 1] == ids[i];
      }
    }
    forall k | k in tail
      ensures k in all
    {
      var i :| 0 <= i < |ids[1..]| && ToStr(ids[1..][i]) == k;
      assert ids[i + 1] == ids[1..][i];
    }
  }

  /** What each id leaves in the answer map: its record or its error. */
  function Outcomes(entries: map<string, Value>, failed: bool, ids: seq<Value>, lookup: Value -> Result<Value>): (r: (map<string, Value>, bool))
    ensures r.0.Keys == entries.Keys + set i | 0 <= i < |ids| :: ToStr(ids[i])
    ensures r.1 <==> failed || exists i :: 0 <= i < |ids| && lookup(ids[i]).Throw?
    decreases |ids|
  {
    if |ids| == 0 then (entries, failed)
    else
      var r := lookup(ids[0]);
      var rest := Outcomes(entries[ToStr(ids[0]) := OutcomeEntry(r)], failed || r.Throw?, ids[1..], lookup);
      assert forall i :: 1 <= i < |ids| ==> ids[i] == ids[1..][i - 1];
      IdKeysCons(ids);
      rest
  }

  /** The found records, in key order, without failed or falsy entries. The
      branch meant to add `key` to object entries tests
      `!entry instanceof Array`, which is `false instanceof Array` for every
      entry that gets this far, so entries come back unchanged. */
  function Collect(entries: map<string, Value>, order: seq<string>): (items: seq<Value>)
    requires forall i :: 0 <= i < |order| ==> order[i] in entries
    ensures forall x :: x in items ==> Truthy(x) && !Truthy(Prop(x, "error"))
    ensures forall x :: x in items ==> exists i :: 0 <= i < |order| && entries[order[i]] == x
    ensures forall i :: 0 <= i < |order| && Truthy(entries[order[i]]) && !Truthy(Prop(entries[order[i]], "error")) ==> entries[order[i]] in items
    decreases |order|
  {
    if |order| == 0 then []
    else
      var v := entries[order[0]];
      var rest := Collect(entries, order[1..]);
      assert forall i :: 1 <= i < |order| ==> order[i] == order[1..][i - 1];
      if Truthy(v) && !Truthy(Prop(v, "error")) then [v] + rest else rest
  }

  /** The ids after onBefore: `obj.id` must still be a list. */
  function IdList(obj: Value): (r: Result<seq<Value>>)
    ensures Prop(obj, "id").Arr? <==> r.Ok?
  {
    match Prop(obj, "id")
    case Arr(items) => Ok(items)
    case _ => Throw(TypeErrorValue)
  }

  function Strs(parts: seq<string>): (r: seq<Value>)
    ensures |r| == |parts| && forall i :: 0 <= i < |parts| ==> r[i] == Str(parts[i])
  {
    seq(|parts|, i requires 0 <= i < |parts| => Str(parts[i]))
  }

  /** Validation, the comma split of `obj.id`, onBefore and the id list
      the hooks leave, shared by get and remove; `text` is the operation's
      reading of `obj.id` as text. */
  function PrepareIds(env: Env, op: string, data: Value, text: Result<string>, req: Option<Request>): (r: Result<(Value, seq<Value>)>)
    ensures ValidateData(env, data, OpSchema(map["id" := RequiredString], env, op), false).Fail? ==>
      r == Throw(ValidateData(env, data, OpSchema(map["id" := RequiredString], env, op), false).error)
    ensures r.Ok? ==> text.Ok? && data.Obj?
    ensures (&& ValidateData(env, data, OpSchema(map["id" := RequiredString], env, op), false).Pass?
             && text.Ok? && data.Obj? && ConfigOf(env.def, op).onBefore.None?) ==>
      r == Ok((Obj(data.fields["id" := Arr(Strs(Split(text.value, ',')))]), Strs(Split(text.value, ','))))
  {
    var checked := ValidateData(env, data, OpSchema(map["id" := RequiredString], env, op), false);
    if checked.Fail? then Throw(checked.error)
    else if text.Throw? || !data.Obj? then Throw(TypeErrorValue)
    else
      var withIds := Obj(data.fields["id" := Arr(Strs(Split(text.value, ',')))]);
      var obj :- CallInPlace(ConfigOf(env.def, op).onBefore, [withIds], req);
      var ids :- IdList(obj);
      Ok((obj, ids))
  }

  /** get's reading of `obj.id`: only a string can be split. */
  function GetIdText(data: Value): Result<string> {
    if Prop(data, "id").Str? then Ok(Prop(data, "id").s) else Throw(TypeErrorValue)
  }

  /** The lookups, then the one-id failure or the collected records. */
  function GetAnswer(w: World, env: Env, obj: Value, ids: seq<Value>, req: Option<Request>): (r: Result<Value>)
    requires Enumerates(env)
  {
    var (entries, failed) := Outcomes(map[], false, ids, id => GetOne(w, env, obj, id, req));
    var order := env.enumerate(entries.Keys);
    if failed && |ids| == 1 then
      var combined :- CombineMultipleErrors(entries, order, env.key, "get");
      Throw(BatchError(combined))
    else
      var items := Collect(entries, order);
      var output := if |ids| == 1 then (if |items| > 0 then items[0] else Undefined) else Arr(items);
      CallInPlace(ConfigOf(env.def, "get").onAfter, [output, obj], req)
  }

  function GetResult(w: World, env: Env, data: Value, ctx: Context): (r: Result<Value>)
    requires Enumerates(env)
  {
    var (obj, ids) :- PrepareIds(env, "get", data, GetIdText(data), ctx.req);
    GetAnswer(w, env, obj, ids, ctx.req)
  }

  /** get(obj, req, res): reads only. */
  function Get(w: World, env: Env, data: Value, ctx: Context): (run: Run)
    requires Enumerates(env)
    ensures run.world == w
  {
    Finish(w, GetResult(w, env, data, ctx), ConfigOf(env.def, "get").onError, data, ctx)
  }

  // ----- update -----

  /** `data` stamped with `updatedAt`, and `updatedBy` when logged in. */
  function StampUpdated(data: Value, now: Value, req: Option<Request>): (r: Result<Value>)
    ensures !data.Obj? ==> r == Throw(TypeErrorValue)
    ensures data.Obj? ==> (
      && r.Ok? && r.value.Obj? && Prop(r.value, "updatedAt") == now
      && (forall k :: k in data.fields && k !in {"updatedAt", "updatedBy"} ==> k in r.value.fields && r.value.fields[k] == data.fields[k])
      && (req.Some? && Truthy(req.value.user) ==> Prop(r.value, "updatedBy") == Prop(req.value.user, "uid"))
      && (!(req.Some? && Truthy(req.value.user)) ==> Prop(r.value, "updatedBy") == Prop(data, "updatedBy")))
  {
    if !data.Obj? then Throw(TypeErrorValue)
    else
      var stamped := data.fields["updatedAt" := now];
      if req.Some? && Truthy(req.value.user) then Ok(Obj(stamped["updatedBy" := Prop(req.value.user, "uid")]))
      else Ok(Obj(stamped))
  }

  /** The database write of an update: the merged record keyed by the id;
      a missing record without `overrideIfNotExist` answers null, and null
      cannot take a `key`. */
  function UpdateWrite(s: Storage.Store, env: Env, id: Value, data: Value): (r: Result<(Storage.Store, Value)>)
    ensures r.Ok? ==> Prop(r.value.1, "key") == id
    ensures ToStr(id) !in Storage.Records(s, env.key) && !ConfigOf(env.def, "update").overrideIfNotExist ==> r == Throw(TypeErrorValue)
  {
    var written :- Storage.Update(s, env.key, Obj(map["id" := id, "data" := data]), ConfigOf(env.def, "update").overrideIfNotExist);
    var (store, output) := written;
    if !output.Obj? then Throw(TypeErrorValue)
    else Ok((store, Obj(output.fields["key" := id])))
  }

  function UpdateBody(w: World, env: Env, obj: Value, ctx: Context): (r: (World, Result<Value>))
  {
    var cfg := ConfigOf(env.def, "update");
    var data := Prop(obj, "data");
    var checked := ValidateData(env, data, OpSchema(map[], env, "update"), false);
    var prepared: Result<(Value, Value)> :=
      if checked.Fail? then Throw(checked.error)
      else
        var stamped :- StampUpdated(data, env.now, ctx.req);
        var edited :- CallInPlace(cfg.onBefore, [Obj(obj.fields["data" := stamped])], ctx.req);
        Ok((stamped, edited));
    match prepared
    case Throw(e) => (w, Throw(e))
    case Ok((stamped, edited)) =>
      var id := Prop(edited, "id");
      var written: Result<(Storage.Store, Value)> :=
        match cfg.methodHook
        case Some(h) => (var out :- h([id, stamped, edited], ctx.req); Ok((w.store, out)))
        case None => UpdateWrite(w.store, env, id, stamped);
      match written
      case Throw(e) => (w, Throw(e))
      case Ok((store, output)) =>
        var w1 := World(store, w.index);
        var indexed: Result<World> :=
          var resolved :- ResolveIndexing(env, w1, edited, None);
          match resolved
          case None => Ok(w1)
          case Some((engine, c)) =>
            var e1 :- MemoryIndex.Update(engine, IndexName(env), Populated(c, output, "update"));
            Ok(World(store, Some(e1)));
        match indexed
        case Throw(e) => (w1, Throw(e))
        case Ok(w2) =>
          var after := CallInPlace(cfg.onAfter, [output, edited], ctx.req);
          (w2, if after.Ok? && cfg.responseSchema.Some? then env.shape(after.value, cfg.responseSchema.value) else after)
  }

  /** An onBefore that throws stops update before the write: the world is
      unchanged and the hook's error is the outcome. */
  lemma UpdateStoppedBeforeWrite(w: World, env: Env, obj: Value, ctx: Context)
    requires obj.Obj? && Prop(obj, "data").Obj?
    requires ValidateData(env, Prop(obj, "data"), OpSchema(map[], env, "update"), false).Pass?
    requires var stamped := StampUpdated(Prop(obj, "data"), env.now, ctx.req).value;
      CallInPlace(ConfigOf(env.def, "update").onBefore, [Obj(obj.fields["data" := stamped])], ctx.req).Throw?
    ensures var stamped := StampUpdated(Prop(obj, "data"), env.now, ctx.req).value;
      UpdateBody(w, env, obj, ctx)
        == (w, Throw(CallInPlace(ConfigOf(env.def, "update").onBefore, [Obj(obj.fields["data" := stamped])], ctx.req).error))
  {
  }

  /** update(obj, req, res): `obj` is destructured before the error handler
      is in place, so a missing `obj` rejects without reaching onError. */
  function Update(w: World, env: Env, obj: Value, ctx: Context): (run: Run)
    ensures IsNullish(obj) ==> run == Run(w, Raised(TypeErrorValue))
  {
    if IsNullish(obj) then Run(w, Raised(TypeErrorValue))
    else
      var (w1, out) := UpdateBody(w, env, obj, ctx);
      Finish(w1, out, ConfigOf(env.def, "update").onError, obj, ctx)
  }

  // ----- remove -----

  /** One record of a remove: onBeforeEach, the delete, the 404 for null,
      the index removal and onAfterEach. */
  function RemoveOne(w: World, env: Env, obj: Value, id: Value, req: Option<Request>): (r: (World, Result<Value>))
    ensures (&& ConfigOf(env.def, "remove").methodHook.None?
             && CallForEffect(ConfigOf(env.def, "remove").onBeforeEach, [id, obj], req).Pass?
             && ToStr(id) !in Storage.Records(w.store, env.key)) ==> r == (w, Throw(NotFound))
  {
    var cfg := ConfigOf(env.def, "remove");
    var before := CallForEffect(cfg.onBeforeEach, [id, obj], req);
    if before.Fail? then (w, Throw(before.error))
    else
      var deleted: Result<(Storage.Store, Value)> :=
        match cfg.methodHook
        case Some(h) => (var out :- h([id, obj], req); Ok((w.store, out)))
        case None => Ok(Storage.Remove(w.store, env.key, ToStr(id)));
      match deleted
      case Throw(e) => (w, Throw(e))
      case Ok((store, v)) =>
        if v == Null then (w, Throw(NotFound))
        else
          var w1 := World(store, w.index);
          var indexed: Result<World> :=
            var resolved :- ResolveIndexing(env, w1, obj, None);
            match resolved
            case None => Ok(w1)
            case Some((engine, _)) =>
              var e1 :- MemoryIndex.Remove(engine, IndexName(env), Obj(map["key" := id]));
              Ok(World(store, Some(e1)));
          match indexed
          case Throw(e) => (w1, Throw(e))
          case Ok(w2) => (w2, CallInPlace(cfg.onAfterEach, [v, id, obj], req))
  }

  /** The ids removed one after another: the world, the answer map and
      whether any id failed. */
  function RemoveAll(w: World, env: Env, obj: Value, ids: seq<Value>, req: Option<Request>, entries: map<string, Value>, failed: bool): (r: (World, map<string, Value>, bool))
    ensures r.1.Keys == entries.Keys + set i | 0 <= i < |ids| :: ToStr(ids[i])
    decreases |ids|
  {
    if |ids| == 0 then (w, entries, failed)
    else
      var (w1, out) := RemoveOne(w, env, obj, ids[0], req);
      var entry := if out.Ok? then out.value else ParseSingleError(out.error);
      assert forall i :: 1 <= i < |ids| ==> ids[i] == ids[1..][i - 1];
      IdKeysCons(ids);
      RemoveAll(w1, env, obj, ids[1..], req, entries[ToStr(ids[0]) := entry], failed || out.Throw?)
  }

  /** remove's reading of `obj.id`: `toString()` of anything non-nullish. */
  function RemoveIdText(data: Value): Result<string> {
    if IsNullish(Prop(data, "id")) then Throw(TypeErrorValue) else Ok(ToStr(Prop(data, "id")))
  }

  /** The deletions, then the one-id failure or the whole answer map. */
  function RemoveAnswer(w: World, env: Env, obj: Value, ids: seq<Value>, req: Option<Request>): (r: (World, Result<Value>))
    requires Enumerates(env)
  {
    var (w1, entries, failed) := RemoveAll(w, env, obj, ids, req, map[], false);
    if failed && |ids| == 1 then
      var combined := CombineMultipleErrors(entries, env.enumerate(entries.Keys), env.key, "delete");
      (w1, if combined.Ok? then Throw(BatchError(combined.value)) else Throw(combined.error))
    else (w1, CallInPlace(ConfigOf(env.def, "remove").onAfter, [Obj(entries), obj], req))
  }

  function RemoveBody(w: World, env: Env, data: Value, ctx: Context): (r: (World, Result<Value>))
    requires Enumerates(env)
  {
    var prepared := PrepareIds(env, "remove", data, RemoveIdText(data), ctx.req);
    if prepared.Throw? then (w, Throw(prepared.error))
    else RemoveAnswer(w, env, prepared.value.0, prepared.value.1, ctx.req)
  }

  /** remove(obj, req, res, next). */
  function Remove(w: World, env: Env, data: Value, ctx: Context): (run: Run)
    requires Enumerates(env)
  {
    var (w1, out) := RemoveBody(w, env, data, ctx);
    Finish(w1, out, ConfigOf(env.def, "remove").onError, data, ctx)
  }
}

/** Properties that relate the operations to one another and to the store. */
module OperationProperties {
  import opened Strings
  import opened Values
  import opened Errors
  import opened Definitions
  import opened Pipeline
  import opened Operations
  import MemoryIndex
  import Storage

  /** Neither hooks nor response rules nor indexing for `op`. */
  predicate Plain(env: Env, op: string) {
    var c := ConfigOf(env.def, op);
    && c.onBefore.None? && c.onAfter.None? && c.onBeforeEach.None? && c.onAfterEach.None?
    && c.methodHook.None? && c.responseSchema.None? && env.def.indexing.NoIndexing?
  }

  /** Preparing `{id}` splits the id and stores the list back in `id`. */
  lemma PrepareSplits(env: Env, op: string, id: string, req: Option<Request>)
    requires ConfigOf(env.def, op).onBefore.None?
    requires ValidateData(env, Obj(map["id" := Str(id)]), OpSchema(map["id" := RequiredString], env, op), false).Pass?
    ensures PrepareIds(env, op, Obj(map["id" := Str(id)]), Ok(id), req)
      == Ok((Obj(map["id" := Str(id)]["id" := Arr(Strs(Split(id, ',')))]), Strs(Split(id, ','))))
  {
  }

  /** Both operations read a string id as itself. */
  lemma StringIdText(id: string)
    ensures GetIdText(Obj(map["id" := Str(id)])) == Ok(id)
    ensures RemoveIdText(Obj(map["id" := Str(id)])) == Ok(id)
  {
  }

  lemma SingleIdList(id: string)
    requires ',' !in id
    ensures Strs(Split(id, ',')) == [Str(id)]
  {
    SplitJoin([id], ',');
    assert Strs([id]) == [Str(id)];
  }

  /** The only enumeration of one key. */
  lemma SingleEnumeration(order: seq<string>, k: string)
    requires IsEnumeration(order, {k})
    ensures order == [k]
  {
    EnumerationSize(order, {k});
  }

  /** The answer map of a one-id batch. */
  lemma OneOutcome(id: string, lookup: Value -> Result<Value>)
    ensures Outcomes(map[], false, [Str(id)], lookup)
      == (map[id := if lookup(Str(id)).Ok? then lookup(Str(id)).value else ParseSingleError(lookup(Str(id)).error)],
          lookup(Str(id)).Throw?)
  {
    assert [Str(id)][1..] == [];
  }

  /** One stored id: the answer is its record. */
  lemma GetAnswerStored(w: World, env: Env, obj: Value, id: string, req: Option<Request>)
    requires Enumerates(env) && Plain(env, "get")
    requires id in Storage.Records(w.store, env.key)
    requires var rec := Storage.Records(w.store, env.key)[id]; Truthy(rec) && !Truthy(Prop(rec, "error"))
    ensures GetAnswer(w, env, obj, [Str(id)], req) == Ok(Storage.Records(w.store, env.key)[id])
  {
    var lookup := (x: Value) => GetOne(w, env, obj, x, req);
    var rec := Storage.Records(w.store, env.key)[id];
    assert lookup(Str(id)) == Ok(rec);
    OneOutcome(id, lookup);
    var entries := map[id := rec];
    SingleEnumeration(env.enumerate(entries.Keys), id);
    assert Collect(entries, [id]) == [rec] by {
      assert [id][1..] == [];
    }
  }

  /** A record get asks for by its id comes back as stored. */
  lemma GetFindsStoredRecord(w: World, env: Env, id: string, ctx: Context)
    requires Enumerates(env) && Plain(env, "get")
    requires ',' !in id && id in Storage.Records(w.store, env.key)
    requires var rec := Storage.Records(w.store, env.key)[id]; Truthy(rec) && !Truthy(Prop(rec, "error"))
    requires ValidateData(env, Obj(map["id" := Str(id)]), OpSchema(map["id" := RequiredString], env, "get"), false).Pass?
    ensures GetResult(w, env, Obj(map["id" := Str(id)]), ctx) == Ok(Storage.Records(w.store, env.key)[id])
  {
    var data := Obj(map["id" := Str(id)]);
    var ids := Strs(Split(id, ','));
    var obj := Obj(map["id" := Str(id)]["id" := Arr(ids)]);
    PrepareSplits(env, "get", id, ctx.req);
    SingleIdList(id);
    StringIdText(id);
    assert GetResult(w, env, data, ctx) == GetAnswer(w, env, obj, ids, ctx.req);
    GetAnswerStored(w, env, obj, id, ctx.req);
  }

  /** Create followed by get of the new id: the stamped record comes back. */
  lemma CreateThenGet(w: World, env: Env, data: Record, ctx: Context)
    requires Enumerates(env) && Plain(env, "create") && Plain(env, "get")
    requires "key" !in data && !Truthy(Field(data, "error"))
    requires '/' !in env.key && '/' !in env.freshId && ',' !in env.freshId
    requires ValidateData(env, Obj(map["id" := Str(env.freshId)]), OpSchema(map["id" := RequiredString], env, "get"), false).Pass?
    ensures var w1 := Create(w, env, Obj(data), ctx, false).world;
      var got := GetResult(w1, env, Obj(map["id" := Str(env.freshId)]), ctx);
      && got.Ok?
      && Prop(got.value, "createdAt") == env.now
      && (forall k :: k in data && k !in {"createdAt", "createdBy"} ==> Prop(got.value, k) == data[k])
  {
    CreateStoresStampedRecord(w, env, data, ctx);
    GetStampedRecord(Create(w, env, Obj(data), ctx, false).world, env, data, ctx);
  }

  /** get of an id holding a stamped record answers it. */
  lemma GetStampedRecord(w: World, env: Env, data: Record, ctx: Context)
    requires Enumerates(env) && Plain(env, "get")
    requires !Truthy(Field(data, "error")) && ',' !in env.freshId
    requires env.freshId in Storage.Records(w.store, env.key)
    requires Storage.Records(w.store, env.key)[env.freshId] == StampCreated(Obj(data), env.now, ctx.req).value
    requires ValidateData(env, Obj(map["id" := Str(env.freshId)]), OpSchema(map["id" := RequiredString], env, "get"), false).Pass?
    ensures var got := GetResult(w, env, Obj(map["id" := Str(env.freshId)]), ctx);
      && got.Ok?
      && Prop(got.value, "createdAt") == env.now
      && (forall k :: k in data && k !in {"createdAt", "createdBy"} ==> Prop(got.value, k) == data[k])
  {
    StampKeepsOtherFields(data, env.now, ctx.req, "error");
    GetFindsStoredRecord(w, env, env.freshId, ctx);
  }

  /** Stamping touches only `createdAt` and `createdBy`. */
  lemma StampKeepsOtherFields(data: Record, now: Value, req: Option<Request>, k: string)
    requires k !in {"createdAt", "createdBy"}
    ensures StampCreated(Obj(data), now, req).Ok?
    ensures Prop(StampCreated(Obj(data), now, req).value, k) == Field(data, k)
  {
  }

  /** Each entry of the answer map is the one it started with or the
      outcome of some id's lookup. */
  lemma {:induction false} OutcomeValues(entries: map<string, Value>, failed: bool, ids: seq<Value>, lookup: Value -> Result<Value>, k: string)
    requires k in Outcomes(entries, failed, ids, lookup).0
    ensures var v := Outcomes(entries, failed, ids, lookup).0[k];
      (k in entries && v == entries[k]) ||
      (exists i :: 0 <= i < |ids| && ToStr(ids[i]) == k && v == OutcomeEntry(lookup(ids[i])))
    decreases |ids|
  {
    if |ids| > 0 {
      var next := entries[ToStr(ids[0]) := OutcomeEntry(lookup(ids[0]))];
      OutcomeValues(next, failed || lookup(ids[0]).Throw?, ids[1..], lookup, k);
      var v := Outcomes(entries, failed, ids, lookup).0[k];
      if exists i :: 0 <= i < |ids[1..]| && ToStr(ids[1..][i]) == k && v == OutcomeEntry(lookup(ids[1..][i])) {
        var i :| 0 <= i < |ids[1..]| && ToStr(ids[1..][i]) == k && v == OutcomeEntry(lookup(ids[1..][i]));
        assert ids[i + 1] == ids[1..][i];
      } else if k == ToStr(ids[0]) {
        assert v == OutcomeEntry(lookup(ids[0]));
      }
    }
  }

  /** With a lookup that answers the found value or a 404, an answer
      entry that is truthy and error-free is a found value. */
  lemma EntryIsFound(ids: seq<Value>, lookup: Value -> Result<Value>, find: Value -> Value, k: string)
    requires forall x :: lookup(x) == (if find(x) == Null then Throw(NotFound) else Ok(find(x)))
    requires k in Outcomes(map[], false, ids, lookup).0
    ensures var v := Outcomes(map[], false, ids, lookup).0[k];
      Truthy(v) && !Truthy(Prop(v, "error")) ==> exists i :: 0 <= i < |ids| && find(ids[i]) == v
  {
    var v := Outcomes(map[], false, ids, lookup).0[k];
    OutcomeValues(map[], false, ids, lookup, k);
    var i :| 0 <= i < |ids| && ToStr(ids[i]) == k && v == OutcomeEntry(lookup(ids[i]));
    FoundOrError(lookup(ids[i]), find(ids[i]));
  }

  /** The entry a lookup leaves is the found value, or an error entry. */
  lemma FoundOrError(r: Result<Value>, found: Value)
    requires r == (if found == Null then Throw(NotFound) else Ok(found))
    ensures found == Null ==> Truthy(Prop(OutcomeEntry(r), "error"))
    ensures found != Null ==> OutcomeEntry(r) == found
  {
    if found == Null {
      assert Prop(ParseSingleError(NotFound), "error") == Bool(true);
    }
  }

  lemma PlainGetOne(w: World, env: Env, obj: Value, id: Value, req: Option<Request>)
    requires Plain(env, "get")
    ensures var found := Storage.Get(w.store, env.key, ToStr(id));
      GetOne(w, env, obj, id, req) == if found == Null then Throw(NotFound) else Ok(found)
  {
  }

  /** Several ids: the answer is the collected entries, whatever failed. */
  lemma GetManyCollects(w: World, env: Env, obj: Value, ids: seq<Value>, req: Option<Request>)
    requires Enumerates(env) && Plain(env, "get") && |ids| > 1
    ensures var entries := Outcomes(map[], false, ids, x => GetOne(w, env, obj, x, req)).0;
      GetAnswer(w, env, obj, ids, req) == Ok(Arr(Collect(entries, env.enumerate(entries.Keys))))
  {
  }

  /** Asking for several ids never fails for the missing ones: the answer
      is the list of the records stored under the ids asked for, and holds
      every truthy, error-free one of them. */
  lemma GetManySkipsMissing(w: World, env: Env, obj: Value, ids: seq<Value>, req: Option<Request>)
    requires Enumerates(env) && Plain(env, "get") && |ids| > 1
    ensures var r := GetAnswer(w, env, obj, ids, req);
      && r.Ok? && r.value.Arr?
      && (forall x :: x in r.value.items ==>
            Truthy(x) && exists i :: 0 <= i < |ids| && Storage.Get(w.store, env.key, ToStr(ids[i])) == x)
      && (forall i :: 0 <= i < |ids| && ToStr(ids[i]) in Storage.Records(w.store, env.key) ==>
            var rec := Storage.Records(w.store, env.key)[ToStr(ids[i])];
            Truthy(rec) && !Truthy(Prop(rec, "error")) ==> rec in r.value.items)
  {
    var lookup := (x: Value) => GetOne(w, env, obj, x, req);
    var entries := Outcomes(map[], false, ids, lookup).0;
    var order := env.enumerate(entries.Keys);
    GetManyCollects(w, env, obj, ids, req);
    var find := (x: Value) => Storage.Get(w.store, env.key, ToStr(x));
    forall x
      ensures lookup(x) == (if find(x) == Null then Throw(NotFound) else Ok(find(x)))
    {
      PlainGetOne(w, env, obj, x, req);
    }
    forall x | x in Collect(entries, order)
      ensures Truthy(x) && exists i :: 0 <= i < |ids| && Storage.Get(w.store, env.key, ToStr(ids[i])) == x
    {
      var j :| 0 <= j < |order| && entries[order[j]] == x;
      EntryIsFound(ids, lookup, find, order[j]);
      var i :| 0 <= i < |ids| && find(ids[i]) == x;
      assert Storage.Get(w.store, env.key, ToStr(ids[i])) == x;
    }
    forall i | 0 <= i < |ids| && ToStr(ids[i]) in Storage.Records(w.store, env.key)
      ensures var rec := Storage.Records(w.store, env.key)[ToStr(ids[i])];
        Truthy(rec) && !Truthy(Prop(rec, "error")) ==> rec in Collect(entries, order)
    {
      var k := ToStr(ids[i]);
      assert k in entries;
      StoredIsEntry(w, env, obj, ids, req, k);
      assert k in order;
    }
  }

  /** The entry under a stored id's key is the stored record, when that
      record is truthy and carries no error. */
  lemma StoredIsEntry(w: World, env: Env, obj: Value, ids: seq<Value>, req: Option<Request>, k: string)
    requires Plain(env, "get")
    requires k in Outcomes(map[], false, ids, x => GetOne(w, env, obj, x, req)).0
    requires k in Storage.Records(w.store, env.key)
    ensures var rec := Storage.Records(w.store, env.key)[k];
      Truthy(rec) && !Truthy(Prop(rec, "error")) ==>
        Outcomes(map[], false, ids, x => GetOne(w, env, obj, x, req)).0[k] == rec
  {
    var lookup := (x: Value) => GetOne(w, env, obj, x, req);
    OutcomeValues(map[], false, ids, lookup, k);
    var j :| 0 <= j < |ids| && ToStr(ids[j]) == k && Outcomes(map[], false, ids, lookup).0[k] == OutcomeEntry(lookup(ids[j]));
    PlainGetOne(w, env, obj, ids[j], req);
  }

  /** One missing id: the answer is the batch 404 naming it. */
  lemma GetAnswerMissing(w: World, env: Env, obj: Value, id: string, req: Option<Request>)
    requires Enumerates(env) && Plain(env, "get")
    requires id !in Storage.Records(w.store, env.key)
    ensures var r := GetAnswer(w, env, obj, [Str(id)], req);
      && r.Throw?
      && Prop(r.error, "status") == Num(404)
      && Prop(r.error, "message") == Str("Record does not exist")
      && Prop(r.error, "details") == Obj(map[id := ParseSingleError(NotFound)])
      && Prop(r.error, "method") == Str("get")
      && r.error.Obj? && r.error.fields.Keys == {"status", "message", "details", "api", "method"}
  {
    var lookup := (x: Value) => GetOne(w, env, obj, x, req);
    assert lookup(Str(id)) == Throw(NotFound);
    OneOutcome(id, lookup);
    var entries := map[id := ParseSingleError(NotFound)];
    SingleEnumeration(env.enumerate(entries.Keys), id);
    OneFailedRecord(id, NotFound, env.key, "get");
  }

  /** Asking get for one id that is not stored fails with a 404 naming it. */
  lemma GetMissingRecord(w: World, env: Env, id: string, ctx: Context)
    requires Enumerates(env) && Plain(env, "get")
    requires ',' !in id && id !in Storage.Records(w.store, env.key)
    requires ValidateData(env, Obj(map["id" := Str(id)]), OpSchema(map["id" := RequiredString], env, "get"), false).Pass?
    ensures var r := GetResult(w, env, Obj(map["id" := Str(id)]), ctx);
      && r.Throw?
      && Prop(r.error, "status") == Num(404)
      && Prop(r.error, "details") == Obj(map[id := ParseSingleError(NotFound)])
      && Prop(r.error, "method") == Str("get")
      && r.error.Obj? && r.error.fields.Keys == {"status", "message", "details", "api", "method"}
  {
    var data := Obj(map["id" := Str(id)]);
    var ids := Strs(Split(id, ','));
    var obj := Obj(map["id" := Str(id)]["id" := Arr(ids)]);
    PrepareSplits(env, "get", id, ctx.req);
    SingleIdList(id);
    StringIdText(id);
    assert GetResult(w, env, data, ctx) == GetAnswer(w, env, obj, ids, ctx.req);
    GetAnswerMissing(w, env, obj, id, ctx.req);
  }

  /** One missing id: nothing changes and the batch 404 is for "delete". */
  lemma RemoveAnswerMissing(w: World, env: Env, obj: Value, id: string, req: Option<Request>)
    requires Enumerates(env) && Plain(env, "remove")
    requires id !in Storage.Records(w.store, env.key)
    ensures var (w1, r) := RemoveAnswer(w, env, obj, [Str(id)], req);
      && w1 == w
      && r.Throw?
      && Prop(r.error, "status") == Num(404)
      && Prop(r.error, "method") == Str("delete")
  {
    assert RemoveOne(w, env, obj, Str(id), req) == (w, Throw(NotFound));
    assert RemoveAll(w, env, obj, [Str(id)], req, map[], false) == (w, map[id := ParseSingleError(NotFound)], true) by {
      assert [Str(id)][1..] == [];
    }
    var entries := map[id := ParseSingleError(NotFound)];
    SingleEnumeration(env.enumerate(entries.Keys), id);
    OneFailedRecord(id, NotFound, env.key, "delete");
  }

  /** Removing one id that is not stored fails with a 404 for "delete" and
      changes neither the store nor the index. */
  lemma RemoveMissingRecord(w: World, env: Env, id: string, ctx: Context)
    requires Enumerates(env) && Plain(env, "remove")
    requires ',' !in id && id !in Storage.Records(w.store, env.key)
    requires ValidateData(env, Obj(map["id" := Str(id)]), OpSchema(map["id" := RequiredString], env, "remove"), false).Pass?
    ensures var (w1, r) := RemoveBody(w, env, Obj(map["id" := Str(id)]), ctx);
      && w1 == w
      && r.Throw?
      && Prop(r.error, "status") == Num(404)
      && Prop(r.error, "method") == Str("delete")
  {
    var data := Obj(map["id" := Str(id)]);
    var ids := Strs(Split(id, ','));
    var obj := Obj(map["id" := Str(id)]["id" := Arr(ids)]);
    PrepareSplits(env, "remove", id, ctx.req);
    SingleIdList(id);
    StringIdText(id);
    assert RemoveBody(w, env, data, ctx) == RemoveAnswer(w, env, obj, ids, ctx.req);
    RemoveAnswerMissing(w, env, obj, id, ctx.req);
  }

  /** One stored id: it is deleted and the answer is `{id: true}`. */
  lemma RemoveAnswerStored(w: World, env: Env, obj: Value, id: string, req: Option<Request>)
    requires Enumerates(env) && Plain(env, "remove")
    requires id in Storage.Records(w.store, env.key)
    ensures var (w1, r) := RemoveAnswer(w, env, obj, [Str(id)], req);
      && id !in Storage.Records(w1.store, env.key)
      && r == Ok(Obj(map[id := Bool(true)]))
  {
    var (store, v) := Storage.Remove(w.store, env.key, id);
    assert RemoveOne(w, env, obj, Str(id), req) == (World(store, w.index), Ok(Bool(true)));
    assert RemoveAll(w, env, obj, [Str(id)], req, map[], false) == (World(store, w.index), map[id := Bool(true)], false) by {
      assert [Str(id)][1..] == [];
    }
  }

  /** Removing a stored id deletes it and answers `{id: true}`. */
  lemma RemoveStoredRecord(w: World, env: Env, id: string, ctx: Context)
    requires Enumerates(env) && Plain(env, "remove")
    requires ',' !in id && id in Storage.Records(w.store, env.key)
    requires ValidateData(env, Obj(map["id" := Str(id)]), OpSchema(map["id" := RequiredString], env, "remove"), false).Pass?
    ensures var (w1, r) := RemoveBody(w, env, Obj(map["id" := Str(id)]), ctx);
      && id !in Storage.Records(w1.store, env.key)
      && r == Ok(Obj(map[id := Bool(true)]))
  {
    var data := Obj(map["id" := Str(id)]);
    var ids := Strs(Split(id, ','));
    var obj := Obj(map["id" := Str(id)]["id" := Arr(ids)]);
    PrepareSplits(env, "remove", id, ctx.req);
    SingleIdList(id);
    StringIdText(id);
    assert RemoveBody(w, env, data, ctx) == RemoveAnswer(w, env, obj, ids, ctx.req);
    RemoveAnswerStored(w, env, obj, id, ctx.req);
  }

  /** Updating an id that is not stored, without `overrideIfNotExist`,
      leaves the store as it was and fails: the database answers null and
      the pipeline cannot set `key` on it. */
  lemma UpdateMissingRecordFails(w: World, env: Env, id: Value, data: Record, ctx: Context)
    requires Plain(env, "update") && !ConfigOf(env.def, "update").overrideIfNotExist
    requires ToStr(id) !in Storage.Records(w.store, env.key)
    requires ValidateData(env, Obj(data), OpSchema(map[], env, "update"), false).Pass?
    ensures var (w1, r) := UpdateBody(w, env, Obj(map["id" := id, "data" := Obj(data)]), ctx);
      w1 == w && r == Throw(TypeErrorValue)
  {
    var obj := Obj(map["id" := id, "data" := Obj(data)]);
    var stamped := StampUpdated(Obj(data), env.now, ctx.req).value;
    assert Prop(Obj(obj.fields["data" := stamped]), "id") == id;
  }

  /** Updating a stored record writes the stored fields overlaid by the
      stamped update and answers the merged record with the id as `key`;
      no other record of the resource changes. */
  lemma UpdateMergesStoredRecord(w: World, env: Env, id: Value, data: Record, ctx: Context)
    requires Plain(env, "update")
    requires ToStr(id) in Storage.Records(w.store, env.key)
    requires ValidateData(env, Obj(data), OpSchema(map[], env, "update"), false).Pass?
    ensures var (w1, r) := UpdateBody(w, env, Obj(map["id" := id, "data" := Obj(data)]), ctx);
      var stamped := StampUpdated(Obj(data), env.now, ctx.req).value;
      var merged := Obj(Spread(Storage.Records(w.store, env.key)[ToStr(id)]) + Spread(stamped));
      && Storage.Records(w1.store, env.key) == Storage.Records(w.store, env.key)[ToStr(id) := merged]
      && Prop(merged, "updatedAt") == env.now
      && r == Ok(Obj(merged.fields["key" := id]))
  {
    var obj := Obj(map["id" := id, "data" := Obj(data)]);
    var stamped := StampUpdated(Obj(data), env.now, ctx.req).value;
    var records := Storage.Records(w.store, env.key);
    var merged := Obj(Spread(records[ToStr(id)]) + Spread(stamped));
    var store := w.store[env.key := records[ToStr(id) := merged]];
    assert Prop(Obj(obj.fields["data" := stamped]), "id") == id;
    assert UpdateWrite(w.store, env, id, stamped) == Ok((store, Obj(merged.fields["key" := id]))) by {
      UpdateWriteMerges(w.store, env, id, stamped);
    }
    assert Prop(merged, "updatedAt") == env.now by {
      assert Prop(stamped, "updatedAt") == env.now;
    }
  }

  /** Updating a stored id merges the new fields over the stored record and
      answers the merge with the id as `key`. */
  lemma UpdateWriteMerges(s: Storage.Store, env: Env, id: Value, data: Value)
    requires ToStr(id) in Storage.Records(s, env.key)
    ensures var records := Storage.Records(s, env.key);
      var merged := Obj(Spread(records[ToStr(id)]) + Spread(data));
      UpdateWrite(s, env, id, data) == Ok((s[env.key := records[ToStr(id) := merged]], Obj(merged.fields["key" := id])))
  {
    var arg := Obj(map["id" := id, "data" := data]);
    assert Prop(arg, "id") == id && Prop(arg, "data") == data;
  }

  /** An index that is missing when a create is indexed fails the request,
      but the record stays written. */
  lemma CreateIndexFailureKeepsRecord(w: World, env: Env, data: Record, ctx: Context)
    requires ConfigOf(env.def, "create").onBefore.None? && ConfigOf(env.def, "create").methodHook.None?
    requires env.def.indexing.Static? && w.index.Some? && IndexName(env) !in w.index.value
    requires "key" !in data
    ensures var run := Create(w, env, Obj(data), ctx, false);
      && env.freshId in Storage.Records(run.world.store, env.key)
      && (run.done.Forwarded? || run.done.Raised?)
  {
    var obj := StampCreated(Obj(data), env.now, ctx.req).value;
    assert CreatePrepare(env, Obj(data), ctx, false) == Ok((obj, obj));
  }
}

=== FILE: password_reset.dfy ===
/** The password-reset resource (src/api/definitions/password-reset.js): a
    reset email is a one-use token. `get` checks a token, `update` checks it,
    checks the one-time code, consumes the token and changes the password. */
module PasswordReset {
  import opened Values
  import opened Errors
  import Emails

  /** The stored emails, by key: the tokens. */
  type Mailbox = map<string, Value>

  const UsedMessage := "Token already used"
  const ExpiredMessage := "Email is expired"
  const CodeMissingMessage := "Verification Code missing"
  const CodeMismatchMessage := "Verification Code does not match"
  const NoUidMessage := "No uid found in this email"

  /** `now > expiryAt` with a numeric clock: null reads as 0, a boolean as 0
      or 1, and a missing expiry compares as NaN, which is never exceeded. */
  predicate Expired(now: int, expiryAt: Value) {
    match expiryAt
    case Num(e) => now > e
    case Null => now > 0
    case Bool(b) => now > (if b then 1 else 0)
    case _ => false
  }

  /** The checks `get` and `update` share: a used token is refused with 409
      before its expiry is looked at, then an expired one with 403. */
  function CheckToken(email: Value, now: int): (o: Outcome)
    ensures IsNullish(email) ==> o == Fail(TypeErrorValue)
    ensures !IsNullish(email) && Truthy(Prop(email, "used")) ==> o == Fail(StatusError(409, UsedMessage))
    ensures !IsNullish(email) && !Truthy(Prop(email, "used")) ==>
      (o == Fail(StatusError(403, ExpiredMessage)) <==> Expired(now, Prop(email, "expiryAt")))
    ensures o == Pass <==> !IsNullish(email) && !Truthy(Prop(email, "used")) && !Expired(now, Prop(email, "expiryAt"))
  {
    if IsNullish(email) then Fail(TypeErrorValue)
    else if Truthy(Prop(email, "used")) then Fail(StatusError(409, UsedMessage))
    else if Expired(now, Prop(email, "expiryAt")) then Fail(StatusError(403, ExpiredMessage))
    else Pass
  }

  /** A token without an expiry never expires, whatever the clock says. */
  lemma NoExpiryNeverExpires(email: Record, now: int)
    requires "expiryAt" !in email && !Truthy(Field(email, "used"))
    ensures CheckToken(Obj(email), now) == Pass
  {
  }

  /** Reading the token through the emails service: `missing` is what that
      service's get rejects with for a key it does not hold. */
  function Read(mailbox: Mailbox, token: string, missing: Value): (r: Result<Value>)
    ensures token in mailbox <==> r.Ok?
    ensures r.Ok? ==> r.value == mailbox[token]
  {
    if token in mailbox then Ok(mailbox[token]) else Throw(missing)
  }

  /** get: answers undefined when the token is usable; never writes. */
  function Get(mailbox: Mailbox, token: string, now: int, missing: Value): (r: Result<Value>)
    ensures r.Ok? <==> token in mailbox && CheckToken(mailbox[token], now).Pass?
    ensures r.Ok? ==> r.value == Undefined
  {
    var email :- Read(mailbox, token, missing);
    match CheckToken(email, now)
    case Fail(e) => Throw(e)
    case Pass => Ok(Undefined)
  }

  /** The one-time code check: only a record carrying a code demands one,
      and the code sent must be `===` to it. */
  function CheckCode(email: Value, data: Value): (o: Outcome)
    requires !IsNullish(data)
    ensures !Truthy(Prop(email, "verificationCode")) ==> o == Pass
    ensures Truthy(Prop(email, "verificationCode")) ==>
      (o == Fail(StatusError(400, CodeMissingMessage)) <==> !Truthy(Prop(data, "verificationCode")))
    ensures o == Pass <==>
      !Truthy(Prop(email, "verificationCode")) ||
      (Truthy(Prop(data, "verificationCode")) && StrictEq(Prop(data, "verificationCode"), Prop(email, "verificationCode")))
  {
    if !Truthy(Prop(email, "verificationCode")) then Pass
    else if !Truthy(Prop(data, "verificationCode")) then Fail(StatusError(400, CodeMissingMessage))
    else if !StrictEq(Prop(data, "verificationCode"), Prop(email, "verificationCode")) then Fail(StatusError(400, CodeMismatchMessage))
    else Pass
  }

  /** A code sent as text never matches the number the email stores. */
  lemma TextCodeNeverMatches(code: int, sent: string)
    requires code != 0 && sent != ""
    ensures CheckCode(Obj(map["verificationCode" := Num(code)]), Obj(map["verificationCode" := Str(sent)]))
      == Fail(StatusError(400, CodeMismatchMessage))
  {
  }

  /** The emails service's update of `{used: true}`: a merge into the stored
      record, stamped with the server time. */
  function MarkUsed(email: Value, now: int): (r: Value)
    ensures r.Obj? && Prop(r, "used") == Bool(true)
    ensures forall k :: k in Spread(email) && k !in {"used", "updatedAt"} ==> Prop(r, k) == Spread(email)[k]
  {
    Obj(Spread(email) + map["used" := Bool(true), "updatedAt" := Num(now)])
  }

  /** What an update did: the mailbox after it, what it answered and the
      password change it made (user id and new password), if any. */
  datatype Reset = Reset(mailbox: Mailbox, result: Result<Value>, change: Option<(Value, Value)>)

  /** The users service's update of `{password}` for a uid: what it answers,
      or the error it rejects with. */
  type SetPassword = (Value, Value) -> Result<Value>

  /** update: the token checks, the code check, then the token is consumed
      before the uid is looked at, so a record without a uid throws with the
      token already spent. The users update (`setPassword`) comes last: when
      it rejects, the reset rejects with its error, the token still spent.
      The confirmation email is not awaited and is an effect of the
      `change`. */
  function Update(mailbox: Mailbox, token: string, data: Value, now: int, missing: Value,
                  setPassword: SetPassword): (r: Reset)
    ensures r.result.Ok? <==> r.change.Some?
    ensures r.change.Some? ==> setPassword(r.change.value.0, r.change.value.1).Ok?
    ensures r.result.Ok? ==> r.result.value == Bool(true)
    ensures r.mailbox == mailbox || (token in mailbox && r.mailbox == mailbox[token := MarkUsed(mailbox[token], now)])
    ensures r.mailbox != mailbox ==> Prop(r.mailbox[token], "used") == Bool(true)
    ensures r.change.Some? ==>
      token in mailbox && !IsNullish(data) && CheckToken(mailbox[token], now).Pass? && CheckCode(mailbox[token], data).Pass? &&
      r.change.value == (Prop(Prop(mailbox[token], "data"), "uid"), Prop(data, "password")) &&
      Truthy(r.change.value.0)
  {
    if IsNullish(data) then Reset(mailbox, Throw(TypeErrorValue), None)
    else
      match Read(mailbox, token, missing)
      case Throw(e) => Reset(mailbox, Throw(e), None)
      case Ok(email) =>
        match CheckToken(email, now)
        case Fail(e) => Reset(mailbox, Throw(e), None)
        case Pass =>
          match CheckCode(email, data)
          case Fail(e) => Reset(mailbox, Throw(e), None)
          case Pass =>
            var consumed := mailbox[token := MarkUsed(email, now)];
            var info := Prop(email, "data");
            if IsNullish(info) then Reset(consumed, Throw(TypeErrorValue), None)
            else if !Truthy(Prop(info, "uid")) then Reset(consumed, Throw(Str(NoUidMessage)), None)
            else
              match setPassword(Prop(info, "uid"), Prop(data, "password"))
              case Throw(e) => Reset(consumed, Throw(e), None)
              case Ok(_) => Reset(consumed, Ok(Bool(true)), Some((Prop(info, "uid"), Prop(data, "password"))))
  }

  /** get and update refuse a token for the same reasons: whatever get
      rejects, update rejects identically and writes nothing. */
  lemma GetAgreesWithUpdate(mailbox: Mailbox, token: string, data: Value, now: int, missing: Value,
                            setPassword: SetPassword)
    requires !IsNullish(data)
    requires Get(mailbox, token, now, missing).Throw?
    ensures Update(mailbox, token, data, now, missing, setPassword) == Reset(mailbox, Get(mailbox, token, now, missing), None)
  {
  }

  /** Once an update got past the checks, the token is spent: a second
      update of it, with any data, is refused with 409 and changes nothing,
      and get refuses it too. */
  lemma ReplayRefused(mailbox: Mailbox, token: string, data: Value, data2: Value, now: int, later: int, missing: Value,
                      setPassword: SetPassword)
    requires Update(mailbox, token, data, now, missing, setPassword).mailbox != mailbox
    requires !IsNullish(data2)
    ensures var after := Update(mailbox, token, data, now, missing, setPassword).mailbox;
      && Update(after, token, data2, later, missing, setPassword) == Reset(after, Throw(StatusError(409, UsedMessage)), None)
      && Get(after, token, later, missing) == Throw(StatusError(409, UsedMessage))
  {
    var after := Update(mailbox, token, data, now, missing, setPassword).mailbox;
    assert Prop(after[token], "used") == Bool(true);
  }

  /** A successful update always spends the token, and so does one that
      fails only for want of a uid. */
  lemma SuccessSpendsToken(mailbox: Mailbox, token: string, data: Value, now: int, missing: Value,
                           setPassword: SetPassword)
    requires token in mailbox
    requires var r := Update(mailbox, token, data, now, missing, setPassword);
      r.result.Ok? || r.result == Throw(Str(NoUidMessage))
    ensures Update(mailbox, token, data, now, missing, setPassword).mailbox == mailbox[token := MarkUsed(mailbox[token], now)]
  {
  }

  /** When the users service rejects the new password, the reset rejects
      with that error, changes no password, and the token stays spent. */
  lemma RejectedPasswordSpendsToken(mailbox: Mailbox, token: string, data: Value, now: int, missing: Value,
                                    setPassword: SetPassword)
    requires token in mailbox && !IsNullish(data)
    requires CheckToken(mailbox[token], now).Pass? && CheckCode(mailbox[token], data).Pass?
    requires var info := Prop(mailbox[token], "data");
      !IsNullish(info) && Truthy(Prop(info, "uid")) && setPassword(Prop(info, "uid"), Prop(data, "password")).Throw?
    ensures var r := Update(mailbox, token, data, now, missing, setPassword);
      && r.mailbox == mailbox[token := MarkUsed(mailbox[token], now)]
      && r.result == setPassword(Prop(Prop(mailbox[token], "data"), "uid"), Prop(data, "password"))
      && r.change.None?
  {
  }

  /** A used token is refused by both operations even if it has also
      expired: the 409 comes first. */
  lemma UsedBeforeExpired(mailbox: Mailbox, token: string, data: Value, now: int, missing: Value,
                          setPassword: SetPassword)
    requires token in mailbox && mailbox[token].Obj? && Truthy(Prop(mailbox[token], "used"))
    requires !IsNullish(data)
    ensures Get(mailbox, token, now, missing) == Throw(StatusError(409, UsedMessage))
    ensures Update(mailbox, token, data, now, missing, setPassword) == Reset(mailbox, Throw(StatusError(409, UsedMessage)), None)
  {
  }

  /** Get never writes, so checking a token any number of times leaves it
      usable for the update: the token checks pass again, and the only
      refusal that leaves the token unspent is the code check's. */
  lemma GetKeepsTokenUsable(mailbox: Mailbox, token: string, data: Value, now: int, missing: Value,
                            setPassword: SetPassword)
    requires Get(mailbox, token, now, missing).Ok? && !IsNullish(data)
    ensures var r := Update(mailbox, token, data, now, missing, setPassword);
      r.mailbox == mailbox ==>
        CheckCode(mailbox[token], data).Fail? && r.result == Throw(CheckCode(mailbox[token], data).error)
  {
    var r := Update(mailbox, token, data, now, missing, setPassword);
    if CheckCode(mailbox[token], data).Pass? {
      assert Prop(r.mailbox[token], "used") == Bool(true);
    }
  }

  // ----- create -----

  const NoSuchEmailMessage := "No Such Email exists"

  /** The email a reset request sends, as written: the template with a
      one-time code or the one with a link, and the user's name, address,
      uid and the configured expiry as template data; the link only without
      a code. The expiry travels inside the template data only. */
  function ResetEmailAsWritten(email: Value, user: Value, expiry: Value, generateOtp: Value, link: Value): (m: Record)
    ensures m.Keys == {"to", "template", "data", "generateOtp"}
    ensures Field(m, "to") == email && Field(m, "generateOtp") == generateOtp
    ensures Field(m, "template") == Str(if Truthy(generateOtp) then "PasswordResetOtp" else "PasswordReset")
    ensures Field(m, "data").Obj?
    ensures var d := Field(m, "data");
      && Prop(d, "displayName") == Or(Prop(user, "displayName"), Str("User"))
      && Prop(d, "uid") == Prop(user, "uid") && Prop(d, "email") == email && Prop(d, "expiry") == expiry
      && ("link" in d.fields <==> !Truthy(generateOtp))
      && (!Truthy(generateOtp) ==> Prop(d, "link") == link)
  {
    var data := map[
      "displayName" := Or(Prop(user, "displayName"), Str("User")),
      "email" := email,
      "uid" := Prop(user, "uid"),
      "expiry" := expiry];
    map[
      "to" := email,
      "template" := Str(if Truthy(generateOtp) then "PasswordResetOtp" else "PasswordReset"),
      "data" := Obj(if Truthy(generateOtp) then data else data["link" := link]),
      "generateOtp" := generateOtp]
  }

  /** The email as stored by the emails service's create hook, stamped at
      `createdAt`; the hook reads `expiry` off the top level only. */
  function StoredEmail(message: Record, createdAt: int, random: nat): (e: Value)
    requires Emails.NumericExpiry(message["createdAt" := Num(createdAt)]) && random < 900000
    ensures e.Obj?
  {
    Obj(Emails.PrepareEmail(message["createdAt" := Num(createdAt)], random).record)
  }

  /** As written, a reset token never expires: the stored email has no
      `expiryAt`, so get and update accept it at any later time, however
      short the configured expiry. */
  lemma ResetTokenNeverExpires(email: Value, user: Value, expiry: int, generateOtp: Value, link: Value,
                               createdAt: int, random: nat, now: int)
    requires random < 900000 && expiry > 0
    ensures var m := ResetEmailAsWritten(email, user, Num(expiry), generateOtp, link);
      Emails.NumericExpiry(m["createdAt" := Num(createdAt)]) &&
      CheckToken(StoredEmail(m, createdAt, random), now) == Pass
  {
    var m := ResetEmailAsWritten(email, user, Num(expiry), generateOtp, link);
    var stamped := m["createdAt" := Num(createdAt)];
    assert Field(stamped, "expiry") == Undefined;
    assert Field(stamped, "used") == Undefined && Field(stamped, "expiryAt") == Undefined;
    StoredTokenCheck(stamped, random, now);
  }

  /** How the token check treats an email the emails service stored: with
      no expiry and no expiryAt it always passes; with a numeric expiry it
      fails with 403 exactly once the clock passes that many minutes after
      the creation time. */
  lemma StoredTokenCheck(stamped: Record, random: nat, now: int)
    requires Emails.NumericExpiry(stamped) && random < 900000 && !Truthy(Field(stamped, "used"))
    ensures var e := Obj(Emails.PrepareEmail(stamped, random).record);
      && (!Truthy(Field(stamped, "expiry")) && Field(stamped, "expiryAt") == Undefined ==> CheckToken(e, now) == Pass)
      && (Truthy(Field(stamped, "expiry")) ==>
            var deadline := Field(stamped, "createdAt").n + Field(stamped, "expiry").n * Emails.MinuteMs;
            && (CheckToken(e, now) == Fail(StatusError(403, ExpiredMessage)) <==> now > deadline)
            && (now <= deadline ==> CheckToken(e, now) == Pass))
  {
    var rec := Emails.PrepareEmail(stamped, random).record;
    Emails.PrepareKeepsOthers(stamped, random, "used");
    assert Prop(Obj(rec), "used") == Field(stamped, "used");
  }

  /** The reset email with the configured expiry also at the top level, so
      the emails service turns it into an `expiryAt`. */
  function ResetEmail(email: Value, user: Value, expiry: Value, generateOtp: Value, link: Value): (m: Record)
    ensures Field(m, "expiry") == expiry
    ensures forall k :: k in ResetEmailAsWritten(email, user, expiry, generateOtp, link) ==>
      k in m && m[k] == ResetEmailAsWritten(email, user, expiry, generateOtp, link)[k]
  {
    ResetEmailAsWritten(email, user, expiry, generateOtp, link)["expiry" := expiry]
  }

  /** With the expiry at the top level, a reset token is refused with 403
      exactly once the clock passes the configured number of minutes after
      its creation. */
  lemma ResetTokenExpires(email: Value, user: Value, expiry: int, generateOtp: Value, link: Value,
                          createdAt: int, random: nat, now: int)
    requires random < 900000 && expiry > 0
    ensures var m := ResetEmail(email, user, Num(expiry), generateOtp, link);
      && Emails.NumericExpiry(m["createdAt" := Num(createdAt)])
      && (CheckToken(StoredEmail(m, createdAt, random), now) == Fail(StatusError(403, ExpiredMessage))
          <==> now > createdAt + expiry * Emails.MinuteMs)
      && (now <= createdAt + expiry * Emails.MinuteMs ==> CheckToken(StoredEmail(m, createdAt, random), now) == Pass)
  {
    var m := ResetEmail(email, user, Num(expiry), generateOtp, link);
    var stamped := m["createdAt" := Num(createdAt)];
    assert Field(stamped, "expiry") == Num(expiry) && Field(stamped, "createdAt") == Num(createdAt);
    assert "used" !in ResetEmailAsWritten(email, user, Num(expiry), generateOtp, link);
    assert Field(stamped, "used") == Undefined;
    StoredTokenCheck(stamped, random, now);
  }

  /** The reset email, as sent and as corrected, always meets the email
      schema's requirements for a templated email. */
  lemma ResetEmailMeetsSchema(email: Value, user: Value, expiry: Value, generateOtp: Value, link: Value)
    requires !email.Undefined?
    ensures Emails.CreateRequirements(ResetEmailAsWritten(email, user, expiry, generateOtp, link))
    ensures Emails.CreateRequirements(ResetEmail(email, user, expiry, generateOtp, link))
  {
    var m := ResetEmailAsWritten(email, user, expiry, generateOtp, link);
    assert Field(ResetEmail(email, user, expiry, generateOtp, link), "template") == Field(m, "template");
    assert Field(ResetEmail(email, user, expiry, generateOtp, link), "data") == Field(m, "data");
    assert Field(ResetEmail(email, user, expiry, generateOtp, link), "to") == Field(m, "to");
  }

  /** create: find the user by address (`findUser` answers the first match
      or undefined), send the reset email as written, with the expiry only
      in its template data, through the emails service (`send` answers the
      stored email), and answer `{key}` when that email
      carries a one-time code, `true` otherwise. `emailType` is the
      passwordReset email type's configuration, `link` the reset page. */
  function Create(obj: Value, findUser: Value -> Result<Value>, emailType: Value, link: Value,
                  send: Record -> Result<Value>): (r: Result<Value>)
    ensures IsNullish(obj) ==> r == Throw(TypeErrorValue)
    ensures !IsNullish(obj) && findUser(Prop(obj, "email")) == Ok(Undefined) ==> r == Throw(StatusError(400, NoSuchEmailMessage))
    ensures r.Ok? ==> r.value == Bool(true) || (r.value.Obj? && r.value.fields.Keys == {"key"})
  {
    if IsNullish(obj) then Throw(TypeErrorValue)
    else
      var email := Prop(obj, "email");
      var user :- findUser(email);
      if !Truthy(user) then Throw(StatusError(400, NoSuchEmailMessage))
      else if IsNullish(emailType) then Throw(TypeErrorValue)
      else
        var message := ResetEmailAsWritten(email, user, Prop(emailType, "expiry"), Prop(emailType, "generateOtp"), link);
        var stored :- send(message);
        if IsNullish(stored) then Throw(TypeErrorValue)
        else if Truthy(Prop(stored, "verificationCode")) then Ok(Obj(map["key" := Prop(stored, "key")]))
        else Ok(Bool(true))
  }

  /** The stored reset email carries a one-time code exactly when the
      email type asks for one. */
  lemma ResetCodeIffOtp(email: Value, user: Value, expiry: Value, generateOtp: Value, link: Value,
                        createdAt: int, random: nat)
    requires random < 900000
    ensures var stamped := ResetEmailAsWritten(email, user, expiry, generateOtp, link)["createdAt" := Num(createdAt)];
      && Emails.NumericExpiry(stamped)
      && (Truthy(Field(Emails.PrepareEmail(stamped, random).record, "verificationCode")) <==> Truthy(generateOtp))
  {
    var m := ResetEmailAsWritten(email, user, expiry, generateOtp, link);
    var stamped := m["createdAt" := Num(createdAt)];
    assert Field(stamped, "expiry") == Undefined && Field(stamped, "createdAt") == Num(createdAt);
    assert "verificationCode" !in m;
    assert Field(stamped, "verificationCode") == Undefined;
    assert Field(stamped, "generateOtp") == generateOtp;
  }

  /** When the emails service stores the reset email through its own create
      hook (stamping `createdAt` and giving the record a `key`), the reset
      answers `{key}` exactly when the email type generates a code. */
  lemma KeyOnlyWithOtp(obj: Value, findUser: Value -> Result<Value>, emailType: Value, link: Value,
                       send: Record -> Result<Value>, createdAt: int, random: nat, key: Value)
    requires !IsNullish(obj) && findUser(Prop(obj, "email")).Ok? && Truthy(findUser(Prop(obj, "email")).value)
    requires !IsNullish(emailType) && random < 900000
    requires var message := ResetEmailAsWritten(Prop(obj, "email"), findUser(Prop(obj, "email")).value,
                                       Prop(emailType, "expiry"), Prop(emailType, "generateOtp"), link);
      var stamped := message["createdAt" := Num(createdAt)];
      Emails.NumericExpiry(stamped) &&
      send(message) == Ok(Obj(Emails.PrepareEmail(stamped, random).record["key" := key]))
    ensures var r := Create(obj, findUser, emailType, link, send);
      && r.Ok?
      && (r.value == Bool(true) <==> !Truthy(Prop(emailType, "generateOtp")))
      && (r.value != Bool(true) ==> r.value == Obj(map["key" := key]))
  {
    var email := Prop(obj, "email");
    var user := findUser(email).value;
    var otp := Prop(emailType, "generateOtp");
    var message := ResetEmailAsWritten(email, user, Prop(emailType, "expiry"), otp, link);
    var stored := Obj(Emails.PrepareEmail(message["createdAt" := Num(createdAt)], random).record["key" := key]);
    StoredCodeIffOtp(email, user, Prop(emailType, "expiry"), otp, link, createdAt, random, key);
    CreateAnswers(obj, findUser, emailType, link, send, stored);
  }

  /** The stored reset email, with its key, has a code exactly when one is
      asked for. */
  lemma StoredCodeIffOtp(email: Value, user: Value, expiry: Value, generateOtp: Value, link: Value,
                         createdAt: int, random: nat, key: Value)
    requires random < 900000
    ensures var stamped := ResetEmailAsWritten(email, user, expiry, generateOtp, link)["createdAt" := Num(createdAt)];
      && Emails.NumericExpiry(stamped)
      && var stored := Obj(Emails.PrepareEmail(stamped, random).record["key" := key]);
      && (Truthy(Prop(stored, "verificationCode")) <==> Truthy(generateOtp))
      && Prop(stored, "key") == key
  {
    var stamped := ResetEmailAsWritten(email, user, expiry, generateOtp, link)["createdAt" := Num(createdAt)];
    ResetCodeIffOtp(email, user, expiry, generateOtp, link, createdAt, random);
    var rec := Emails.PrepareEmail(stamped, random).record;
    assert Prop(Obj(rec["key" := key]), "verificationCode") == Field(rec, "verificationCode");
  }

  /** Once the emails service has stored the message, the answer depends
      only on whether the stored record has a code. */
  lemma CreateAnswers(obj: Value, findUser: Value -> Result<Value>, emailType: Value, link: Value,
                      send: Record -> Result<Value>, stored: Value)
    requires !IsNullish(obj) && findUser(Prop(obj, "email")).Ok? && Truthy(findUser(Prop(obj, "email")).value)
    requires !IsNullish(emailType) && !IsNullish(stored)
    requires send(ResetEmailAsWritten(Prop(obj, "email"), findUser(Prop(obj, "email")).value,
                             Prop(emailType, "expiry"), Prop(emailType, "generateOtp"), link)) == Ok(stored)
    ensures Create(obj, findUser, emailType, link, send) ==
      if Truthy(Prop(stored, "verificationCode")) then Ok(Obj(map["key" := Prop(stored, "key")])) else Ok(Bool(true))
  {
  }
}

=== FILE: pipeline.dfy ===
/** The parts of the generic operation pipeline (src/api/generic/service.js)
    that every operation shares: request validation, the per-record error
    objects, error handling and the success response. */
module Pipeline {
  import opened Strings
  import opened Values
  import opened Errors
  import opened Definitions
  import FirebaseUtil
  import MemoryIndex
  import Storage

  /** What the operations read and write: the database and, when a search
      indexer is configured, its indexes. */
  datatype World = World(store: Storage.Store, index: Option<MemoryIndex.Engine>)

  /** `Joi.validate(data, Joi.object().keys(schema), {allowUnknown})`:
      passes, or fails with Joi's error. */
  type Validator = (Value, Schema, bool) -> Outcome

  /** `Joi.validate(value, Joi.object().keys(schema), {stripUnknown: true})`. */
  type Shaper = (Value, Schema) -> Result<Value>

  /** Everything an operation reads from the service object and the server
      configuration, and the outside world it depends on. */
  datatype Env = Env(
    key: string,                             // the resource key
    def: Definition,
    indexPrefix: string,                     // `(config.searchIndexer || {}).indexPrefix || ""`
    searchSchema: Schema,                    // `config.searchIndexer.validateSchema`
    responseFilter: Option<Value -> Value>,  // `config.searchIndexer.responseFilter`
    defaultSchema: Value,                    // the adapter's `getDefaultSchema()`
    validate: Validator,
    shape: Shaper,
    now: Value,                              // `getServerTimestamp()`
    freshId: string,                         // the id the database gives a new record
    enumerate: set<string> -> seq<string>,   // the order `Object.keys` lists a key set in
    matcher: MemoryIndex.Matcher,
    pager: Storage.Pager)

  /** `enumerate` lists every key set exactly once. */
  ghost predicate Enumerates(env: Env) {
    forall ks: set<string> :: IsEnumeration(env.enumerate(ks), ks)
  }

  /** The Express context an operation is called in: the request, whether a
      response object was passed and has already been sent, and whether a
      fourth argument (`next`) was passed. */
  datatype Context = Context(req: Option<Request>, hasRes: bool, headersSent: bool, hasNext: bool)

  /** How an operation finishes: a response sent, a value returned to an
      in-process caller, an error handed to `next`, or a rejected promise. */
  datatype Completion = Sent(body: Value) | Returned(value: Value) | Forwarded(error: Value) | Raised(error: Value)

  /** An operation's end state. */
  datatype Run = Run(world: World, done: Completion)

  // ----- validation -----

  /** The rule `Joi[name]()` builds; Joi itself is outside the model. */
  function JoiRule(name: Value): Value {
    Obj(map["joi" := name])
  }

  const RequiredString: Value := JoiRule(Str("string.required"))
  const BooleanRule: Value := JoiRule(Str("boolean"))

  /** createSchema: one rule per property of the adapter's type-name schema;
      an empty result spreads to nothing. */
  function CreateSchema(types: Value): (s: Schema)
    ensures s.Keys == Spread(types).Keys
    ensures forall k :: k in s ==> s[k] == JoiRule(Spread(types)[k])
  {
    map k | k in Spread(types) :: JoiRule(Spread(types)[k])
  }

  /** The schema an operation validates against: its defaults, the adapter's
      schema for the operation, then the definition's own rules. */
  function OpSchema(defaults: Schema, env: Env, op: string): (s: Schema)
    ensures s.Keys == defaults.Keys + Spread(Prop(env.defaultSchema, op)).Keys + ConfigOf(env.def, op).validateSchema.Keys
    ensures forall k :: k in ConfigOf(env.def, op).validateSchema ==> s[k] == ConfigOf(env.def, op).validateSchema[k]
  {
    defaults + CreateSchema(Prop(env.defaultSchema, op)) + ConfigOf(env.def, op).validateSchema
  }

  /** validateData: a schema with no keys accepts everything. */
  function ValidateData(env: Env, data: Value, schema: Schema, allowUnknown: bool): (o: Outcome)
    ensures |schema| == 0 ==> o == Pass
    ensures |schema| > 0 ==> o == env.validate(data, schema, allowUnknown)
  {
    if |schema| == 0 then Pass else env.validate(data, schema, allowUnknown)
  }

  // ----- hooks -----

  /** Calls a hook that may edit its first argument in place. The edits are
      visible only when that argument is an object or array. */
  function CallInPlace(h: Option<Hook>, args: seq<Value>, req: Option<Request>): (r: Result<Value>)
    requires |args| > 0
    ensures h.None? ==> r == Ok(args[0])
    ensures h.Some? ==> (r.Ok? <==> h.value(args, req).Ok?)
    ensures r.Ok? && !(args[0].Obj? || args[0].Arr?) ==> r.value == args[0]
  {
    match h
    case None => Ok(args[0])
    case Some(f) =>
      var edited :- f(args, req);
      Ok(if args[0].Obj? || args[0].Arr? then edited else args[0])
  }

  /** Calls a hook for its ability to throw; its answer is not used. */
  function CallForEffect(h: Option<Hook>, args: seq<Value>, req: Option<Request>): (o: Outcome)
    ensures h.None? ==> o == Pass
    ensures h.Some? ==> (o.Pass? <==> h.value(args, req).Ok?)
  {
    match h
    case None => Pass
    case Some(f) => if f(args, req).Throw? then Fail(f(args, req).error) else Pass
  }

  // ----- indexing -----

  function IndexName(env: Env): string {
    env.indexPrefix + env.key
  }

  /** `indexingConfig && this.searchIndexer`, with a function-valued
      configuration called on (arg, req). */
  function ResolveIndexing(env: Env, w: World, arg: Value, req: Option<Request>): (r: Result<Option<(MemoryIndex.Engine, IndexConfig)>>)
    ensures env.def.indexing.NoIndexing? || w.index.None? ==> r == Ok(None)
    ensures r.Ok? && r.value.Some? ==> w.index == Some(r.value.value.0) && !env.def.indexing.NoIndexing?
    ensures env.def.indexing.Static? && w.index.Some? ==> r == Ok(Some((w.index.value, env.def.indexing.config)))
  {
    if env.def.indexing.NoIndexing? || w.index.None? then Ok(None)
    else match env.def.indexing
      case Static(c) => Ok(Some((w.index.value, c)))
      case Dynamic(f) =>
        var c :- f(arg, req);
        Ok(Some((w.index.value, c)))
  }

  /** What goes into the index: `populate(output, op)` when the configuration
      has it, else the output itself. */
  function Populated(c: IndexConfig, output: Value, op: string): (r: Value)
    ensures c.populate.None? ==> r == output
    ensures c.populate.Some? ==> r == c.populate.value(output, op)
  {
    match c.populate
    case None => output
    case Some(p) => p(output, op)
  }

  // ----- per-record errors -----

  /** The entry a failed record leaves in a multi-record answer. */
  function ParseSingleError(error: Value): (r: Value)
    ensures r.Obj? && Prop(r, "error") == Bool(true)
    ensures forall k :: k in {"status", "message", "details"} ==>
      Prop(r, k) == (if Truthy(Prop(error, k)) then Prop(error, k) else Undefined)
    ensures Truthy(Prop(error, "stack")) <==> "stack" in r.fields
    ensures r.fields.Keys <= {"error", "status", "message", "details", "stack"}
  {
    var copied := map k | k in {"status", "message", "details"} && Truthy(Prop(error, k)) :: Prop(error, k);
    var withStack := if Truthy(Prop(error, "stack")) then copied["stack" := Str(ToStr(Prop(error, "stack")))] else copied;
    Obj(withStack["error" := Bool(true)])
  }

  /** The running (status, message) pair of combineMultipleErrors after
      visiting the first n failed entries. `status` takes the message seen
      so far when there is one, and the entry's status otherwise. */
  function StatusAndMessage(failed: seq<Value>): (r: (Value, Value))
    ensures |failed| == 0 ==> r == (Undefined, Str(""))
    decreases |failed|
  {
    if |failed| == 0 then (Undefined, Str(""))
    else
      var (_, message) := StatusAndMessage(failed[..|failed| - 1]);
      var last := failed[|failed| - 1];
      (Or(message, Prop(last, "status")), Or(message, Prop(last, "message")))
  }

  /** The keys, in enumeration order, whose entries carry a truthy `error`;
      a nullish entry has no properties to read. */
  function FailedKeys(entries: map<string, Value>, order: seq<string>): (r: Result<seq<string>>)
    requires forall i :: 0 <= i < |order| ==> order[i] in entries
    ensures r.Ok? ==> forall k :: k in r.value <==> k in order && Truthy(Prop(entries[k], "error"))
    ensures r.Ok? ==> forall i :: 0 <= i < |r.value| ==> r.value[i] in entries
    ensures r.Throw? <==> exists i :: 0 <= i < |order| && IsNullish(entries[order[i]])
    decreases |order|
  {
    if |order| == 0 then Ok([])
    else if IsNullish(entries[order[0]]) then Throw(TypeErrorValue)
    else
      var rest :- FailedKeys(entries, order[1..]);
      Ok(if Truthy(Prop(entries[order[0]], "error")) then [order[0]] + rest else rest)
  }

  /** combineMultipleErrors(output, api, verb). */
  function CombineMultipleErrors(entries: map<string, Value>, order: seq<string>, api: string, verb: string): (r: Result<Value>)
    requires IsEnumeration(order, entries.Keys)
    ensures r.Ok? ==> r.value.Obj? && r.value.fields.Keys == {"details", "status", "message", "api", "method"}
    ensures r.Ok? ==> Prop(r.value, "api") == Str(api) && Prop(r.value, "method") == Str(verb)
    ensures r.Ok? ==> (
      && Prop(r.value, "details").Obj?
      && (forall k :: k in Prop(r.value, "details").fields <==> k in entries && Truthy(Prop(entries[k], "error")))
      && (forall k :: k in Prop(r.value, "details").fields ==> Prop(r.value, "details").fields[k] == entries[k]))
  {
    var failed :- FailedKeys(entries, order);
    var details := map k | k in entries && k in failed :: entries[k];
    var (status, message) := StatusAndMessage(seq(|failed|, i requires 0 <= i < |failed| => entries[failed[i]]));
    Ok(Obj(map["details" := Obj(details), "status" := status, "message" := message,
               "api" := Str(api), "method" := Str(verb)]))
  }

  const BatchNotFoundMessage: string :=
    "Error occured during deletion of one or more records since they were not found."

  /** The error a one-record get or remove throws when its record failed. */
  function BatchError(combined: Value): (e: Value)
    requires combined.Obj?
    ensures e.Obj?
    ensures forall k :: k in combined.fields ==> Prop(e, k) == combined.fields[k]
    ensures "status" !in combined.fields ==> Prop(e, "status") == Num(404)
  {
    Obj(map["status" := Num(404), "message" := Str(BatchNotFoundMessage)] + combined.fields)
  }

  /** The error a lookup that found nothing throws. */
  const NotFound: Value := StatusError(404, "Record does not exist")

  /** A one-record batch whose record failed reports that record's own
      status and message (or undefined), under its id in `details`. */
  lemma OneFailedRecord(id: string, error: Value, api: string, verb: string)
    ensures var entry := ParseSingleError(error);
      var r := CombineMultipleErrors(map[id := entry], [id], api, verb);
      && r.Ok?
      && Prop(BatchError(r.value), "status") == Prop(entry, "status")
      && Prop(BatchError(r.value), "message") == Prop(entry, "message")
      && Prop(BatchError(r.value), "details") == Obj(map[id := entry])
      && Prop(BatchError(r.value), "method") == Str(verb)
      && BatchError(r.value).fields.Keys == {"status", "message", "details", "api", "method"}
  {
    var entry := ParseSingleError(error);
    CombineOne(id, entry, api, verb);
    var combined := Obj(map["details" := Obj(map[id := entry]), "status" := Prop(entry, "status"),
                            "message" := Prop(entry, "message"), "api" := Str(api), "method" := Str(verb)]);
    BatchErrorOfFull(combined);
  }

  /** A combined error that has both a status and a message is thrown as is. */
  lemma BatchErrorOfFull(combined: Value)
    requires combined.Obj? && "status" in combined.fields && "message" in combined.fields
    ensures BatchError(combined) == combined
  {
    assert map["status" := Num(404), "message" := Str(BatchNotFoundMessage)] + combined.fields == combined.fields;
  }

  /** combineMultipleErrors of one failed entry. */
  lemma CombineOne(id: string, entry: Value, api: string, verb: string)
    requires !IsNullish(entry) && Truthy(Prop(entry, "error"))
    ensures CombineMultipleErrors(map[id := entry], [id], api, verb) ==
      Ok(Obj(map["details" := Obj(map[id := entry]), "status" := Prop(entry, "status"), "message" := Prop(entry, "message"),
                 "api" := Str(api), "method" := Str(verb)]))
  {
    OneFailedKey(id, entry);
    OneStatusAndMessage(entry);
    var failed := [id];
    assert seq(|failed|, i requires 0 <= i < |failed| => map[id := entry][failed[i]]) == [entry];
    var details := map k | k in map[id := entry] && k in failed :: map[id := entry][k];
    assert details == map[id := entry];
  }

  /** A lone entry that carries a truthy `error` is the one failed key. */
  lemma OneFailedKey(id: string, entry: Value)
    requires !IsNullish(entry) && Truthy(Prop(entry, "error"))
    ensures FailedKeys(map[id := entry], [id]) == Ok([id])
  {
    var entries := map[id := entry];
    assert [id][1..] == [];
    assert FailedKeys(entries, []) == Ok([]);
    assert [id] + [] == [id];
  }

  /** One failed entry gives its own status and message. */
  lemma OneStatusAndMessage(entry: Value)
    ensures StatusAndMessage([entry]) == (Prop(entry, "status"), Prop(entry, "message"))
  {
    assert [entry][..0] == [];
    assert Or(Str(""), Prop(entry, "status")) == Prop(entry, "status");
    assert Or(Str(""), Prop(entry, "message")) == Prop(entry, "message");
  }

  // ----- error handling and responses -----

  /** A Joi validation error loses `isJoi` and `_object` and gets status 400. */
  function JoiToBadRequest(e: Value): (r: Value)
    ensures e.Obj? && Truthy(Prop(e, "isJoi")) ==>
      r.Obj? && Prop(r, "status") == Num(400) && "isJoi" !in r.fields && "_object" !in r.fields
      && (forall k :: k in e.fields && k !in {"isJoi", "_object", "status"} ==> k in r.fields && r.fields[k] == e.fields[k])
    ensures !(e.Obj? && Truthy(Prop(e, "isJoi"))) ==> r == e
  {
    if e.Obj? && Truthy(Prop(e, "isJoi")) then Obj((e.fields - {"isJoi", "_object"})["status" := Num(400)])
    else e
  }

  /** handleError: the (possibly rewritten) error goes to `next` when there
      is an unsent response and a `next`, and is rethrown otherwise; an
      `onError` hook sees the error and the operation's input and may throw
      instead. */
  function HandleError(e: Value, onError: Option<Hook>, input: Value, ctx: Context): (c: Completion)
    ensures c.Forwarded? || c.Raised?
    ensures onError.Some? && onError.value([JoiToBadRequest(e), input], ctx.req).Throw? ==>
      c == Raised(onError.value([JoiToBadRequest(e), input], ctx.req).error)
    ensures CallForEffect(onError, [JoiToBadRequest(e), input], ctx.req).Pass? ==>
      && c.error == FirebaseUtil.GetAuthErrorObject(JoiToBadRequest(e))
      && (c.Forwarded? <==> ctx.hasRes && !ctx.headersSent && ctx.hasNext)
  {
    var e1 := JoiToBadRequest(e);
    var e2 := FirebaseUtil.GetAuthErrorObject(e1);
    var hook := CallForEffect(onError, [e1, input], ctx.req);
    if hook.Fail? then Raised(hook.error)
    else if ctx.hasRes && !ctx.headersSent && ctx.hasNext then Forwarded(e2)
    else Raised(e2)
  }

  /** sendSuccessResponse: a shallow copy sent with status 200 when there is
      a response object, the value itself otherwise. */
  function Respond(ctx: Context, data: Value): (c: Completion)
    ensures ctx.hasRes <==> c.Sent?
    ensures c.Sent? ==> c.body == data
    ensures c.Returned? ==> c.value == data
  {
    if ctx.hasRes then Sent(data) else Returned(data)
  }

  /** The end of every operation: the result is sent or the error handled. */
  function Finish(w: World, out: Result<Value>, onError: Option<Hook>, input: Value, ctx: Context): (r: Run)
    ensures r.world == w
    ensures out.Ok? ==> r.done == Respond(ctx, out.value)
    ensures out.Throw? ==> r.done == HandleError(out.error, onError, input, ctx)
  {
    match out
    case Ok(v) => Run(w, Respond(ctx, v))
    case Throw(e) => Run(w, HandleError(e, onError, input, ctx))
  }

  /** A failed validation reaches the client as a 400, without Joi's
      internals, whenever the operation has no onError hook and a `next`. */
  lemma ValidationFailureIs400(e: Value, input: Value, ctx: Context)
    requires e.Obj? && Truthy(Prop(e, "isJoi"))
    requires !FirebaseUtil.IsAuthError(JoiToBadRequest(e))
    requires ctx.hasRes && !ctx.headersSent && ctx.hasNext
    ensures var c := HandleError(e, None, input, ctx);
      c.Forwarded? && Prop(c.error, "status") == Num(400) && "isJoi" !in c.error.fields
  {
  }

  /** An error that is neither a Joi error nor an identity error reaches
      `next` unchanged when there is an unsent response and no onError. */
  lemma PlainErrorForwarded(e: Value, input: Value, ctx: Context)
    requires e.Obj? && e.fields.Keys <= {"status", "message", "details", "api", "method", "name"}
    requires ctx.hasRes && !ctx.headersSent && ctx.hasNext
    ensures HandleError(e, None, input, ctx) == Forwarded(e)
  {
    assert "isJoi"[0] == 'i' && "code"[0] == 'c' && "codePrefix"[0] == 'c';
    assert "status"[0] == 's' && "message"[0] == 'm' && "details"[0] == 'd';
    assert "api"[0] == 'a' && "method"[0] == 'm' && "name"[0] == 'n';
    assert JoiToBadRequest(e) == e;
    assert !FirebaseUtil.IsAuthError(e) by {
      assert Prop(e, "codePrefix") == Undefined && Prop(e, "code") == Undefined;
    }
  }

  /** Called in-process (no response object), an error is always rethrown,
      even when a `next` was passed. */
  lemma InProcessErrorsRethrow(e: Value, input: Value, ctx: Context)
    requires !ctx.hasRes
    ensures HandleError(e, None, input, ctx) == Raised(FirebaseUtil.GetAuthErrorObject(JoiToBadRequest(e)))
  {
  }
}

=== FILE: registry.dfy ===
/** src/api/index.js and src/middlewares/populate-security.js: which handlers
    each definition gets, the security map and how a request's policy is
    resolved from it, request parsing, service lookup and the per-resource
    index bootstrap. */
module Registry {
  import opened Strings
  import opened Values
  import opened Errors
  import opened Security
  import opened Definitions
  import MemoryIndex

  /** What the registry keeps per resource: the standard handlers it bound
      and the additional paths with their lower-cased HTTP verbs. */
  datatype Api = Api(handlers: set<string>, paths: map<string, string>)

  /** Per resource: "security" for the resource policy, an operation or path
      name for theirs. */
  type SecurityEntry = map<string, Policy>

  datatype Registry = Registry(apis: map<string, Api>, security: map<string, SecurityEntry>)

  /** A standard handler is bound when `def[op]` is truthy, or undefined while
      `disableNotDefinedMethods` is not set. */
  predicate HandlerExists(d: Definition, op: string) {
    match Entry(d, op)
    case On(_) => true
    case Off => false
    case Omitted => !d.disableNotDefinedMethods
  }

  function Handlers(d: Definition): (r: set<string>)
    ensures forall op :: op in r <==> op in Operations && HandlerExists(d, op)
  {
    set op | op in Operations && HandlerExists(d, op)
  }

  /** `(pathObj.method || "get").toLowerCase()`. */
  function HttpVerb(p: PathDef): string {
    Lower(if p.verb == "" then "get" else p.verb)
  }

  /** Additional paths are bound only when their callback is a function. */
  function RegisteredPaths(d: Definition): (r: map<string, string>)
    ensures forall p :: p in r <==> p in d.additionalPaths && d.additionalPaths[p].hasCallback
    ensures forall p :: p in r ==> r[p] == HttpVerb(d.additionalPaths[p])
  {
    map p | p in d.additionalPaths && d.additionalPaths[p].hasCallback :: HttpVerb(d.additionalPaths[p])
  }

  /** `security == "undefined"`: loose equality with that text holds for the
      string itself and for arrays that render to it. */
  predicate ReadsAsUndefinedText(p: Policy) {
    (p.plain.Str? || p.plain.Arr?) && ToStr(p.plain) == "undefined"
  }

  /** A path policy as recorded: the text "undefined" stands for null. */
  function PathPolicy(p: Policy): (r: Policy)
    ensures ReadsAsUndefinedText(p) ==> r.plain == Null
    ensures !ReadsAsUndefinedText(p) ==> r == p
  {
    if ReadsAsUndefinedText(p) then PlainPolicy(Null) else p
  }

  /** The security entry of one definition: the resource policy when defined,
      each configured operation's policy when defined, then each path's policy
      when defined; later entries overwrite earlier ones of the same name. */
  function SecurityEntryOf(d: Definition): (r: SecurityEntry)
    ensures forall p :: p in d.additionalPaths && d.additionalPaths[p].security.Some? ==>
      p in r && r[p] == PathPolicy(d.additionalPaths[p].security.value)
    ensures forall op :: op in Operations && op !in d.additionalPaths && Entry(d, op).On? ==>
      (op in r <==> Entry(d, op).config.security.Some?) &&
      (op in r ==> r[op] == Entry(d, op).config.security.value)
    ensures "security" !in d.additionalPaths ==>
      ("security" in r <==> d.security.Some?) && (d.security.Some? ==> r["security"] == d.security.value)
  {
    var base: SecurityEntry := if d.security.Some? then map["security" := d.security.value] else map[];
    var ofOps: SecurityEntry := map op | op in Operations && Entry(d, op).On? && Entry(d, op).config.security.Some?
      :: Entry(d, op).config.security.value;
    var ofPaths: SecurityEntry := map p | p in d.additionalPaths && d.additionalPaths[p].security.Some?
      :: PathPolicy(d.additionalPaths[p].security.value);
    base + ofOps + ofPaths
  }

  /** The registry loop over every definition. */
  function Register(defs: map<string, Definition>): (r: Registry)
    ensures r.apis.Keys == defs.Keys && r.security.Keys == defs.Keys
    ensures forall k :: k in defs ==> r.apis[k] == Api(Handlers(defs[k]), RegisteredPaths(defs[k]))
    ensures forall k :: k in defs ==> r.security[k] == SecurityEntryOf(defs[k])
  {
    Registry(map k | k in defs :: Api(Handlers(defs[k]), RegisteredPaths(defs[k])),
             map k | k in defs :: SecurityEntryOf(defs[k]))
  }

  /** An explicit falsy operation entry suppresses the handler even when
      undefined ones are allowed. */
  lemma ExplicitOffSuppresses(d: Definition, op: string)
    requires op in Operations
    ensures Entry(d, op).Off? ==> op !in Handlers(d)
    ensures Entry(d, op).On? ==> op in Handlers(d)
    ensures Entry(d, op).Omitted? ==> (op in Handlers(d) <==> !d.disableNotDefinedMethods)
  {
  }

  /** `service(name)`: every registered resource has a (possibly empty)
      service object, which is truthy. */
  function Service(r: Registry, name: string): (s: Result<Api>)
    ensures name in r.apis ==> s == Ok(r.apis[name])
    ensures name !in r.apis ==> s == Throw(Str(name + " service does not exist"))
  {
    if name in r.apis then Ok(r.apis[name]) else Throw(Str(name + " service does not exist"))
  }

  /** `getApiSecurity(key)`: false unless the resource policy is truthy. */
  function GetApiSecurity(r: Registry, key: string): (p: Policy)
    ensures (key in r.security && "security" in r.security[key] && PolicyTruthy(r.security[key]["security"])) ==>
      p == r.security[key]["security"]
    ensures !(key in r.security && "security" in r.security[key] && PolicyTruthy(r.security[key]["security"])) ==>
      p == PlainPolicy(Bool(false))
  {
    if key in r.security && "security" in r.security[key] && PolicyTruthy(r.security[key]["security"])
    then r.security[key]["security"]
    else PlainPolicy(Bool(false))
  }

  /** The synthesized permission name: the key upper-cased, "_", and READ for
      get and find, else the operation upper-cased. */
  function KeyAction(key: string, op: string): (s: string)
    ensures s == Upper(key) + "_" + Upper(if op == "get" || op == "find" then "read" else op)
  {
    Upper(key) + "_" + Upper(if op == "get" || op == "find" then "read" else op)
  }

  /** `[...list]` for the permission list: arrays give their items, strings
      their characters; anything else is not iterable. */
  function SpreadList(v: Value): (r: Result<seq<Value>>)
    ensures v.Arr? ==> r == Ok(v.items)
    ensures v.Str? ==> r.Ok? && |r.value| == |v.s|
    ensures !v.Arr? && !v.Str? ==> r == Throw(TypeErrorValue)
  {
    match v
    case Arr(items) => Ok(items)
    case Str(s) => Ok(seq(|s|, i requires 0 <= i < |s| => Str([s[i]])))
    case _ => Throw(TypeErrorValue)
  }

  /** `security.permissions = [...(security.permissions || []), name]`. A
      function-valued list cannot be spread, and a primitive policy cannot take
      a property (module code is strict). */
  function AppendPermission(p: Policy, name: string): (r: Result<Policy>)
    ensures p.permissionsFn.None? && p.plain.Obj? && Prop(p.plain, "permissions").Arr? ==>
      r.Ok? && Prop(r.value.plain, "permissions") == Arr(Prop(p.plain, "permissions").items + [Str(name)])
    ensures p.permissionsFn.None? && p.plain.Obj? && !Truthy(Prop(p.plain, "permissions")) ==>
      r.Ok? && Prop(r.value.plain, "permissions") == Arr([Str(name)])
    ensures r.Ok? && p.plain.Obj? ==> r.value.plain.Obj? && r.value.plain.fields.Keys == p.plain.fields.Keys + {"permissions"}
    ensures p.permissionsFn.Some? ==> r == Throw(TypeErrorValue)
  {
    if p.permissionsFn.Some? then Throw(TypeErrorValue)
    else
      var items :- SpreadList(Or(Prop(p.plain, "permissions"), Arr([])));
      match p.plain
      case Obj(fields) =>
        assert items == [] ==> items + [Str(name)] == [Str(name)];
        Ok(p.(plain := Obj(fields["permissions" := Arr(items + [Str(name)])])))
      case Arr(_) => Ok(p)
      case _ => Throw(TypeErrorValue)
  }

  /** `typeof security === "boolean"`. */
  predicate IsBooleanPolicy(p: Policy) {
    p.plain.Bool? && p.isAllowed.None? && p.permissionsFn.None? && p.rolesFn.None? && p.extraCheck.None?
  }

  predicate HasDefaultPermissions(entry: SecurityEntry) {
    "security" in entry && PolicyTruthy(entry["security"]) && Truthy(Prop(entry["security"].plain, "defaultPermissions"))
  }

  /** `getMethodSecurity(key, op)`: the method policy (None for undefined),
      and the registry afterwards, since an existing policy object is
      extended in place. */
  function GetMethodSecurity(r: Registry, key: string, op: string): (res: Result<(Option<Policy>, Registry)>)
    ensures key !in r.security ==> res == Ok((None, r))
    ensures key in r.security && !HasDefaultPermissions(r.security[key]) ==>
      res == Ok((if op in r.security[key] then Some(r.security[key][op]) else None, r))
    ensures key in r.security && op in r.security[key] && IsBooleanPolicy(r.security[key][op]) ==>
      res == Ok((Some(r.security[key][op]), r))
    ensures key in r.security && HasDefaultPermissions(r.security[key]) && op !in r.security[key] ==>
      res.Ok? && res.value.1 == r && res.value.0 == Some(PlainPolicy(Obj(map["permissions" := Arr([Str(KeyAction(key, op))])])))
  {
    if key !in r.security then Ok((None, r))
    else
      var entry := r.security[key];
      var sec := if op in entry then Some(entry[op]) else None;
      if !(sec.Some? && IsBooleanPolicy(sec.value)) && HasDefaultPermissions(entry) then
        var existing := sec.Some? && PolicyTruthy(sec.value);
        var target := if existing then sec.value else PlainPolicy(Obj(map[]));
        var added :- AppendPermission(target, KeyAction(key, op));
        var after := if existing then r.(security := r.security[key := entry[op := added]]) else r;
        assert !existing ==> added == PlainPolicy(Obj(map["permissions" := Arr([Str(KeyAction(key, op))])]));
        Ok((Some(added), after))
      else Ok((sec, r))
  }

  /** An existing method policy object collects the synthesized permission
      again on every call. */
  lemma MethodPermissionAccumulates(r: Registry, key: string, op: string, fields: Record, listed: seq<Value>)
    requires key in r.security && HasDefaultPermissions(r.security[key]) && op != "security"
    requires op in r.security[key] && r.security[key][op] == PlainPolicy(Obj(fields))
    requires "permissions" in fields && fields["permissions"] == Arr(listed)
    ensures var first := GetMethodSecurity(r, key, op);
      && first.Ok? && first.value.0.Some?
      && Prop(first.value.0.value.plain, "permissions") == Arr(listed + [Str(KeyAction(key, op))])
      && var second := GetMethodSecurity(first.value.1, key, op);
      && second.Ok? && second.value.0.Some?
      && Prop(second.value.0.value.plain, "permissions") == Arr(listed + [Str(KeyAction(key, op)), Str(KeyAction(key, op))])
  {
    var name := KeyAction(key, op);
    var first := GetMethodSecurity(r, key, op);
    var p1 := first.value.0.value;
    assert p1 == PlainPolicy(Obj(fields["permissions" := Arr(listed + [Str(name)])]));
    var r1 := first.value.1;
    assert r1.security[key][op] == p1;
    assert r1.security[key]["security"] == r.security[key]["security"];
    assert listed + [Str(name)] + [Str(name)] == listed + [Str(name), Str(name)];
  }

  /** `parseRequestMethod`: strip "/<prefix>/", take the first segment as the
      resource and the rest, re-joined, as a custom path; the verb picks the
      operation unless the custom path is registered. */
  function ParseRequestMethod(r: Registry, baseUrl: string, verb: string, prefix: string): (res: (Option<string>, string))
    ensures var parts := Split(ReplaceFirst(baseUrl, "/" + prefix + "/", ""), '/');
      res.1 == parts[0]
    ensures Lower(verb) !in {"get", "delete", "patch", "post"} ==> res.0.None?
  {
    var parts := Split(ReplaceFirst(baseUrl, "/" + prefix + "/", ""), '/');
    var key := parts[0];
    var custom := Join(parts[1..], '/');
    var present := IsMethodPresent(r, key, custom);
    var m := Lower(verb);
    var op :=
      if m == "get" then Some(if present then custom else if |parts| > 1 then "get" else "find")
      else if m == "delete" then Some(if present then custom else "remove")
      else if m == "patch" then Some(if present then custom else "update")
      else if m == "post" then Some(if present then custom else "create")
      else None;
    (op, key)
  }

  predicate IsMethodPresent(r: Registry, key: string, name: string) {
    key in r.apis && name in r.apis[key].paths
  }

  /** Stripping "/<prefix>/" leaves the rest of the URL. */
  lemma StripPrefix(prefix: string, rest: string)
    ensures ReplaceFirst("/" + prefix + "/" + rest, "/" + prefix + "/", "") == rest
  {
    var head := "/" + prefix + "/";
    assert "/" + prefix + "/" + rest == head + rest;
    ReplaceFirstAtStart(head, rest, "");
    assert "" + rest == rest;
  }

  lemma OneSegment(key: string)
    requires '/' !in key
    ensures Split(key, '/') == [key]
  {
    SplitJoin([key], '/');
  }

  lemma TwoSegments(key: string, id: string)
    requires '/' !in key && '/' !in id
    ensures Split(key + "/" + id, '/') == [key, id]
    ensures Join(Split(key + "/" + id, '/')[1..], '/') == id
  {
    assert Join([key, id], '/') == key + "/" + id by {
      JoinCons(key, [id], '/');
    }
    SplitJoin([key, id], '/');
    assert [key, id][1..] == [id];
  }

  /** The collection routes: GET lists, POST creates. */
  lemma ParseCollectionRoutes(r: Registry, prefix: string, key: string)
    requires '/' !in key && !IsMethodPresent(r, key, "")
    ensures ParseRequestMethod(r, "/" + prefix + "/" + key, "GET", prefix) == (Some("find"), key)
    ensures ParseRequestMethod(r, "/" + prefix + "/" + key, "POST", prefix) == (Some("create"), key)
  {
    StripPrefix(prefix, key);
    OneSegment(key);
    assert [key][1..] == [];
    VerbsLowered();
  }

  /** The record routes: GET reads, DELETE removes, PATCH updates. */
  lemma ParseRecordRoutes(r: Registry, prefix: string, key: string, id: string)
    requires '/' !in key && '/' !in id && !IsMethodPresent(r, key, id)
    ensures ParseRequestMethod(r, "/" + prefix + "/" + key + "/" + id, "GET", prefix) == (Some("get"), key)
    ensures ParseRequestMethod(r, "/" + prefix + "/" + key + "/" + id, "DELETE", prefix) == (Some("remove"), key)
    ensures ParseRequestMethod(r, "/" + prefix + "/" + key + "/" + id, "PATCH", prefix) == (Some("update"), key)
  {
    RecordUrl(prefix, key, id);
    VerbsLowered();
  }

  /** A record URL splits into the resource and the id. */
  lemma RecordUrl(prefix: string, key: string, id: string)
    requires '/' !in key && '/' !in id
    ensures var parts := Split(ReplaceFirst("/" + prefix + "/" + key + "/" + id, "/" + prefix + "/", ""), '/');
      parts == [key, id] && Join(parts[1..], '/') == id
  {
    assert "/" + prefix + "/" + key + "/" + id == "/" + prefix + "/" + (key + "/" + id);
    StripPrefix(prefix, key + "/" + id);
    TwoSegments(key, id);
  }

  lemma VerbsLowered()
    ensures Lower("GET") == "get" && Lower("DELETE") == "delete" && Lower("PATCH") == "patch" && Lower("POST") == "post"
  {
    LowerWord("GET", "get");
    LowerWord("DELETE", "delete");
    LowerWord("PATCH", "patch");
    LowerWord("POST", "post");
  }

  /** Lowering a word letter by letter. */
  lemma LowerWord(s: string, t: string)
    requires |s| == |t| && forall i :: 0 <= i < |s| ==> LowerChar(s[i]) == t[i]
    ensures Lower(s) == t
  {
  }

  /** A registered additional path takes precedence over the standard
      operation for every verb. */
  lemma ParseCustomPath(r: Registry, prefix: string, key: string, name: string, verb: string)
    requires '/' !in key && '/' !in name && IsMethodPresent(r, key, name)
    requires Lower(verb) in {"get", "delete", "patch", "post"}
    ensures ParseRequestMethod(r, "/" + prefix + "/" + key + "/" + name, verb, prefix) == (Some(name), key)
  {
    assert "/" + prefix + "/" + key + "/" + name == "/" + prefix + "/" + (key + "/" + name);
    StripPrefix(prefix, key + "/" + name);
    TwoSegments(key, name);
  }

  /** populate-security: the parsed resource becomes `req.apiKey`; a resolved
      operation's policy is used unless it is undefined, in which case the
      resource policy is. */
  function PopulateSecurity(r: Registry, baseUrl: string, verb: string, prefix: string): (res: Result<(string, Policy, Registry)>)
    ensures res.Ok? ==> res.value.0 == ParseRequestMethod(r, baseUrl, verb, prefix).1
    ensures ParseRequestMethod(r, baseUrl, verb, prefix).0.None? ==>
      var key := ParseRequestMethod(r, baseUrl, verb, prefix).1;
      res == Ok((key, GetApiSecurity(r, key), r))
    ensures var (op, key) := ParseRequestMethod(r, baseUrl, verb, prefix);
      op.Some? && GetMethodSecurity(r, key, op.value).Ok? ==>
      var (sec, after) := GetMethodSecurity(r, key, op.value).value;
      res == Ok((key, if sec.Some? then sec.value else GetApiSecurity(after, key), after))
  {
    var (op, key) := ParseRequestMethod(r, baseUrl, verb, prefix);
    if op.Some? then
      var (sec, after) :- GetMethodSecurity(r, key, op.value);
      Ok((key, if sec.Some? then sec.value else GetApiSecurity(after, key), after))
    else Ok((key, GetApiSecurity(r, key), r))
  }

  /** An explicit boolean method policy wins over the resource policy. */
  lemma BooleanMethodPolicyOverrides(r: Registry, prefix: string, key: string, id: string, b: bool)
    requires '/' !in key && '/' !in id && !IsMethodPresent(r, key, id)
    requires key in r.security && "get" in r.security[key] && r.security[key]["get"] == PlainPolicy(Bool(b))
    ensures PopulateSecurity(r, "/" + prefix + "/" + key + "/" + id, "GET", prefix) == Ok((key, PlainPolicy(Bool(b)), r))
  {
    ParseRecordRoutes(r, prefix, key, id);
  }

  /** The index bootstrap for one definition: a function configuration is
      called once with `{}` and its result replaces it; the index
      `indexPrefix + key` is created from the default configuration overlaid
      by the definition's. Without an indexer or a configuration nothing
      happens. */
  function BootstrapIndex(e: MemoryIndex.Engine, key: string, indexing: Indexing, hasIndexer: bool, config: Value)
    : (res: Result<(MemoryIndex.Engine, Indexing)>)
    ensures indexing.NoIndexing? || !hasIndexer ==> res == Ok((e, indexing))
    ensures res.Ok? && !indexing.NoIndexing? && hasIndexer ==> res.value.1.Static?
    ensures indexing.Static? && hasIndexer && Prop(config, "searchIndexer").Obj? ==>
      var si := Prop(config, "searchIndexer");
      var name := ToStr(Or(Prop(si, "indexPrefix"), Str(""))) + key;
      && res.Ok?
      && name in res.value.0 && res.value.0[name].docs == map[]
      && res.value.0[name] == MemoryIndex.NewIndex(Obj(Spread(Prop(si, "defaultIndexingConfig")) + Spread(indexing.config.plain)))
  {
    if indexing.NoIndexing? || !hasIndexer then Ok((e, indexing))
    else
      var cfg :- match indexing
        case Static(c) => Ok(c)
        case Dynamic(f) => f(Obj(map[]), None);
      var si := Prop(config, "searchIndexer");
      if IsNullish(si) then Throw(TypeErrorValue)
      else
        var name := ToStr(Or(Prop(si, "indexPrefix"), Str(""))) + key;
        Ok((MemoryIndex.CreateIndex(e, name, Obj(Spread(Prop(si, "defaultIndexingConfig")) + Spread(cfg.plain))), Static(cfg)))
  }
}

=== FILE: request_config.dfy ===
/** The search-indexer settings of src/config/default.js: the request-option
    builder `getRequestConfig`, the request validation rules and the default
    index configuration. */
module RequestConfig {
  import opened Strings
  import opened Values

  /** A JavaScript number as `parseInt` can produce it. */
  datatype Number = Finite(i: int) | NaN

  /** The white space and line terminators `Number()` and `parseInt` skip. */
  predicate IsSpace(c: char) {
    var n := c as int;
    || 0x09 <= n <= 0x0D || n == 0x20 || n == 0xA0 || n == 0x1680 || 0x2000 <= n <= 0x200A
    || n == 0x2028 || n == 0x2029 || n == 0x202F || n == 0x205F || n == 0x3000 || n == 0xFEFF
  }

  predicate AllSpace(s: string) {
    forall i :: 0 <= i < |s| ==> IsSpace(s[i])
  }

  predicate AllDigits(s: string) {
    forall i :: 0 <= i < |s| ==> IsDigit(s[i])
  }

  predicate IsHexDigit(c: char) {
    IsDigit(c) || 'a' <= c <= 'f' || 'A' <= c <= 'F'
  }

  /** The text without its leading white space. */
  function TrimStart(s: string): (r: string)
    ensures |r| <= |s|
    ensures r == "" || !IsSpace(r[0])
  {
    if |s| > 0 && IsSpace(s[0]) then TrimStart(s[1..]) else s
  }

  /** The text without its trailing white space. */
  function TrimEnd(s: string): (r: string)
    ensures |r| <= |s|
    ensures r == "" || !IsSpace(r[|r| - 1])
  {
    if |s| > 0 && IsSpace(s[|s| - 1]) then TrimEnd(s[..|s| - 1]) else s
  }

  /** Digits with at most one decimal point and at least one digit. */
  predicate IsMantissa(m: string) {
    if '.' in m then
      var k := IndexOf(m, '.');
      |m| > 1 && AllDigits(m[..k]) && AllDigits(m[k + 1..])
    else
      |m| > 0 && AllDigits(m)
  }

  /** The digits after an exponent mark, with an optional sign. */
  predicate IsExponent(x: string) {
    var d := if |x| > 0 && (x[0] == '+' || x[0] == '-') then x[1..] else x;
    |d| > 0 && AllDigits(d)
  }

  /** An unsigned decimal literal: "Infinity", or a mantissa with an
      optional exponent. */
  predicate IsUnsignedDecimal(u: string) {
    || u == "Infinity"
    || IsMantissa(u)
    || exists k :: 0 <= k < |u| && (u[k] == 'e' || u[k] == 'E') && IsMantissa(u[..k]) && IsExponent(u[k + 1..])
  }

  /** A hexadecimal, octal or binary literal. */
  predicate IsNonDecimal(t: string) {
    && |t| > 2 && t[0] == '0'
    && (|| ((t[1] == 'x' || t[1] == 'X') && forall i :: 2 <= i < |t| ==> IsHexDigit(t[i]))
        || ((t[1] == 'o' || t[1] == 'O') && forall i :: 2 <= i < |t| ==> '0' <= t[i] <= '7')
        || ((t[1] == 'b' || t[1] == 'B') && forall i :: 2 <= i < |t| ==> '0' <= t[i] <= '1'))
  }

  /** The numeric literals `Number()` accepts once the white space is trimmed:
      non-decimal ones unsigned, decimal ones with an optional sign. */
  predicate IsNumericLiteral(t: string) {
    || IsNonDecimal(t)
    || IsUnsignedDecimal(t)
    || (|t| > 0 && (t[0] == '+' || t[0] == '-') && IsUnsignedDecimal(t[1..]))
  }

  /** `isNaN` of a string: `Number(s)` trims the white space at both ends;
      nothing left reads as 0, anything else must be a numeric literal. */
  predicate TextIsNaN(s: string) {
    var t := TrimEnd(TrimStart(s));
    t != "" && !IsNumericLiteral(t)
  }

  /** `isNaN(v)`: undefined and plain objects are not numbers; null and
      booleans convert to 0 or 1; arrays convert through their text. */
  predicate IsNaN(v: Value) {
    match v
    case Undefined => true
    case Null => false
    case Bool(_) => false
    case Num(_) => false
    case Str(s) => TextIsNaN(s)
    case Arr(_) => TextIsNaN(ToStr(v))
    case Obj(_) => true
  }

  /** The longest run of decimal digits that starts s. */
  function DigitRun(s: string): (r: string)
    ensures |r| <= |s| && r == s[..|r|] && AllDigits(r)
    ensures |r| == |s| || !IsDigit(s[|r|])
  {
    if |s| > 0 && IsDigit(s[0]) then [s[0]] + DigitRun(s[1..]) else ""
  }

  /** The longest run of hexadecimal digits that starts s. */
  function HexRun(s: string): (r: string)
    ensures |r| <= |s| && r == s[..|r|]
    ensures forall i :: 0 <= i < |r| ==> IsHexDigit(r[i])
    ensures |r| == |s| || !IsHexDigit(s[|r|])
  {
    if |s| > 0 && IsHexDigit(s[0]) then [s[0]] + HexRun(s[1..]) else ""
  }

  function HexDigitValue(c: char): (d: nat)
    requires IsHexDigit(c)
    ensures d < 16
  {
    if IsDigit(c) then c as int - '0' as int
    else if 'a' <= c <= 'f' then c as int - 'a' as int + 10
    else c as int - 'A' as int + 10
  }

  /** Value of a string of hexadecimal digits. */
  function HexValue(s: string): nat
    requires forall i :: 0 <= i < |s| ==> IsHexDigit(s[i])
  {
    if |s| == 0 then 0 else HexValue(s[..|s| - 1]) * 16 + HexDigitValue(s[|s| - 1])
  }

  /** The text after its leading white space and one optional sign. */
  function Unsigned(s: string): string {
    var t := TrimStart(s);
    if |t| > 0 && (t[0] == '-' || t[0] == '+') then t[1..] else t
  }

  predicate IsNegative(s: string) {
    var t := TrimStart(s);
    |t| > 0 && t[0] == '-'
  }

  /** The unsigned value `parseInt` reads: with a "0x" prefix the longest
      run of hexadecimal digits after it, otherwise the longest run of
      decimal digits; no digits at all is NaN. */
  function ReadMagnitude(u: string): (r: Number)
    ensures r.Finite? ==> r.i >= 0 && |u| > 0 && IsDigit(u[0])
    ensures |u| > 0 && IsDigit(u[0]) && !(|u| >= 2 && u[0] == '0' && (u[1] == 'x' || u[1] == 'X')) ==> r.Finite?
  {
    if |u| >= 2 && u[0] == '0' && (u[1] == 'x' || u[1] == 'X') then
      var h := HexRun(u[2..]);
      if h == "" then NaN else Finite(HexValue(h))
    else
      var d := DigitRun(u);
      if d == "" then NaN else Finite(DecimalValue(d))
  }

  /** `parseInt` of a string, radix omitted: skip the leading white space,
      read one sign, then the magnitude; whatever follows the digits is
      ignored. */
  function ParseText(s: string): (r: Number)
    ensures r.Finite? && IsNegative(s) ==> r.i <= 0
    ensures r.Finite? && !IsNegative(s) ==> r.i >= 0
  {
    match ReadMagnitude(Unsigned(s))
    case NaN => NaN
    case Finite(m) => Finite(if IsNegative(s) then 0 - m else m)
  }

  /** `parseInt(v)`: numbers are themselves, everything else parses its text
      (`String(null)` is "null", which is NaN). */
  function ParseInt(v: Value): (r: Number)
    ensures v.Num? ==> r == Finite(v.n)
    ensures v.Str? ==> r == ParseText(v.s)
    ensures v.Arr? ==> r == ParseText(ToStr(v))
    ensures IsNullish(v) || v.Bool? || v.Obj? ==> r == NaN
  {
    match v
    case Num(n) => Finite(n)
    case Str(s) => ParseText(s)
    case Arr(_) => ParseText(ToStr(v))
    case _ => NaN
  }

  // ----- how the two read numeric text -----

  lemma TrimStartSkips(lead: string, x: string)
    requires AllSpace(lead) && (x == "" || !IsSpace(x[0]))
    ensures TrimStart(lead + x) == x
    decreases |lead|
  {
    if |lead| > 0 {
      assert (lead + x)[1..] == lead[1..] + x;
      TrimStartSkips(lead[1..], x);
    } else {
      assert lead + x == x;
    }
  }

  lemma TrimEndSkips(x: string, trail: string)
    requires AllSpace(trail) && (x == "" || !IsSpace(x[|x| - 1]))
    ensures TrimEnd(x + trail) == x
    decreases |trail|
  {
    if |trail| > 0 {
      assert (x + trail)[..|x + trail| - 1] == x + trail[..|trail| - 1];
      TrimEndSkips(x, trail[..|trail| - 1]);
    } else {
      assert x + trail == x;
    }
  }

  /** Text with white space on both sides is a number to `isNaN` exactly
      when what lies between is a numeric literal. */
  lemma NumberTextBetween(lead: string, t: string, trail: string)
    requires AllSpace(lead) && AllSpace(trail)
    requires |t| > 0 && !IsSpace(t[0]) && !IsSpace(t[|t| - 1])
    ensures TextIsNaN(lead + t + trail) <==> !IsNumericLiteral(t)
  {
    assert lead + t + trail == lead + (t + trail);
    TrimStartSkips(lead, t + trail);
    TrimEndSkips(t, trail);
  }

  lemma DigitRunStops(d: string, rest: string)
    requires AllDigits(d) && (rest == "" || !IsDigit(rest[0]))
    ensures DigitRun(d + rest) == d
    decreases |d|
  {
    if |d| > 0 {
      assert (d + rest)[1..] == d[1..] + rest;
      DigitRunStops(d[1..], rest);
      assert [d[0]] + d[1..] == d;
    } else {
      assert d + rest == rest;
    }
  }

  /** Digits followed by anything but a digit, or by a hex mark after a
      lone "0", are read as exactly those digits. */
  lemma ReadDigits(d: string, rest: string)
    requires |d| > 0 && AllDigits(d)
    requires rest == "" || !IsDigit(rest[0])
    requires d == "0" ==> rest == "" || (rest[0] != 'x' && rest[0] != 'X')
    ensures ReadMagnitude(d + rest) == Finite(DecimalValue(d))
  {
    var u := d + rest;
    DigitRunStops(d, rest);
    if |u| >= 2 && u[0] == '0' {
      assert d == "0" || IsDigit(u[1]);
      assert d == "0" ==> u[1] == rest[0];
    }
  }

  /** White space, then a sign or none, then text starting with a digit:
      the sign decides and the rest is the magnitude's text. */
  lemma SignAfterSpace(lead: string, sign: string, u: string)
    requires AllSpace(lead) && |sign| <= 1 && (|sign| == 1 ==> sign[0] == '+' || sign[0] == '-')
    requires |u| > 0 && IsDigit(u[0])
    ensures Unsigned(lead + sign + u) == u
    ensures IsNegative(lead + sign + u) <==> |sign| == 1 && sign[0] == '-'
  {
    var x := sign + u;
    assert lead + sign + u == lead + x;
    assert x[0] == (if |sign| == 0 then u[0] else sign[0]);
    TrimStartSkips(lead, x);
    if |sign| == 1 {
      assert x[1..] == u;
    } else {
      assert x == u;
    }
  }

  /** A sign and digits followed by anything but a digit (or a hex mark
      after a lone "0") parse as the signed value of those digits. */
  lemma ParseSignedDigits(lead: string, sign: string, d: string, rest: string)
    requires AllSpace(lead) && |sign| <= 1 && (|sign| == 1 ==> sign[0] == '+' || sign[0] == '-')
    requires |d| > 0 && AllDigits(d)
    requires rest == "" || !IsDigit(rest[0])
    requires d == "0" ==> rest == "" || (rest[0] != 'x' && rest[0] != 'X')
    ensures IsNegative(lead + sign + (d + rest)) <==> |sign| == 1 && sign[0] == '-'
    ensures IsNegative(lead + sign + (d + rest)) ==> ParseText(lead + sign + (d + rest)) == Finite(0 - DecimalValue(d))
    ensures !IsNegative(lead + sign + (d + rest)) ==> ParseText(lead + sign + (d + rest)) == Finite(DecimalValue(d))
  {
    assert (d + rest)[0] == d[0];
    SignAfterSpace(lead, sign, d + rest);
    ReadDigits(d, rest);
    ParseFromParts(lead + sign + (d + rest), d + rest, DecimalValue(d));
  }

  /** parseInt's value is the magnitude, negated after a minus sign. */
  lemma ParseFromParts(s: string, u: string, m: nat)
    requires Unsigned(s) == u && ReadMagnitude(u) == Finite(m)
    ensures IsNegative(s) ==> ParseText(s) == Finite(0 - m)
    ensures !IsNegative(s) ==> ParseText(s) == Finite(m)
  {
  }

  /** Text with no white space at either end is a number to `isNaN`
      exactly when it is a numeric literal. */
  lemma NumberText(t: string)
    requires |t| > 0 && !IsSpace(t[0]) && !IsSpace(t[|t| - 1])
    ensures TextIsNaN(t) <==> !IsNumericLiteral(t)
  {
  }

  /** Unsigned digits followed by anything but a digit (or a hex mark after
      a lone "0") parse as the value of those digits. */
  lemma ParsePlainDigits(d: string, rest: string)
    requires |d| > 0 && AllDigits(d)
    requires rest == "" || !IsDigit(rest[0])
    requires d == "0" ==> rest == "" || (rest[0] != 'x' && rest[0] != 'X')
    ensures ParseText(d + rest) == Finite(DecimalValue(d))
  {
    var u := d + rest;
    assert u[0] == d[0];
    UnsignedPlain(u);
    ReadDigits(d, rest);
    ParseFromParts(u, u, DecimalValue(d));
  }

  /** Text starting with a digit has no white space or sign to skip. */
  lemma UnsignedPlain(u: string)
    requires |u| > 0 && IsDigit(u[0])
    ensures Unsigned(u) == u && !IsNegative(u)
  {
    assert TrimStart(u) == u;
  }

  /** Regrouping a concatenation. */
  lemma Regroup(lead: string, x: string, sign: string, d: string, rest: string)
    requires x == sign + d
    ensures lead + x + rest == lead + sign + (d + rest)
  {
  }

  /** The decimal rendering of an integer is a numeric literal. */
  lemma IntegerLiteral(n: int)
    ensures IsNumericLiteral(IntToString(n))
  {
    var k := if n < 0 then -n else n;
    var d := NatToString(k);
    assert '.' !in d;
    assert IsMantissa(d);
    if n < 0 {
      assert IntToString(n)[1..] == d;
    }
  }

  /** For every integer, its decimal rendering with white space around it
      is a number to `isNaN` and reads back as that integer to `parseInt`. */
  lemma {:induction false} IntegerTextReadsBack(n: int, lead: string, trail: string)
    requires AllSpace(lead) && AllSpace(trail)
    ensures !TextIsNaN(lead + IntToString(n) + trail)
    ensures ParseText(lead + IntToString(n) + trail) == Finite(n)
  {
    var k := if n < 0 then -n else n;
    var d := NatToString(k);
    var x := IntToString(n);
    assert !IsSpace(x[0]) && !IsSpace(x[|x| - 1]);
    IntegerLiteral(n);
    NumberTextBetween(lead, x, trail);
    DecimalOfNatToString(k);
    assert trail == "" || !IsDigit(trail[0]);
    var sign := if n < 0 then "-" else "";
    Regroup(lead, x, sign, d, trail);
    ParseSignedDigits(lead, sign, d, trail);
  }

  /** What `getRequestConfig` returns. A function-valued `preFilter` is
      carried separately from the data, since functions are not values here. */
  datatype RequestOptions = RequestOptions(
    from: Number,
    size: Number,
    sort: Value,
    sortType: Value,
    all: bool,
    operator: Value,
    preFilter: Option<Value -> bool>)

  /** getRequestConfig(data). */
  function GetRequestConfig(data: Value, preFilter: Option<Value -> bool>): (r: RequestOptions)
    ensures r.from == if IsNaN(Prop(data, "from")) then Finite(0) else ParseInt(Prop(data, "from"))
    ensures r.size == if IsNaN(Prop(data, "size")) then Finite(10) else ParseInt(Prop(data, "size"))
    ensures r.sort == Or(Prop(data, "sort"), Str("createdAt"))
    ensures r.sortType == Or(Prop(data, "sortType"), Str("asc"))
    ensures r.all <==> r.from == Finite(-1)
    ensures r.operator == Prop(data, "operator")
    ensures r.preFilter == preFilter
  {
    var from := if IsNaN(Prop(data, "from")) then Finite(0) else ParseInt(Prop(data, "from"));
    var size := if IsNaN(Prop(data, "size")) then Finite(10) else ParseInt(Prop(data, "size"));
    RequestOptions(from, size, Or(Prop(data, "sort"), Str("createdAt")), Or(Prop(data, "sortType"), Str("asc")),
                   from == Finite(-1), Prop(data, "operator"), preFilter)
  }

  /** Missing paging and ordering parameters get their defaults: the first
      ten records, ascending by creation time. */
  lemma EmptyRequestDefaults()
    ensures var r := GetRequestConfig(Obj(map[]), None);
      r.from == Finite(0) && r.size == Finite(10) && r.sort == Str("createdAt") && r.sortType == Str("asc")
      && !r.all && r.operator == Undefined
  {
  }

  /** `from=-1` asks for everything. */
  lemma MinusOneMeansAll(data: Value)
    requires Prop(data, "from") == Str("-1")
    ensures GetRequestConfig(data, None).all
  {
    assert !IsNaN(Str("-1")) && ParseInt(Str("-1")) == Finite(-1) by {
      assert "" + IntToString(-1) + "" == "-1";
      IntegerTextReadsBack(-1, "", "");
    }
  }

  /** Text that is not a number falls back to the defaults, while the empty
      string parses to NaN. */
  lemma NonNumericFallsBack(data: Value)
    requires Prop(data, "from") == Str("abc") && Prop(data, "size") == Str("")
    ensures GetRequestConfig(data, None).from == Finite(0)
    ensures GetRequestConfig(data, None).size == NaN
  {
    assert IsNaN(Str("abc")) by {
      assert "" + "abc" + "" == "abc";
      assert !IsDigit("abc"[0]) && '.' !in "abc";
      assert !IsMantissa("abc");
      assert !IsUnsignedDecimal("abc");
      assert !IsNumericLiteral("abc");
      NumberTextBetween("", "abc", "");
    }
    assert !IsNaN(Str("")) && ParseInt(Str("")) == NaN by {
      assert Unsigned("") == "";
    }
  }

  /** For all integers n and m: `from` and `size` given as numbers, or as
      their decimal text with any white space around it, read as n and m,
      and `all` is set exactly when n is -1. */
  lemma RequestNumbersReadBack(data: Value, n: int, m: int, lead: string, trail: string)
    requires AllSpace(lead) && AllSpace(trail)
    requires Prop(data, "from") in {Num(n), Str(lead + IntToString(n) + trail)}
    requires Prop(data, "size") in {Num(m), Str(lead + IntToString(m) + trail)}
    ensures GetRequestConfig(data, None).from == Finite(n)
    ensures GetRequestConfig(data, None).size == Finite(m)
    ensures GetRequestConfig(data, None).all <==> n == -1
  {
    IntegerTextReadsBack(n, lead, trail);
    IntegerTextReadsBack(m, lead, trail);
  }

  /** Digits, a point and digits make a mantissa. */
  lemma PointMantissa(d: string, frac: string)
    requires |d| > 0 && AllDigits(d) && AllDigits(frac)
    ensures IsMantissa(d + ("." + frac))
  {
    var t := d + ("." + frac);
    assert '.' !in d;
    assert t[..|d|] == d && t[|d|] == '.' && t[|d| + 1..] == frac;
    assert IndexOf(t, '.') == |d|;
  }

  /** A decimal fraction is a number to `isNaN`, and `parseInt` keeps its
      whole part: "2.5" reads as 2. */
  lemma FractionTruncates(a: nat, frac: string)
    requires AllDigits(frac)
    ensures !TextIsNaN(NatToString(a) + ("." + frac))
    ensures ParseText(NatToString(a) + ("." + frac)) == Finite(a)
  {
    var d := NatToString(a);
    var t := d + ("." + frac);
    assert IsNumericLiteral(t) by {
      PointMantissa(d, frac);
    }
    assert !IsSpace(t[0]) && !IsSpace(t[|t| - 1]) by {
      assert t[0] == d[0] && t[|t| - 1] == (if frac == "" then '.' else frac[|frac| - 1]);
    }
    NumberText(t);
    assert ParseText(t) == Finite(a) by {
      DecimalOfNatToString(a);
      ParsePlainDigits(d, "." + frac);
    }
  }

  /** Digits, an exponent mark and digits make an unsigned decimal. */
  lemma ExponentLiteral(d: string, x: string)
    requires |d| > 0 && AllDigits(d) && |x| > 0 && AllDigits(x)
    ensures IsUnsignedDecimal(d + ("e" + x))
  {
    var t := d + ("e" + x);
    assert t[..|d|] == d && t[|d|] == 'e' && t[|d| + 1..] == x;
    assert '.' !in d;
    assert IsMantissa(t[..|d|]) && IsExponent(t[|d| + 1..]);
  }

  /** A number with an exponent is a number to `isNaN`, but `parseInt`
      stops at the exponent mark: "1e3" reads as 1. */
  lemma ExponentIgnored(a: nat, b: nat)
    ensures !TextIsNaN(NatToString(a) + ("e" + NatToString(b)))
    ensures ParseText(NatToString(a) + ("e" + NatToString(b))) == Finite(a)
  {
    var d := NatToString(a);
    var x := NatToString(b);
    var t := d + ("e" + x);
    assert IsNumericLiteral(t) by {
      ExponentLiteral(d, x);
    }
    assert !IsSpace(t[0]) && !IsSpace(t[|t| - 1]) by {
      assert t[0] == d[0] && t[|t| - 1] == x[|x| - 1];
    }
    NumberText(t);
    assert ParseText(t) == Finite(a) by {
      DecimalOfNatToString(a);
      ParsePlainDigits(d, "e" + x);
    }
  }

  /** A leading plus sign is accepted by both. */
  lemma PlusSignAccepted(a: nat)
    ensures !TextIsNaN("+" + NatToString(a))
    ensures ParseText("+" + NatToString(a)) == Finite(a)
  {
    var d := NatToString(a);
    var t := "+" + d;
    assert !TextIsNaN(t) by {
      assert t[1..] == d;
      assert t[0] == '+' && t[|t| - 1] == d[|d| - 1];
      assert IsNumericLiteral(t) by {
        assert '.' !in d;
        assert IsMantissa(d);
      }
      NumberText(t);
    }
    assert ParseText(t) == Finite(a) by {
      assert t[0] == '+' && t[1..] == d;
      assert TrimStart(t) == t;
      DecimalOfNatToString(a);
      ReadDigits(d, "");
      assert d + "" == d;
    }
  }

  /** A leading point is a number to `isNaN`, but `parseInt` finds no digit
      before it: ".5" reads as NaN. */
  lemma LeadingPointIsNaN(frac: string)
    requires |frac| > 0 && AllDigits(frac)
    ensures !TextIsNaN("." + frac)
    ensures ParseText("." + frac) == NaN
  {
    var t := "." + frac;
    assert !TextIsNaN(t) by {
      assert t[..0] == "" && t[1..] == frac;
      assert t[0] == '.' && t[|t| - 1] == frac[|frac| - 1];
      assert IsNumericLiteral(t) by {
        assert IndexOf(t, '.') == 0;
        assert IsMantissa(t);
      }
      NumberText(t);
    }
    assert ParseText(t) == NaN by {
      assert t[0] == '.';
      assert TrimStart(t) == t;
    }
  }

  /** The request validation schema: `sortType` in asc/desc (either case) and
      `operator` only "equals"; absent values are allowed. */
  predicate ValidSearchRequest(data: Value) {
    && (Prop(data, "sortType").Undefined? || Prop(data, "sortType") in {Str("asc"), Str("desc"), Str("ASC"), Str("DESC")})
    && (Prop(data, "operator").Undefined? || Prop(data, "operator") == Str("equals"))
    && (forall k :: k in {"search", "searchField", "sort"} && !Prop(data, k).Undefined? ==> Prop(data, k).Str?)
  }

  /** The index configuration every indexed resource starts from. */
  datatype IndexSettings = IndexSettings(ref: Value, fields: Value, saveDocument: Value)

  const DefaultIndexingConfig: IndexSettings :=
    IndexSettings(Str("key"), Arr([Str("name"), Str("key")]), Bool(true))

  const IndexPrefix: string := "arivaa-suite-"

  /** A validated sort direction lowercases to "asc" or "desc". */
  lemma ValidSortTypeLowercases(data: Value)
    requires ValidSearchRequest(data) && !Prop(data, "sortType").Undefined?
    ensures Lower(Prop(data, "sortType").s) in {"asc", "desc"}
  {
    var t := Prop(data, "sortType").s;
    if t == "ASC" {
      assert Lower(t) == "asc";
    } else if t == "DESC" {
      assert Lower(t) == "desc";
    } else if t == "asc" {
      assert Lower(t) == "asc";
    } else {
      assert Lower(t) == "desc";
    }
  }
}

=== FILE: security.dfy ===
/** src/middlewares/admin-authorize.js: the `isUserAllowed` predicate and the
    middleware that normalises a resource's security policy before asking it. */
module Security {
  import opened Strings
  import opened Values
  import opened Errors

  /** The caller's `{permissions, role}` as read from `req.user`. */
  datatype UserInfo = UserInfo(permissions: Value, role: Value)

  /** A role or permission list as the policy gives it: a plain value, or a
      function of the user's (permissions, role). */
  datatype Rule = Given(v: Value) | Computed(f: (Value, Value) -> Value)

  /** A security policy as a definition writes it. `plain` holds every
      property that is not a function; the function-valued properties are the
      optional hooks, and a hook shadows the plain property of the same name. */
  datatype Policy = Policy(
    plain: Value,
    isAllowed: Option<(Record, UserInfo) -> Value>,
    permissionsFn: Option<(Value, Value) -> Value>,
    rolesFn: Option<(Value, Value) -> Value>,
    extraCheck: Option<(Value, Value, Value, Value) -> Value>)

  /** A policy with no function-valued property. */
  function PlainPolicy(v: Value): (p: Policy)
    ensures p.plain == v && p.isAllowed.None? && p.permissionsFn.None?
    ensures p.rolesFn.None? && p.extraCheck.None?
  {
    Policy(v, None, None, None, None)
  }

  /** Functions are truthy, and only objects carry them. */
  predicate PolicyTruthy(p: Policy) {
    Truthy(p.plain) || p.isAllowed.Some? || p.permissionsFn.Some? || p.rolesFn.Some? || p.extraCheck.Some?
  }

  /** The configuration `isUserAllowed` receives. */
  datatype Feature = Feature(
    fields: Record,
    permissions: Rule,
    roles: Rule,
    isAllowed: Option<(Record, UserInfo) -> Value>,
    extraCheck: Option<(Value, Value, Value, Value) -> Value>)

  /** The middleware's `{...security, roles: roles || role || [], permissions:
      permissions || []}`. */
  function Normalize(p: Policy): (f: Feature)
    ensures p.rolesFn.None? && p.permissionsFn.None? ==>
      && f.roles == Given(Or(Or(Prop(p.plain, "roles"), Prop(p.plain, "role")), Arr([])))
      && f.permissions == Given(Or(Prop(p.plain, "permissions"), Arr([])))
    ensures p.rolesFn.Some? ==> f.roles == Computed(p.rolesFn.value)
    ensures p.permissionsFn.Some? ==> f.permissions == Computed(p.permissionsFn.value)
    ensures f.isAllowed == p.isAllowed && f.extraCheck == p.extraCheck
  {
    var roles := if p.rolesFn.Some? then Computed(p.rolesFn.value)
      else Given(Or(Or(Prop(p.plain, "roles"), Prop(p.plain, "role")), Arr([])));
    var permissions := if p.permissionsFn.Some? then Computed(p.permissionsFn.value)
      else Given(Or(Prop(p.plain, "permissions"), Arr([])));
    var plainOf := map k | k in Spread(p.plain) && k != "roles" && k != "permissions" :: Spread(p.plain)[k];
    var listed := plainOf
      + (if roles.Given? then map["roles" := roles.v] else map[])
      + (if permissions.Given? then map["permissions" := permissions.v] else map[]);
    Feature(listed, permissions, roles, p.isAllowed, p.extraCheck)
  }

  function Resolve(r: Rule, u: UserInfo): Value {
    match r
    case Given(v) => v
    case Computed(f) => f(u.permissions, u.role)
  }

  /** `v && v.length > 0`: arrays and strings by their length, objects by a
      numeric `length` property; other values have no length. */
  predicate NonEmpty(v: Value) {
    match v
    case Arr(items) => |items| > 0
    case Str(s) => |s| > 0
    case Obj(_) => Prop(v, "length").Num? && Prop(v, "length").n > 0
    case _ => false
  }

  /** `list.indexOf(x) !== -1` with strict equality. */
  predicate Lists(items: seq<Value>, x: Value) {
    exists i :: 0 <= i < |items| && StrictEq(items[i], x)
  }

  /** `perms.findIndex(p => key.toUpperCase() === p.toUpperCase()) !== -1`:
      a non-string key or a non-string permission reached before a match
      throws. */
  function KeyGranted(key: Value, perms: seq<Value>): (r: Result<bool>)
    ensures r == Ok(true) ==> key.Str? && exists i :: 0 <= i < |perms| && perms[i].Str? && Upper(perms[i].s) == Upper(key.s)
    ensures key.Str? && (forall i :: 0 <= i < |perms| ==> perms[i].Str?) ==>
      r == Ok(exists i :: 0 <= i < |perms| && Upper(perms[i].s) == Upper(key.s))
  {
    if |perms| == 0 then Ok(false)
    else if !key.Str? || !perms[0].Str? then Throw(TypeErrorValue)
    else if Upper(key.s) == Upper(perms[0].s) then Ok(true)
    else
      var rest := KeyGranted(key, perms[1..]);
      assert forall i :: 1 <= i < |perms| ==> perms[i] == perms[1..][i - 1];
      rest
  }

  /** `allowed.findIndex(key => KeyGranted(key, perms)) !== -1`. */
  function AnyGranted(keys: seq<Value>, perms: seq<Value>): (r: Result<bool>)
    ensures r == Ok(true) ==> exists k :: 0 <= k < |keys| && KeyGranted(keys[k], perms) == Ok(true)
    ensures (forall k :: 0 <= k < |keys| ==> KeyGranted(keys[k], perms).Ok?) ==>
      r == Ok(exists k :: 0 <= k < |keys| && KeyGranted(keys[k], perms) == Ok(true))
  {
    if |keys| == 0 then Ok(false)
    else
      match KeyGranted(keys[0], perms)
      case Throw(e) => Throw(e)
      case Ok(hit) =>
        if hit then Ok(true)
        else
          var rest := AnyGranted(keys[1..], perms);
          assert forall k :: 1 <= k < |keys| ==> keys[k] == keys[1..][k - 1];
          rest
  }

  /** The role step: a string becomes a one-element list; a non-empty list
      must contain the role; a non-empty value without `indexOf` throws. */
  function RoleStep(roles: Value, role: Value): (r: Result<bool>)
    ensures roles.Str? && roles.s != "" ==> r == Ok(StrictEq(roles, role))
    ensures roles.Arr? ==> r == Ok(roles.items == [] || Lists(roles.items, role))
    ensures !NonEmpty(roles) && !roles.Str? ==> r == Ok(true)
  {
    var list := if roles.Str? then Arr([roles]) else roles;
    if !NonEmpty(list) then Ok(true)
    else if list.Arr? then
      (if roles.Str? then assert StrictEq(list.items[0], role) <==> StrictEq(roles, role); Ok(Lists(list.items, role))
       else Ok(Lists(list.items, role)))
    else Throw(TypeErrorValue)
  }

  /** The permission step, entered with the role step's verdict. */
  function PermissionStep(allowed: bool, required: Value, held: Value): (r: Result<bool>)
    ensures !NonEmpty(required) ==> r == Ok(allowed)
    ensures NonEmpty(required) && (!allowed || !NonEmpty(held)) ==> r == Ok(false)
    ensures required.Arr? && held.Arr? && allowed && |required.items| > 0 && |held.items| > 0 ==>
      r == AnyGranted(required.items, held.items)
  {
    if !NonEmpty(required) then Ok(allowed)
    else if !allowed || !NonEmpty(held) then Ok(false)
    else if !required.Arr? || !held.Arr? then Throw(TypeErrorValue)
    else AnyGranted(required.items, held.items)
  }

  /** `isUserAllowed(feature, user)`, reduced to the truthiness of its result,
      which is all its caller tests. */
  function IsUserAllowed(f: Feature, u: UserInfo): (r: Result<bool>)
    ensures f.isAllowed.Some? ==> r == Ok(Truthy(f.isAllowed.value(f.fields, u)))
    ensures f.isAllowed.None? && StrictEq(u.role, Str("admin")) && f.extraCheck.None? ==> r == Ok(true)
    ensures (f.isAllowed.None? && f.extraCheck.None? && !NonEmpty(Resolve(f.roles, u)) &&
             !Resolve(f.roles, u).Str? && !NonEmpty(Resolve(f.permissions, u))) ==> r == Ok(true)
    ensures (f.isAllowed.None? && r == Ok(true) && !StrictEq(u.role, Str("admin")) &&
             Resolve(f.roles, u).Arr? && |Resolve(f.roles, u).items| > 0) ==>
      Lists(Resolve(f.roles, u).items, u.role)
  {
    if f.isAllowed.Some? then Ok(Truthy(f.isAllowed.value(f.fields, u)))
    else
      var required := Resolve(f.permissions, u);
      var roles := Resolve(f.roles, u);
      var checked: Result<(bool, Value)> :=
        if StrictEq(u.role, Str("admin")) then Ok((true, roles))
        else
          var byRole :- RoleStep(roles, u.role);
          var byPermission :- PermissionStep(byRole, required, u.permissions);
          Ok((byPermission, if roles.Str? then Arr([roles]) else roles));
      match checked
      case Throw(e) => Throw(e)
      case Ok((allowed, finalRoles)) =>
        if f.extraCheck.Some? && allowed then
          Ok(Truthy(f.extraCheck.value(required, finalRoles, u.permissions, u.role)))
        else Ok(allowed)
  }

  /** A call of Express's `next`: plain, or with an error. */
  datatype NextCall = Proceed | Abort(error: Value)

  /** The 403 the middleware throws when the verdict is negative. */
  function DeniedError(apiKey: Value): (e: Value)
    ensures Prop(e, "status") == Str("403")
    ensures Prop(e, "message") == Str("You do not have access to " + ToStr(apiKey) + " API")
  {
    CreateError(Str("403"), Str("You do not have access to " + ToStr(apiKey) + " API"), Undefined)
  }

  /** The verdict the middleware obtains for a truthy policy; reading the
      user's properties throws when `req.user` is missing. */
  function Verdict(security: Policy, user: Value): Result<bool> {
    if IsNullish(user) then Throw(TypeErrorValue)
    else IsUserAllowed(Normalize(security), UserInfo(Prop(user, "permissions"), Prop(user, "role")))
  }

  /** The admin-authorize middleware as the sequence of `next` calls it makes. */
  function Authorize(security: Policy, user: Value, apiKey: Value): (calls: seq<NextCall>)
    ensures |calls| >= 1 && calls[|calls| - 1] == Proceed
    ensures !PolicyTruthy(security) ==> calls == [Proceed]
    ensures PolicyTruthy(security) && Verdict(security, user) == Ok(true) ==> calls == [Proceed]
    ensures PolicyTruthy(security) && Verdict(security, user) == Ok(false) ==>
      calls == [Abort(DeniedError(apiKey)), Proceed]
    ensures PolicyTruthy(security) && Verdict(security, user).Throw? ==>
      calls == [Abort(Verdict(security, user).error), Proceed]
  {
    if !PolicyTruthy(security) then [Proceed]
    else
      match Verdict(security, user)
      case Ok(true) => [Proceed]
      case Ok(false) => [Abort(DeniedError(apiKey)), Proceed]
      case Throw(e) => [Abort(e), Proceed]
  }

  /** Some required string permission matches some held string permission,
      ignoring case. */
  predicate SomeMatch(required: seq<Value>, held: seq<Value>)
    requires forall i :: 0 <= i < |required| ==> required[i].Str?
    requires forall i :: 0 <= i < |held| ==> held[i].Str?
  {
    exists k, i :: 0 <= k < |required| && 0 <= i < |held| && Upper(held[i].s) == Upper(required[k].s)
  }

  lemma AnyGrantedMatches(required: seq<Value>, held: seq<Value>)
    requires forall i :: 0 <= i < |required| ==> required[i].Str?
    requires forall i :: 0 <= i < |held| ==> held[i].Str?
    ensures AnyGranted(required, held) == Ok(SomeMatch(required, held))
  {
    forall k | 0 <= k < |required|
      ensures KeyGranted(required[k], held) == Ok(exists i :: 0 <= i < |held| && Upper(held[i].s) == Upper(required[k].s))
    {
    }
    if SomeMatch(required, held) {
      var k, i :| 0 <= k < |required| && 0 <= i < |held| && Upper(held[i].s) == Upper(required[k].s);
      assert KeyGranted(required[k], held) == Ok(true);
    }
  }

  /** With plain string lists and a non-admin caller, access is granted
      exactly when the role is listed (or no roles are required) and some
      required permission matches a held one case-insensitively (or none are
      required). */
  lemma PlainListsDecide(roles: seq<Value>, required: seq<Value>, held: seq<Value>, role: Value)
    requires forall i :: 0 <= i < |required| ==> required[i].Str?
    requires forall i :: 0 <= i < |held| ==> held[i].Str?
    requires !StrictEq(role, Str("admin"))
    ensures var f := Feature(map[], Given(Arr(required)), Given(Arr(roles)), None, None);
      IsUserAllowed(f, UserInfo(Arr(held), role)) == Ok(
        && (|roles| == 0 || Lists(roles, role))
        && (|required| == 0 || (|held| > 0 && SomeMatch(required, held))))
  {
    var byRole := |roles| == 0 || Lists(roles, role);
    assert RoleStep(Arr(roles), role) == Ok(byRole);
    if |required| > 0 && |held| > 0 && byRole {
      AnyGrantedMatches(required, held);
    }
  }

  /** The middleware reads `roles || role || []`, so a bare string policy such
      as "admin" yields empty role and permission lists and admits any user. */
  lemma StringPolicyAdmitsEveryone(role: string, apiKey: Value)
    requires role != "admin"
    ensures Authorize(PlainPolicy(Str("admin")), Obj(map["role" := Str(role), "permissions" := Arr([])]), apiKey) == [Proceed]
  {
    var user := Obj(map["role" := Str(role), "permissions" := Arr([])]);
    var f := Normalize(PlainPolicy(Str("admin")));
    assert f.roles == Given(Arr([])) && f.permissions == Given(Arr([]));
    assert IsUserAllowed(f, UserInfo(Arr([]), Str(role))) == Ok(true);
  }

  /** The normalisation the bare string policy evidently intends: the string
      names the one role allowed. */
  function NormalizeIntended(p: Policy): (f: Feature)
    ensures p.plain.Str? && p.rolesFn.None? ==> f.roles == Given(p.plain)
    ensures p.plain.Str? && p.permissionsFn.None? ==> f.permissions == Given(Arr([]))
    ensures !p.plain.Str? ==> f == Normalize(p)
  {
    var f := Normalize(p);
    if p.plain.Str? && p.rolesFn.None? then f.(roles := Given(p.plain)) else f
  }

  function AuthorizeIntended(security: Policy, user: Value, apiKey: Value): (calls: seq<NextCall>)
    ensures |calls| >= 1 && calls[|calls| - 1] == Proceed
    ensures !PolicyTruthy(security) ==> calls == [Proceed]
  {
    if !PolicyTruthy(security) then [Proceed]
    else
      var verdict := if IsNullish(user) then Throw(TypeErrorValue)
        else IsUserAllowed(NormalizeIntended(security), UserInfo(Prop(user, "permissions"), Prop(user, "role")));
      match verdict
      case Ok(true) => [Proceed]
      case Ok(false) => [Abort(DeniedError(apiKey)), Proceed]
      case Throw(e) => [Abort(e), Proceed]
  }

  /** Under the intended reading a string policy admits exactly the named role
      and administrators. */
  lemma StringPolicyAdmitsItsRole(allowedRole: string, user: Value, apiKey: Value)
    requires allowedRole != "" && user.Obj?
    ensures AuthorizeIntended(PlainPolicy(Str(allowedRole)), user, apiKey) == [Proceed] <==>
      (StrictEq(Prop(user, "role"), Str(allowedRole)) || StrictEq(Prop(user, "role"), Str("admin")))
  {
    var f := NormalizeIntended(PlainPolicy(Str(allowedRole)));
    var u := UserInfo(Prop(user, "permissions"), Prop(user, "role"));
    assert f.roles == Given(Str(allowedRole)) && f.permissions == Given(Arr([]));
    if !StrictEq(u.role, Str("admin")) {
      assert RoleStep(Str(allowedRole), u.role) == Ok(StrictEq(Str(allowedRole), u.role));
      assert StrictEq(Str(allowedRole), u.role) <==> StrictEq(u.role, Str(allowedRole));
    }
  }
}

=== FILE: server_config.dfy ===
/** The server-configuration cache of src/index.js: the records of the
    "server-config" resource grouped by package and key, and the lookup the
    services use. */
module ServerConfig {
  import opened Values
  import opened Errors

  /** package -> key -> record. */
  type Grouped = map<string, map<string, Value>>

  /** The property name a value becomes when used as a key. */
  function PackageOf(entry: Value): string {
    ToStr(Prop(entry, "package"))
  }

  function KeyOf(entry: Value): string {
    ToStr(Prop(entry, "key"))
  }

  /** One record: a truthy package gets a group if it has none; then the
      record is stored in its package's group, which throws when there is no
      such group (a falsy package names a group only if an earlier truthy
      package spelled the same text, such as "undefined"). */
  function GroupOne(c: Grouped, entry: Value): (r: Result<Grouped>)
    ensures IsNullish(entry) ==> r == Throw(TypeErrorValue)
    ensures !IsNullish(entry) && Truthy(Prop(entry, "package")) ==> r.Ok?
    ensures !IsNullish(entry) && !Truthy(Prop(entry, "package")) ==> (r.Ok? <==> PackageOf(entry) in c)
    ensures r.Ok? ==> r.value.Keys == c.Keys + {PackageOf(entry)}
    ensures r.Ok? ==> KeyOf(entry) in r.value[PackageOf(entry)] && r.value[PackageOf(entry)][KeyOf(entry)] == entry
    ensures r.Ok? ==> r.value[PackageOf(entry)].Keys == (if PackageOf(entry) in c then c[PackageOf(entry)].Keys else {}) + {KeyOf(entry)}
    ensures r.Ok? && PackageOf(entry) in c ==>
      forall k :: k in c[PackageOf(entry)] && k != KeyOf(entry) ==> r.value[PackageOf(entry)][k] == c[PackageOf(entry)][k]
    ensures r.Ok? ==> forall p :: p in c && p != PackageOf(entry) ==> r.value[p] == c[p]
  {
    if IsNullish(entry) then Throw(TypeErrorValue)
    else
      var p := PackageOf(entry);
      var c1 := if Truthy(Prop(entry, "package")) && p !in c then c[p := map[]] else c;
      if p !in c1 then Throw(TypeErrorValue)
      else Ok(c1[p := c1[p][KeyOf(entry) := entry]])
  }

  /** setServerConfig's loop over `Object.values(serverConfig || {})`, in
      order; a throw ends it. */
  function Group(entries: seq<Value>): (r: Result<Grouped>)
    decreases |entries|
  {
    if |entries| == 0 then Ok(map[])
    else
      var c :- Group(entries[..|entries| - 1]);
      GroupOne(c, entries[|entries| - 1])
  }

  /** The position of the last entry with the given package and key. */
  predicate LastWith(entries: seq<Value>, i: int) {
    && 0 <= i < |entries|
    && forall j :: i < j < |entries| ==> !(PackageOf(entries[j]) == PackageOf(entries[i]) && KeyOf(entries[j]) == KeyOf(entries[i]))
  }

  /** The grouping holds, for each package and key, the last record with
      that package and key. */
  lemma {:induction false} LastRecordWins(entries: seq<Value>, i: int)
    requires Group(entries).Ok? && LastWith(entries, i)
    ensures PackageOf(entries[i]) in Group(entries).value
    ensures KeyOf(entries[i]) in Group(entries).value[PackageOf(entries[i])]
    ensures Group(entries).value[PackageOf(entries[i])][KeyOf(entries[i])] == entries[i]
    decreases |entries|
  {
    var n := |entries|;
    var init := entries[..n - 1];
    var last := entries[n - 1];
    var c := Group(init).value;
    if i == n - 1 {
    } else {
      assert LastWith(init, i) by {
        forall j | i < j < |init|
          ensures !(PackageOf(init[j]) == PackageOf(init[i]) && KeyOf(init[j]) == KeyOf(init[i]))
        {
          assert init[j] == entries[j] && init[i] == entries[i];
        }
      }
      LastRecordWins(init, i);
      assert init[i] == entries[i];
    }
  }

  /** Every grouped record is one of the entries, filed under its own
      package and key. */
  lemma {:induction false} GroupedAreEntries(entries: seq<Value>, p: string, k: string)
    requires Group(entries).Ok?
    requires p in Group(entries).value && k in Group(entries).value[p]
    ensures var v := Group(entries).value[p][k];
      v in entries && PackageOf(v) == p && KeyOf(v) == k
    decreases |entries|
  {
    var n := |entries|;
    var init := entries[..n - 1];
    var last := entries[n - 1];
    if n > 0 && !(p == PackageOf(last) && k == KeyOf(last)) {
      var c := Group(init).value;
      assert p in c && k in c[p];
      GroupedAreEntries(init, p, k);
      assert Group(init).value[p][k] in entries by {
        assert forall x :: x in init ==> x in entries;
      }
    }
  }

  /** Records with truthy packages always group. */
  lemma {:induction false} TruthyPackagesGroup(entries: seq<Value>)
    requires forall i :: 0 <= i < |entries| ==> !IsNullish(entries[i]) && Truthy(Prop(entries[i], "package"))
    ensures Group(entries).Ok?
    decreases |entries|
  {
    if |entries| > 0 {
      TruthyPackagesGroup(entries[..|entries| - 1]);
    }
  }

  /** A record with a falsy package, when no earlier record created a group
      of that name, makes the grouping throw. */
  lemma {:induction false} FalsyPackageThrows(entries: seq<Value>, i: int)
    requires 0 <= i < |entries| && !Truthy(Prop(entries[i], "package"))
    requires forall j :: 0 <= j < i ==> !(Truthy(Prop(entries[j], "package")) && PackageOf(entries[j]) == PackageOf(entries[i]))
    ensures Group(entries).Throw?
    decreases |entries|
  {
    var n := |entries|;
    var init := entries[..n - 1];
    if i < n - 1 {
      assert init[i] == entries[i];
      assert forall j :: 0 <= j < i ==> init[j] == entries[j];
      FalsyPackageThrows(init, i);
    } else {
      FalsyLastThrows(entries);
    }
  }

  /** The last record, with a falsy package no earlier record named. */
  lemma FalsyLastThrows(entries: seq<Value>)
    requires |entries| > 0
    requires var last := entries[|entries| - 1];
      !Truthy(Prop(last, "package")) && !HasGroup(entries[..|entries| - 1], PackageOf(last))
    ensures Group(entries).Throw?
  {
    var n := |entries|;
    var init := entries[..n - 1];
    if Group(init).Ok? {
      GroupNames(init, PackageOf(entries[n - 1]));
    }
  }

  /** A group exists exactly for the packages of truthy-package records. */
  lemma {:induction false} GroupNames(entries: seq<Value>, p: string)
    requires Group(entries).Ok?
    ensures p in Group(entries).value <==> exists j :: 0 <= j < |entries| && Truthy(Prop(entries[j], "package")) && PackageOf(entries[j]) == p
    decreases |entries|
  {
    var n := |entries|;
    if n > 0 {
      var init := entries[..n - 1];
      var last := entries[n - 1];
      GroupNames(init, p);
      HasGroupSnoc(entries, p);
      assert p in Group(entries).value <==>
        p in Group(init).value || (Truthy(Prop(last, "package")) && PackageOf(last) == p);
    }
  }

  /** Some record with a truthy package names group p. */
  predicate HasGroup(entries: seq<Value>, p: string) {
    exists j :: 0 <= j < |entries| && Truthy(Prop(entries[j], "package")) && PackageOf(entries[j]) == p
  }

  lemma HasGroupSnoc(entries: seq<Value>, p: string)
    requires |entries| > 0
    ensures var n := |entries|;
      HasGroup(entries, p) <==>
      HasGroup(entries[..n - 1], p) || (Truthy(Prop(entries[n - 1], "package")) && PackageOf(entries[n - 1]) == p)
  {
    var n := |entries|;
    var init := entries[..n - 1];
    if HasGroup(entries, p) {
      var j :| 0 <= j < n && Truthy(Prop(entries[j], "package")) && PackageOf(entries[j]) == p;
      if j < n - 1 {
        assert init[j] == entries[j];
      }
    }
    if HasGroup(init, p) {
      var j :| 0 <= j < n - 1 && Truthy(Prop(init[j], "package")) && PackageOf(init[j]) == p;
      assert entries[j] == init[j];
    }
  }

  /** getServerConfig(packageName, key): null for an unknown package, else
      the record (undefined for an unknown key). */
  function GetServerConfig(c: Grouped, packageName: string, key: string): (r: Value)
    ensures packageName !in c ==> r == Null
    ensures packageName in c && key !in c[packageName] ==> r == Undefined
    ensures packageName in c && key in c[packageName] ==> r == c[packageName][key]
  {
    if packageName in c then Field(c[packageName], key) else Null
  }

  /** The lookup after grouping answers the last record with that package
      and key. */
  lemma LookupFindsLastRecord(entries: seq<Value>, i: int)
    requires Group(entries).Ok? && LastWith(entries, i)
    ensures GetServerConfig(Group(entries).value, PackageOf(entries[i]), KeyOf(entries[i])) == entries[i]
  {
    LastRecordWins(entries, i);
  }
}

=== FILE: sorting.dfy ===
/** `Array.prototype.sort` with a comparator, as the search engine uses it:
    a stable sort, modelled as insertion sort. Its result is a permutation of
    the input, ordered whenever the comparator is a total preorder, and it keeps
    the input order among elements the comparator ties. */
module Sorting {
  import opened Values
  import opened NaturalSort

  /** Swapping the operands flips the outcome. */
  ghost predicate Antisymmetric(cmp: (Value, Value) -> Ordering) {
    forall a, b :: cmp(a, b) == Flip(cmp(b, a))
  }

  /** "Not after" chains. */
  ghost predicate Transitive(cmp: (Value, Value) -> Ordering) {
    forall a, b, c :: cmp(a, b) != More && cmp(b, c) != More ==> cmp(a, c) != More
  }

  ghost predicate Sorted(s: seq<Value>, cmp: (Value, Value) -> Ordering) {
    forall i, j :: 0 <= i < j < |s| ==> cmp(s[i], s[j]) != More
  }

  /** Place x before the first element that sorts after it. */
  function Insert(x: Value, s: seq<Value>, cmp: (Value, Value) -> Ordering): (r: seq<Value>)
    ensures multiset(r) == multiset(s) + multiset{x}
    ensures |r| == |s| + 1
  {
    if |s| == 0 then [x]
    else if cmp(s[0], x) == More then [x] + s
    else
      var rest := Insert(x, s[1..], cmp);
      assert s == [s[0]] + s[1..];
      [s[0]] + rest
  }

  /** Insert each element, left to right, into the sorted prefix. */
  function SortBy(s: seq<Value>, cmp: (Value, Value) -> Ordering): (r: seq<Value>)
    ensures multiset(r) == multiset(s)
    ensures |r| == |s|
  {
    if |s| == 0 then []
    else
      var init := s[..|s| - 1];
      assert s == init + [s[|s| - 1]];
      Insert(s[|s| - 1], SortBy(init, cmp), cmp)
  }

  lemma {:induction false} InsertSorted(x: Value, s: seq<Value>, cmp: (Value, Value) -> Ordering)
    requires Antisymmetric(cmp) && Transitive(cmp)
    requires Sorted(s, cmp)
    ensures Sorted(Insert(x, s, cmp), cmp)
    decreases |s|
  {
    if |s| == 0 {
    } else if cmp(s[0], x) == More {
      assert cmp(x, s[0]) == Less;
      forall y | y in s
        ensures cmp(x, y) != More
      {
        var k :| 0 <= k < |s| && s[k] == y;
        assert k == 0 || cmp(s[0], s[k]) != More;
      }
      ConsSorted(x, s, cmp);
    } else {
      var rest := Insert(x, s[1..], cmp);
      InsertSorted(x, s[1..], cmp);
      forall y | y in rest
        ensures cmp(s[0], y) != More
      {
        assert y in multiset(rest);
        if y != x {
          assert y in multiset(s[1..]);
          var k :| 0 <= k < |s[1..]| && s[1..][k] == y;
          assert s[k + 1] == y;
        }
      }
      ConsSorted(s[0], rest, cmp);
    }
  }

  /** An element not after any of a sorted list may go in front of it. */
  lemma ConsSorted(a: Value, s: seq<Value>, cmp: (Value, Value) -> Ordering)
    requires Sorted(s, cmp) && forall y :: y in s ==> cmp(a, y) != More
    ensures Sorted([a] + s, cmp)
  {
    var r := [a] + s;
    forall i, j | 0 <= i < j < |r|
      ensures cmp(r[i], r[j]) != More
    {
      assert r[j] == s[j - 1];
      if i > 0 {
        assert r[i] == s[i - 1];
      }
    }
  }

  /** With a total preorder, the result is ordered. */
  lemma {:induction false} SortBySorted(s: seq<Value>, cmp: (Value, Value) -> Ordering)
    requires Antisymmetric(cmp) && Transitive(cmp)
    ensures Sorted(SortBy(s, cmp), cmp)
    decreases |s|
  {
    if |s| > 0 {
      SortBySorted(s[..|s| - 1], cmp);
      InsertSorted(s[|s| - 1], SortBy(s[..|s| - 1], cmp), cmp);
    }
  }

  /** Ties keep their order: when nothing sorts after anything, nothing moves. */
  lemma {:induction false} SortByStableOnTies(s: seq<Value>, cmp: (Value, Value) -> Ordering)
    requires forall i, j :: 0 <= i < |s| && 0 <= j < |s| ==> cmp(s[i], s[j]) == Same
    ensures SortBy(s, cmp) == s
    decreases |s|
  {
    if |s| > 0 {
      var init := s[..|s| - 1];
      SortByStableOnTies(init, cmp);
      InsertAtEndOnTies(s[|s| - 1], init, cmp);
      assert s == init + [s[|s| - 1]];
    }
  }

  lemma {:induction false} InsertAtEndOnTies(x: Value, s: seq<Value>, cmp: (Value, Value) -> Ordering)
    requires forall i :: 0 <= i < |s| ==> cmp(s[i], x) != More
    ensures Insert(x, s, cmp) == s + [x]
    decreases |s|
  {
    if |s| > 0 {
      InsertAtEndOnTies(x, s[1..], cmp);
      assert s == [s[0]] + s[1..];
    }
  }
}

=== FILE: storage.dfy ===
/** Storage: the Firebase adapter (src/db/adapter/firebase.js) over an abstract
    map-backed store, and the DB facade (src/db/adapter/index.js) that forwards
    to whichever adapter is configured.

    The store maps a bucket (the resource key) to its records by id. Firebase
    itself is not part of this model; its primitives are taken to behave as
    follows: createRecord stores the data under a fresh id chosen by the
    store and answers the data together with the new record's path;
    getRecord answers the record or null; updateRecord merges into an existing
    record, creates it only when `overrideIfNotExist` is set, and otherwise
    answers null; deleteRecord answers true, or null when nothing was there. */
module Storage {
  import opened Strings
  import opened Values
  import opened Errors
  import FirebaseUtil

  type Bucket = map<string, Value>
  type Store = map<string, Bucket>

  function Records(s: Store, bucket: string): Bucket {
    if bucket in s then s[bucket] else map[]
  }

  /** "/<bucket>/<id>". */
  function PathOf(bucket: string, id: string): string {
    "/" + bucket + "/" + id
  }

  /** `path.split("/")[2]`. */
  function KeyFromPath(path: string): (r: Value)
    ensures r.Str? || r.Undefined?
  {
    var parts := Split(path, '/');
    if |parts| > 2 then Str(parts[2]) else Undefined
  }

  /** The id segment of a record path reads back as the id. */
  lemma KeyFromPathRoundTrip(bucket: string, id: string)
    requires '/' !in bucket && '/' !in id
    ensures KeyFromPath(PathOf(bucket, id)) == Str(id)
  {
    var parts := ["", bucket, id];
    assert Join(parts, '/') == PathOf(bucket, id) by {
      JoinCons(bucket, [id], '/');
      JoinCons("", [bucket, id], '/');
      assert [bucket, id][1..] == [id];
      assert ["", bucket, id][1..] == [bucket, id];
    }
    forall i | 0 <= i < |parts| ensures '/' !in parts[i] {}
    SplitJoin(parts, '/');
  }

  /** create: store the data under a fresh id; the answer is the data with its
      path and a `key` that is `data.key` when truthy, else the path's id. */
  function Create(s: Store, bucket: string, data: Value, freshId: string): (r: Result<(Store, Value)>)
    ensures IsNullish(data) ==> r == Throw(TypeErrorValue)
    ensures !IsNullish(data) ==>
      && r.Ok?
      && r.value.0 == s[bucket := Records(s, bucket)[freshId := data]]
      && r.value.1.Obj?
      && Prop(r.value.1, "key") == (if Truthy(Prop(data, "key")) then Prop(data, "key") else KeyFromPath(PathOf(bucket, freshId)))
  {
    if IsNullish(data) then Throw(TypeErrorValue)
    else
      var path := PathOf(bucket, freshId);
      var output := Spread(data)["path" := Str(path)];
      var key := if Truthy(Prop(data, "key")) then Prop(data, "key") else KeyFromPath(path);
      Ok((s[bucket := Records(s, bucket)[freshId := data]], Obj(output["key" := key])))
  }

  /** Without its own key, a created record is reported under the id the store chose. */
  lemma CreateReportsStoredId(s: Store, bucket: string, data: Record, freshId: string)
    requires '/' !in bucket && '/' !in freshId
    requires !Truthy(Field(data, "key"))
    ensures var r := Create(s, bucket, Obj(data), freshId);
      r.Ok? && Prop(r.value.1, "key") == Str(freshId) && r.value.0[bucket][freshId] == Obj(data)
  {
    KeyFromPathRoundTrip(bucket, freshId);
  }

  /** update: writes `data.data` at "/<bucket>/<data.id>". */
  function Update(s: Store, bucket: string, data: Value, overrideIfNotExist: bool): (r: Result<(Store, Value)>)
    ensures IsNullish(data) ==> r == Throw(TypeErrorValue)
    ensures !IsNullish(data) ==> r.Ok?
    ensures !IsNullish(data) && ToStr(Prop(data, "id")) in Records(s, bucket) ==>
      var id := ToStr(Prop(data, "id"));
      r.value.0 == s[bucket := Records(s, bucket)[id := Obj(Spread(Records(s, bucket)[id]) + Spread(Prop(data, "data")))]]
    ensures !IsNullish(data) && ToStr(Prop(data, "id")) !in Records(s, bucket) && !overrideIfNotExist ==>
      r.value == (s, Null)
  {
    if IsNullish(data) then Throw(TypeErrorValue)
    else
      var id := ToStr(Prop(data, "id"));
      var records := Records(s, bucket);
      if id in records then
        var merged := Obj(Spread(records[id]) + Spread(Prop(data, "data")));
        Ok((s[bucket := records[id := merged]], merged))
      else if overrideIfNotExist then
        var created := Obj(Spread(Prop(data, "data")));
        Ok((s[bucket := records[id := created]], created))
      else Ok((s, Null))
  }

  /** get: the record at "/<bucket>/<id>", or null. */
  function Get(s: Store, bucket: string, id: string): (r: Value)
    ensures id in Records(s, bucket) ==> r == Records(s, bucket)[id]
    ensures id !in Records(s, bucket) ==> r == Null
  {
    var records := Records(s, bucket);
    if id in records then records[id] else Null
  }

  /** remove: deletes "/<bucket>/<id>"; null when there was nothing. */
  function Remove(s: Store, bucket: string, id: string): (r: (Store, Value))
    ensures id !in Records(s, bucket) ==> r == (s, Null)
    ensures id in Records(s, bucket) ==> r.1 == Bool(true) && id !in Records(r.0, bucket)
    ensures forall b :: b != bucket ==> Records(r.0, b) == Records(s, b)
    ensures forall k :: k != id && k in Records(s, bucket) ==> k in Records(r.0, bucket) && Records(r.0, bucket)[k] == Records(s, bucket)[k]
  {
    var records := Records(s, bucket);
    if id in records then (s[bucket := records - {id}], Bool(true)) else (s, Null)
  }

  /** Removing what was just created leaves no record under that id. */
  lemma CreateThenRemove(s: Store, bucket: string, data: Record, freshId: string)
    ensures Create(s, bucket, Obj(data), freshId).Ok?
    ensures var s1 := Create(s, bucket, Obj(data), freshId).value.0;
      Get(s1, bucket, freshId) == Obj(data) && Remove(s1, bucket, freshId).1 == Bool(true)
      && Get(Remove(s1, bucket, freshId).0, bucket, freshId) == Null
  {
  }

  /** The paginated read Firebase performs: which ids, in which order. */
  type Pager = (Bucket, Value) -> seq<string>

  /** find: the whole bucket with `all`, otherwise the pager's window; ids the
      pager names that are not stored are skipped. */
  function Find(s: Store, bucket: string, data: Value, order: seq<string>, pager: Pager): (r: seq<Value>)
    requires IsEnumeration(order, Records(s, bucket).Keys)
    ensures Truthy(Prop(data, "all")) ==> |r| == |order|
    ensures Truthy(Prop(data, "all")) ==> forall i :: 0 <= i < |r| ==>
      var rec := Spread(Records(s, bucket)[order[i]]);
      && r[i].Obj?
      && (forall f :: f in rec ==> f in r[i].fields && r[i].fields[f] == rec[f])
      && ("key" !in rec ==> Prop(r[i], "key") == Str(order[i]))
    ensures !Truthy(Prop(data, "all")) ==> |r| <= |pager(Records(s, bucket), data)|
  {
    var records := Records(s, bucket);
    if Truthy(Prop(data, "all")) then
      FirebaseUtil.ConvertResultToArray(Obj(records), order)
    else
      var page := pager(records, data);
      var window := map k | k in records && k in page :: records[k];
      var ordered := PageOrder(page, window.Keys);
      FirebaseUtil.ConvertResultToArray(Obj(window), ordered)
  }

  /** The page's ids that are stored, first occurrences only. */
  function PageOrder(page: seq<string>, keys: set<string>): (r: seq<string>)
    ensures IsEnumeration(r, keys * (set k | k in page))
    ensures |r| <= |page|
    decreases |page|
  {
    if |page| == 0 then []
    else
      var rest := PageOrder(page[1..], keys - {page[0]});
      if page[0] in keys then [page[0]] + rest else rest
  }

  /** The firebase adapter's default schemas: only `find` parameters, as Joi
      type names. */
  const FirebaseDefaultSchema: Value := Obj(map[
    "find" := Obj(map[
      "nextPageToken" := Str("string"),
      "count" := Str("number"),
      "equalTo" := Str("string"),
      "orderBy" := Str("string"),
      "startAt" := Str("string"),
      "startAtKey" := Str("string"),
      "endAt" := Str("string"),
      "endAtKey" := Str("string")])])

  // ----- the DB facade -----

  /** The names the facade forwards. */
  const FnNames: seq<string> := ["create", "get", "remove", "find", "update", "model", "getDbInstance"]

  const FirebaseCapabilities: set<string> := {"create", "update", "find", "get", "remove", "getDefaultSchema"}

  datatype Dispatch = Forward(name: string) | NullResult

  /** A facade function forwards (key, data, config) when the adapter has it,
      otherwise it yields null. */
  function Call(adapter: set<string>, fn: string): (d: Dispatch)
    requires fn in FnNames
    ensures d == Forward(fn) <==> fn in adapter
    ensures d == NullResult <==> fn !in adapter
  {
    if fn in adapter then Forward(fn) else NullResult
  }

  /** Firebase has no `model` or `getDbInstance`. */
  lemma FirebaseLacksModel()
    ensures Call(FirebaseCapabilities, "model") == NullResult
    ensures Call(FirebaseCapabilities, "getDbInstance") == NullResult
    ensures Call(FirebaseCapabilities, "get") == Forward("get")
  {
  }

  /** setAdapter: an unknown adapter name is a thrown string. */
  function SetAdapter(config: Value, available: set<string>): (r: Result<Value>)
    ensures r.Ok? <==> ToStr(Prop(config, "adapter")) in available
    ensures r.Ok? ==> r.value == Prop(config, "adapter")
    ensures r.Throw? ==> r.error == Str("Storage adapter with the name " + ToStr(Prop(config, "adapter")) + " not found")
  {
    var name := ToStr(Prop(config, "adapter"));
    if name in available then Ok(Prop(config, "adapter"))
    else Throw(Str("Storage adapter with the name " + name + " not found"))
  }

  /** getDefaultSchema: the adapter's schemas, or {} when it has none or
      answers something falsy. */
  function GetDefaultSchema(adapterSchema: Option<Value>): (r: Value)
    ensures adapterSchema.None? ==> r == Obj(map[])
    ensures adapterSchema.Some? && Truthy(adapterSchema.value) ==> r == adapterSchema.value
    ensures adapterSchema.Some? && !Truthy(adapterSchema.value) ==> r == Obj(map[])
  {
    match adapterSchema
    case None => Obj(map[])
    case Some(v) => Or(v, Obj(map[]))
  }
}

=== FILE: strings.dfy ===
/** String helpers shared by the whole model: ASCII case mapping, splitting
    and joining on a separator character, substring search, replacement of
    the first occurrence, decimal rendering and zero padding. */
module Strings {

  function LowerChar(c: char): (r: char)
    ensures 'A' <= c <= 'Z' ==> r as int == c as int + 32
    ensures !('A' <= c <= 'Z') ==> r == c
  {
    if 'A' <= c <= 'Z' then (c as int + 32) as char else c
  }

  function UpperChar(c: char): (r: char)
    ensures 'a' <= c <= 'z' ==> r as int == c as int - 32
    ensures !('a' <= c <= 'z') ==> r == c
  {
    if 'a' <= c <= 'z' then (c as int - 32) as char else c
  }

  /** `toLowerCase` restricted to ASCII letters. */
  function Lower(s: string): (r: string)
    ensures |r| == |s|
    ensures forall i :: 0 <= i < |s| ==> r[i] == LowerChar(s[i])
  {
    if |s| == 0 then "" else [LowerChar(s[0])] + Lower(s[1..])
  }

  /** `toUpperCase` restricted to ASCII letters. */
  function Upper(s: string): (r: string)
    ensures |r| == |s|
    ensures forall i :: 0 <= i < |s| ==> r[i] == UpperChar(s[i])
  {
    if |s| == 0 then "" else [UpperChar(s[0])] + Upper(s[1..])
  }

  lemma LowerIdempotent(s: string)
    ensures Lower(Lower(s)) == Lower(s)
  {
  }

  /** `s.split(sep)`: always at least one part; the empty string gives [""]. */
  function Split(s: string, sep: char): (r: seq<string>)
    ensures |r| >= 1
    ensures forall i :: 0 <= i < |r| ==> sep !in r[i]
  {
    if |s| == 0 then [""]
    else
      var rest := Split(s[1..], sep);
      if s[0] == sep then [""] + rest
      else [[s[0]] + rest[0]] + rest[1..]
  }

  /** `parts.join(sep)`; the empty list joins to "". */
  function Join(parts: seq<string>, sep: char): string
  {
    if |parts| == 0 then ""
    else if |parts| == 1 then parts[0]
    else parts[0] + [sep] + Join(parts[1..], sep)
  }

  lemma JoinCons(p: string, parts: seq<string>, sep: char)
    requires |parts| >= 1
    ensures Join([p] + parts, sep) == p + [sep] + Join(parts, sep)
  {
    assert ([p] + parts)[1..] == parts;
  }

  /** Joining the parts of a split gives back the original string. */
  lemma {:induction false} JoinSplit(s: string, sep: char)
    ensures Join(Split(s, sep), sep) == s
  {
    if |s| == 0 {
    } else {
      var rest := Split(s[1..], sep);
      JoinSplit(s[1..], sep);
      if s[0] == sep {
        JoinCons("", rest, sep);
        assert Join(Split(s, sep), sep) == [sep] + Join(rest, sep);
        assert s == [s[0]] + s[1..];
      } else {
        var head := [s[0]] + rest[0];
        if |rest| == 1 {
          assert Split(s, sep) == [head];
          assert Join(rest, sep) == rest[0];
          assert s == [s[0]] + s[1..];
        } else {
          JoinCons(head, rest[1..], sep);
          JoinCons(rest[0], rest[1..], sep);
          assert [rest[0]] + rest[1..] == rest;
          assert s == [s[0]] + s[1..];
        }
      }
    }
  }

  lemma SplitPrefix(p: string, tail: string, sep: char)
    requires sep !in p
    ensures Split(p + tail, sep)[0] == p + Split(tail, sep)[0]
    ensures Split(p + tail, sep)[1..] == Split(tail, sep)[1..]
    decreases |p|
  {
    if |p| == 0 {
      assert p + tail == tail;
    } else {
      assert (p + tail)[1..] == p[1..] + tail;
      assert (p + tail)[0] == p[0];
      SplitPrefix(p[1..], tail, sep);
      assert [p[0]] + p[1..] == p;
    }
  }

  /** Splitting a join of separator-free parts gives back the parts. */
  lemma {:induction false} SplitJoin(parts: seq<string>, sep: char)
    requires |parts| >= 1
    requires forall i :: 0 <= i < |parts| ==> sep !in parts[i]
    ensures Split(Join(parts, sep), sep) == parts
  {
    if |parts| == 1 {
      SplitPrefix(parts[0], "", sep);
      assert parts[0] + "" == parts[0];
    } else {
      var tail := Join(parts[1..], sep);
      SplitJoin(parts[1..], sep);
      assert Join(parts, sep) == parts[0] + ([sep] + tail);
      SplitPrefix(parts[0], [sep] + tail, sep);
      assert ([sep] + tail)[1..] == tail;
      assert Split([sep] + tail, sep) == [""] + Split(tail, sep);
      var r := Split(Join(parts, sep), sep);
      assert r[0] == parts[0] + "";
      assert r[1..] == parts[1..];
      assert parts[0] + "" == parts[0];
      assert r == [r[0]] + r[1..];
      assert parts == [parts[0]] + parts[1..];
    }
  }

  /** `s.startsWith(p)`. */
  predicate StartsWith(s: string, p: string) {
    |p| <= |s| && s[..|p|] == p
  }

  /** `s.indexOf(p) !== -1`: p occurs somewhere in s. */
  predicate Contains(s: string, p: string)
    decreases |s|
  {
    StartsWith(s, p) || (|s| > 0 && Contains(s[1..], p))
  }

  /** The slice of s at position i is p. */
  predicate OccursAt(s: string, p: string, i: int) {
    0 <= i && i + |p| <= |s| && s[i..i + |p|] == p
  }

  /** p occurs in s exactly when some slice of s equals p. */
  lemma {:induction false} ContainsSlice(s: string, p: string)
    ensures Contains(s, p) <==> exists i :: OccursAt(s, p, i)
    decreases |s|
  {
    if StartsWith(s, p) {
      assert OccursAt(s, p, 0);
    } else if |s| > 0 {
      ContainsSlice(s[1..], p);
      if Contains(s[1..], p) {
        var j :| OccursAt(s[1..], p, j);
        assert s[j + 1..j + 1 + |p|] == s[1..][j..j + |p|];
        assert OccursAt(s, p, j + 1);
      }
      if exists i :: OccursAt(s, p, i) {
        var i :| OccursAt(s, p, i);
        assert i != 0;
        assert s[1..][i - 1..i - 1 + |p|] == s[i..i + |p|];
        assert OccursAt(s[1..], p, i - 1);
      }
    } else {
      assert forall i :: !OccursAt(s, p, i);
    }
  }

  /** `s.indexOf(c)`, -1 when absent. */
  function IndexOf(s: string, c: char): (r: int)
    ensures -1 <= r < |s|
    ensures r == -1 <==> c !in s
    ensures r >= 0 ==> s[r] == c && c !in s[..r]
  {
    if |s| == 0 then -1
    else if s[0] == c then 0
    else
      var k := IndexOf(s[1..], c);
      assert k >= 0 ==> s[..k + 1] == [s[0]] + s[1..][..k];
      if k == -1 then -1 else k + 1
  }

  /** `s.replace(p, q)` with a string pattern: only the first occurrence is replaced. */
  function ReplaceFirst(s: string, p: string, q: string): string
    decreases |s|
  {
    if StartsWith(s, p) then q + s[|p|..]
    else if |s| == 0 then s
    else [s[0]] + ReplaceFirst(s[1..], p, q)
  }

  lemma ReplaceFirstAtStart(p: string, rest: string, q: string)
    ensures ReplaceFirst(p + rest, p, q) == q + rest
  {
    assert (p + rest)[..|p|] == p;
    assert (p + rest)[|p|..] == rest;
  }

  /** A string of n zero characters. */
  function Zeros(n: nat): (r: string)
    ensures |r| == n
    ensures forall i :: 0 <= i < n ==> r[i] == '0'
  {
    if n == 0 then "" else "0" + Zeros(n - 1)
  }

  /** `s.padStart(len, "0")`: never truncates. */
  function PadStart(s: string, len: int): (r: string)
  {
    if |s| >= len then s else Zeros(len - |s|) + s
  }

  lemma PadStartShape(s: string, len: int)
    ensures |PadStart(s, len)| == if |s| >= len then |s| else len
    ensures PadStart(s, len)[|PadStart(s, len)| - |s|..] == s
    ensures forall i :: 0 <= i < |PadStart(s, len)| - |s| ==> PadStart(s, len)[i] == '0'
  {
  }

  function DigitChar(d: nat): (c: char)
    requires d < 10
    ensures '0' <= c <= '9'
  {
    "0123456789"[d]
  }

  predicate IsDigit(c: char) {
    '0' <= c <= '9'
  }

  /** Decimal rendering of a natural number, without leading zeros. */
  function NatToString(n: nat): (r: string)
    ensures |r| >= 1
    ensures forall i :: 0 <= i < |r| ==> IsDigit(r[i])
    ensures n > 0 ==> r[0] != '0'
    decreases n
  {
    if n < 10 then [DigitChar(n)] else NatToString(n / 10) + [DigitChar(n % 10)]
  }

  /** Value of a string of decimal digits. */
  function DecimalValue(s: string): nat
    requires forall i :: 0 <= i < |s| ==> IsDigit(s[i])
  {
    if |s| == 0 then 0
    else
      var d := s[|s| - 1] as int - '0' as int;
      assert IsDigit(s[|s| - 1]);
      DecimalValue(s[..|s| - 1]) * 10 + d
  }

  /** NatToString and DecimalValue are inverse. */
  lemma {:induction false} DecimalOfNatToString(n: nat)
    ensures DecimalValue(NatToString(n)) == n
    decreases n
  {
    if n >= 10 {
      DecimalOfNatToString(n / 10);
      var s := NatToString(n);
      assert s[..|s| - 1] == NatToString(n / 10);
    }
  }

  /** `String(i)` for an integer. */
  function IntToString(i: int): string
  {
    if i < 0 then "-" + NatToString(-i) else NatToString(i)
  }
}

=== FILE: transport.dfy ===
/** src/api/generic/index.js: the Express handlers of the standard routes.
    Each builds the generic service's argument object from the request and
    passes it followed by its own arguments (request, response, next). */
module Transport {
  import opened Values
  import opened Errors
  import opened Definitions
  import opened Pipeline
  import Operations
  import OperationProperties
  import Storage
  import FirebaseUtil
  import ErrorHandler

  /** Express calls a handler with (req, res, next), and the handler hands
      all three on: the service sees a response object and a `next`. */
  function HttpContext(req: Request, headersSent: bool): Context {
    Context(Some(req), true, headersSent, true)
  }

  // ----- the argument objects -----

  /** create: a shallow copy of the body. */
  function CreateInput(req: Request): (obj: Value)
    ensures obj.Obj?
    ensures forall k :: Prop(obj, k) == Field(Spread(req.body), k)
    ensures req.body.Obj? ==> obj == req.body
    ensures !Truthy(req.body) ==> obj == Obj(map[])
  {
    Obj(Spread(req.body))
  }

  /** find: the query string overlaid by the route parameters. */
  function FindInput(req: Request): (obj: Value)
    ensures obj.Obj?
    ensures obj.fields.Keys == Spread(req.query).Keys + Spread(req.params).Keys
    ensures forall k :: k in Spread(req.params) ==> Prop(obj, k) == Spread(req.params)[k]
    ensures forall k :: k !in Spread(req.params) ==> Prop(obj, k) == Field(Spread(req.query), k)
  {
    Obj(Spread(req.query) + Spread(req.params))
  }

  /** get and remove: nothing but the route's id. */
  function IdInput(req: Request): (obj: Value)
    ensures obj.Obj? && obj.fields.Keys == {"id"}
    ensures Prop(obj, "id") == Prop(req.params, "id")
  {
    Obj(map["id" := Prop(req.params, "id")])
  }

  /** update: the route's id and the whole body as `data`. */
  function UpdateInput(req: Request): (obj: Value)
    ensures obj.Obj? && obj.fields.Keys == {"id", "data"}
    ensures Prop(obj, "id") == Prop(req.params, "id") && Prop(obj, "data") == req.body
  {
    Obj(map["id" := Prop(req.params, "id"), "data" := req.body])
  }

  // ----- the handlers -----

  /** POST /<key>: the service's create, with validation (the third
      argument is `next`, whose `validate` is not `false`). */
  function HttpCreate(w: World, env: Env, req: Request, headersSent: bool): Run {
    Operations.Create(w, env, CreateInput(req), HttpContext(req, headersSent), true)
  }

  /** GET /<key>. */
  function HttpFind(w: World, env: Env, req: Request, headersSent: bool): Run
    requires Enumerates(env)
  {
    Operations.Find(w, env, FindInput(req), HttpContext(req, headersSent))
  }

  /** GET /<key>/<id>. */
  function HttpGet(w: World, env: Env, req: Request, headersSent: bool): Run
    requires Enumerates(env)
  {
    Operations.Get(w, env, IdInput(req), HttpContext(req, headersSent))
  }

  /** PATCH /<key>/<id>. */
  function HttpUpdate(w: World, env: Env, req: Request, headersSent: bool): Run {
    Operations.Update(w, env, UpdateInput(req), HttpContext(req, headersSent))
  }

  /** DELETE /<key>/<id>. */
  function HttpRemove(w: World, env: Env, req: Request, headersSent: bool): Run
    requires Enumerates(env)
  {
    Operations.Remove(w, env, IdInput(req), HttpContext(req, headersSent))
  }

  // ----- end to end -----

  /** Once the create rules accept the body, validating changes nothing. */
  lemma AcceptedCreateIsUnvalidatedCreate(w: World, env: Env, input: Value, ctx: Context)
    requires ValidateData(env, input, OpSchema(map[], env, "create"), false).Pass?
    ensures Operations.Create(w, env, input, ctx, true) == Operations.Create(w, env, input, ctx, false)
  {
    assert Operations.CreatePrepare(env, input, ctx, true) == Operations.CreatePrepare(env, input, ctx, false);
  }

  /** POST of an accepted object body to a plain resource stores the body's
      fields with `createdAt` under the new id and sends them back with that
      id as `key`. */
  lemma PostStoresBody(w: World, env: Env, req: Request, headersSent: bool)
    requires OperationProperties.Plain(env, "create")
    requires req.body.Obj? && "key" !in req.body.fields
    requires '/' !in env.key && '/' !in env.freshId
    requires ValidateData(env, req.body, OpSchema(map[], env, "create"), false).Pass?
    ensures var run := HttpCreate(w, env, req, headersSent);
      var records := Storage.Records(run.world.store, env.key);
      && env.freshId in records
      && Prop(records[env.freshId], "createdAt") == env.now
      && (forall k :: k in req.body.fields && k !in {"createdAt", "createdBy"} ==> Prop(records[env.freshId], k) == req.body.fields[k])
      && run.done.Sent?
      && Prop(run.done.body, "key") == Str(env.freshId)
  {
    var ctx := HttpContext(req, headersSent);
    AcceptedCreateIsUnvalidatedCreate(w, env, req.body, ctx);
    Operations.CreateStoresStampedRecord(w, env, req.body.fields, ctx);
  }

  /** GET of one id that is not stored hands the error middleware a 404
      whose details name that id. */
  lemma GetOfMissingIdForwards404(w: World, env: Env, req: Request, id: string)
    requires Enumerates(env) && OperationProperties.Plain(env, "get") && ConfigOf(env.def, "get").onError.None?
    requires Prop(req.params, "id") == Str(id) && ',' !in id && id !in Storage.Records(w.store, env.key)
    requires ValidateData(env, Obj(map["id" := Str(id)]), OpSchema(map["id" := RequiredString], env, "get"), false).Pass?
    ensures var run := HttpGet(w, env, req, false);
      && run.world == w
      && run.done.Forwarded?
      && Prop(run.done.error, "status") == Num(404)
      && Prop(run.done.error, "details") == Obj(map[id := ParseSingleError(NotFound)])
  {
    var ctx := HttpContext(req, false);
    var data := IdInput(req);
    assert data == Obj(map["id" := Str(id)]);
    var r := Operations.GetResult(w, env, data, ctx);
    OperationProperties.GetMissingRecord(w, env, id, ctx);
    PlainErrorForwarded(r.error, data, ctx);
    assert HttpGet(w, env, req, false) == Operations.Get(w, env, data, ctx);
    assert Operations.Get(w, env, data, ctx) == Finish(w, r, None, data, ctx);
    assert Finish(w, r, None, data, ctx) == Run(w, Forwarded(r.error));
  }

  /** DELETE of a stored id removes it and sends `{<id>: true}`. */
  lemma DeleteOfStoredIdRemovesIt(w: World, env: Env, req: Request, id: string, headersSent: bool)
    requires Enumerates(env) && OperationProperties.Plain(env, "remove")
    requires Prop(req.params, "id") == Str(id) && ',' !in id && id in Storage.Records(w.store, env.key)
    requires ValidateData(env, Obj(map["id" := Str(id)]), OpSchema(map["id" := RequiredString], env, "remove"), false).Pass?
    ensures var run := HttpRemove(w, env, req, headersSent);
      id !in Storage.Records(run.world.store, env.key) && run.done == Sent(Obj(map[id := Bool(true)]))
  {
    var ctx := HttpContext(req, headersSent);
    assert IdInput(req) == Obj(map["id" := Str(id)]);
    OperationProperties.RemoveStoredRecord(w, env, id, ctx);
  }

  /** PATCH of an id that is not stored, without `overrideIfNotExist`: the
      database answers null, setting `key` on it raises the runtime's
      TypeError, which goes to the error middleware; the store is unchanged. */
  lemma PatchOfUnknownIdFails(w: World, env: Env, req: Request, headersSent: bool)
    requires OperationProperties.Plain(env, "update") && !ConfigOf(env.def, "update").overrideIfNotExist
    requires ConfigOf(env.def, "update").onError.None?
    requires req.body.Obj? && !headersSent
    requires ToStr(Prop(req.params, "id")) !in Storage.Records(w.store, env.key)
    requires ValidateData(env, req.body, OpSchema(map[], env, "update"), false).Pass?
    ensures var run := HttpUpdate(w, env, req, headersSent);
      run.world == w && run.done == Forwarded(TypeErrorValue)
  {
    assert UpdateInput(req) == Obj(map["id" := Prop(req.params, "id"), "data" := Obj(req.body.fields)]);
    UnknownIdUpdateForwards(w, env, Prop(req.params, "id"), req.body.fields, HttpContext(req, headersSent));
  }

  lemma UnknownIdUpdateForwards(w: World, env: Env, id: Value, data: Record, ctx: Context)
    requires OperationProperties.Plain(env, "update") && !ConfigOf(env.def, "update").overrideIfNotExist
    requires ConfigOf(env.def, "update").onError.None?
    requires ctx.hasRes && !ctx.headersSent && ctx.hasNext
    requires ToStr(id) !in Storage.Records(w.store, env.key)
    requires ValidateData(env, Obj(data), OpSchema(map[], env, "update"), false).Pass?
    ensures Operations.Update(w, env, Obj(map["id" := id, "data" := Obj(data)]), ctx) == Run(w, Forwarded(TypeErrorValue))
  {
    var obj := Obj(map["id" := id, "data" := Obj(data)]);
    var body := Operations.UpdateBody(w, env, obj, ctx);
    assert body == (w, Throw(TypeErrorValue)) by {
      OperationProperties.UpdateMissingRecordFails(w, env, id, data, ctx);
    }
    assert Operations.Update(w, env, obj, ctx) == Finish(body.0, body.1, None, obj, ctx);
    assert Finish(w, Throw(TypeErrorValue), None, obj, ctx) == Run(w, Forwarded(TypeErrorValue)) by {
      PlainErrorForwarded(TypeErrorValue, obj, ctx);
    }
  }
}

=== FILE: values.dfy ===
/** The JavaScript values the engine passes around: request bodies, stored
    records, thrown errors and security policies' plain parts. Numbers are
    modelled as integers. */
module Values {
  import opened Strings

  datatype Value =
    | Undefined
    | Null
    | Bool(b: bool)
    | Num(n: int)
    | Str(s: string)
    | Arr(items: seq<Value>)
    | Obj(fields: map<string, Value>)

  datatype Option<+T> = None | Some(value: T)

  /** A plain object's own properties. */
  type Record = map<string, Value>

  /** JavaScript truthiness (`!!v`). Every array and object is truthy. */
  predicate Truthy(v: Value) {
    match v
    case Undefined => false
    case Null => false
    case Bool(b) => b
    case Num(n) => n != 0
    case Str(s) => s != ""
    case Arr(_) => true
    case Obj(_) => true
  }

  predicate IsNullish(v: Value) {
    v.Undefined? || v.Null?
  }

  /** `a || b`. */
  function Or(a: Value, b: Value): (r: Value)
    ensures Truthy(a) ==> r == a
    ensures !Truthy(a) ==> r == b
  {
    if Truthy(a) then a else b
  }

  /** `r[k]` on a plain object; a missing property reads as undefined. */
  function Field(r: Record, k: string): Value {
    if k in r then r[k] else Undefined
  }

  /** `v[k]` for a non-nullish value: only objects carry named properties here. */
  function Prop(v: Value, k: string): Value {
    if v.Obj? then Field(v.fields, k) else Undefined
  }

  /** `String(v)`; array elements that are null or undefined render as "". */
  function ToStr(v: Value): string
    decreases v
  {
    match v
    case Undefined => "undefined"
    case Null => "null"
    case Bool(b) => if b then "true" else "false"
    case Num(n) => IntToString(n)
    case Str(s) => s
    case Arr(items) =>
      Join(seq(|items|, i requires 0 <= i < |items| =>
        if IsNullish(items[i]) then "" else ToStr(items[i])), ',')
    case Obj(_) => "[object Object]"
  }

  /** The index-keyed record of a list: "0", "1", ... mapped to the items. */
  function IndexRecord(items: seq<Value>): (r: Record)
    ensures |items| == 0 ==> r == map[]
    ensures forall i :: 0 <= i < |items| ==> NatToString(i) in r
    decreases |items|
  {
    if |items| == 0 then map[]
    else IndexRecord(items[..|items| - 1])[NatToString(|items| - 1) := items[|items| - 1]]
  }

  /** The own enumerable properties `{...v}` copies: an object's fields, the
      indices of an array or string, nothing for other values. */
  function Spread(v: Value): (r: Record)
    ensures !Truthy(v) ==> r == map[]
  {
    match v
    case Obj(m) => m
    case Arr(items) => IndexRecord(items)
    case Str(s) => IndexRecord(seq(|s|, i requires 0 <= i < |s| => Str([s[i]])))
    case _ => map[]
  }

  /** `order` lists every key of `keys` exactly once: a property enumeration order. */
  predicate IsEnumeration(order: seq<string>, keys: set<string>) {
    && (forall i :: 0 <= i < |order| ==> order[i] in keys)
    && (forall k :: k in keys ==> k in order)
    && (forall i, j :: 0 <= i < j < |order| ==> order[i] != order[j])
  }

  /** An enumeration has exactly one entry per key. */
  lemma {:induction false} EnumerationSize(order: seq<string>, keys: set<string>)
    requires IsEnumeration(order, keys)
    ensures |order| == |keys|
    decreases |order|
  {
    if |order| == 0 {
      assert forall k :: k in keys ==> k in order;
      assert keys == {};
    } else {
      var last := order[|order| - 1];
      var init := order[..|order| - 1];
      forall k | k in keys - {last} ensures k in init {
        var i :| 0 <= i < |order| && order[i] == k;
        assert i < |order| - 1;
      }
      assert IsEnumeration(init, keys - {last});
      EnumerationSize(init, keys - {last});
    }
  }

  /** `a === b` where the operands come from different sources: primitives
      compare by value, while two separately built arrays or objects are never
      the same reference. */
  predicate StrictEq(a: Value, b: Value) {
    match (a, b)
    case (Undefined, Undefined) => true
    case (Null, Null) => true
    case (Bool(x), Bool(y)) => x == y
    case (Num(x), Num(y)) => x == y
    case (Str(x), Str(y)) => x == y
    case _ => false
  }

  /** An array holding only strings. */
  predicate IsStringList(v: Value) {
    v.Arr? && forall i :: 0 <= i < |v.items| ==> v.items[i].Str?
  }
}

=== FILE: web_client_config.dfy ===
/** The web client's configuration paths in
    src/api/definitions/web-client-config.js: the `all` projection of the
    stored configuration and the enabled payment gateways, and the key to
    value object the `web` path builds from the UI configuration. */
module WebClientConfig {
  import opened Values
  import opened Errors
  import Operations

  // ----- all -----

  /** The fixed first entry. */
  const Sample: Value := Obj(map["package" := Str("sample"), "key" := Str("test"), "value" := Str("value")])

  /** `configurations instanceof Array ? configurations : [configurations]`;
      the `|| []` after it never applies, a one-element list being truthy. */
  function ConfigList(configurations: Value): (r: seq<Value>)
    ensures configurations.Arr? ==> r == configurations.items
    ensures !configurations.Arr? ==> r == [configurations]
  {
    if configurations.Arr? then configurations.items else [configurations]
  }

  /** One configuration record as an entry of the "configuration" package. */
  function Entry(configuration: Value): (r: Value)
    ensures r.Obj? && r.fields.Keys == {"package", "key", "value"}
    ensures Prop(r, "package") == Str("configuration")
    ensures Prop(r, "key") == Prop(configuration, "key") && Prop(r, "value") == Prop(configuration, "value")
  {
    Obj(map["package" := Str("configuration"), "key" := Prop(configuration, "key"), "value" := Prop(configuration, "value")])
  }

  /** The configuration entries, one per record in order; a missing record
      cannot be destructured. */
  function Entries(list: seq<Value>): (r: Result<seq<Value>>)
    ensures r.Ok? <==> forall i :: 0 <= i < |list| ==> !IsNullish(list[i])
    ensures r.Ok? ==> |r.value| == |list|
    ensures r.Ok? ==> forall i :: 0 <= i < |list| ==> r.value[i] == Entry(list[i])
    ensures r.Throw? ==> r.error == TypeErrorValue
  {
    if |list| == 0 then Ok([])
    else if IsNullish(list[0]) then Throw(TypeErrorValue)
    else
      var rest :- Entries(list[1..]);
      assert forall i :: 1 <= i < |list| ==> list[i] == list[1..][i - 1];
      Ok([Entry(list[0])] + rest)
  }

  /** A gateway as the web client sees it: every field but the secret. */
  function Public(gateway: Value): (r: Value)
    ensures r.Obj? && r.fields.Keys == Spread(gateway).Keys - {"apiSecret"}
    ensures forall k :: k in r.fields ==> r.fields[k] == Spread(gateway)[k]
  {
    Obj(Spread(gateway) - {"apiSecret"})
  }

  predicate Enabled(gateway: Value) {
    Truthy(Prop(gateway, "enabled"))
  }

  /** The enabled gateways without their secrets, in order; a missing
      gateway cannot be destructured. */
  function EnabledGateways(gateways: seq<Value>): (r: Result<seq<Value>>)
    ensures r.Ok? <==> forall i :: 0 <= i < |gateways| ==> !IsNullish(gateways[i])
    ensures r.Ok? ==> |r.value| <= |gateways|
    ensures r.Throw? ==> r.error == TypeErrorValue
  {
    if |gateways| == 0 then Ok([])
    else if IsNullish(gateways[0]) then Throw(TypeErrorValue)
    else
      var rest :- EnabledGateways(gateways[1..]);
      assert forall i :: 1 <= i < |gateways| ==> gateways[i] == gateways[1..][i - 1];
      Ok(if Enabled(gateways[0]) then [Public(gateways[0])] + rest else rest)
  }

  /** `(gateway || [])`: no gateways when the search gives a falsy `data`;
      a truthy non-array has no `filter`. */
  function GatewayList(gateways: Value): (r: Result<seq<Value>>)
    ensures !Truthy(gateways) ==> r == Ok([])
    ensures gateways.Arr? ==> r == EnabledGateways(gateways.items)
    ensures Truthy(gateways) && !gateways.Arr? ==> r == Throw(TypeErrorValue)
  {
    if !Truthy(gateways) then Ok([])
    else if gateways.Arr? then EnabledGateways(gateways.items)
    else Throw(TypeErrorValue)
  }

  /** The `all` callback over the stored WEBSITELOGO and CURRENCY
      configuration and the gateway search's `data`: `{config: [...]}` with
      the sample, the configuration entries and the payment entry. */
  function All(configurations: Value, gateways: Value): (r: Result<Value>)
    ensures r.Ok? <==>
      (forall i :: 0 <= i < |ConfigList(configurations)| ==> !IsNullish(ConfigList(configurations)[i]))
      && GatewayList(gateways).Ok?
    ensures r.Ok? ==> r.value.Obj? && r.value.fields.Keys == {"config"}
  {
    var entries :- Entries(ConfigList(configurations));
    var enabled :- GatewayList(gateways);
    var payment := Obj(map["package" := Str("payment"), "key" := Str("gateway"), "value" := Arr(enabled)]);
    Ok(Obj(map["config" := Arr([Sample] + entries + [payment])]))
  }

  /** The shape of `all`'s list: the sample first, one entry per
      configuration record in its place, and the payment entry last,
      holding every enabled gateway and only those, none with a secret. */
  lemma AllLayout(configurations: Value, gateways: Value)
    requires All(configurations, gateways).Ok?
    ensures var config := Prop(All(configurations, gateways).value, "config");
      var list := ConfigList(configurations);
      && config.Arr? && |config.items| == |list| + 2
      && config.items[0] == Sample
      && (forall i :: 0 <= i < |list| ==> config.items[i + 1] == Entry(list[i]))
      && Prop(config.items[|list| + 1], "package") == Str("payment")
      && Prop(config.items[|list| + 1], "value") == Arr(GatewayList(gateways).value)
  {
    var list := ConfigList(configurations);
    var entries := Entries(list).value;
    var enabled := GatewayList(gateways).value;
    var payment := Obj(map["package" := Str("payment"), "key" := Str("gateway"), "value" := Arr(enabled)]);
    var items := [Sample] + entries + [payment];
    assert All(configurations, gateways) == Ok(Obj(map["config" := Arr(items)]));
    assert |items| == |list| + 2 && items[0] == Sample && items[|list| + 1] == payment;
    forall i | 0 <= i < |list|
      ensures items[i + 1] == Entry(list[i])
    {
      assert items[i + 1] == entries[i];
    }
  }

  /** Which gateways the web client learns about: exactly the enabled ones,
      and never a secret. */
  lemma {:induction false} GatewaysShownIffEnabled(gateways: seq<Value>, g: Value)
    requires EnabledGateways(gateways).Ok?
    ensures g in EnabledGateways(gateways).value ==> g.Obj? && "apiSecret" !in g.fields
    ensures g in EnabledGateways(gateways).value <==>
      exists i :: 0 <= i < |gateways| && Enabled(gateways[i]) && g == Public(gateways[i])
    decreases |gateways|
  {
    if |gateways| > 0 {
      var tail := gateways[1..];
      GatewaysShownIffEnabled(tail, g);
      var shown := EnabledGateways(gateways).value;
      var rest := EnabledGateways(tail).value;
      assert shown == if Enabled(gateways[0]) then [Public(gateways[0])] + rest else rest;
      if exists i :: 0 <= i < |tail| && Enabled(tail[i]) && g == Public(tail[i]) {
        var i :| 0 <= i < |tail| && Enabled(tail[i]) && g == Public(tail[i]);
        assert gateways[i + 1] == tail[i];
      }
      if exists i :: 0 <= i < |gateways| && Enabled(gateways[i]) && g == Public(gateways[i]) {
        var i :| 0 <= i < |gateways| && Enabled(gateways[i]) && g == Public(gateways[i]);
        if i > 0 {
          assert tail[i - 1] == gateways[i];
        }
      }
    }
  }

  // ----- web -----

  /** `obj[element.key] = element.value` over the list, in order. */
  function KeyMap(items: seq<Value>): (m: Record)
    ensures forall i :: 0 <= i < |items| ==> ToStr(Prop(items[i], "key")) in m
    ensures forall k :: k in m ==> exists i :: 0 <= i < |items| && ToStr(Prop(items[i], "key")) == k
    decreases |items|
  {
    if |items| == 0 then map[]
    else
      var last := items[|items| - 1];
      var m := KeyMap(items[..|items| - 1]);
      assert forall i :: 0 <= i < |items| - 1 ==> items[..|items| - 1][i] == items[i];
      m[ToStr(Prop(last, "key")) := Prop(last, "value")]
  }

  /** convertConfigToObject: the key to value object of a list of
      configuration records; anything that makes the loop throw (no list to
      iterate, a missing record) is caught and answered with an empty
      array. */
  function ConvertConfigToObject(arr: Value): (r: Value)
    ensures !arr.Arr? ==> r == Arr([])
    ensures arr.Arr? ==> (r.Obj? <==> forall i :: 0 <= i < |arr.items| ==> !IsNullish(arr.items[i]))
    ensures r.Obj? ==> r.fields.Keys == set i | 0 <= i < |arr.items| :: ToStr(Prop(arr.items[i], "key"))
    ensures !r.Obj? ==> r == Arr([])
  {
    if arr.Arr? && forall i :: 0 <= i < |arr.items| ==> !IsNullish(arr.items[i]) then Obj(KeyMap(arr.items))
    else Arr([])
  }

  /** Duplicate keys: the last record with a key gives its value. */
  lemma {:induction false} LastWins(items: seq<Value>, i: int)
    requires 0 <= i < |items|
    requires forall j :: i < j < |items| ==> ToStr(Prop(items[j], "key")) != ToStr(Prop(items[i], "key"))
    ensures KeyMap(items)[ToStr(Prop(items[i], "key"))] == Prop(items[i], "value")
    decreases |items|
  {
    if i < |items| - 1 {
      var init := items[..|items| - 1];
      assert init[i] == items[i];
      forall j | i < j < |init| ensures ToStr(Prop(init[j], "key")) != ToStr(Prop(init[i], "key")) {
        assert init[j] == items[j];
      }
      LastWins(init, i);
    }
  }

  /** The UI configuration the `web` path reads is asked for by four ids,
      so the service's get answers an array of found records, every one of
      them truthy: converting it always gives the key to value object,
      never the fallback. */
  lemma FoundConfigsConvert(entries: map<string, Value>, order: seq<string>)
    requires forall i :: 0 <= i < |order| ==> order[i] in entries
    ensures ConvertConfigToObject(Arr(Operations.Collect(entries, order))).Obj?
  {
    var items := Operations.Collect(entries, order);
    forall i | 0 <= i < |items| ensures !IsNullish(items[i]) {
      assert items[i] in items;
    }
  }
}
